=== FILE: README.md ===
# dot_website in Dafny

A model of the core of **dot_website**, a VS Code extension that shows a headless Chromium page inside a webview panel, together with proofs about it. The extension host holds these pieces:
- the panel manager, the panels and the shared browser client;
- the debug-configuration provider;
- the settings reader;
- the `.website` document linter.

The page itself runs the in-page find engine and the selection-editing handlers. The webview client has:
- a request correlator;
- a find bar;
- a context menu;
- a helper over the Chrome DevTools Protocol.

A small installer fetches a local Chromium.

The model is functional:
- every component is a datatype state with pure transition functions;
- the outside world is a parameter: the DOM's rendering, the CDP session, the clipboard, the operating system and VS Code's APIs;
- calls the code makes on that outside world are returned as lists of effects.

## Modules

| file | module | models |
|---|---|---|
| wrappers.dfy | `Wrappers` | `Option` and `Result` |
| js_values.dfy | `JsValues` | dynamically typed JavaScript values, truthiness, `String(v)` and property reads that throw on `undefined`/`null` |
| strs.dfy | `Strs` | `String(n)`, `parseInt` without a radix, `trim`, `toLowerCase`, `indexOf`, `startsWith`, `split` |
| res.dfy | `Res` | `res` and `res_async` (src/res.ts) |
| dom.dfy | `Dom` | the page's document tree |
| highlight.dfy | `Highlight` | `updateHighlights` and both highlight-removal passes |
| scroll.dfy | `Scroll` | `scrollToHighlightedMatch`, as written and corrected |
| xpath.dfy | `XPath` | `getXPathForElement`, as written and corrected, with an evaluator of the paths it writes (section 2 of XPath 1.0) |
| selection.dfy | `Selection` | the context-menu listener, `removeSelection`, `pasteFromClipboard` and `selectAll` on text fields |
| browser_page.dfy | `BrowserPage` | the `send` dispatcher and the page's launch and `dispose` lists |
| connection.dfy | `Connection` | the webview's request/response correlator (client/connection.ts) |
| context_menu.dfy | `ContextMenu` | the viewport context menu: item list, enable/disable reducer, prop wiring, click handlers |
| search_bar.dfy | `SearchBar` | the find bar's state machine and its label |
| extension.dfy | `Extension` | the `.website` linter and its URL pattern (a parser proved equal to its grammar), and the one-line checks on open and save |
| config.dfy | `Config` | `getConfig`, `getConfigs`, `isDarkTheme` and `tryPort` |
| browser_client.dfy | `BrowserClient` | Chromium's command line, `getChromiumPath`, `launchBrowser`, `newPage` and `dispose` |
| debug_provider.dfy | `DebugProvider` | `provideDebugConfigurations`, `resolveDebugConfiguration`, the tracker and the termination handler |
| cdp_helper.dfy | `CdpHelper` | `resolveElementProperties`, `getCursorForNode` and `getNodeIdFromBackendId` |
| install_chromium.dfy | `InstallChromium` | `get_platform`, `exec_command` and `install_chromium` |
| panel.dfy | `Panel` | one panel: construction, message routing, launch, `navigateTo` and `dispose` |
| panel_manager.dfy | `PanelManager` | the manager's world: the set of panels, the current panel, the shared browser, and configuration objects shared by reference. It covers every event the extension reacts to, with an invariant proved for every reachable state |

Where the extension's documented behaviour and its code differ, the model follows the code:
- a blank find query is not short-circuited: it puts an empty marker before every visible text run, the next search keeps those markers and numbers its own from 0 again, so two markers can share an id (`Highlight.BlankQueryLeavesDuplicateId`);
- the correlator has no way to cancel every pending request;
- a panel's `dispose` is not idempotent: a second call disposes the webview again and emits "disposed" again;
- `getConfig` falls back to the default for every falsy stored value, `false` and `0` included.

`BrowserPage.Send` runs the scroll handler as written (`Scroll.SelectAsWritten`); the corrected order is modelled next to it, see "## Findings".

## Model

| member | source | states |
|---|---|---|
| Res.Res | src/res.ts:16-27 | a returning call gives `[value, undefined]`; a throwing call gives `[undefined, error]` and `res` itself never throws |
| Res.ResAsync | src/res.ts:2-13 | `res_async` captures a rejection exactly as `res` captures a throw |
| Res.ResRoundTrip | src/res.ts:16-27 | the pair identifies how the call ended, except when the thrown value is `undefined` |
| Res.ThrownUndefinedLooksReturned | src/res.ts:22-26 | throwing `undefined` and returning `undefined` yield the same pair |
| Res.CallersSeeOnlyTruthyErrors | src/res.ts:22-26 | a caller's `if (err)` sees a failure exactly when a truthy value was thrown |
| Connection.Send | client/connection.ts:20-51 | every send takes the next id; the host API is asked for until it is acquired, then kept; a message is posted iff the API is available; a post that throws a truthy error resolves the caller with it and registers nothing, otherwise the id is registered with its method |
| Connection.OnMessage | client/connection.ts:53-74 | a reply with a known truthy id removes exactly that entry and settles it (rejects iff `error` is truthy); a message without an id is emitted as an event under its `method`; nothing else changes |
| Connection.IdsCountSends | client/connection.ts:21 | each send takes the id after the last one, and that id is not already pending |
| Connection.SendRegistersUnlessPostFails | client/connection.ts:36-50 | the request is pending after `send` unless the post threw a truthy error |
| Connection.ReplySettles | client/connection.ts:57-67 | a reply for a pending id settles it with `result`, or rejects with `error` and the method name |
| Connection.SettlesAtMostOnce | client/connection.ts:59-62 | the same reply arriving twice settles its entry only once |
| Connection.EventsLeavePendingAlone | client/connection.ts:69-72 | an event message leaves every pending request as it was |
| Connection.Run | client/connection.ts:20-74 | any sequence of sends and messages keeps every pending id below the last id handed out, and the last id counts the sends |
| Connection.PendingBounded | client/connection.ts:48-50 | pending requests never outnumber the sends made since |
| Connection.PendingBoundedBySends | client/connection.ts:13-14 | from a fresh connection, pending requests never outnumber the sends |
| Strs.Magnitude | src/BrowserPage.ts:389 | after the sign, `parseInt` without a radix reads a hexadecimal number behind "0x" or "0X" and a decimal one otherwise, and gives NaN exactly when no digit of that radix follows |
| Strs.ParseIntHex | src/BrowserPage.ts:389 | "0x" or "0X" followed by hexadecimal digits reads as their base-16 value |
| Strs.ParseIntBareHexPrefix | src/BrowserPage.ts:389 | a hexadecimal prefix with no hexadecimal digit after it reads as NaN |
| Strs.NatToStringNotHex | src/BrowserPage.ts:389 | a number written by `String(n)` never starts with a hexadecimal prefix, unless a lone "0" is followed by an "x" |
| Strs.ParseIntOfNatToString | src/BrowserPage.ts:389 | reading back what `String(n)` wrote gives `n` |
| Dom.TextOfAppend | src/BrowserPage.ts:651-657 | the text of two adjacent lists of siblings is the text of the first followed by that of the second |
| Dom.FindById | src/BrowserPage.ts:715 | `getElementById` returns an element carrying the requested id, or nothing; the empty id finds nothing |
| Dom.FindByIdIn | src/BrowserPage.ts:720 | the search over a list of siblings returns an element carrying the requested id, or nothing; the empty id finds nothing |
| Highlight.RemoveHighlights | src/BrowserPage.ts:607-621 | the removal pass never changes the text of a node, and leaves text nodes as they are |
| Highlight.RemoveHighlightsIn | src/BrowserPage.ts:620 | siblings are replaced one for one (no text nodes merged) and their text is unchanged |
| Highlight.RemoveAllLeavesNoLiveMarker | src/BrowserPage.ts:560-585 | after `removeAllHighlights` no marker with non-empty text remains |
| Highlight.RemoveAllLeavesNoLiveMarkerIn | src/BrowserPage.ts:567-581 | the same for a list of siblings |
| Highlight.RemoveFixesClean | src/BrowserPage.ts:567-581 | a tree without live markers is left unchanged by either removal pass |
| Highlight.RemoveFixesCleanIn | src/BrowserPage.ts:580 | the same for a list of siblings |
| Highlight.RemoveAllIdempotent | src/BrowserPage.ts:560-585 | removing all highlights twice is the same as removing them once |
| Highlight.LowerSlice | src/BrowserPage.ts:659 | lower-casing commutes with slicing, so a position found in the lowered text is one in the original |
| Highlight.SplitAt | src/BrowserPage.ts:663-667 | the before, match and after slices spell out the run again, and the match equals the keyword up to case |
| Highlight.SplitRun | src/BrowserPage.ts:659-667 | no split exactly when the lowered keyword does not occur in the lowered run; otherwise the split is at the first occurrence and spells the run |
| Highlight.Fragment | src/BrowserPage.ts:671-688 | the replacement fragment spells out the run's text exactly |
| Highlight.TextRunLength | src/BrowserPage.ts:652-657 | the run gathered through `nextSibling` is the longest prefix of text nodes |
| Highlight.HighlightIn | src/BrowserPage.ts:645-701 | ordinals only grow along the siblings |
| Highlight.HighlightNode | src/BrowserPage.ts:699-701 | an element keeps its tag, id, classes and visibility; a bare text node is untouched |
| Highlight.HighlightInPreservesText | src/BrowserPage.ts:645-701 | highlighting never changes the text of the document |
| Highlight.RunTextSplit | src/BrowserPage.ts:690-698 | replacing a run by a fragment with the same text keeps the text of the sibling list |
| Highlight.HighlightNodePreservesText | src/BrowserPage.ts:699-701 | the same for an element and its subtree |
| Highlight.UpdateHighlights | src/BrowserPage.ts:587-711 | a search leaves the text of the body unchanged |
| Highlight.RemoveAllHighlights | src/BrowserPage.ts:560-585 | clearing keeps the text and leaves no marker with visible text |
| Highlight.MatchIds | src/BrowserPage.ts:681 | the ids handed out between two ordinals number their difference |
| Highlight.FragmentMarkerIds | src/BrowserPage.ts:679-684 | a fragment holds exactly one marker, with the id of its ordinal |
| Highlight.HighlightInMarkerIds | src/BrowserPage.ts:645-707 | on a document without markers, the pass creates exactly the markers numbered from the start ordinal up to the count it returns, in tree order |
| Highlight.HighlightNodeMarkerIds | src/BrowserPage.ts:699-707 | the same for an element: the count returned is the number of markers created |
| Highlight.EmptyKeywordMarksEveryRun | src/BrowserPage.ts:659-684 | a blank query puts an empty marker before a single visible non-empty text node, and the removal pass never removes such an empty marker |
| Highlight.RunsInTail | src/BrowserPage.ts:652-657 | dropping the first text node of a run does not add runs |
| Highlight.TextRunLengthTail | src/BrowserPage.ts:652-657 | the run starting one node later is one node shorter |
| Highlight.AtMostOneMarkerPerRun | src/BrowserPage.ts:645-701 | the pass creates at most one marker per maximal run of adjacent text nodes |
| Highlight.AtMostOneMarkerPerRunNode | src/BrowserPage.ts:699-701 | the same for an element |
| Highlight.SuffixHasNoMatch | src/BrowserPage.ts:659-662 | a run without a match has no match in any of its suffixes |
| Highlight.SplitRunEmpty | src/BrowserPage.ts:659-668 | the empty keyword is found at the start of every text, with nothing before it and the whole text after it |
| Highlight.OneRunMarked | src/BrowserPage.ts:645-698 | a single visible text node in which the keyword occurs becomes the fragment around its first occurrence, with one marker |
| Highlight.LiveRunsTail | src/BrowserPage.ts:647-649 | passing over an empty text node, or any text node under an invisible parent, leaves the count of live runs of the rest unchanged |
| Highlight.LiveRunsHead | src/BrowserPage.ts:647-657 | a run that starts with a non-empty text under a visible parent is one live run |
| Highlight.EmptyKeywordStartsRun | src/BrowserPage.ts:659-698 | with the empty keyword such a run becomes one marker, and the pass resumes after the whole run |
| Highlight.EmptyKeywordCount | src/BrowserPage.ts:645-702 | with the empty keyword, over any list of siblings, the pass creates exactly one marker per maximal text run that holds some text under a visible parent, counted over the whole tree |
| Highlight.EmptyKeywordCountNode | src/BrowserPage.ts:699-701 | the same for one node: its count is that of its children under its own visibility |
| Highlight.UpdateHighlightsMarkerIds | src/BrowserPage.ts:681-707 | when the removal pass leaves no highlight marker, the returned count is the number of markers in the page, and their ids are match-0 to match-(count - 1) in tree order |
| Highlight.RemoveKeepsMarkerFree | src/BrowserPage.ts:607-621 | the removal pass never creates a highlight marker |
| Highlight.RemoveKeepsMarkerFreeIn | src/BrowserPage.ts:607-621 | the same for a list of siblings |
| Highlight.FirstSearchMarkerIds | src/BrowserPage.ts:586-711 | the first search on a page without markers numbers its markers match-0 to match-(count - 1) |
| Highlight.BlankQueryLeavesDuplicateId | src/BrowserPage.ts:586-711 | a blank query and then a query found in the text leave two markers with the id match-0 while the count is 1: the empty marker survives and numbering restarts at 0 |
| Highlight.BlankQueryFirst | src/BrowserPage.ts:704-705 | the blank query on a body of one text node puts one empty marker before it |
| Highlight.BlankMarkerSurvives | src/BrowserPage.ts:607-621 | the removal pass keeps a body holding an empty marker and a text |
| Highlight.BlankMarkerThenRun | src/BrowserPage.ts:645-702 | the next pass leaves the empty marker as it is and marks the text |
| Highlight.BlankQuerySecond | src/BrowserPage.ts:704-707 | the second search ends with a count of 1 and two markers with the id match-0 |
| Scroll.SetClass | src/BrowserPage.ts:715-723 | adding or removing a class never changes the text of the page |
| Scroll.SetClassIn | src/BrowserPage.ts:715-723 | over a list of siblings, the same length and the same text |
| Scroll.SetClassMissing | src/BrowserPage.ts:716-721 | when no element carries the id, nothing changes |
| Scroll.SetClassInMissing | src/BrowserPage.ts:716-721 | the same for a list of siblings |
| Scroll.SetClassFound | src/BrowserPage.ts:715-723 | the element the id finds afterwards is the same one, with the class added or removed |
| Scroll.SetClassInFound | src/BrowserPage.ts:715-723 | the same for a list of siblings |
| Scroll.SetClassOther | src/BrowserPage.ts:715-723 | the classes reported for any other id are unchanged |
| Scroll.SetClassInOther | src/BrowserPage.ts:715-723 | the same for a list of siblings, including whether the other id is found |
| Scroll.SetClassKeepsFound | src/BrowserPage.ts:715-723 | toggling a class by one id leaves whether any other id is found as it was |
| Scroll.SetClassCommute | src/BrowserPage.ts:715-723 | class changes aimed at two different ids commute |
| Scroll.SetClassInCommute | src/BrowserPage.ts:715-723 | the same for a list of siblings |
| Scroll.SelectAsWritten | src/BrowserPage.ts:713-724 | selecting the current id and then deselecting the previous one keeps the text of the page |
| Scroll.ScrollAsWritten | src/BrowserPage.ts:713-724 | the handler as written keeps the text of the page |
| Scroll.AsWrittenAgreesWhenDistinct | src/BrowserPage.ts:713-724 | for distinct previous and current indexes the handler as written and the corrected one give the same page |
| Scroll.ScrollAsWrittenSameIndexDeselects | src/BrowserPage.ts:713-724 | with equal previous and current index the handler as written leaves the current match unselected |
| Scroll.ScrollAsWrittenExample | src/BrowserPage.ts:713-724 | on a body with one marker, a step from 0 to 0 leaves that marker without the selected class |
| Scroll.SelectById | src/BrowserPage.ts:713-724 | the corrected handler keeps the text of the page |
| Scroll.ScrollToMatch | src/BrowserPage.ts:713-724 | the corrected step keeps the text of the page |
| Scroll.ScrollSelectsCurrent | src/BrowserPage.ts:715-718 | after the corrected step the current match carries the selected class, whatever the previous index |
| Scroll.ScrollDeselectsPrevious | src/BrowserPage.ts:720-723 | a different previous match loses exactly the selected class |
| Scroll.ScrollKeepsOthers | src/BrowserPage.ts:713-724 | every other id keeps its classes |
| Scroll.ScrollWithoutMarkers | src/BrowserPage.ts:716-721 | indexes no marker carries change nothing |
| Scroll.MatchIdInjective | src/BrowserPage.ts:715-720 | distinct indexes name distinct marker ids |
| XPath.NodeAt | src/BrowserPage.ts:330-334 | a path leads to a node exactly when its last position is within its parent's children |
| XPath.PathOfIdIn | src/BrowserPage.ts:332 | the element `getElementById` finds lies at a path into the given siblings |
| XPath.SameNameBefore | src/BrowserPage.ts:327-329 | at most as many same-named earlier siblings as earlier siblings |
| XPath.SourceIdxCounts | src/BrowserPage.ts:327-329 | the walk started at the element counts the element itself on top of the base of 1 |
| XPath.AsWrittenIsOneTooMany | src/BrowserPage.ts:327-334 | the index written is one more than the XPath position of the element |
| XPath.SelectChild | src/BrowserPage.ts:326-336 | a step selects an element of the step's name with exactly `position - 1` same-named elements before it |
| XPath.EvalAddStep | src/BrowserPage.ts:334-335 | evaluating a path extended by one step selects among the children of what the shorter path selects |
| XPath.SelectChildFinds | src/BrowserPage.ts:334 | the position among same-named siblings selects the element back |
| XPath.SameNameBeforeGrows | src/BrowserPage.ts:327-329 | a later same-named sibling has strictly more same-named siblings before it |
| XPath.XPathRoundTrip | src/BrowserPage.ts:326-336 | the corrected location path of an element selects that element again |
| XPath.SegsRoundTrip | src/BrowserPage.ts:330-334 | the segments built with XPath positions evaluate back to the element's path |
| XPath.LowerCaseTagsParent | src/BrowserPage.ts:330-334 | the path to a node's parent keeps the lower-case names, and the node's own name is lower case |
| XPath.StepFinds | src/BrowserPage.ts:334-335 | a step naming an element by its position among same-named siblings, added to a path selecting the parent, selects the element |
| XPath.ParentIsElement | src/BrowserPage.ts:330-334 | a node below the top level hangs under an element |
| XPath.AsWrittenMissesOnlyElement | src/BrowserPage.ts:326-336 | on a page whose only element is `<html>` the code as written produces `/html[2]`, which selects nothing, while the corrected path selects the element |
| XPath.OnlyHtmlAsWritten | src/BrowserPage.ts:327-334 | the code as written gives the step `html[2]` for the only element |
| XPath.OnlyHtmlRender | src/BrowserPage.ts:335 | that path renders as `/html[2]` |
| XPath.OnlyHtmlSelectsNothing | src/BrowserPage.ts:326-336 | `/html[2]` selects nothing on that page |
| XPath.OnlyHtmlCorrected | src/BrowserPage.ts:326-336 | the corrected path selects the element |
| XPath.TextNodeHasNoPath | src/BrowserPage.ts:330-331 | a text node gives the empty expression under both index rules |
| Selection.FirstWith | src/BrowserPage.ts:372 | the element found is the first in document order carrying the attribute value; nothing found means no element carries it |
| Selection.Query | src/BrowserPage.ts:372 | the selector throws exactly when the uid is not a CSS identifier; otherwise it finds the first tagged element, or nothing exactly when no element is tagged |
| Selection.SliceIndex | src/BrowserPage.ts:398-433 | a `slice` bound never exceeds the length, and a bound inside the string is taken as it is |
| Selection.Slice | src/BrowserPage.ts:398-433 | a slice is never longer than the string |
| Selection.SliceFrom | src/BrowserPage.ts:398-433 | slicing from a bound is the suffix from that clamped bound |
| Selection.Caret | src/BrowserPage.ts:399-435 | a caret is clamped to the value's length and a representable in-range number is kept |
| Selection.OnContextMenu | src/BrowserPage.ts:263-297 | the right-clicked element alone changes: it is tagged, and the reported editable flag holds exactly for text fields and content-editable elements |
| Selection.Splice | src/BrowserPage.ts:419-438 | nothing is spliced exactly when either recorded bound is missing or empty; a TypeError is raised exactly when the text's `length` cannot be read, and any throw leaves everything but the value as it was |
| Selection.RemoveSelection | src/BrowserPage.ts:370-406 | the page keeps its length, and an invalid uid throws a syntax error before anything changes |
| Selection.PasteFromClipboard | src/BrowserPage.ts:408-462 | the page keeps its length, and an invalid uid throws a syntax error before anything changes |
| Selection.SelectAll | src/BrowserPage.ts:500-558 | the page keeps its length, and it throws exactly when a given uid is not a CSS identifier |
| Selection.SelectAllSelectsWholeValue | src/BrowserPage.ts:502-518 | on the first tagged element, a text field with a selection, the whole value becomes selected and the tag is gone |
| Selection.SliceIsPrefix | src/BrowserPage.ts:398-433 | slicing from 0 to an in-range bound is the prefix up to it |
| Selection.RecordedBounds | src/BrowserPage.ts:384-396 | the bounds written by the context-menu listener are read back as the numbers written |
| Selection.HexBoundRead | src/BrowserPage.ts:389 | a bound attribute written as "0x" and hexadecimal digits is read in base 16, and a bare "0x" reads as NaN, because `parseInt` is called without a radix |
| Selection.TaggedIsFound | src/BrowserPage.ts:268-269 | after the listener tags an element before which none is tagged, the selector finds it |
| Selection.SpliceRecorded | src/BrowserPage.ts:433-438 | splicing with recorded bounds replaces the selection by the text, puts the caret after it and drops both bound attributes |
| Selection.ContextMenuThenPaste | src/BrowserPage.ts:263-297 | with no tagged element before it, right-click then paste replaces the selection by the text, puts the caret after it, removes the three helper attributes and leaves every other element alone |
| Selection.ContextMenuThenPasteThrows | src/BrowserPage.ts:263-297 | pasting a text whose `length` throws still writes the spliced value, then raises a TypeError that keeps the selection and both recorded bounds, and leaves every other element alone |
| Selection.ContextMenuThenPasteNoLength | src/BrowserPage.ts:263-297 | pasting a text without a `length` writes the spliced value, puts the caret at 0 (NaN), removes the three helper attributes and leaves every other element alone |
| Selection.SpliceRecordedThrows | src/BrowserPage.ts:433-434 | with recorded bounds and an unreadable `length` the value is replaced and nothing else changes before the TypeError |
| Selection.SpliceRecordedNoLength | src/BrowserPage.ts:433-438 | with recorded bounds and a missing `length` the value is replaced, the caret goes to 0 and both bound attributes are dropped |
| Selection.ContextMenuThenRemove | src/BrowserPage.ts:370-406 | with no tagged element before it, right-click then cut removes the selection, puts the caret at its start, removes the helper attributes and leaves every other element alone |
| Selection.PasteIsOneShot | src/BrowserPage.ts:410-414 | the tag is removed first, so a second paste finds nothing and changes nothing |
| Selection.RemoveIsOneShot | src/BrowserPage.ts:372-376 | the same for removing the selection |
| Selection.PasteWithoutBounds | src/BrowserPage.ts:419-423 | the first tagged field, when it misses its bound attributes, only loses its tag |
| Selection.StaleTagCaptured | src/BrowserPage.ts:268-269 | a tag left by an earlier right-click is not removed by the next one: after right-clicks on element j and then on a later element i, the selector finds j, and a paste leaves i untouched and still tagged |
| BrowserPage.Classify | src/BrowserPage.ts:73-208 | an action without a case of its own is classified as forwarded under its own name |
| BrowserPage.LogIf | src/BrowserPage.ts:76-79 | a failed call is logged once and nothing is answered |
| BrowserPage.ReplyWith | src/BrowserPage.ts:115-126 | the result is emitted first; a listener that throws adds one log line and one error answer |
| BrowserPage.CallAndReply | src/BrowserPage.ts:150-167 | the call comes first, then at most one log line and at most two answers |
| BrowserPage.CallAndLog | src/BrowserPage.ts:74-80 | the call comes first, then at most one log line and no answer |
| BrowserPage.EditEffects | src/BrowserPage.ts:88-108 | a page edit logs at most once and never answers |
| BrowserPage.SendFind | src/BrowserPage.ts:109-127 | the find query logs at most once and answers at most twice |
| BrowserPage.SendScroll | src/BrowserPage.ts:128-141 | the scroll and close actions log at most once and never answer; a scroll runs the page function in the order written |
| BrowserPage.SendEdit | src/BrowserPage.ts:88-108 | edits log at most once and never answer |
| BrowserPage.LengthRead | src/BrowserPage.ts:433-435 | `text.length` throws exactly for `undefined` and `null`, is the length of a string or an array, and is missing for a number or a boolean |
| BrowserPage.EmptyUidEditsLog | src/BrowserPage.ts:88-100 | a Cut or Paste message naming the empty uid makes the selector throw; the error is logged under the action's name and the page is unchanged |
| BrowserPage.EmptyUidSelectAll | src/BrowserPage.ts:500-516 | a Select All message naming the empty uid uses the focused element, throws nothing, and selects the whole value of a focused text field |
| BrowserPage.PasteWithoutTextThrows | src/BrowserPage.ts:408-435 | a paste message without `text` writes "undefined" over the recorded selection, then throws at `text.length`: the error is logged under 'Page.pasteFromClipboard', the selection and both recorded bounds stay |
| BrowserPage.SendCall | src/BrowserPage.ts:142-209 | the clipboard, CDP and navigation actions log at most once and answer at most twice; an unhandled action starting with "extension" gives no effect at all |
| BrowserPage.Send | src/BrowserPage.ts:71-209 | an unhandled action starting with "extension" does nothing; only editing actions change the page; every call logs at most once and answers at most twice |
| BrowserPage.UnknownActionForwarded | src/BrowserPage.ts:189-208 | an unknown action is sent to the CDP session as it is; its result is answered under the callback id, and a failed call is dropped silently |
| BrowserPage.ClassifyFind | src/BrowserPage.ts:109 | the find query has its own case |
| BrowserPage.FindQueryAnswersCount | src/BrowserPage.ts:587-711 | the find query rewrites the page as the highlight pass does and answers with the number of markers created |
| BrowserPage.Dispose | src/BrowserPage.ts:48-69 | listeners are removed, then the session detached, then every exposed function removed in launch order, and the page closed last |
| BrowserPage.DisposeRemovesEveryExposed | src/BrowserPage.ts:48-69 | every function exposed at launch is exposed exactly once and removed by dispose before the page closes |
| BrowserPage.ScrollActionAsWritten | src/BrowserPage.ts:128-134 | the scroll action with previous and current index runs the page function as written on the page and has no other effect |
| BrowserPage.SingleMatchStepDeselects | src/BrowserPage.ts:128-134 | stepping from match 0 to match 0, as the find bar does with one match, leaves that match without the selected class |
| BrowserPage.DistinctStepSelectsCurrent | src/BrowserPage.ts:128-134 | for distinct indexes the current match gains the selected class and keeps its other classes |
| ContextMenu.CaptionInjective | client/components/viewport-contextmenu/viewport-contextmenu-models.ts:29-37 | distinct item kinds render distinct captions |
| ContextMenu.Kinds | client/components/viewport-contextmenu/viewport-contextmenu.tsx:27-63 | the kinds of a list of items, one per item, in order |
| ContextMenu.MenuOrder | client/components/viewport-contextmenu/viewport-contextmenu.tsx:27-63 | the menu is Cut, Copy, Paste, separator, Select All, Copy Link, Copy Domain URL, and every item starts without a status, which displays as enabled |
| ContextMenu.Construct | client/components/viewport-contextmenu/viewport-contextmenu.tsx:13-64 | the menu starts hidden at the origin with no uid and not editable, copying the text and href from its props |
| ContextMenu.FindIndex | client/components/viewport-contextmenu/viewport-contextmenu.tsx:143-148 | `findIndex` is -1 or the index of an item of the requested kind |
| ContextMenu.FindIndexMeans | client/components/viewport-contextmenu/viewport-contextmenu.tsx:143-148 | -1 exactly when no item has the kind; otherwise no earlier item has it |
| ContextMenu.FirstOfKindMeans | client/components/viewport-contextmenu/viewport-contextmenu.tsx:143-148 | an item is the first of its kind exactly when no earlier item shares its kind |
| ContextMenu.SetDisabled | client/components/viewport-contextmenu/viewport-contextmenu.tsx:162-204 | an assignment at a found index changes only that item's status; -1 changes nothing |
| ContextMenu.ManageMenuItemsStatus | client/components/viewport-contextmenu/viewport-contextmenu.tsx:139-244 | the reducer changes each item as its own rule says, keeping the list's length |
| ContextMenu.Chain | client/components/viewport-contextmenu/viewport-contextmenu.tsx:139-244 | the statements in source order keep the list's length |
| ContextMenu.ClipboardItems | client/components/viewport-contextmenu/viewport-contextmenu.tsx:139-206 | the three clipboard statements keep the list's length |
| ContextMenu.HitIff | client/components/viewport-contextmenu/viewport-contextmenu.tsx:146-148 | `findIndex` lands on an index exactly when that item is the first of the kind |
| ContextMenu.ClipboardItemsAt | client/components/viewport-contextmenu/viewport-contextmenu.tsx:139-206 | the clipboard statements set the status of the first Cut, Copy and Paste items and touch nothing else |
| ContextMenu.ChainAt | client/components/viewport-contextmenu/viewport-contextmenu.tsx:139-244 | only the assignment aimed at an index decides that item |
| ContextMenu.CutEnabledIff | client/components/viewport-contextmenu/viewport-contextmenu.tsx:158-181 | Cut gets a status, and is enabled exactly when text is selected in an editable element |
| ContextMenu.CopyEnabledIff | client/components/viewport-contextmenu/viewport-contextmenu.tsx:158-181 | Copy gets a status, and is enabled exactly when text is selected |
| ContextMenu.PasteEnabledIff | client/components/viewport-contextmenu/viewport-contextmenu.tsx:192-206 | Paste gets a status, and is enabled exactly when the handler exists and reading the clipboard gave a truthy value |
| ContextMenu.LinksEnabledIff | client/components/viewport-contextmenu/viewport-contextmenu.tsx:223-242 | with both link items present each is enabled exactly when href is non-empty; with either missing neither is touched |
| ContextMenu.ManageOnlyFlipsDisabled | client/components/viewport-contextmenu/viewport-contextmenu.tsx:139-244 | the reducer keeps kinds and order, and never touches Select All, the separator or a repeated kind |
| ContextMenu.MenuStatus | client/components/viewport-contextmenu/viewport-contextmenu.tsx:139-244 | on the constructor's menu every item but Select All and the separator gets its definite status |
| ContextMenu.MenuUntouched | client/components/viewport-contextmenu/viewport-contextmenu.tsx:43-52 | the separator and Select All keep no status |
| ContextMenu.MenuClipboardItems | client/components/viewport-contextmenu/viewport-contextmenu.tsx:158-206 | on the constructor's menu Cut, Copy and Paste get their statuses |
| ContextMenu.MenuLinkItems | client/components/viewport-contextmenu/viewport-contextmenu.tsx:223-242 | on the constructor's menu both link items are disabled exactly when href is empty |
| ContextMenu.MenuLinksFirst | client/components/viewport-contextmenu/viewport-contextmenu.tsx:53-62 | the constructor's menu holds both link items, each the first of its kind |
| ContextMenu.FindIndexSameKinds | client/components/viewport-contextmenu/viewport-contextmenu.tsx:140-148 | lists with the same kinds in the same order agree on `findIndex` |
| ContextMenu.ManageIdempotent | client/components/viewport-contextmenu/viewport-contextmenu.tsx:109-128 | running the reducer again with the same inputs changes nothing, so the repeated calls from one props update agree with a single call |
| ContextMenu.ManageKeepsFindIndex | client/components/viewport-contextmenu/viewport-contextmenu.tsx:139-244 | after the reducer `findIndex` finds every kind at the same place as before |
| ContextMenu.IdempotentAt | client/components/viewport-contextmenu/viewport-contextmenu.tsx:139-244 | the same, item by item |
| ContextMenu.ReceiveProps | client/components/viewport-contextmenu/viewport-contextmenu.tsx:100-129 | position and visibility follow the props; text and href are set back to the state's own values; with nothing differing the items are unchanged |
| ContextMenu.PropsNeverChangeText | client/components/viewport-contextmenu/viewport-contextmenu.tsx:109-121 | whatever props arrive later, the menu keeps the text, href and editable flag it was built with |
| ContextMenu.PropsCannotEnableCopy | client/components/viewport-contextmenu/viewport-contextmenu.tsx:109-113 | a menu built with empty text never enables Cut or Copy, whatever text later props carry |
| ContextMenu.EmptyTextDisablesCopy | client/components/viewport-contextmenu/viewport-contextmenu.tsx:173-181 | with no text selected Cut and Copy are disabled |
| ContextMenu.KindsStable | client/components/viewport-contextmenu/viewport-contextmenu.tsx:100-129 | props updates never change the kinds of the items |
| ContextMenu.DomainLink | client/components/viewport-contextmenu/viewport-contextmenu.tsx:346-359 | the domain link starts with the protocol, "//" and the hostname, and is empty when the URL does not parse |
| ContextMenu.Click | client/components/viewport-contextmenu/viewport-contextmenu.tsx:278-368 | a click without the handler does nothing; any click that calls out hides the menu; Cut and Copy write the selected text first |
| ContextMenu.CutWritesBeforeRemoving | client/components/viewport-contextmenu/viewport-contextmenu.tsx:278-292 | Cut writes the clipboard, then removes the selection of the held uid, then hides the menu |
| ContextMenu.CopyLinkExample | client/components/viewport-contextmenu/viewport-contextmenu.tsx:333-342 | Copy Link writes the href exactly |
| ContextMenu.PasteForwardsClipboard | client/components/viewport-contextmenu/viewport-contextmenu.tsx:305-318 | Paste reads the clipboard and forwards whatever it read, even a falsy value |
| ContextMenu.CopyDomainOnParseFailure | client/components/viewport-contextmenu/viewport-contextmenu.tsx:347-363 | a URL that fails to parse still writes the clipboard, with the empty string |
| ContextMenu.FirstColon | client/components/viewport-contextmenu/viewport-contextmenu.tsx:352 | the first colon of a string, or none exactly when it has no colon |
| ContextMenu.LastColon | client/components/viewport-contextmenu/viewport-contextmenu.tsx:355 | the last colon of a string, or none exactly when it has no colon |
| ContextMenu.SplitPortRoundTrip | client/components/viewport-contextmenu/viewport-contextmenu.tsx:355 | the host and the port written with a colon split back into the same two parts |
| ContextMenu.DomainLinkRoundTrip | client/components/viewport-contextmenu/viewport-contextmenu.tsx:349-355 | the written domain link parses back into the same protocol, hostname and port |
| ContextMenu.MenuEditsNameNoElement | client/components/viewport-contextmenu/viewport-contextmenu.tsx:278-330 | the uid stays the constructor's empty one whatever props arrive, so Cut, Paste and Select All send the empty uid; the page's selector throws a syntax error for Cut and Paste, which is logged with nothing changed, while Select All takes the empty uid as none and selects the whole value of the focused text field without an error |
| SearchBar.Init | client/components/search-bar/searchbar.tsx:69-79 | the bar starts with no text, no count, both indexes 0 and no focus |
| SearchBar.JsRem | client/components/search-bar/searchbar.tsx:190-207 | JavaScript's `%` on a non-negative dividend is at least 0 and below the absolute value of the divisor and agrees with the mathematical remainder for a positive divisor |
| SearchBar.Next | client/components/search-bar/searchbar.tsx:199-214 | no step without a positive count; otherwise previous becomes current and current stays within the count; text, count and focus are unchanged |
| SearchBar.Previous | client/components/search-bar/searchbar.tsx:182-197 | the same for stepping back |
| SearchBar.PreviousUndoesNext | client/components/search-bar/searchbar.tsx:182-214 | stepping forward then back returns to an in-range match |
| SearchBar.NextUndoesPrevious | client/components/search-bar/searchbar.tsx:182-214 | stepping back then forward returns to an in-range match |
| SearchBar.NextTimesAdvances | client/components/search-bar/searchbar.tsx:199-214 | k presses of Next advance the current index by k modulo the count |
| SearchBar.NextCycles | client/components/search-bar/searchbar.tsx:199-214 | pressing Next as many times as there are matches returns to the same match |
| SearchBar.Change | client/components/search-bar/searchbar.tsx:131-148 | a change stores the text, asks the page with the current index, keeps a reply only when it is positive, and does not reset the indexes |
| SearchBar.Close | client/components/search-bar/searchbar.tsx:216-223 | closing clears text, count and focus, keeps the indexes and asks the page to close the search |
| SearchBar.KeyDown | client/components/search-bar/searchbar.tsx:150-154 | Enter steps forward and any other key does nothing |
| SearchBar.StepValid | client/components/search-bar/searchbar.tsx:131-223 | every event keeps a stored count positive and both indexes non-negative |
| SearchBar.RunValid | client/components/search-bar/searchbar.tsx:69-223 | from the initial state every sequence of events keeps the count positive and the indexes non-negative |
| SearchBar.IndexSurvivesNewQuery | client/components/search-bar/searchbar.tsx:131-148 | a new query can leave the current index beyond the new count until the next step brings it back |
| SearchBar.Label | client/components/search-bar/searchbar.tsx:103-106 | "No matches" unless the count is positive, else the 1-based position followed by " / " |
| SearchBar.LabelReadsBack | client/components/search-bar/searchbar.tsx:103-106 | the label parses back into the 1-based position and the count |
| Extension.ParsePathSound | src/extension.ts:32 | an accepted path renders back to the text it was read from and contains no whitespace |
| Extension.ParseTailSound | src/extension.ts:32 | an accepted port-and-path tail renders back exactly and is valid: one to five digits, a path without whitespace |
| Extension.ParseHostSound | src/extension.ts:32 | an accepted host is valid (a label of letters, digits and hyphens, a dot, a top-level domain of two or more letters) and renders back exactly |
| Extension.ParseAfterSchemeSound | src/extension.ts:32 | what follows the scheme, when accepted, is an optional "www." and a valid host spelling it exactly |
| Extension.ParseSound | src/extension.ts:32 | every line the pattern accepts is a URL of the grammar, spelled exactly |
| Extension.ParsePathComplete | src/extension.ts:32 | every valid path is accepted and read back |
| Extension.ParseTailComplete | src/extension.ts:32 | every valid port and path is accepted and read back |
| Extension.ParsePortComplete | src/extension.ts:32 | a port of one to five digits followed by a path or the end is read back with that path |
| Extension.ParseHostComplete | src/extension.ts:32 | every valid host is accepted and read back |
| Extension.TldSpan | src/extension.ts:32 | the top-level domain is the whole run of letters before the tail |
| Extension.TailStartsOutsideLetters | src/extension.ts:32 | a non-empty tail starts with ":" or "/", which no label or domain contains |
| Extension.WwwLabelIsNotPrefix | src/extension.ts:32 | when "www." is the label itself, the rest cannot be read as a host |
| Extension.LabelIsWww | src/extension.ts:32 | a host written with a leading "www." has the label "www" |
| Extension.LabelBeforeDot | src/extension.ts:32 | the same, for a host record |
| Extension.ParseAfterSchemeComplete | src/extension.ts:32 | every optional "www." and host after the scheme is read back to the same parts |
| Extension.ParseScheme | src/extension.ts:32 | "http://" or "https://" is taken off before the rest is read |
| Extension.ParseComplete | src/extension.ts:32 | every URL of the grammar is accepted and parses back to the parts it was spelled from: the pattern is unambiguous |
| Extension.TwoDotsRejected | src/extension.ts:32 | a host with a second dot before any port or path is rejected |
| Extension.SubdomainRejected | src/extension.ts:32 | a subdomain other than "www" is rejected |
| Extension.PatternIsGrammar | src/extension.ts:32-33 | the pattern accepts a line exactly when it is spelled by valid parts |
| Extension.Lint | src/extension.ts:10-45 | the linter always either reports or clears, never leaves the diagnostics as they were |
| Extension.LintMultiLine | src/extension.ts:15-30 | a text containing a newline, a trailing one included, gets exactly the one-line diagnostic at (1,0)-(1,0) |
| Extension.LintSingleLine | src/extension.ts:32-44 | a single line is cleared when it matches the pattern and otherwise gets the invalid-URL diagnostic across the whole line |
| Extension.LintTestTwoLines | test/suite/linting.test.ts:27-43 | a second line is reported as in the test suite |
| Extension.LintTestInvalid | test/suite/linting.test.ts:45-61 | a line without a scheme is reported across its whole length, as in the test suite |
| Extension.RenderHasNoNewline | src/extension.ts:32 | a URL of the grammar has no line break |
| Extension.LintValidUrl | src/extension.ts:32-44 | every URL of the grammar clears the diagnostics |
| Extension.ExampleUrl | test/suite/linting.test.ts:63-78 | the URL of the test suite is spelled by valid parts: the label "example" and the domain "com" |
| Extension.LintTestValid | test/suite/linting.test.ts:63-78 | a valid URL clears the diagnostics, as in the test suite |
| Extension.OnDocumentEvent | src/extension.ts:71-82 | only documents of the dot-website language are linted; others are left alone |
| Extension.UrlToOpen | src/extension.ts:91-148 | a document opens a panel exactly when it has one line, on that line |
| Extension.SavedUrl | src/extension.ts:63-66 | a URL is taken from a saved file exactly when its path ends in ".website" |
| Extension.SavedUrlIsFirstLine | src/extension.ts:66 | the saved URL is the first line of the trimmed content: a newline-free prefix ending at the first newline, and all of it for a single line |
| Config.GetConfig | src/Config.ts:6-8 | the stored value when it is truthy, otherwise the default; a truthy default always gives a truthy result |
| Config.FalsyStoredIsIgnored | src/Config.ts:7 | a stored falsy value never overrides the default |
| Config.AsInt | src/Config.ts:52-59 | a setting of the declared number type is taken, anything else reads as the default |
| Config.AsStr | src/Config.ts:54-62 | the same for text settings |
| Config.AsBool | src/Config.ts:55-60 | the same for flags |
| Config.ChromeExecutable | src/Config.ts:56 | the executable is set exactly when a non-empty text is stored, and then it is that text |
| Config.GetConfigs | src/Config.ts:47-64 | the fixed fields are copied; quality, frame rate, format, start URL, debug host and port are never empty or zero; user data is always stored |
| Config.DefaultConfigs | src/Config.ts:47-64 | with nothing set every setting takes its default |
| Config.StoreUserDataCannotBeTurnedOff | src/Config.ts:60 | a stored `false` for storeUserData reads as the default `true` |
| Config.TruthyStringSettingWins | src/Config.ts:57 | a non-empty stored start URL is taken |
| Config.ThemeIsDark | src/Config.ts:10-23 | "dark" or "black" makes the theme dark; otherwise "light" makes it light; otherwise dark |
| Config.IsDarkTheme | src/Config.ts:10-11 | an unset theme counts as dark |
| Config.ContainsMeans | src/Config.ts:14-18 | a pattern search succeeds exactly when the word occurs somewhere |
| Config.LightIff | src/Config.ts:10-23 | the theme is light exactly when "light" occurs in the lower-cased name and neither "dark" nor "black" does |
| Config.ThemeIgnoresCase | src/Config.ts:11-18 | the classification ignores case |
| Config.DarkWordWins | src/Config.ts:14-15 | "dark" or "black" in any case anywhere makes the theme dark |
| Config.LightWordAlone | src/Config.ts:18-19 | "light" in any case makes the theme light unless "dark" or "black" occurs too |
| Config.FirstFreePortMeans | src/Config.ts:41-45 | the search returns the least free port at or above the start, and fails only when no port up to 65535 is free |
| Config.TryPort | src/Config.ts:41-45 | the loop returns the least free port at or above the start |
| Config.TryPortIsStable | src/Config.ts:41-45 | searching again from the port found finds the same port |
| BrowserClient.ChromeArgs | src/BrowserClient.ts:23-31 | the command line always starts with the debugging port, file access from files and any remote origin, in that order |
| BrowserClient.ChromeArgsLayout | src/BrowserClient.ts:35-51 | a proxy flag follows exactly when a proxy is set, the extra arguments follow as one argument exactly when set, and `--no-sandbox` comes last exactly on Linux |
| BrowserClient.PortReadsBack | src/BrowserClient.ts:27 | the debugging port can be parsed back from the first argument |
| BrowserClient.FirstUsableMeans | src/BrowserClient.ts:92-105 | the path found is that of the first launcher entry whose key starts with "launcher" and whose default command is an existing non-empty path; nothing is found exactly when no entry qualifies |
| BrowserClient.GetChromiumPath | src/BrowserClient.ts:92-105 | the scan returns the first usable path, which is non-empty and exists |
| BrowserClient.LaunchBrowser | src/BrowserClient.ts:22-66 | the configured port is replaced by the free port found from it; a failed search changes nothing; the browser is refused exactly when no non-empty executable is configured or found, an empty configured path falling back to the one found; a configured executable wins; a profile directory is used exactly when user data is stored |
| BrowserClient.LaunchUsesLeastFreePort | src/BrowserClient.ts:22-27 | the launch fails on the port exactly when the configured port is negative or no port from it up to 65535 is free; otherwise it uses the least free port at or above the configured one and passes it to the browser as its debugging port |
| BrowserClient.ProfileAlwaysStored | src/BrowserClient.ts:56-58 | a browser launched from the extension settings always keeps a profile |
| BrowserClient.NewPage | src/BrowserClient.ts:72-80 | a running browser is reused; an opened page leaves the client holding its browser; a failure leaves it without one |
| BrowserClient.SecondPageReusesBrowser | src/BrowserClient.ts:72-80 | after one page opened, the next one opens in the same browser whatever the environment |
| BrowserClient.Dispose | src/BrowserClient.ts:82-90 | the browser is forgotten, the configuration kept, and a close happens exactly when there was a browser |
| BrowserClient.DisposeTwice | src/BrowserClient.ts:82-90 | a second dispose closes nothing |
| DebugProvider.SetProp | src/DebugProvider.ts:62-70 | an assignment sets one field and leaves every other |
| DebugProvider.Provide | src/DebugProvider.ts:36-53 | two configurations of type "dot-website" are offered: an attach and a launch of http://localhost:3000 |
| DebugProvider.MarkOurs | src/DebugProvider.ts:62-63 | the configuration is given the underlying debug type and marked as ours; nothing else changes |
| DebugProvider.AsLaunch | src/DebugProvider.ts:65-70 | a launch becomes a named attach to the debugging port whose URL filter and launch URL are the configured URL; nothing else changes |
| DebugProvider.AsAttach | src/DebugProvider.ts:81-83 | an attach is named and given the debugging port; nothing else changes |
| DebugProvider.Resolve | src/DebugProvider.ts:54-99 | a missing configuration or one of another type is not ours; every other one ends up with the underlying type and the mark |
| DebugProvider.ResolveKeepsOtherFields | src/DebugProvider.ts:59-98 | fields outside the rewritten ones are kept |
| DebugProvider.ResolveLaunch | src/DebugProvider.ts:65-80 | a launch resolves exactly when the port is not null, otherwise fails with the launch message; it is an attach that remembers its URL |
| DebugProvider.ResolveAttach | src/DebugProvider.ts:81-93 | an attach resolves exactly when the port is not null, otherwise fails with the attach message |
| DebugProvider.ResolveOther | src/DebugProvider.ts:94-98 | any other request fails with the unsupported-configuration message |
| DebugProvider.ProvidedAttachResolves | src/DebugProvider.ts:36-93 | the offered attach resolves with a numeric port and opens and closes nothing |
| DebugProvider.ProvidedLaunchResolves | src/DebugProvider.ts:36-80 | the offered launch resolves, opens http://localhost:3000 and closes it again when it ends |
| DebugProvider.ResolvedIsNotOursAgain | src/DebugProvider.ts:59-63 | a resolved configuration is not taken by this provider a second time |
| DebugProvider.TrackerUrl | src/DebugProvider.ts:20-26 | the manager is asked to open a URL exactly when the session is marked ours and has a launch URL, and then that URL |
| DebugProvider.TerminationUrl | src/DebugProvider.ts:10-15 | panels are disposed exactly when a session named "Dot Website: Launch" with a URL filter ends, and then by that filter |
| DebugProvider.LaunchSessionClosesWhatItOpens | src/DebugProvider.ts:10-70 | a resolved launch session opens and later closes the same URL, its configured one |
| CdpHelper.Classify | client/utils/cdpHelper.ts:16-44 | an item without a truthy value description resolves to `null` |
| CdpHelper.ResolveList | client/utils/cdpHelper.ts:11-15 | iterating over anything but an array or a string throws; a resolved list has one entry per item; a string gives one entry per character, named "undefined" with a null value |
| CdpHelper.StringReplyPerCharacter | client/utils/cdpHelper.ts:11-24 | a string reply resolves, with one entry per character, each the entry that character would give as an item |
| CdpHelper.ResolveItems | client/utils/cdpHelper.ts:15-52 | a resolved list has one entry per item |
| CdpHelper.ResolveItemsInOrder | client/utils/cdpHelper.ts:15-51 | every item, expandable ones included, gives the entry at its own position, carrying its name, its enumerable, configurable and writable flags and the value it resolves to; the list resolves exactly when no item is `undefined` or `null` and every item's value resolves |
| CdpHelper.ResolveItem | client/utils/cdpHelper.ts:16-44 | a value that is not an object with an id resolves without a round trip; at the depth limit an expandable object reads "<max depth reached>" |
| CdpHelper.ResolveListHeight | client/utils/cdpHelper.ts:11-24 | below depth d, resolved objects nest at most maxDepth - d levels deep |
| CdpHelper.ResolveItemsHeight | client/utils/cdpHelper.ts:15-52 | the same bound for a run of items |
| CdpHelper.ResolveItemHeight | client/utils/cdpHelper.ts:20-29 | the same bound for one item, whose nested resolve runs one level deeper |
| CdpHelper.FlatItemsResolveInPlace | client/utils/cdpHelper.ts:15-51 | items needing no round trip each give an entry with their own name, flags and classified value |
| CdpHelper.AtLimitNothingFetched | client/utils/cdpHelper.ts:20-29 | at the depth limit the result does not depend on what the protocol would answer |
| CdpHelper.First | client/utils/cdpHelper.ts:95 | reading `[0]` throws exactly on `undefined` and `null` |
| CdpHelper.NodeIdFromBackendId | client/utils/cdpHelper.ts:86-96 | a missing reply gives `undefined`; otherwise the first node id of the reply |
| CdpHelper.FindNamed | client/utils/cdpHelper.ts:82 | a position found holds an entry with the name looked for |
| CdpHelper.FindNamedIsFirst | client/utils/cdpHelper.ts:82 | the position found is the first with that name, and nothing is found only when no entry has it |
| CdpHelper.FindNamedFinds | client/utils/cdpHelper.ts:82 | the first entry with the name is found |
| CdpHelper.FindNamedMisses | client/utils/cdpHelper.ts:82 | a list without the name gives nothing |
| CdpHelper.CursorForNode | client/utils/cdpHelper.ts:70-84 | a missing node description throws; without a node id and with no backend reply the answer is `undefined`; a missing style reply throws and a style reply without `computedStyle` answers `undefined` |
| CdpHelper.CursorViaBackend | client/utils/cdpHelper.ts:71-73 | without a node id, the first id of the backend lookup is used exactly as if the description had carried it |
| CdpHelper.CursorOfKnownNode | client/utils/cdpHelper.ts:70-84 | with a node id at hand the backend lookup is not consulted, and the cursor is the value of the first "cursor" entry of the computed style |
| CdpHelper.NoCursorThrows | client/utils/cdpHelper.ts:82-83 | a computed style without a "cursor" entry makes the lookup throw rather than answer `undefined` |
| InstallChromium.GetPlatform | install_chromium.ts:28-51 | exactly linux, darwin and win32 are supported; any other system fails with "Unsupported platform " and its name |
| InstallChromium.PlatformBelongsToOs | install_chromium.ts:37-50 | the platform chosen belongs to the operating system asked about |
| InstallChromium.ArchitectureChoice | install_chromium.ts:37-50 | "mac_arm" exactly for ARM Macs, "win64" exactly for x64 Windows, and Linux whatever the architecture |
| InstallChromium.LineEnd | install_chromium.ts:71 | the first line terminator at or after a position, or the end of the text |
| InstallChromium.FirstMatch | install_chromium.ts:71-73 | the leftmost position where the pattern matches, and none exactly when it matches nowhere |
| InstallChromium.FindPath | install_chromium.ts:71-78 | a path is found exactly when the pattern matches somewhere, and it is the trimmed capture of a match |
| InstallChromium.PrintedPathReadBack | install_chromium.ts:71-78 | an output whose first line names the version and a path gives that path back |
| InstallChromium.CarriageReturnLineMissed | install_chromium.ts:71 | a path line ending in a carriage return and line feed is not matched |
| InstallChromium.VersionDotsAreWildcards | install_chromium.ts:6-71 | the dots of the version match any character |
| InstallChromium.Interpret | install_chromium.ts:8-80 | a failure with error output gives that output; a failure without, or no output, gives the "No output" error; otherwise the path found or the "Could not find chromium path" error with the output |
| InstallChromium.Install | install_chromium.ts:53-81 | an unsupported system fails before any command runs; otherwise exactly the install command for its platform runs and its reply is interpreted |
| InstallChromium.InstallReadsPrintedPath | install_chromium.ts:53-81 | a successful install printing the path line first yields that path |
| Panel.NewPanel | src/Panel.ts:28-49 | a panel is a DevTools panel exactly when it has a parent; it is pinned to its document's first line; it starts without page, subscriptions or disposal |
| Panel.ReceiveMessage | src/Panel.ts:121-217 | a webview message changes at most the panel's title, url and state |
| Panel.AfterTitle | src/Panel.ts:153-217 | past the title case a message changes at most the url and state |
| Panel.AfterWindowOpen | src/Panel.ts:157-217 | past the window case a message changes at most the state, and the effects already made stay first, also when a file request without a string file name throws and ends the handler |
| Panel.AfterDialog | src/Panel.ts:193-213 | the state change and forwarding keep the earlier effects first and change at most the state |
| Panel.AnswerDialog | src/Panel.ts:170-190 | a prompt or confirmation is answered to the page exactly when there still is one, with one dialog reply |
| Panel.ForwardEffectsShape | src/Panel.ts:201-213 | with a page a message is sent on and re-emitted under its type, a state change only re-emitted; without a page nothing happens |
| Panel.TitleStopsRouting | src/Panel.ts:123-133 | a title update on a panel with a webview sets the title, "DevTools - " and the parent's title on a DevTools panel, and goes no further |
| Panel.MessagesReachThePage | src/Panel.ts:153-213 | any other well-formed message (a file request needs a string file name) ends by reaching the page when there is one |
| Panel.NoPageNothingForwarded | src/Panel.ts:153-213 | without a page nothing is sent on and only the window request and state change are emitted |
| Panel.WindowOpenAnnounced | src/Panel.ts:153-156 | a window request is announced first with its URL, which becomes the panel's URL |
| Panel.StateChangeStaysLocal | src/Panel.ts:193-205 | a state change is stored but never sent to the page |
| Panel.Launched | src/Panel.ts:51-222 | after launch the panel has a webview, the page it got and its subscriptions; a start URL is taken only when the panel has no URL yet |
| Panel.LaunchEffects | src/Panel.ts:224-241 | launch ends by posting the pinned URL when there is a document, then the configuration, then emitting "focus" |
| Panel.NavigateTo | src/Panel.ts:244-254 | the URL is recorded even without a webview, and the webview is told exactly when there is one |
| Panel.DisposeEach | src/Panel.ts:342-346 | one disposal per subscription, in the given order |
| Panel.DrainDisposables | src/Panel.ts:342-346 | popping the subscriptions disposes each once, the last registered first |
| Panel.Dispose | src/Panel.ts:333-349 | the panel is left disposed, without page, subscriptions or listeners; nothing else changes |
| Panel.DisposeOrder | src/Panel.ts:333-349 | the teardown runs webview, page, subscriptions last first, the "disposed" event, then the listeners go |
| Panel.DisposeAgain | src/Panel.ts:333-349 | a second dispose repeats the webview disposal and the "disposed" event and nothing else |
| Panel.OpenFileRouting | src/Panel.ts:351-356 | a file request throws exactly when its file name is missing or not a string, and then has no effect; otherwise it is handed to the editor, sent to the page and re-emitted |
| PanelManager.Init | src/PanelManager.ts:16-20 | the manager starts with no panels, no current panel and no browser, on the configuration read from the settings, and satisfies its invariant |
| PanelManager.Remove | src/PanelManager.ts:48 | deleting from the set keeps every other member and drops that one |
| PanelManager.RefreshSettings | src/PanelManager.ts:26-33 | the manager moves to a new configuration object equal to the one read except for the debugging port, which it takes from the previous one; existing objects are untouched |
| PanelManager.RefreshKeepsFoundPort | src/PanelManager.ts:26-33 | a port found by an earlier launch survives a refresh, while the other settings are read again |
| PanelManager.RefreshKeepsValid | src/PanelManager.ts:26-33 | refreshing keeps the manager's invariant |
| PanelManager.OnFocus | src/PanelManager.ts:61-64 | a focused top-level panel becomes current and sets the active key; a DevTools panel only sets its own key; a panel without handlers changes nothing |
| PanelManager.OnBlur | src/PanelManager.ts:66-71 | only the current panel can stop being current, and a listening top-level panel does so exactly when the active editor's document is not its own |
| PanelManager.BlurWithoutEditorKeepsCurrent | src/PanelManager.ts:67 | without an editor, a panel with no document stays current when it loses focus |
| PanelManager.FocusKeepsValid | src/PanelManager.ts:61-64 | focus keeps the invariant |
| PanelManager.BlurKeepsValid | src/PanelManager.ts:66-71 | blur keeps the invariant |
| PanelManager.AppConfiguration | src/Panel.ts:233-239 | the posted configuration carries the panel's start URL and port and the panel's own `isDebug` |
| PanelManager.AskPage | src/BrowserClient.ts:72-80 | a running browser gives the page at once; otherwise the browser is launched, writing the port into its own configuration object only; a page is had exactly when a browser runs |
| PanelManager.RecordStartUrl | src/Panel.ts:219-221 | a non-empty start URL is written into the panel's configuration object and no other |
| PanelManager.LaunchPanel | src/Panel.ts:51-242 | the launched panel gets a webview, a page when the browser runs, its two subscriptions, and its start URL into its configuration object; a top-level panel becomes current; the set is unchanged |
| PanelManager.LaunchPosts | src/Panel.ts:224-241 | launch ends by posting the panel's configuration, with its start URL and `isDebug`, then emitting "focus" |
| PanelManager.ChooseUrl | src/PanelManager.ts:35-75 | an omitted URL takes the default, `null` throws at `toString()`, a string is used as it is |
| PanelManager.AddPanel | src/PanelManager.ts:36-73 | a fresh top-level panel on the new configuration object joins the end of the set; a browser client is created only when there is none |
| PanelManager.LaunchUrl | src/PanelManager.ts:35-75 | an omitted URL is the manager's start URL; a string is itself |
| PanelManager.CreateClient | src/PanelManager.ts:35-84 | the new panel joins the end of the set; unless its URL is `null` it is launched with a webview and becomes current; with `null` it stays unlaunched and the current panel is unchanged |
| PanelManager.CreateClientKeepsValid | src/PanelManager.ts:35-84 | creating a client keeps the invariant |
| PanelManager.AddPanelKeepsValid | src/PanelManager.ts:36-73 | adding a panel keeps the invariant |
| PanelManager.AddPanelKeepsSet | src/PanelManager.ts:48-73 | adding a panel keeps the set part of the invariant |
| PanelManager.AddPanelKeepsPanels | src/PanelManager.ts:41 | adding a panel keeps the panel part of the invariant |
| PanelManager.LaunchKeepsValid | src/Panel.ts:51-242 | launching a listening panel keeps the invariant |
| PanelManager.LaunchKeepsSet | src/Panel.ts:51-242 | launching keeps the set part |
| PanelManager.LaunchKeepsPanels | src/Panel.ts:51-242 | launching keeps the panel part |
| PanelManager.ManagerOnDisposed | src/PanelManager.ts:43-55 | the disposed panel leaves the set, stops being current if it was, and the browser is dropped exactly when the set becomes empty |
| PanelManager.ParentOnChildDisposed | src/Panel.ts:270-273 | the parent forgets its DevTools panel and the DevTools key is cleared; nothing else changes |
| PanelManager.DisposeLeaf | src/Panel.ts:333-349 | a panel without DevTools listeners is torn down; the others lose at most a DevTools link |
| PanelManager.DisposeChildren | src/Panel.ts:333-349 | the DevTools panels listed are torn down; the others lose at most a DevTools link |
| PanelManager.DisposeSelf | src/Panel.ts:333-349 | a panel's teardown runs the manager's handler exactly when it is a listening top-level panel |
| PanelManager.DisposePanel | src/Panel.ts:333-349 | disposing keeps every panel, configuration object and counter |
| PanelManager.DisposeRemovesFromSet | src/PanelManager.ts:43-55 | a disposed panel leaves the set; the browser is dropped exactly when the set empties; only that panel stops being current |
| PanelManager.DisposeCascades | src/Panel.ts:333-349 | a panel's DevTools panels are disposed with it and no other panel changes beyond a DevTools link |
| PanelManager.DisposeKeepsValid | src/Panel.ts:333-349 | disposing keeps the invariant |
| PanelManager.DisposeKeepsRefs | src/Panel.ts:333-349 | disposing changes no panel's configuration object or parent and undoes no disposal |
| PanelManager.DisposeMatching | src/PanelManager.ts:102-107 | disposing by start URL keeps the invariant, the configuration objects and every panel |
| PanelManager.DisposeByUrl | src/PanelManager.ts:102-107 | the same for the whole set |
| PanelManager.DisposeStep | src/PanelManager.ts:103-106 | one disposal keeps the invariant, removes that panel from the set, and leaves every panel's match against every URL unchanged |
| PanelManager.DisposeMatchingLeaves | src/PanelManager.ts:102-107 | after the loop the set holds exactly the panels not visited or not matching |
| PanelManager.DisposeMatchingDisposes | src/PanelManager.ts:102-107 | every matching panel visited while in the set is disposed, and none is revived |
| PanelManager.DisposeByUrlExact | src/PanelManager.ts:102-107 | exactly the panels whose configuration object has that start URL leave the set, and each is disposed |
| PanelManager.CreateClientSharesBrowser | src/PanelManager.ts:36-41 | an existing browser client is reused; a new one shares the manager's new configuration object with the new panel; existing panels are untouched |
| PanelManager.CreateClientRemembersUrl | src/PanelManager.ts:35-41 | a given URL becomes the panel's URL and the manager's start URL, so the next window without a URL opens it too |
| PanelManager.CreateClientDefaultUrl | src/PanelManager.ts:35-36 | without a URL the panel opens the manager's start URL read before the refresh |
| PanelManager.CreateFile | src/PanelManager.ts:86-100 | an empty path does nothing; otherwise a new current panel joins the set |
| PanelManager.AddWatcher | src/PanelManager.ts:91-97 | the watcher's subscription joins the panel's disposables and nothing else changes |
| PanelManager.AddWatcherKeepsValid | src/PanelManager.ts:91-97 | adding a watcher keeps the invariant |
| PanelManager.CreateFileOpensFile | src/PanelManager.ts:86-100 | the file panel opens the `file://` URL of the path and carries a watcher exactly when auto-reload is set |
| PanelManager.OnWindowOpenRequested | src/PanelManager.ts:21-59 | a window request adds a panel and leaves the others as they were; a non-empty URL becomes current and is opened |
| PanelManager.RequestedUrlOpened | src/PanelManager.ts:21-23 | a non-empty requested URL is opened in the new current panel |
| PanelManager.DevToolsUrl | src/Panel.ts:274-276 | the DevTools address is served from the configured host and port and ends with the page id and `&experiments=true` |
| PanelManager.DevToolsUrlNamesPage | src/Panel.ts:274-276 | different pages get different DevTools addresses |
| PanelManager.AddDebugPanel | src/Panel.ts:262-273 | the DevTools panel shares its parent's configuration object, and the parent records it and will dispose it; nothing else changes |
| PanelManager.CreateDebugPanel | src/Panel.ts:256-279 | nothing for a DevTools panel; the existing DevTools panel when there is one; otherwise a new one, launched only when the parent has a page |
| PanelManager.AddDebugPanelKeepsValid | src/Panel.ts:262-273 | adding a DevTools panel to a top-level panel keeps the invariant |
| PanelManager.AddDebugPanelKeepsSet | src/Panel.ts:262-273 | the set part is kept |
| PanelManager.AddDebugPanelKeepsPanels | src/Panel.ts:262-273 | the panel part is kept |
| PanelManager.AddDebugPanelKeepsParents | src/Panel.ts:262 | every DevTools panel hangs off a top-level panel and has no DevTools listeners |
| PanelManager.AddDebugPanelKeepsLinks | src/Panel.ts:38-40 | every DevTools listener points back to its parent |
| PanelManager.CreateDebugPanelKeepsValid | src/Panel.ts:256-279 | opening DevTools keeps the invariant |
| PanelManager.DevToolsTakesParentUrl | src/Panel.ts:219-276 | the DevTools launch writes its address into the configuration object it shares with its parent, so the parent then matches no other start URL |
| PanelManager.OnMessage | src/Panel.ts:121-217 | a disposed panel or one without subscriptions hears nothing; a message adds at most one panel and keeps the invariant |
| PanelManager.MessageKeepsValid | src/Panel.ts:121-217 | a panel's title, url and state may change without breaking the invariant |
| PanelManager.WindowOpenOpensUrl | src/Panel.ts:153-156 | a window request from a top-level panel opens a new current panel on the URL and records it as the asking panel's URL |
| PanelManager.DevToolsWindowOpenIgnored | src/PanelManager.ts:57-59 | a DevTools panel's window request is heard by no one |
| PanelManager.OnSaved | src/extension.ts:63-67 | a saved URL makes the current panel navigate to it; without a current panel or URL nothing changes |
| PanelManager.OnDebugStarted | src/DebugProvider.ts:17-28 | a session with a launch URL opens a client on it; otherwise nothing changes |
| PanelManager.OnDebugTerminated | src/DebugProvider.ts:10-15 | a launch session's end disposes by its URL filter; otherwise nothing changes |
| PanelManager.Opened | src/extension.ts:84-90 | the open command adds a panel and keeps the invariant |
| PanelManager.OnOpenDocument | src/extension.ts:91-148 | a document of one line opens a panel; any other opens nothing |
| PanelManager.ViewStateChanged | src/Panel.ts:116-120 | an active webview sends "focus" and an inactive one "blur" |
| PanelManager.Closed | src/Panel.ts:115 | closing a live panel's webview disposes it and removes it from the set; anything else changes nothing |
| PanelManager.OpenedExternally | src/extension.ts:119-121 | the current panel with a URL leaves the set; otherwise nothing changes |
| PanelManager.DevToolsOpened | src/extension.ts:122-125 | DevTools open for the current panel, if any |
| PanelManager.Received | src/Panel.ts:121-217 | a message keeps the invariant |
| PanelManager.Step | src/extension.ts:47-153 | every event keeps the manager's invariant |
| PanelManager.DebugLaunchRoundTrip | src/DebugProvider.ts:10-70 | a launch session opens a panel on its URL when it starts and that panel is disposed and leaves the set when it ends |
| PanelManager.Run | src/extension.ts:47-153 | a run of events keeps the invariant |
| PanelManager.ReachableIsValid | src/PanelManager.ts:10-108 | every state the extension can reach from its start satisfies the manager's invariant |

## Left out

- Rendering and geometry: `isVisible` (bounding boxes and computed styles), `scrollIntoView` and the injected style tags are not modelled. Visibility is one abstract flag per element, and a marker the model creates takes its parent's flag.
- The contentEditable paths of the selection handlers are not modelled, because they use DOM `Range`/`Selection` objects and `document.evaluate`. Only the XPath strings those paths record are modelled.
- The Puppeteer/CDP transport is not modelled: `page.evaluate`, `exposeFunction`, `evaluateOnNewDocument`, and the forwarding of CDP events to the webview. Each call is an effect, and its outcome is a parameter.
- The page events a panel relays to its webview (src/Panel.ts:59-86) are plain reposts without logic of their own, so they are not modelled.
- The clipboard is a parameter. Its asynchronous reads are taken as already resolved.
- React is not modelled:
  - state updates are applied at once, without batching, so the scroll request that reads stale state is left out;
  - the rendering of the menu items is left out;
  - the viewport's sizing and zoom use floating point and are left out.
- VS Code's APIs are effects or parameters:
  - webview posting, commands, context keys and notifications, including `showErrorMessage`;
  - the diagnostics collection is a sink whose last write is the result;
  - the walkthrough;
  - the custom-editor registration;
  - `showTextDocument`;
  - `setViewport`, `reload`, `goBackward` and `goForward`, which are single sends with no logic.
- `handleOpenFileRequest` is recorded as an `OpenFile` effect. Its workspace search is I/O.
- The zoom commands of src/extension.ts use floating-point increments and are not modelled.
- I/O is a parameter or an oracle:
  - the socket test behind `tryPort`;
  - `child_process.exec`;
  - `fs.existsSync`;
  - `puppeteer.launch`;
  - the `path.join` of the Chromium install directory;
  - console logging.
- Asynchrony is not modelled. Each handler runs to completion and `createClient` is atomic. Interleaved replies, racing find queries and the timing of `Promise.allSettled` in `dispose` are not modelled.
- The events `windowCreated`, `windowDisposed` and `stateChanged` have no listeners in the extension. They are recorded but reach no one.
- The `ctx.subscriptions` entries pushed by `createClient` only run at deactivation, which is not modelled.
- The panel's favicon (`iconPath`) is a rendering detail and is not modelled.
- Numbers are integers: NaN, fractions and their renderings by `String(v)` are not modelled.
- `Strs.Lower` lower-cases ASCII letters only. `toLowerCase` changes length on some non-ASCII letters, which is not modelled.
- `Strs.Trim` uses ECMAScript's whitespace set. String lengths count characters, not UTF-16 code units.
- A line count splits on "\n" only. VS Code's `lineCount` also breaks at "\r", which the model does not.
- Settings of the wrong type read as their default (`Config.AsInt`, `Config.AsStr`, `Config.AsBool`). The source passes them on untyped.
- `Config.TryPort`: whether a port is free is an oracle. A port above 65535 makes the search fail, where Node throws `ERR_SOCKET_BAD_PORT`.
- `BrowserClient.LaunchBrowser`: `otherArgs` is one string pushed as one argument, as the source does. A launch that throws is not modelled as an effect.
- `DebugProvider.Resolve`: the underlying debug type is a parameter, because `getUnderlyingDebugType` is not part of this model.
- `DebugProvider.TerminationUrl`: the session name is taken to be its configuration's name.
- `PanelManager.OnDebugTerminated`: a URL filter that is not a string equals no start URL, so it disposes nothing.
- `PanelManager.CreateClient`: a `Uri` start URL is modelled by its string form.
- `SearchBar.Change`: the page's reply is modelled as an optional natural number. Replies of other types are not modelled.
- `CdpHelper.ResolveElementProperties`: `getProperties` is an oracle returning the reply's `result`, and a reply without `data` is not modelled. Its contract is carried by `CdpHelper.ResolveList`.
- `CdpHelper.ResolveList`: `passedDepth | 0` is taken as the identity, which holds for every depth the recursion reaches. `Object.defineProperty` is taken to record every item in order, so the exception for redefining a non-configurable duplicate name is not modelled.
- `Dom.Node` has text and element nodes only. A comment node in the page would neither split a text run in `Highlight` nor count as a sibling in the `XPath` walk, and this is not modelled.
- `BrowserPage.LengthRead`: an object's `length` that is a string, an array or an object is read as NaN. JavaScript would instead concatenate or convert it when it adds it to `selectionStart`.
- `PanelManager.OnMessage`: only the first effect of a message is dispatched, which is the "windowOpenRequested" that an "extension.windowOpenRequested" message emits. The catch-all at src/Panel.ts:208 re-emits every other message under its own type. A message typed exactly "disposed", "focus", "blur" or "windowOpenRequested" would reach the manager's handlers, and the DevTools panels' handlers for "disposed". Modelling a "disposed" that does not dispose would need the one-shot handlers tracked apart from the persistent ones. The webview's `Connection.send` posts only "extension.*" names and CDP method names (client/connection.ts:37-41), so those bare event names do not arise from it.
- `PanelManager.ViewStateChanged` and `PanelManager.Closed` accept an event for a panel that was never launched, whose webview listeners were never registered. Such an event cannot arise, so this only over-approximates.
- `CdpHelper.CursorForNode`: the `DOM.getDocument` call before the backend lookup is ignored.
- `InstallChromium.Install`: the install directory is the parameter `localPath`.

## Findings

| source | as written | input that shows it | evidently intended | confidence | as-written member | corrected member |
|---|---|---|---|---|---|---|
| src/BrowserPage.ts:326-336 | the index of a step is the number of same-named earlier siblings plus 2 | a page whose only element is `<html>`: the path is `/html[2]`, which selects nothing | the XPath position, same-named earlier siblings plus 1, so the path selects the element back (section 2.4 of XPath 1.0) | not executed | XPath.XPathAsWritten, shown by XPath.AsWrittenMissesOnlyElement | XPath.XPathFor, proved by XPath.XPathRoundTrip |
| src/BrowserPage.ts:713-724 | the current match gains "selected" and then the previous match loses it | previous index equal to the current index, e.g. a single match stepped from 0 to 0: the match ends unselected | the previous match is deselected first, so the current match is always selected | not executed | Scroll.ScrollAsWritten, shown by Scroll.ScrollAsWrittenSameIndexDeselects | Scroll.ScrollToMatch, proved by Scroll.ScrollSelectsCurrent |

`XPath.XPathFor` is the corrected path used by the round-trip proofs. `BrowserPage.Send` keeps the scroll handler in the order the page function is written, so `BrowserPage.SingleMatchStepDeselects` shows the discrepancy at the level of the action. The corrected `Scroll.ScrollToMatch` deselects before it selects. `Scroll.AsWrittenAgreesWhenDistinct` proves that the two orders give the same page whenever the indexes differ.

=== FILE: browser_client.dfy ===
/** The shared headless browser: the Chromium command line, the choice of
    executable, and the lazy launch and disposal of the browser process.
    The port search, the file-system test and the launch itself are
    parameters. */
module BrowserClient {
  import opened Wrappers
  import opened JsValues
  import opened Strs
  import Config

  // ---------------------------------------------------------------------
  // Command line
  // ---------------------------------------------------------------------

  const PortFlag := "--remote-debugging-port="
  const FileAccessFlag := "--allow-file-access-from-files"
  const OriginsFlag := "--remote-allow-origins=*"
  const ProxyFlag := "--proxy-server="
  const NoSandboxFlag := "--no-sandbox"
  const NoChromeMessage := "No Chrome installation found, or no Chrome executable set in the settings"

  function Flag(cond: bool, arg: string): seq<string> {
    if cond then [arg] else []
  }

  /** The arguments given to Chromium, in the order they are pushed. */
  function ChromeArgs(port: nat, proxy: string, otherArgs: string, linux: bool): (args: seq<string>)
    ensures |args| >= 3
    ensures args[0] == PortFlag + NatToString(port)
    ensures args[1] == FileAccessFlag && args[2] == OriginsFlag
  {
    [PortFlag + NatToString(port), FileAccessFlag, OriginsFlag]
      + Flag(proxy != "", ProxyFlag + proxy)
      + Flag(otherArgs != "", otherArgs)
      + Flag(linux, NoSandboxFlag)
  }

  function B2N(b: bool): nat {
    if b then 1 else 0
  }

  /** Which optional arguments are present, and where. */
  lemma ChromeArgsLayout(port: nat, proxy: string, otherArgs: string, linux: bool)
    ensures var args := ChromeArgs(port, proxy, otherArgs, linux);
      && |args| == 3 + B2N(proxy != "") + B2N(otherArgs != "") + B2N(linux)
      && (proxy != "" ==> args[3] == ProxyFlag + proxy)
      && (otherArgs != "" ==> args[3 + B2N(proxy != "")] == otherArgs)
      && (linux ==> args[|args| - 1] == NoSandboxFlag)
      && (!linux ==> (NoSandboxFlag in args <==> otherArgs == NoSandboxFlag))
  {
    var args := ChromeArgs(port, proxy, otherArgs, linux);
    if proxy != "" {
      assert |ProxyFlag + proxy| > |NoSandboxFlag|;
    }
  }

  /** The debugging port can be read back from the first argument. */
  lemma PortReadsBack(port: nat, proxy: string, otherArgs: string, linux: bool)
    ensures var a := ChromeArgs(port, proxy, otherArgs, linux)[0];
      StartsWith(a, PortFlag) && ParseInt(a[|PortFlag|..]) == Some(port)
  {
    var a := PortFlag + NatToString(port);
    assert a[..|PortFlag|] == PortFlag;
    assert a[|PortFlag|..] == NatToString(port);
    ParseIntOfNatToString(port);
  }

  // ---------------------------------------------------------------------
  // getChromiumPath
  // ---------------------------------------------------------------------

  /** An entry of the known launcher tables, with the value found at
      `info[1].prototype.DEFAULT_CMD[platform]` (`undefined` when any step
      is missing). */
  datatype Launcher = Launcher(key: string, defaultCmd: Value)

  predicate Usable(l: Launcher, fileExists: string -> bool) {
    StartsWith(l.key, "launcher") && l.defaultCmd.Str? && l.defaultCmd.s != "" && fileExists(l.defaultCmd.s)
  }

  /** Reference definition: the path of the first usable entry. */
  function FirstUsable(launchers: seq<Launcher>, fileExists: string -> bool): Option<string> {
    if launchers == [] then None
    else if Usable(launchers[0], fileExists) then Some(launchers[0].defaultCmd.s)
    else FirstUsable(launchers[1..], fileExists)
  }

  lemma {:induction false} FirstUsableMeans(launchers: seq<Launcher>, fileExists: string -> bool)
    ensures var r := FirstUsable(launchers, fileExists);
      && (r.None? <==> forall i :: 0 <= i < |launchers| ==> !Usable(launchers[i], fileExists))
      && (r.Some? ==>
            exists i :: 0 <= i < |launchers| && Usable(launchers[i], fileExists)
              && r.value == launchers[i].defaultCmd.s
              && forall j :: 0 <= j < i ==> !Usable(launchers[j], fileExists))
  {
    if launchers != [] {
      FirstUsableMeans(launchers[1..], fileExists);
      if !Usable(launchers[0], fileExists) && FirstUsable(launchers, fileExists).Some? {
        var i :| 0 <= i < |launchers| - 1 && Usable(launchers[1..][i], fileExists)
          && FirstUsable(launchers, fileExists).value == launchers[1..][i].defaultCmd.s
          && forall j :: 0 <= j < i ==> !Usable(launchers[1..][j], fileExists);
        assert Usable(launchers[i + 1], fileExists);
        assert forall j :: 0 <= j < i + 1 ==> !Usable(launchers[j], fileExists) by {
          forall j | 0 <= j < i + 1 ensures !Usable(launchers[j], fileExists) {
            if j > 0 {
              assert launchers[j] == launchers[1..][j - 1];
            }
          }
        }
      }
      if FirstUsable(launchers, fileExists).None? {
        forall i | 0 <= i < |launchers| ensures !Usable(launchers[i], fileExists) {
          if i > 0 {
            assert launchers[i] == launchers[1..][i - 1];
          }
        }
      }
    }
  }

  /** `getChromiumPath()`: the entries are scanned in order and the first
      usable path is returned. */
  method GetChromiumPath(launchers: seq<Launcher>, fileExists: string -> bool) returns (r: Option<string>)
    ensures r == FirstUsable(launchers, fileExists)
    ensures r.Some? ==> r.value != "" && fileExists(r.value)
  {
    var i := 0;
    while i < |launchers|
      invariant 0 <= i <= |launchers|
      invariant FirstUsable(launchers[i..], fileExists) == FirstUsable(launchers, fileExists)
    {
      var l := launchers[i];
      assert launchers[i..][1..] == launchers[i + 1..];
      if !StartsWith(l.key, "launcher") {
        i := i + 1;
        continue;
      }
      if l.defaultCmd.Str? && l.defaultCmd.s != "" && fileExists(l.defaultCmd.s) {
        return Some(l.defaultCmd.s);
      }
      i := i + 1;
    }
    return None;
  }

  // ---------------------------------------------------------------------
  // launchBrowser, newPage, dispose
  // ---------------------------------------------------------------------

  /** What the browser is launched with; `--mute-audio` is always removed
      from the default arguments. */
  datatype LaunchOptions = LaunchOptions(
    executablePath: string,
    args: seq<string>,
    ignoreHttpsErrors: Option<bool>,
    userDataDir: Option<string>)

  /** The environment of one launch: which ports are free (what
      `isPortFree` would answer), the executable found by `getChromiumPath`,
      the platform name, the global storage directory and the
      `ignoreHttpsErrors` setting. */
  datatype Host = Host(
    free: int -> bool,
    chromiumPath: Option<string>,
    platform: string,
    storagePath: string,
    ignoreHttpsErrors: Option<bool>)

  datatype LaunchOutcome =
    | Launched(options: LaunchOptions)
    | NoChrome(message: string)
    | PortFailed(error: string)

  /** A path that JavaScript's `||` and `!` treat as given: set and not empty. */
  predicate Given(path: Option<string>) {
    path.Some? && path.value != ""
  }

  /** `launchBrowser()`: the debugging port is replaced by the one `tryPort`
      finds from it, then the executable is chosen and the options built. */
  function LaunchBrowser(config: Config.Configuration, host: Host): (r: (Config.Configuration, LaunchOutcome))
    ensures var found := Config.FirstFreePort(config.debugPort, host.free);
      && (found.Err? ==> r.0 == config && r.1 == PortFailed(found.error))
      && (found.Ok? ==> r.0 == config.(debugPort := found.value))
      && (r.1.NoChrome? <==> found.Ok? && !Given(config.chromeExecutable) && !Given(host.chromiumPath))
    ensures r.1.Launched? ==>
      r.1.options.executablePath == (if Given(config.chromeExecutable) then config.chromeExecutable.value else host.chromiumPath.value)
    ensures r.1.Launched? ==> r.1.options.executablePath != ""
    ensures r.1.Launched? ==> (r.1.options.userDataDir.Some? <==> config.storeUserData)
  {
    match Config.FirstFreePort(config.debugPort, host.free)
    case Err(e) => (config, PortFailed(e))
    case Ok(port) =>
      Config.FirstFreePortMeans(config.debugPort, host.free);
      var config' := config.(debugPort := port);
      var path := if Given(config.chromeExecutable) then config.chromeExecutable else host.chromiumPath;
      if !Given(path) then (config', NoChrome(NoChromeMessage))
      else
        var args := ChromeArgs(port, config.proxy, config.otherArgs, host.platform == "linux");
        var dir := if config.storeUserData then Some(host.storagePath + "/UserData") else None;
        (config', Launched(LaunchOptions(path.value, args, host.ignoreHttpsErrors, dir)))
  }

  /** The browser is launched on the least free port at or above the
      configured one, that port is what the configuration keeps, and it is
      the port the first argument names. A search that runs past the last
      port launches nothing. */
  lemma LaunchUsesLeastFreePort(config: Config.Configuration, host: Host)
    ensures var r := LaunchBrowser(config, host);
      r.1.PortFailed? <==> config.debugPort < 0 || forall p :: config.debugPort <= p <= Config.MaxPort ==> !host.free(p)
    ensures var r := LaunchBrowser(config, host);
      !r.1.PortFailed? ==>
        && config.debugPort <= r.0.debugPort <= Config.MaxPort && host.free(r.0.debugPort)
        && (forall p :: config.debugPort <= p < r.0.debugPort ==> !host.free(p))
    ensures var r := LaunchBrowser(config, host);
      r.1.Launched? ==> r.0.debugPort >= 0 && r.1.options.args[0] == PortFlag + NatToString(r.0.debugPort)
  {
    Config.FirstFreePortMeans(config.debugPort, host.free);
  }

  /** A client built from the extension settings always keeps a browser
      profile, because a stored `false` reads as the default `true`. */
  lemma ProfileAlwaysStored(settings: Config.Settings, extensionPath: string, host: Host)
    ensures var r := LaunchBrowser(Config.GetConfigs(settings, extensionPath), host);
      r.1.Launched? ==> r.1.options.userDataDir.Some?
  {
  }

  /** The client: its configuration and the running browser, if any. */
  datatype Client = Client(config: Config.Configuration, browser: Option<LaunchOptions>)

  datatype PageOutcome = PageOpened(browser: LaunchOptions) | PageFailed(reason: string)

  /** Reading `newPage` of the browser that was never assigned. */
  const NoBrowserError := "TypeError: Cannot read properties of undefined (reading 'newPage')"

  /** `newPage()`: launches the browser only when there is none, then opens
      a page in it. */
  function NewPage(c: Client, host: Host): (r: (Client, PageOutcome))
    ensures c.browser.Some? ==> r == (c, PageOpened(c.browser.value))
    ensures r.1.PageOpened? ==> r.0.browser == Some(r.1.browser)
    ensures r.1.PageFailed? ==> r.0.browser.None?
  {
    if c.browser.Some? then (c, PageOpened(c.browser.value))
    else
      var (config', outcome) := LaunchBrowser(c.config, host);
      match outcome
      case Launched(options) => (Client(config', Some(options)), PageOpened(options))
      case NoChrome(_) => (Client(config', None), PageFailed(NoBrowserError))
      case PortFailed(e) => (c, PageFailed(e))
  }

  /** A second page reuses the browser of the first, whatever the host
      offers the second time. */
  lemma SecondPageReusesBrowser(c: Client, host1: Host, host2: Host)
    requires NewPage(c, host1).1.PageOpened?
    ensures var (c1, o1) := NewPage(c, host1);
      NewPage(c1, host2) == (c1, o1)
  {
  }

  /** `dispose()`: closes and forgets the browser; reports whether there
      was one to close. */
  function Dispose(c: Client): (r: (Client, bool))
    ensures r.0.browser.None? && r.0.config == c.config
    ensures r.1 <==> c.browser.Some?
  {
    (c.(browser := None), c.browser.Some?)
  }

  /** Disposing twice closes at most once. */
  lemma DisposeTwice(c: Client)
    ensures Dispose(Dispose(c).0) == (Dispose(c).0, false)
  {
  }
}

=== FILE: browser_page.dfy ===
/** `BrowserPage.send`, the dispatcher for every action the webview asks of
    the page, and the page's launch/teardown lists. The page is seen through
    the two views the handlers work on: the document tree for the find bar
    and the list of form fields for selection editing. Calls that leave the
    process (CDP, navigation, the clipboard) are recorded as effects, and
    their outcome is a parameter. */
module BrowserPage {
  import opened Wrappers
  import opened Strs
  import opened JsValues
  import opened Res
  import opened Dom
  import Highlight
  import Scroll
  import Selection

  datatype PageState = PageState(doc: Node, fields: Selection.Page, active: Option<nat>)

  datatype Effect =
    | Navigate(back: bool)
    | CdpCall(name: string, params: Value)
    | ClipboardWrite(text: Value)
    | ClipboardRead
    | Emit(event: string, payload: Value)       // this.emit(event, payload)
    | Reply(callbackId: Value, result: Value)   // this.emit({callbackId, result})
    | ReplyError(callbackId: Value, message: Value)
    | LogError(context: string)

  const TypeError := Str("TypeError")

  /** `data.value.<key>`, or the TypeError of reading through `null` or
      `undefined`. */
  function ValueField(data: Value, key: string): Result<Value, Value> {
    match GetProp(data, "value")
    case None => Err(TypeError)
    case Some(v) =>
      match GetProp(v, key)
      case None => Err(TypeError)
      case Some(x) => Ok(x)
  }

  /** The action names `send` has a case for, and the rest. */
  datatype Action =
    | GoForward | GoBackward
    | RemoveSelection | PasteFromClipboard | SelectAll
    | FindQuery | ScrollToMatch | CloseFindBar
    | ClipboardWriteText | ClipboardReadText
    | NodeForLocation
    | Other(name: string)

  function Classify(action: string): (a: Action)
    ensures a.Other? ==> a.name == action
  {
    if action == "Page.goForward" then GoForward
    else if action == "Page.goBackward" then GoBackward
    else if action == "Page.removeSelection" then RemoveSelection
    else if action == "Page.pasteFromClipboard" then PasteFromClipboard
    else if action == "Page.selectAll" then SelectAll
    else if action == "extension.findSearchBarQuery" then FindQuery
    else if action == "extension.scrollToFindSearchBarQueryMatch" then ScrollToMatch
    else if action == "extension.closeFindSearchBar" then CloseFindBar
    else if action == "Clipboard.writeText" then ClipboardWriteText
    else if action == "Clipboard.readText" then ClipboardReadText
    else if action == "DOM.getNodeForLocation" then NodeForLocation
    else Other(action)
  }

  /** Whether an action may change the page. */
  predicate EditsPage(a: Action) {
    a.RemoveSelection? || a.PasteFromClipboard? || a.SelectAll? || a.FindQuery? || a.ScrollToMatch? || a.CloseFindBar?
  }

  /** An error the awaited call produced, if the caller's `if (err)` sees it. */
  function Failed(c: Completion): bool {
    Truthy(ResAsync(c).err)
  }

  function LogIf(failed: bool, context: string): (r: seq<Effect>)
    ensures CountLogs(r) <= 1 && CountAnswers(r) == 0
  {
    Counts1(LogError(context));
    if failed then [LogError(context)] else []
  }

  /** Emitting the result of a call for `callbackId`: `this.emit({callbackId,
      result})`; a listener that throws is logged and answered with the
      error's message. */
  function ReplyWith(callbackId: Value, result: Value, listener: Option<Value>, context: string): (r: seq<Effect>)
    ensures |r| >= 1 && r[0] == Reply(callbackId, result)
    ensures CountLogs(r) <= 1 && 1 <= CountAnswers(r) <= 2
  {
    var thrown := if listener.Some? then listener.value else Undefined;
    if Truthy(thrown) then
      var x, y, z := Reply(callbackId, result), LogError(context), ReplyError(callbackId, Prop(thrown, "message"));
      Counts3(x, y, z);
      [x, y, z]
    else
      Counts1(Reply(callbackId, result));
      [Reply(callbackId, result)]
  }

  /** A call whose result goes back to the webview: the call itself, then
      the answer unless it failed. */
  function CallAndReply(call: Effect, remote: Completion, callbackId: Value, listener: Option<Value>,
                        failContext: Option<string>, context: string): (r: seq<Effect>)
    requires !call.LogError? && !call.Reply? && !call.ReplyError? && !call.Emit?
    ensures |r| >= 1 && r[0] == call
    ensures CountLogs(r) <= 1 && CountAnswers(r) <= 2
  {
    Counts1(call);
    if Failed(remote) then
      var rest := if failContext.Some? then [LogError(failContext.value)] else [];
      Counts1(LogError(failContext.GetOr("")));
      CountsAppend([call], rest);
      [call] + rest
    else
      var rest := ReplyWith(callbackId, ResAsync(remote).ok, listener, context);
      CountsAppend([call], rest);
      [call] + rest
  }

  /** A call whose result is dropped: the call, and a log line on failure. */
  function CallAndLog(call: Effect, remote: Completion, context: string): (r: seq<Effect>)
    requires !call.LogError? && !call.Reply? && !call.ReplyError? && !call.Emit?
    ensures |r| >= 1 && r[0] == call
    ensures CountLogs(r) <= 1 && CountAnswers(r) == 0
  {
    Counts1(call);
    var rest := LogIf(Failed(remote), context);
    CountsAppend([call], rest);
    [call] + rest
  }

  /** A page handler's own exception counts as a failure (it is an Error
      object, truthy). */
  function EditEffects(o: Selection.Outcome, context: string): (r: seq<Effect>)
    ensures CountLogs(r) <= 1 && CountAnswers(r) == 0
  {
    LogIf(o.thrown.Some?, context)
  }

  function SendFind(st: PageState, data: Value, callbackId: Value, listener: Option<Value>): (r: (PageState, seq<Effect>))
    ensures CountLogs(r.1) <= 1 && CountAnswers(r.1) <= 2
  {
    var context := "extension.findSearchBarQuery";
    match ValueField(data, "text")
    case Ok(Str(text)) =>
      var (doc, n) := Highlight.UpdateHighlights(st.doc, text);
      var payload := Obj(map["callbackId" := callbackId, "result" := Num(n)]);
      var thrown := if listener.Some? then listener.value else Undefined;
      var x, y, z := Emit(context, payload), LogError(context),
                     Emit(context, Obj(map["callbackId" := callbackId, "error" := Prop(thrown, "message")]));
      Counts1(x);
      Counts3(x, y, z);
      (st.(doc := doc), if Truthy(thrown) then [x, y, z] else [x])
    case _ =>   // `text.trim` of a non-string throws
      Counts1(LogError(context));
      (st, [LogError(context)])
  }

  /** The scroll step as the page function is written: the current match
      gains the selected class before the previous one loses it. */
  function SendScroll(st: PageState, data: Value): (r: (PageState, seq<Effect>))
    ensures CountLogs(r.1) <= 1 && CountAnswers(r.1) == 0
  {
    var context := "extension.scrollToFindSearchBarQueryMatch";
    match ValueField(data, "previousIndex")
    case Err(_) => (st, [LogError(context)])
    case Ok(prev) =>
      match ValueField(data, "currentIndex")
      case Err(_) => (st, [LogError(context)])
      case Ok(cur) =>
        var doc := Scroll.SelectAsWritten(st.doc, Highlight.MatchIdPrefix + ToStr(prev), Highlight.MatchIdPrefix + ToStr(cur));
        (st.(doc := doc), [])
  }

  /** What `text.length` reads on the pasted value, as a number to add to
      the selection start: a string's or an array's length, an object's own
      `length` (`null` adding 0 and a boolean 0 or 1); `undefined`, so NaN,
      for a number, a boolean or an object without a numeric one; a
      TypeError for `undefined` and `null`. */
  function LengthRead(text: Value): (r: Selection.TextLength)
    ensures r.LengthThrows? <==> text == Undefined || text == Null
    ensures text.Str? ==> r == Selection.Length(|text.s|)
    ensures text.Arr? ==> r == Selection.Length(|text.items|)
    ensures text.Num? || text.Bool? ==> r == Selection.NoLength
  {
    match text
    case Undefined => Selection.LengthThrows
    case Null => Selection.LengthThrows
    case Str(t) => Selection.Length(|t|)
    case Arr(items) => Selection.Length(|items|)
    case Obj(fs) =>
      if "length" !in fs then Selection.NoLength
      else
        (match fs["length"]
         case Num(n) => Selection.Length(n)
         case Null => Selection.Length(0)
         case Bool(b) => Selection.Length(if b then 1 else 0)
         case _ => Selection.NoLength)
    case _ => Selection.NoLength
  }

  function SendEdit(st: PageState, a: Action, data: Value): (r: (PageState, seq<Effect>))
    requires a.RemoveSelection? || a.PasteFromClipboard? || a.SelectAll?
    ensures CountLogs(r.1) <= 1 && CountAnswers(r.1) == 0
  {
    var context := if a.RemoveSelection? then "Page.removeSelection"
                   else if a.PasteFromClipboard? then "Page.pasteFromClipboard" else "Page.selectAll";
    match ValueField(data, "uid")
    case Err(_) => (st, [LogError(context)])
    case Ok(uid) =>
      if a.RemoveSelection? then
        var o := Selection.RemoveSelection(st.fields, ToStr(uid));
        (st.(fields := o.page), EditEffects(o, context))
      else if a.PasteFromClipboard? then
        match ValueField(data, "text")
        case Err(_) => (st, [LogError(context)])
        case Ok(text) =>
          var o := Selection.PasteFromClipboard(st.fields, ToStr(uid), ToStr(text), LengthRead(text));
          (st.(fields := o.page), EditEffects(o, context))
      else
        var o := Selection.SelectAll(st.fields, if Truthy(uid) then Some(ToStr(uid)) else None, st.active);
        (st.(fields := o.page), EditEffects(o, context))
  }

  /** `send(action, data, callbackId)`. `remote` is how the one outside call
      the action makes ends; `listener` is what an event listener throws
      when the result is emitted, if anything. Every call logs at most once
      and answers at most twice (the result, then the error of a listener
      that threw on it). */
  function Send(st: PageState, action: string, data0: Value, callbackId: Value,
                remote: Completion, listener: Option<Value>): (r: (PageState, seq<Effect>))
    ensures Classify(action).Other? && StartsWith(action, "extension") ==> r == (st, [])
    ensures r.0 != st ==> EditsPage(Classify(action))
    ensures CountLogs(r.1) <= 1 && CountAnswers(r.1) <= 2
  {
    var data := if data0 == Undefined then Obj(map[]) else data0;
    var a := Classify(action);
    match a
    case RemoveSelection => SendEdit(st, a, data)
    case PasteFromClipboard => SendEdit(st, a, data)
    case SelectAll => SendEdit(st, a, data)
    case FindQuery => SendFind(st, data, callbackId, listener)
    case ScrollToMatch => SendScroll(st, data)
    case CloseFindBar => (st.(doc := Highlight.RemoveAllHighlights(st.doc)), [])
    case _ => (st, SendCall(a, action, data, callbackId, remote, listener))
  }

  /** The actions that leave the page alone and call out of the process:
      navigation, the clipboard, and CDP. */
  function SendCall(a: Action, action: string, data: Value, callbackId: Value,
                    remote: Completion, listener: Option<Value>): (r: seq<Effect>)
    requires a == Classify(action) && !EditsPage(a)
    ensures a.Other? && StartsWith(action, "extension") ==> r == []
    ensures CountLogs(r) <= 1 && CountAnswers(r) <= 2
  {
    match a
    case GoForward => CallAndLog(Navigate(false), remote, action)
    case GoBackward => CallAndLog(Navigate(true), remote, action)
    case ClipboardWriteText =>
      (match GetProp(data, "value")
       case None => [LogError(action)]
       case Some(text) => CallAndLog(ClipboardWrite(text), remote, action))
    case ClipboardReadText => CallAndReply(ClipboardRead, remote, callbackId, listener, Some(action), action)
    case NodeForLocation => CallAndReply(CdpCall(action, data), remote, callbackId, listener, None, "BrowserPage.sendNodeErr")
    case Other(_) =>
      if StartsWith(action, "extension") then []
      else CallAndReply(CdpCall(action, data), remote, callbackId, listener, None, "BrowserPage.sendErr")
  }

  function IsLog(e: Effect): nat {
    if e.LogError? then 1 else 0
  }

  /** Anything that reaches a listener: a named event or an answer. */
  function IsAnswer(e: Effect): nat {
    if e.Reply? || e.ReplyError? || e.Emit? then 1 else 0
  }

  function CountLogs(es: seq<Effect>): nat {
    if es == [] then 0 else IsLog(es[0]) + CountLogs(es[1..])
  }

  function CountAnswers(es: seq<Effect>): nat {
    if es == [] then 0 else IsAnswer(es[0]) + CountAnswers(es[1..])
  }

  lemma Counts1(x: Effect)
    ensures CountLogs([x]) == IsLog(x) && CountAnswers([x]) == IsAnswer(x)
  {
    assert [x][1..] == [];
  }

  lemma Counts3(x: Effect, y: Effect, z: Effect)
    ensures CountLogs([x, y, z]) == IsLog(x) + IsLog(y) + IsLog(z)
    ensures CountAnswers([x, y, z]) == IsAnswer(x) + IsAnswer(y) + IsAnswer(z)
  {
    assert [x, y, z][1..] == [y, z];
    assert [y, z][1..] == [z];
    Counts1(z);
  }

  lemma {:induction false} CountsAppend(a: seq<Effect>, b: seq<Effect>)
    ensures CountLogs(a + b) == CountLogs(a) + CountLogs(b)
    ensures CountAnswers(a + b) == CountAnswers(a) + CountAnswers(b)
  {
    if a == [] {
      assert a + b == b;
    } else {
      assert (a + b)[0] == a[0];
      assert (a + b)[1..] == a[1..] + b;
      CountsAppend(a[1..], b);
    }
  }

  /** An action nobody handles, not starting with "extension", goes to the
      CDP session as it is. Its result is answered under the callback id; a
      failed call is dropped without a word. */
  lemma UnknownActionForwarded(st: PageState, action: string, data: Value, callbackId: Value, remote: Completion)
    requires Classify(action).Other? && !StartsWith(action, "extension") && data != Undefined
    ensures var r := Send(st, action, data, callbackId, remote, None);
            && r.0 == st
            && r.1 == [CdpCall(action, data)] + (if Failed(remote) then [] else [Reply(callbackId, ResAsync(remote).ok)])
  {
    var a := Classify(action);
    assert Send(st, action, data, callbackId, remote, None) == (st, SendCall(a, action, data, callbackId, remote, None));
    var call := CdpCall(action, data);
    assert SendCall(a, action, data, callbackId, remote, None) == CallAndReply(call, remote, callbackId, None, None, "BrowserPage.sendErr");
  }

  lemma ClassifyFind()
    ensures Classify("extension.findSearchBarQuery") == FindQuery
  {
  }

  /** Cut and Paste messages naming the empty uid: the selector
      `[data-unique-id=]` throws a syntax error, which is logged, and the
      page stays as it was. */
  lemma EmptyUidEditsLog(st: PageState, text: Value)
    ensures var data := Obj(map["value" := Obj(map["uid" := Str(""), "text" := text])]);
      SendEdit(st, RemoveSelection, data) == (st, [LogError("Page.removeSelection")])
    ensures var data := Obj(map["value" := Obj(map["uid" := Str(""), "text" := text])]);
      SendEdit(st, PasteFromClipboard, data) == (st, [LogError("Page.pasteFromClipboard")])
  {
    var data := Obj(map["value" := Obj(map["uid" := Str(""), "text" := text])]);
    assert ValueField(data, "uid") == Ok(Str(""));
    assert ValueField(data, "text") == Ok(text);
  }

  /** A Select All message naming the empty uid: the uid is falsy, so the
      focused element is used, and nothing throws; a focused text field
      with a text selection gets its whole value selected. */
  lemma EmptyUidSelectAll(st: PageState, text: Value)
    ensures var data := Obj(map["value" := Obj(map["uid" := Str(""), "text" := text])]);
      var r := SendEdit(st, SelectAll, data);
      && r.1 == []
      && r.0.fields == Selection.SelectAll(st.fields, None, st.active).page
    ensures var data := Obj(map["value" := Obj(map["uid" := Str(""), "text" := text])]);
      var r := SendEdit(st, SelectAll, data);
      var a := st.active;
      a.Some? && a.value < |st.fields| && Selection.IsTextField(st.fields[a.value]) && st.fields[a.value].selStart.Some? ==>
        r.0.fields[a.value].selStart == Some(0) && r.0.fields[a.value].selEnd == Some(|st.fields[a.value].value|)
  {
    var data := Obj(map["value" := Obj(map["uid" := Str(""), "text" := text])]);
    assert ValueField(data, "uid") == Ok(Str(""));
  }

  /** A paste message without `text`, after a right-click on a text field:
      the field's selection is replaced by "undefined", then reading the
      text's length throws, so the caret and both recorded bounds stay and
      the error is logged under the action's name. */
  lemma PasteWithoutTextThrows(st: PageState, i: nat)
    requires i < |st.fields| && Selection.IsTextField(st.fields[i])
    requires st.fields[i].selStart.Some? && st.fields[i].selEnd.Some?
    requires st.fields[i].selStart.value <= st.fields[i].selEnd.value <= |st.fields[i].value|
    requires Selection.FirstTagged(st.fields, i, Selection.ContextMenuUid)
    ensures var tagged := st.(fields := Selection.OnContextMenu(st.fields, i).0);
            var data := Obj(map["value" := Obj(map["uid" := Str(Selection.ContextMenuUid)])]);
            SendEdit(tagged, PasteFromClipboard, data).1 == [LogError("Page.pasteFromClipboard")]
    ensures var tagged := st.(fields := Selection.OnContextMenu(st.fields, i).0);
            var data := Obj(map["value" := Obj(map["uid" := Str(Selection.ContextMenuUid)])]);
            var r := SendEdit(tagged, PasteFromClipboard, data);
            var f := st.fields[i];
            && r.0.fields[i].value == f.value[..f.selStart.value] + "undefined" + f.value[f.selEnd.value..]
            && r.0.fields[i].selStart == f.selStart && r.0.fields[i].selEnd == f.selEnd
    ensures var tagged := st.(fields := Selection.OnContextMenu(st.fields, i).0);
            var data := Obj(map["value" := Obj(map["uid" := Str(Selection.ContextMenuUid)])]);
            var r := SendEdit(tagged, PasteFromClipboard, data);
            var f := st.fields[i];
            && Selection.HasAttr(r.0.fields[i], Selection.StartAttr, NatToString(f.selStart.value))
            && Selection.HasAttr(r.0.fields[i], Selection.EndAttr, NatToString(f.selEnd.value))
  {
    var tagged := st.(fields := Selection.OnContextMenu(st.fields, i).0);
    var data := Obj(map["value" := Obj(map["uid" := Str(Selection.ContextMenuUid)])]);
    assert ValueField(data, "uid") == Ok(Str(Selection.ContextMenuUid));
    assert ValueField(data, "text") == Ok(Undefined);
    var o := Selection.PasteFromClipboard(tagged.fields, Selection.ContextMenuUid, "undefined", Selection.LengthThrows);
    assert SendEdit(tagged, PasteFromClipboard, data) == (tagged.(fields := o.page), EditEffects(o, "Page.pasteFromClipboard"));
    Selection.ContextMenuThenPasteThrows(st.fields, i, "undefined");
  }

  /** The find query answers with the number of markers that the highlight
      pass created. */
  lemma FindQueryAnswersCount(st: PageState, text: string, callbackId: Value)
    ensures var r := Send(st, "extension.findSearchBarQuery",
                          Obj(map["value" := Obj(map["text" := Str(text)])]), callbackId, Returned(Undefined), None);
            var (doc, n) := Highlight.UpdateHighlights(st.doc, text);
            r == (st.(doc := doc), [Emit("extension.findSearchBarQuery", Obj(map["callbackId" := callbackId, "result" := Num(n)]))])
  {
    var data := Obj(map["value" := Obj(map["text" := Str(text)])]);
    ClassifyFind();
    assert ValueField(data, "text") == Ok(Str(text));
    var r := Send(st, "extension.findSearchBarQuery", data, callbackId, Returned(Undefined), None);
    assert r == SendFind(st, data, callbackId, None);
  }

  const ScrollAction := "extension.scrollToFindSearchBarQueryMatch"

  /** The message the find bar sends when it steps from one match to
      another. */
  function ScrollData(prev: int, cur: int): Value {
    Obj(map["value" := Obj(map["previousIndex" := Num(prev), "currentIndex" := Num(cur)])])
  }

  /** A scroll request with numeric indexes runs the page function as
      written on the document and answers nothing. */
  lemma ScrollActionAsWritten(st: PageState, prev: int, cur: int, callbackId: Value,
                              remote: Completion, listener: Option<Value>)
    ensures Send(st, ScrollAction, ScrollData(prev, cur), callbackId, remote, listener)
            == (st.(doc := Scroll.ScrollAsWritten(st.doc, prev, cur)), [])
  {
    var data := ScrollData(prev, cur);
    assert Classify(ScrollAction) == ScrollToMatch;
    assert ValueField(data, "previousIndex") == Ok(Num(prev));
    assert ValueField(data, "currentIndex") == Ok(Num(cur));
  }

  /** With a single match, Enter in the find bar sends index 0 as both the
      previous and the current index, and the match ends up not selected. */
  lemma SingleMatchStepDeselects(st: PageState, callbackId: Value, remote: Completion, listener: Option<Value>)
    requires FindById(st.doc, Highlight.MatchId(0)).Some?
    ensures var doc := Send(st, ScrollAction, ScrollData(0, 0), callbackId, remote, listener).0.doc;
            Scroll.ClassesOf(doc, Highlight.MatchId(0)).Some?
            && Highlight.SelectedClass !in Scroll.ClassesOf(doc, Highlight.MatchId(0)).value
  {
    ScrollActionAsWritten(st, 0, 0, callbackId, remote, listener);
    Scroll.ScrollAsWrittenSameIndexDeselects(st.doc, 0);
  }

  /** For distinct indexes the dispatcher's step is the corrected one: the
      current match is selected and the previous one deselected. */
  lemma DistinctStepSelectsCurrent(st: PageState, prev: int, cur: int, callbackId: Value,
                                   remote: Completion, listener: Option<Value>)
    requires prev != cur && FindById(st.doc, Highlight.MatchId(cur)).Some?
    ensures var doc := Send(st, ScrollAction, ScrollData(prev, cur), callbackId, remote, listener).0.doc;
            Scroll.ClassesOf(doc, Highlight.MatchId(cur))
            == Some(FindById(st.doc, Highlight.MatchId(cur)).value.classes + {Highlight.SelectedClass})
  {
    ScrollActionAsWritten(st, prev, cur, callbackId, remote, listener);
    Scroll.AsWrittenAgreesWhenDistinct(st.doc, prev, cur);
    Scroll.ScrollSelectsCurrent(st.doc, prev, cur);
  }

  // ---------------------------------------------------------------------
  // launch and dispose
  // ---------------------------------------------------------------------

  /** The functions `launch` exposes to the page (the source's `ExposedFunc`). */
  datatype Exposed =
    | EnableCopyPaste | EmitCopy | GetPaste
    | EmitContextMenu | EmitSelection | EmitClick | EmitSelectAll
    | EmitFindSearchBarQuery | RemoveAllHighlightsFunc | UpdateHighlightsFunc

  /** The order in which `launch` exposes them. */
  const Launched: seq<Exposed> := [
    EnableCopyPaste, EmitCopy, GetPaste,
    EmitContextMenu, EmitSelection, EmitClick, EmitSelectAll,
    EmitFindSearchBarQuery, RemoveAllHighlightsFunc, UpdateHighlightsFunc]

  datatype Teardown =
    | RemoveElseListeners
    | RemoveAllListeners
    | DetachSession
    | RemoveExposed(f: Exposed)
    | ClosePage

  /** `dispose`: listeners first, then the CDP session, then every exposed
      function, and closing the page only once all removals have settled. */
  function Dispose(): (r: seq<Teardown>)
    ensures |r| == 4 + |Launched| && r[|r| - 1] == ClosePage
    ensures r[..3] == [RemoveElseListeners, RemoveAllListeners, DetachSession]
    ensures forall i :: 3 <= i < |r| - 1 ==> r[i] == RemoveExposed(Launched[i - 3])
  {
    [RemoveElseListeners, RemoveAllListeners, DetachSession,
     RemoveExposed(EnableCopyPaste), RemoveExposed(EmitCopy), RemoveExposed(GetPaste),
     RemoveExposed(EmitContextMenu), RemoveExposed(EmitSelection), RemoveExposed(EmitClick), RemoveExposed(EmitSelectAll),
     RemoveExposed(EmitFindSearchBarQuery), RemoveExposed(RemoveAllHighlightsFunc), RemoveExposed(UpdateHighlightsFunc),
     ClosePage]
  }

  /** Position of each function in the launch order. */
  function LaunchIndex(f: Exposed): nat {
    match f
    case EnableCopyPaste => 0 case EmitCopy => 1 case GetPaste => 2
    case EmitContextMenu => 3 case EmitSelection => 4 case EmitClick => 5 case EmitSelectAll => 6
    case EmitFindSearchBarQuery => 7 case RemoveAllHighlightsFunc => 8 case UpdateHighlightsFunc => 9
  }

  /** Every function is exposed at launch exactly once (the launch order and
      the positions are inverse to each other), and dispose removes them in
      that order before closing the page. */
  lemma DisposeRemovesEveryExposed()
    ensures forall f: Exposed :: LaunchIndex(f) < |Launched| && Launched[LaunchIndex(f)] == f
    ensures forall i :: 0 <= i < |Launched| ==> LaunchIndex(Launched[i]) == i
    ensures forall f: Exposed :: Dispose()[3 + LaunchIndex(f)] == RemoveExposed(f)
  {
    forall f: Exposed ensures LaunchIndex(f) < |Launched| && Launched[LaunchIndex(f)] == f {
    }
    var d := Dispose();
    forall f: Exposed ensures d[3 + LaunchIndex(f)] == RemoveExposed(f) {
    }
  }
}

=== FILE: cdp_helper.dfy ===
/** The webview's helper over the Chrome DevTools Protocol: resolving the
    properties of a remote object into a plain tree, bounded in depth, and
    finding the CSS cursor of a DOM node. Replies of the protocol are
    parameters: `fetch` gives the `result` of `Runtime.getProperties` for an
    object id, and the other replies are given as values. */
module CdpHelper {
  import opened Wrappers
  import opened JsValues

  /** What a property resolves to: `null`, a value copied from the remote
      description (or a marker string), or a nested object of resolved
      properties. */
  datatype Resolved =
    | RNull
    | RValue(v: Value)
    | RObject(entries: seq<Entry>)

  /** A property defined on the result object, with the flags copied from
      the item that described it. */
  datatype Entry = Entry(name: string, value: Resolved, enumerable: Value, configurable: Value, writable: Value)

  const MaxDepthReached := "<max depth reached>"
  const NotIterable := "TypeError: props is not iterable"
  const ReadOfNothing := "TypeError: Cannot read properties of undefined"

  // ---------------------------------------------------------------------
  // resolveElementProperties
  // ---------------------------------------------------------------------

  /** What an item resolves to when its description needs no round trip:
      functions become "function", strings and numbers their `value`
      (even a falsy one), an object without an id its `value` when that is
      truthy, and everything else `null`. */
  function Classify(desc: Value): (r: Resolved)
    ensures !Truthy(desc) ==> r == RNull
  {
    if !Truthy(desc) then RNull
    else
      var kind := Prop(desc, "type");
      if kind == Str("object") then
        if Truthy(Prop(desc, "value")) then RValue(Prop(desc, "value")) else RNull
      else if kind == Str("function") then RValue(Str("function"))
      else if kind == Str("string") || kind == Str("number") then RValue(Prop(desc, "value"))
      else RNull
  }

  /** An object description with an id is expanded by a round trip. */
  predicate Expandable(desc: Value) {
    Truthy(desc) && Prop(desc, "type") == Str("object") && Truthy(Prop(desc, "objectId"))
  }

  /** What one character of a string reply gives: a string has neither
      `value` nor `name`, so the property is named "undefined" and is `null`,
      with every flag `undefined`. */
  const CharEntry := Entry("undefined", RNull, Undefined, Undefined, Undefined)

  /** The `resolve(props, depth)` closure over a list of property items.
      `for ... of` runs over an array's items and over a string's
      characters; iterating over anything else, or reading a property of a
      `null` item, throws. */
  function ResolveList(items: Value, depth: int, maxDepth: int, fetch: Value -> Value): (r: Result<seq<Entry>, string>)
    requires depth >= 0
    ensures !items.Arr? && !items.Str? ==> r == Err(NotIterable)
    ensures r.Ok? && items.Arr? ==> |r.value| == |items.items|
    ensures items.Str? ==> r.Ok? && |r.value| == |items.s|
                           && forall i :: 0 <= i < |r.value| ==> r.value[i].name == "undefined" && r.value[i].value == RNull
    decreases if depth < maxDepth then maxDepth - depth else 0, 1, items
  {
    if items.Str? then Ok(seq(|items.s|, _ => CharEntry))
    else if !items.Arr? then Err(NotIterable)
    else ResolveItems(items, items.items, depth, maxDepth, fetch)
  }

  function ResolveItems(ghost parent: Value, items: seq<Value>, depth: int, maxDepth: int, fetch: Value -> Value):
    (r: Result<seq<Entry>, string>)
    requires depth >= 0 && parent.Arr? && forall i :: 0 <= i < |items| ==> items[i] < parent
    ensures r.Ok? ==> |r.value| == |items|
    decreases if depth < maxDepth then maxDepth - depth else 0, 0, parent, |items|
  {
    if items == [] then Ok([])
    else
      var item := items[0];
      if item == Undefined || item == Null then Err(ReadOfNothing)
      else
        match ResolveItem(item, depth, maxDepth, fetch)
        case Err(e) => Err(e)
        case Ok(value) =>
          var entry := Entry(ToStr(Prop(item, "name")), value,
                             Prop(item, "enumerable"), Prop(item, "configurable"), Prop(item, "writable"));
          match ResolveItems(parent, items[1..], depth, maxDepth, fetch)
          case Err(e) => Err(e)
          case Ok(rest) => Ok([entry] + rest)
  }

  /** The value of one item: an expandable object below the depth limit is
      fetched, and resolved in turn when the reply is an array. */
  function ResolveItem(item: Value, depth: int, maxDepth: int, fetch: Value -> Value): (r: Result<Resolved, string>)
    requires depth >= 0
    ensures !Expandable(Prop(item, "value")) ==> r == Ok(Classify(Prop(item, "value")))
    ensures Expandable(Prop(item, "value")) && depth >= maxDepth ==> r == Ok(RValue(Str(MaxDepthReached)))
    decreases if depth < maxDepth then maxDepth - depth else 0, 0, item, 0
  {
    var desc := Prop(item, "value");
    if !Expandable(desc) then Ok(Classify(desc))
    else if depth >= maxDepth then Ok(RValue(Str(MaxDepthReached)))
    else
      var fetched := fetch(Prop(desc, "objectId"));
      if !fetched.Arr? then Ok(RValue(fetched))
      else
        match ResolveList(fetched, depth + 1, maxDepth, fetch)
        case Err(e) => Err(e)
        case Ok(entries) => Ok(RObject(entries))
  }

  /** `resolveElementProperties(objectId, maxDepth)`. */
  function ResolveElementProperties(objectId: Value, maxDepth: int, fetch: Value -> Value): (r: Result<seq<Entry>, string>)
  {
    ResolveList(fetch(objectId), 0, maxDepth, fetch)
  }

  /** How deeply the resolved objects nest. */
  function Height(r: Resolved): nat {
    match r
    case RObject(entries) => 1 + HeightOf(entries)
    case _ => 0
  }

  function HeightOf(entries: seq<Entry>): nat {
    if entries == [] then 0
    else
      var h := Height(entries[0].value);
      var t := HeightOf(entries[1..]);
      if h > t then h else t
  }

  lemma HeightOfCons(e: Entry, rest: seq<Entry>)
    ensures HeightOf([e] + rest) == if Height(e.value) > HeightOf(rest) then Height(e.value) else HeightOf(rest)
  {
    assert ([e] + rest)[1..] == rest;
  }

  /** The depth bound: below depth `depth`, objects nest at most
      `maxDepth - depth` levels deep. */
  lemma {:induction false} ResolveListHeight(items: Value, depth: int, maxDepth: int, fetch: Value -> Value)
    requires depth >= 0
    ensures var r := ResolveList(items, depth, maxDepth, fetch);
      r.Ok? ==> HeightOf(r.value) <= if depth < maxDepth then maxDepth - depth else 0
    decreases if depth < maxDepth then maxDepth - depth else 0, 1, items
  {
    if items.Arr? {
      ResolveItemsHeight(items, items.items, depth, maxDepth, fetch);
    } else if items.Str? {
      FlatHeight(ResolveList(items, depth, maxDepth, fetch).value);
    }
  }

  /** Entries that hold no object do not nest. */
  lemma {:induction false} FlatHeight(entries: seq<Entry>)
    requires forall i :: 0 <= i < |entries| ==> !entries[i].value.RObject?
    ensures HeightOf(entries) == 0
  {
    if entries != [] {
      FlatHeight(entries[1..]);
    }
  }

  lemma {:induction false} ResolveItemsHeight(parent: Value, items: seq<Value>, depth: int, maxDepth: int, fetch: Value -> Value)
    requires depth >= 0 && parent.Arr? && forall i :: 0 <= i < |items| ==> items[i] < parent
    ensures var r := ResolveItems(parent, items, depth, maxDepth, fetch);
      r.Ok? ==> HeightOf(r.value) <= if depth < maxDepth then maxDepth - depth else 0
    decreases if depth < maxDepth then maxDepth - depth else 0, 0, parent, |items|
  {
    var r := ResolveItems(parent, items, depth, maxDepth, fetch);
    if items != [] && r.Ok? {
      var item := items[0];
      ResolveItemHeight(item, depth, maxDepth, fetch);
      ResolveItemsHeight(parent, items[1..], depth, maxDepth, fetch);
      var value := ResolveItem(item, depth, maxDepth, fetch).value;
      var rest := ResolveItems(parent, items[1..], depth, maxDepth, fetch).value;
      var entry := Entry(ToStr(Prop(item, "name")), value,
                         Prop(item, "enumerable"), Prop(item, "configurable"), Prop(item, "writable"));
      assert r.value == [entry] + rest;
      HeightOfCons(entry, rest);
    }
  }

  lemma {:induction false} ResolveItemHeight(item: Value, depth: int, maxDepth: int, fetch: Value -> Value)
    requires depth >= 0
    ensures var r := ResolveItem(item, depth, maxDepth, fetch);
      r.Ok? ==> Height(r.value) <= if depth < maxDepth then maxDepth - depth else 0
    decreases if depth < maxDepth then maxDepth - depth else 0, 0, item, 0
  {
    var desc := Prop(item, "value");
    if Expandable(desc) && depth < maxDepth {
      var fetched := fetch(Prop(desc, "objectId"));
      if fetched.Arr? {
        ResolveListHeight(fetched, depth + 1, maxDepth, fetch);
      }
    }
  }

  /** Items that need no round trip resolve in place: each entry carries
      its item's name and flags, and the value `Classify` gives. */
  lemma {:induction false} FlatItemsResolveInPlace(parent: Value, items: seq<Value>, depth: int, maxDepth: int,
                                                   fetch: Value -> Value)
    requires depth >= 0 && parent.Arr? && forall i :: 0 <= i < |items| ==> items[i] < parent
    requires forall i :: 0 <= i < |items| ==> items[i].Obj? && !Expandable(Prop(items[i], "value"))
    ensures var r := ResolveItems(parent, items, depth, maxDepth, fetch);
      && r.Ok?
      && forall i :: 0 <= i < |items| ==>
           r.value[i] == Entry(ToStr(Prop(items[i], "name")), Classify(Prop(items[i], "value")),
                               Prop(items[i], "enumerable"), Prop(items[i], "configurable"), Prop(items[i], "writable"))
    decreases |items|
  {
    if items != [] {
      FlatItemsResolveInPlace(parent, items[1..], depth, maxDepth, fetch);
      var r := ResolveItems(parent, items, depth, maxDepth, fetch);
      var rest := ResolveItems(parent, items[1..], depth, maxDepth, fetch);
      forall i | 0 <= i < |items|
        ensures r.value[i] == Entry(ToStr(Prop(items[i], "name")), Classify(Prop(items[i], "value")),
                                    Prop(items[i], "enumerable"), Prop(items[i], "configurable"), Prop(items[i], "writable"))
      {
        if i > 0 {
          assert r.value[i] == rest.value[i - 1];
          assert items[i] == items[1..][i - 1];
        }
      }
    }
  }

  /** An item resolves when it is neither `undefined` nor `null` and its
      value resolves. */
  predicate ItemResolves(item: Value, depth: int, maxDepth: int, fetch: Value -> Value)
    requires depth >= 0
  {
    item != Undefined && item != Null && ResolveItem(item, depth, maxDepth, fetch).Ok?
  }

  /** The entry `defineProperty` records for an item that resolves. */
  function EntryOf(item: Value, depth: int, maxDepth: int, fetch: Value -> Value): Entry
    requires depth >= 0 && ItemResolves(item, depth, maxDepth, fetch)
  {
    Entry(ToStr(Prop(item, "name")), ResolveItem(item, depth, maxDepth, fetch).value,
          Prop(item, "enumerable"), Prop(item, "configurable"), Prop(item, "writable"))
  }

  /** A string reply is resolved character by character: each character,
      taken as an item of its own, resolves, and gives the entry at its
      position. */
  lemma StringReplyPerCharacter(t: string, depth: int, maxDepth: int, fetch: Value -> Value)
    requires depth >= 0
    ensures var r := ResolveList(Str(t), depth, maxDepth, fetch);
      && r.Ok? && |r.value| == |t|
      && forall i :: 0 <= i < |t| ==> (ItemResolves(Str([t[i]]), depth, maxDepth, fetch)
                                      && r.value[i] == EntryOf(Str([t[i]]), depth, maxDepth, fetch))
  {
  }

  /** Every item, expandable or not, yields one entry, in the order of the
      items, carrying the item's name and its enumerable, configurable and
      writable flags and the value the item resolves to; the list resolves
      exactly when every item does. */
  lemma {:induction false} ResolveItemsInOrder(parent: Value, items: seq<Value>, depth: int, maxDepth: int,
                                               fetch: Value -> Value)
    requires depth >= 0 && parent.Arr? && forall i :: 0 <= i < |items| ==> items[i] < parent
    ensures var r := ResolveItems(parent, items, depth, maxDepth, fetch);
      && (r.Ok? <==> forall i :: 0 <= i < |items| ==> ItemResolves(items[i], depth, maxDepth, fetch))
      && (r.Ok? ==> forall i :: 0 <= i < |items| ==> r.value[i] == EntryOf(items[i], depth, maxDepth, fetch))
    decreases |items|
  {
    if items != [] {
      ResolveItemsInOrder(parent, items[1..], depth, maxDepth, fetch);
      var r := ResolveItems(parent, items, depth, maxDepth, fetch);
      var rest := ResolveItems(parent, items[1..], depth, maxDepth, fetch);
      assert forall i :: 1 <= i < |items| ==> items[i] == items[1..][i - 1];
      if r.Ok? {
        forall i | 0 <= i < |items|
          ensures ItemResolves(items[i], depth, maxDepth, fetch)
          ensures r.value[i] == EntryOf(items[i], depth, maxDepth, fetch)
        {
          if i > 0 {
            assert r.value[i] == rest.value[i - 1];
          }
        }
      } else if ItemResolves(items[0], depth, maxDepth, fetch) {
        assert rest.Err?;
        var j :| 0 <= j < |items[1..]| && !ItemResolves(items[1..][j], depth, maxDepth, fetch);
        assert !ItemResolves(items[j + 1], depth, maxDepth, fetch);
      }
    }
  }

  /** At the depth limit nothing is fetched: the result does not depend on
      what the protocol would answer. */
  lemma {:induction false} AtLimitNothingFetched(parent: Value, items: seq<Value>, depth: int, maxDepth: int,
                                                 f: Value -> Value, g: Value -> Value)
    requires depth >= 0 && depth >= maxDepth
    requires parent.Arr? && forall i :: 0 <= i < |items| ==> items[i] < parent
    ensures ResolveItems(parent, items, depth, maxDepth, f) == ResolveItems(parent, items, depth, maxDepth, g)
    decreases |items|
  {
    if items != [] {
      AtLimitNothingFetched(parent, items[1..], depth, maxDepth, f, g);
    }
  }

  // ---------------------------------------------------------------------
  // getNodeIdFromBackendId, getCursorForNode
  // ---------------------------------------------------------------------

  /** The element access `v[0]`: throws on `undefined` and `null`. */
  function First(v: Value): (r: Result<Value, string>)
    ensures r.Err? <==> v == Undefined || v == Null
  {
    match v
    case Undefined => Err(ReadOfNothing)
    case Null => Err(ReadOfNothing)
    case Arr(items) => Ok(if items == [] then Undefined else items[0])
    case Str(s) => Ok(if s == "" then Undefined else Str([s[0]]))
    case Obj(_) => Ok(Prop(v, "0"))
    case _ => Ok(Undefined)
  }

  /** `getNodeIdFromBackendId`, given the reply of
      `DOM.pushNodesByBackendIdsToFrontend`. */
  function NodeIdFromBackendId(reply: Value): (r: Result<Value, string>)
    ensures !Truthy(reply) ==> r == Ok(Undefined)
    ensures Truthy(reply) && Prop(reply, "nodeIds").Arr? && Prop(reply, "nodeIds").items != [] ==>
      r == Ok(Prop(reply, "nodeIds").items[0])
  {
    if !Truthy(reply) then Ok(Undefined) else First(Prop(reply, "nodeIds"))
  }

  /** Reference definition: the position of the first entry named `name`. */
  function FindNamed(entries: seq<Value>, name: string): (r: Result<Option<nat>, string>)
    ensures r.Ok? && r.value.Some? ==> r.value.value < |entries| && Prop(entries[r.value.value], "name") == Str(name)
  {
    if entries == [] then Ok(None)
    else if entries[0] == Undefined || entries[0] == Null then Err(ReadOfNothing)
    else if Prop(entries[0], "name") == Str(name) then Ok(Some(0))
    else
      match FindNamed(entries[1..], name)
      case Err(e) => Err(e)
      case Ok(None) => Ok(None)
      case Ok(Some(i)) => Ok(Some(i + 1))
  }

  /** The position found is the first entry with that name. */
  lemma {:induction false} FindNamedIsFirst(entries: seq<Value>, name: string)
    requires FindNamed(entries, name).Ok?
    ensures var r := FindNamed(entries, name).value;
      && (r.None? ==> forall j :: 0 <= j < |entries| ==> Prop(entries[j], "name") != Str(name))
      && (r.Some? ==> forall j :: 0 <= j < r.value ==> Prop(entries[j], "name") != Str(name))
  {
    if entries != [] && Prop(entries[0], "name") != Str(name) {
      FindNamedIsFirst(entries[1..], name);
      var r := FindNamed(entries, name).value;
      forall j | 0 < j < |entries| && (r.None? || j < r.value)
        ensures Prop(entries[j], "name") != Str(name)
      {
        assert entries[j] == entries[1..][j - 1];
      }
    }
  }

  /** `getCursorForNode(nodeInfo)`: the node id, looked up from the
      backend id when missing; then the value of the "cursor" entry of the
      node's computed style. A style without a "cursor" entry makes the
      final `.value` read throw. `backendReply` is the reply of the lookup,
      `styleOf` the reply of `CSS.getComputedStyleForNode` for a node id. */
  function CursorForNode(nodeInfo: Value, backendReply: Value, styleOf: Value -> Value): (r: Result<Value, string>)
    ensures nodeInfo == Undefined || nodeInfo == Null ==> r.Err?
    ensures nodeInfo.Obj? && !Truthy(Prop(nodeInfo, "nodeId")) && !Truthy(backendReply) ==> r == Ok(Undefined)
    ensures nodeInfo.Obj? && Truthy(Prop(nodeInfo, "nodeId")) ==>
      var reply := styleOf(Prop(nodeInfo, "nodeId"));
      && (reply == Undefined || reply == Null ==> r.Err?)
      && (reply.Obj? && !Truthy(Prop(reply, "computedStyle")) ==> r == Ok(Undefined))
  {
    if nodeInfo == Undefined || nodeInfo == Null then Err(ReadOfNothing)
    else
      var lookedUp := if Truthy(Prop(nodeInfo, "nodeId")) then Ok(Prop(nodeInfo, "nodeId")) else NodeIdFromBackendId(backendReply);
      match lookedUp
      case Err(e) => Err(e)
      case Ok(nodeId) =>
        if !Truthy(nodeId) then Ok(Undefined)
        else
          var reply := styleOf(nodeId);
          if reply == Undefined || reply == Null then Err(ReadOfNothing)
          else
            var style := Prop(reply, "computedStyle");
            if !Truthy(style) then Ok(Undefined)
            else if !style.Arr? then Err("TypeError: computedStyle.find is not a function")
            else
              match FindNamed(style.items, "cursor")
              case Err(e) => Err(e)
              case Ok(None) => Err(ReadOfNothing)
              case Ok(Some(i)) => (var c := style.items[i]; Ok(Prop(c, "value")))
  }

  /** With a node id at hand the backend lookup is not consulted, and the
      cursor is the value of the first "cursor" entry of the style. */
  lemma CursorOfKnownNode(nodeInfo: Value, reply1: Value, reply2: Value, styleOf: Value -> Value, i: nat)
    requires nodeInfo.Obj? && Truthy(Prop(nodeInfo, "nodeId"))
    requires var style := Prop(styleOf(Prop(nodeInfo, "nodeId")), "computedStyle");
      && style.Arr? && i < |style.items| && style.items[i].Obj? && Prop(style.items[i], "name") == Str("cursor")
      && forall j :: 0 <= j < i ==> style.items[j].Obj? && Prop(style.items[j], "name") != Str("cursor")
    ensures CursorForNode(nodeInfo, reply1, styleOf) == CursorForNode(nodeInfo, reply2, styleOf)
    ensures CursorForNode(nodeInfo, reply1, styleOf)
      == Ok(Prop(Prop(styleOf(Prop(nodeInfo, "nodeId")), "computedStyle").items[i], "value"))
  {
    var style := Prop(styleOf(Prop(nodeInfo, "nodeId")), "computedStyle");
    FindNamedFinds(style.items, "cursor", i);
  }

  /** Without a node id, the first node id the backend lookup answers is
      used exactly as if the description had carried it. */
  lemma CursorViaBackend(nodeInfo: Value, backendReply: Value, styleOf: Value -> Value, other: Value)
    requires nodeInfo.Obj? && !Truthy(Prop(nodeInfo, "nodeId"))
    requires Truthy(backendReply) && Prop(backendReply, "nodeIds").Arr? && Prop(backendReply, "nodeIds").items != []
    requires Truthy(Prop(backendReply, "nodeIds").items[0])
    ensures var id := Prop(backendReply, "nodeIds").items[0];
      CursorForNode(nodeInfo, backendReply, styleOf) == CursorForNode(Obj(map["nodeId" := id]), other, styleOf)
  {
    var id := Prop(backendReply, "nodeIds").items[0];
    assert NodeIdFromBackendId(backendReply) == Ok(id);
    assert Prop(Obj(map["nodeId" := id]), "nodeId") == id;
  }

  lemma {:induction false} FindNamedFinds(entries: seq<Value>, name: string, i: nat)
    requires i < |entries| && entries[i].Obj? && Prop(entries[i], "name") == Str(name)
    requires forall j :: 0 <= j < i ==> entries[j].Obj? && Prop(entries[j], "name") != Str(name)
    ensures FindNamed(entries, name) == Ok(Some(i))
  {
    if i > 0 {
      FindNamedFinds(entries[1..], name, i - 1);
    }
  }

  /** A style with no "cursor" entry makes the lookup throw rather than
      answer `undefined`. */
  lemma NoCursorThrows(nodeInfo: Value, backendReply: Value, styleOf: Value -> Value)
    requires nodeInfo.Obj? && Truthy(Prop(nodeInfo, "nodeId"))
    requires var style := Prop(styleOf(Prop(nodeInfo, "nodeId")), "computedStyle");
      style.Arr? && style.items != [] && forall j :: 0 <= j < |style.items| ==> style.items[j].Obj? && Prop(style.items[j], "name") != Str("cursor")
    ensures CursorForNode(nodeInfo, backendReply, styleOf).Err?
  {
    var style := Prop(styleOf(Prop(nodeInfo, "nodeId")), "computedStyle");
    FindNamedMisses(style.items, "cursor");
  }

  lemma {:induction false} FindNamedMisses(entries: seq<Value>, name: string)
    requires forall j :: 0 <= j < |entries| ==> entries[j].Obj? && Prop(entries[j], "name") != Str(name)
    ensures FindNamed(entries, name) == Ok(None)
  {
    if entries != [] {
      FindNamedMisses(entries[1..], name);
    }
  }
}

=== FILE: config.dfy ===
/** Reading the extension's settings: the falsy-fallback lookup, the
    defaults of every setting, the colour-theme classifier, and the search
    for a free debugging port over an abstract "is this port free" test. */
module Config {
  import opened Wrappers
  import opened JsValues
  import opened Strs

  /** The entries the user has set, by key. A key that is absent reads as
      `undefined`. */
  type Settings = map<string, Value>

  // ---------------------------------------------------------------------
  // getConfig
  // ---------------------------------------------------------------------

  /** The stored value when it is truthy, else the default: a stored
      `false`, `0` or `""` reads as the default. */
  function GetConfig(settings: Settings, key: string, default: Value): (r: Value)
    ensures Truthy(r) || r == default
    ensures key in settings && Truthy(settings[key]) ==> r == settings[key]
    ensures Truthy(default) ==> Truthy(r)
  {
    var stored := if key in settings then settings[key] else default;
    if Truthy(stored) then stored else default
  }

  /** A stored falsy value never overrides the default, whatever the
      default is. */
  lemma FalsyStoredIsIgnored(settings: Settings, key: string, default: Value)
    requires key !in settings || !Truthy(settings[key])
    ensures GetConfig(settings, key, default) == default
  {
  }

  /** The declared type of a setting; a stored value of another type reads
      as the default. */
  function AsInt(v: Value, default: int): (r: int)
    ensures v.Num? ==> r == v.n
    ensures !v.Num? ==> r == default
  {
    if v.Num? then v.n else default
  }

  function AsStr(v: Value, default: string): (r: string)
    ensures v.Str? ==> r == v.s
    ensures !v.Str? ==> r == default
  {
    if v.Str? then v.s else default
  }

  function AsBool(v: Value, default: bool): (r: bool)
    ensures v.Bool? ==> r == v.b
    ensures !v.Bool? ==> r == default
  {
    if v.Bool? then v.b else default
  }

  // ---------------------------------------------------------------------
  // getConfigs
  // ---------------------------------------------------------------------

  datatype Configuration = Configuration(
    extensionPath: string,
    columnNumber: int,
    isDebug: bool,
    quality: int,
    everyNthFrame: int,
    format: string,
    isVerboseMode: bool,
    chromeExecutable: Option<string>,
    startUrl: string,
    debugHost: string,
    debugPort: int,
    storeUserData: bool,
    proxy: string,
    otherArgs: string)

  const DefaultStartUrl := "https://google.com"
  const DefaultDebugHost := "localhost"
  const DefaultDebugPort := 9222

  /** `chromeExecutable` has no default: an unset or empty path reads as
      `undefined`. */
  function ChromeExecutable(settings: Settings): (r: Option<string>)
    ensures r.Some? <==> ("dot-website.chromeExecutable" in settings
      && settings["dot-website.chromeExecutable"].Str? && settings["dot-website.chromeExecutable"].s != "")
    ensures r.Some? ==> r.value == settings["dot-website.chromeExecutable"].s
  {
    var v := GetConfig(settings, "dot-website.chromeExecutable", Undefined);
    if v.Str? then Some(v.s) else None
  }

  function GetConfigs(settings: Settings, extensionPath: string): (c: Configuration)
    ensures c.extensionPath == extensionPath && c.columnNumber == 2 && !c.isDebug
    ensures c.quality != 0 && c.everyNthFrame != 0 && c.format != "" && c.startUrl != ""
    ensures c.debugHost != "" && c.debugPort != 0 && c.storeUserData
  {
    Configuration(
      extensionPath,
      2,
      false,
      AsInt(GetConfig(settings, "dot-website.quality", Num(100)), 100),
      AsInt(GetConfig(settings, "dot-website.everyNthFrame", Num(1)), 1),
      AsStr(GetConfig(settings, "dot-website.format", Str("png")), "png"),
      AsBool(GetConfig(settings, "dot-website.verbose", Bool(false)), false),
      ChromeExecutable(settings),
      AsStr(GetConfig(settings, "dot-website.startUrl", Str(DefaultStartUrl)), DefaultStartUrl),
      AsStr(GetConfig(settings, "dot-website.debugHost", Str(DefaultDebugHost)), DefaultDebugHost),
      AsInt(GetConfig(settings, "dot-website.debugPort", Num(DefaultDebugPort)), DefaultDebugPort),
      AsBool(GetConfig(settings, "dot-website.storeUserData", Bool(true)), true),
      AsStr(GetConfig(settings, "dot-website.proxy", Str("")), ""),
      AsStr(GetConfig(settings, "dot-website.otherArgs", Str("")), ""))
  }

  /** With nothing set, every setting takes its default. */
  lemma DefaultConfigs(extensionPath: string)
    ensures GetConfigs(map[], extensionPath)
      == Configuration(extensionPath, 2, false, 100, 1, "png", false, None,
                       "https://google.com", "localhost", 9222, true, "", "")
  {
  }

  /** Setting `storeUserData` to `false` is read as the default `true`, so
      the browser profile is always stored. */
  lemma StoreUserDataCannotBeTurnedOff(settings: Settings, extensionPath: string)
    requires "dot-website.storeUserData" in settings && settings["dot-website.storeUserData"] == Bool(false)
    ensures GetConfigs(settings, extensionPath).storeUserData
  {
  }

  /** A truthy value of the declared type is taken as set. */
  lemma TruthyStringSettingWins(settings: Settings, extensionPath: string, url: string)
    requires "dot-website.startUrl" in settings && settings["dot-website.startUrl"] == Str(url) && url != ""
    ensures GetConfigs(settings, extensionPath).startUrl == url
  {
  }

  // ---------------------------------------------------------------------
  // isDarkTheme
  // ---------------------------------------------------------------------

  /** The theme name is matched against "dark", "black" and "light" without
      regard to case. */
  predicate Mentions(theme: string, word: string) {
    Contains(Lower(theme), word)
  }

  /** "dark" or "black" anywhere means dark; otherwise "light" means light;
      a name with none of them is taken to be dark. */
  function ThemeIsDark(theme: string): (r: bool)
    ensures Mentions(theme, "dark") || Mentions(theme, "black") ==> r
  {
    if Mentions(theme, "dark") || Mentions(theme, "black") then true
    else if Mentions(theme, "light") then false
    else true
  }

  /** `isDarkTheme()`: the classifier applied to `workbench.colorTheme`,
      which reads as "" when unset. */
  function IsDarkTheme(settings: Settings): (r: bool)
    ensures "workbench.colorTheme" !in settings ==> r
  {
    ThemeIsDark(AsStr(GetConfig(settings, "workbench.colorTheme", Str("")), ""))
  }

  lemma ContainsMeans(s: string, word: string)
    ensures Contains(s, word) <==> exists k :: OccursAt(s, word, k)
  {
  }

  /** The theme is light exactly when "light" occurs in its lower-cased
      name and neither "dark" nor "black" does. */
  lemma LightIff(theme: string)
    ensures !ThemeIsDark(theme) <==>
      (exists k :: OccursAt(Lower(theme), "light", k))
      && (forall k :: !OccursAt(Lower(theme), "dark", k))
      && (forall k :: !OccursAt(Lower(theme), "black", k))
  {
    ContainsMeans(Lower(theme), "light");
    ContainsMeans(Lower(theme), "dark");
    ContainsMeans(Lower(theme), "black");
  }

  lemma {:induction false} LowerIdempotent(s: string)
    ensures Lower(Lower(s)) == Lower(s)
  {
    var l := Lower(s);
    assert Lower(l) == l by {
      forall i | 0 <= i < |l| ensures Lower(l)[i] == l[i] {
        assert l[i] == LowerChar(s[i]);
      }
    }
  }

  /** The classification ignores case. */
  lemma ThemeIgnoresCase(theme: string)
    ensures ThemeIsDark(Lower(theme)) == ThemeIsDark(theme)
  {
    LowerIdempotent(theme);
  }

  /** A word "dark" or "black", in any case, anywhere in the name makes the
      theme dark, whatever surrounds it. */
  lemma DarkWordWins(before: string, word: string, after: string)
    requires Lower(word) == "dark" || Lower(word) == "black"
    ensures ThemeIsDark(before + word + after)
  {
    var l := Lower(before + word + after);
    LowerAppend(before + word, after);
    LowerAppend(before, word);
    assert OccursAt(l, Lower(word), |before|) by {
      assert l[|before|..|before| + |Lower(word)|] == Lower(word);
    }
    ContainsMeans(l, Lower(word));
  }

  /** A word "light", in any case, makes the theme light unless "dark" or
      "black" occurs too. */
  lemma LightWordAlone(before: string, word: string, after: string)
    requires Lower(word) == "light"
    requires !Mentions(before + word + after, "dark") && !Mentions(before + word + after, "black")
    ensures !ThemeIsDark(before + word + after)
  {
    var l := Lower(before + word + after);
    LowerAppend(before + word, after);
    LowerAppend(before, word);
    assert OccursAt(l, "light", |before|) by {
      assert l[|before|..|before| + 5] == Lower(word);
    }
    ContainsMeans(l, "light");
  }

  // ---------------------------------------------------------------------
  // tryPort
  // ---------------------------------------------------------------------

  /** Ports outside 0..65535 make the listen call throw, which rejects the
      search. */
  const MaxPort := 65535
  const BadPort := "ERR_SOCKET_BAD_PORT"

  /** Reference definition: the first free port counting up from `start`. */
  function FirstFreePort(start: int, free: int -> bool): Result<int, string>
    decreases MaxPort + 1 - start
  {
    if start < 0 || start > MaxPort then Err(BadPort)
    else if free(start) then Ok(start)
    else FirstFreePort(start + 1, free)
  }

  /** The reference search returns the least free port at or above
      `start`, and fails only when there is none below the limit. */
  lemma {:induction false} FirstFreePortMeans(start: int, free: int -> bool)
    ensures var r := FirstFreePort(start, free);
      && (r.Ok? ==>
            start <= r.value <= MaxPort && free(r.value) && forall p :: start <= p < r.value ==> !free(p))
      && (r.Err? ==> start < 0 || forall p :: start <= p <= MaxPort ==> !free(p))
    decreases MaxPort + 1 - start
  {
    if 0 <= start <= MaxPort && !free(start) {
      FirstFreePortMeans(start + 1, free);
    }
  }

  /** `tryPort(start)`: each port is tried in turn until one is free. */
  method TryPort(start: int, free: int -> bool) returns (r: Result<int, string>)
    ensures r == FirstFreePort(start, free)
    ensures r.Ok? ==> start <= r.value <= MaxPort && free(r.value)
    ensures r.Ok? ==> forall p :: start <= p < r.value ==> !free(p)
  {
    if start < 0 || start > MaxPort {
      return Err(BadPort);
    }
    var port := start;
    while port <= MaxPort && !free(port)
      invariant start <= port <= MaxPort + 1
      invariant FirstFreePort(port, free) == FirstFreePort(start, free)
      decreases MaxPort + 1 - port
    {
      port := port + 1;
    }
    if port > MaxPort {
      r := Err(BadPort);
    } else {
      r := Ok(port);
    }
    FirstFreePortMeans(start, free);
  }

  /** Searching again from the port found finds the same port. */
  lemma TryPortIsStable(start: int, free: int -> bool)
    requires FirstFreePort(start, free).Ok?
    ensures FirstFreePort(FirstFreePort(start, free).value, free) == FirstFreePort(start, free)
  {
    FirstFreePortMeans(start, free);
  }
}

=== FILE: connection.dfy ===
/** The webview side of the message channel (`Connection`): every request
    gets the next id and a pending entry under that id; a reply carrying the
    id settles that entry once; a message without an id is an event. The
    host API and the promise machinery are replaced by explicit outcomes:
    whether `acquireVsCodeApi()` succeeds, how `postMessage` ends, and what
    the caller's promise ends up settled with. */
module Connection {
  import opened Wrappers
  import opened JsValues
  import opened Res

  /** What `this.vscode` holds: not yet asked for (or `null` after a failed
      attempt, which is falsy all the same), or the host API. */
  datatype Api = NoApi | HostApi

  /** A registered request: the method it was sent for (kept for the
      rejection). */
  datatype Pending = Pending(methodName: string)

  datatype State = State(lastId: nat, vscode: Api, callbacks: map<nat, Pending>)

  /** The message posted to the host. */
  datatype Posted = Posted(callbackId: nat, params: Value, methodName: string)

  /** How `send` leaves the caller's promise: resolved at once with the
      post's error, or pending under an id. */
  datatype SendResult = ResolvedWith(error: Value) | AwaitingReply(id: nat)

  /** How a promise was settled by an incoming message. */
  datatype Settlement = Resolve(result: Value) | Reject(error: Value, methodName: string)

  datatype Received =
    | Ignored
    | Settled(id: nat, how: Settlement)
    | Event(name: Value, result: Value)

  function Init(): State {
    State(0, NoApi, map[])
  }

  /** Every registered id has been handed out already. */
  predicate Valid(st: State) {
    forall id :: id in st.callbacks ==> 1 <= id <= st.lastId
  }

  /** `send(method, params)`. `acquired` says whether `acquireVsCodeApi()`
      would return the API if it is called; `post` is how `postMessage` ends
      if it is called. The second result is the message posted, if any. */
  function Send(st: State, methodName: string, params: Value, acquired: bool, post: Completion)
    : (r: (State, Option<Posted>, SendResult))
    requires Valid(st)
    ensures Valid(r.0)
    ensures r.0.lastId == st.lastId + 1
    ensures r.0.vscode == (if st.vscode == HostApi || acquired then HostApi else NoApi)
    ensures r.1.Some? <==> r.0.vscode == HostApi
    ensures r.1.Some? ==> r.1.value == Posted(r.0.lastId, params, methodName)
    ensures r.2.AwaitingReply? ==> r.2.id == r.0.lastId && r.0.callbacks == st.callbacks[r.2.id := Pending(methodName)]
    ensures r.2.ResolvedWith? ==> r.0.callbacks == st.callbacks
  {
    var id := st.lastId + 1;
    var api := if st.vscode == HostApi || acquired then HostApi else NoApi;
    if api == HostApi then
      var captured := ResAsync(post);
      if Truthy(captured.err) then
        (State(id, api, st.callbacks), Some(Posted(id, params, methodName)), ResolvedWith(captured.err))
      else
        (State(id, api, st.callbacks[id := Pending(methodName)]), Some(Posted(id, params, methodName)), AwaitingReply(id))
    else
      (State(id, api, st.callbacks[id := Pending(methodName)]), None, AwaitingReply(id))
  }

  /** `onMessage` with the event's `data`. */
  function OnMessage(st: State, data: Value): (r: (State, Received))
    requires Valid(st)
    ensures Valid(r.0)
    ensures r.1.Settled? ==> r.1.id in st.callbacks && r.0.callbacks == st.callbacks - {r.1.id}
    ensures !r.1.Settled? ==> r.0 == st
    ensures r.0.lastId == st.lastId && r.0.vscode == st.vscode
  {
    if !Truthy(data) then (st, Ignored)
    else
      var cid := Prop(data, "callbackId");
      if Truthy(cid) then
        if cid.Num? && cid.n >= 0 && cid.n as nat in st.callbacks then
          var id := cid.n as nat;
          var how := if Truthy(Prop(data, "error")) then Reject(Prop(data, "error"), st.callbacks[id].methodName)
                     else Resolve(Prop(data, "result"));
          (st.(callbacks := st.callbacks - {id}), Settled(id, how))
        else (st, Ignored)
      else (st, Event(Prop(data, "method"), Prop(data, "result")))
  }

  // ---------------------------------------------------------------------
  // properties
  // ---------------------------------------------------------------------

  /** Ids are handed out 1, 2, 3, ...: after `n` sends the last id is `n`,
      whether or not the posts succeeded. */
  lemma IdsCountSends(st: State, methodName: string, params: Value, acquired: bool, post: Completion)
    requires Valid(st)
    ensures var r := Send(st, methodName, params, acquired, post);
            r.0.lastId == st.lastId + 1 && r.0.lastId !in st.callbacks
  {
  }

  /** A post that throws a truthy error resolves the caller with that error
      and registers nothing; any other send registers exactly one new entry. */
  lemma SendRegistersUnlessPostFails(st: State, methodName: string, params: Value, acquired: bool, post: Completion)
    requires Valid(st)
    ensures var r := Send(st, methodName, params, acquired, post);
            (r.2.ResolvedWith? <==> r.0.vscode == HostApi && post.Threw? && Truthy(post.error))
            && (r.2.ResolvedWith? ==> r.2.error == post.error)
            && (r.2.AwaitingReply? ==> |r.0.callbacks| == |st.callbacks| + 1)
  {
    var r := Send(st, methodName, params, acquired, post);
    if r.2.AwaitingReply? {
      assert r.0.lastId !in st.callbacks;
    }
  }

  /** A reply with a known id settles that entry, rejecting with `error`
      when it is truthy and resolving with `result` otherwise. */
  lemma ReplySettles(st: State, id: nat, data: Value)
    requires Valid(st) && id in st.callbacks && id >= 1
    requires data.Obj? && Prop(data, "callbackId") == Num(id)
    ensures var r := OnMessage(st, data);
            && r.1 == Settled(id, if Truthy(Prop(data, "error"))
                                  then Reject(Prop(data, "error"), st.callbacks[id].methodName)
                                  else Resolve(Prop(data, "result")))
            && r.0.callbacks == st.callbacks - {id}
  {
  }

  /** Each entry is settled at most once: the same reply arriving again is
      ignored and changes nothing. */
  lemma SettlesAtMostOnce(st: State, data: Value)
    requires Valid(st)
    ensures var r1 := OnMessage(st, data);
            r1.1.Settled? ==> OnMessage(r1.0, data) == (r1.0, Ignored)
  {
  }

  /** A message without a truthy id is an event: it is passed on under its
      `method` and the pending entries are untouched. */
  lemma EventsLeavePendingAlone(st: State, data: Value)
    requires Valid(st) && Truthy(data) && !Truthy(Prop(data, "callbackId"))
    ensures OnMessage(st, data) == (st, Event(Prop(data, "method"), Prop(data, "result")))
  {
  }

  /** A run of sends and messages from the initial state keeps every
      pending id below the counter, so a new id never overwrites an entry. */
  datatype Step = SendStep(methodName: string, params: Value, acquired: bool, post: Completion) | MessageStep(data: Value)

  function Run(st: State, steps: seq<Step>): (r: State)
    requires Valid(st)
    ensures Valid(r)
    ensures r.lastId == st.lastId + Sends(steps)
    decreases |steps|
  {
    if steps == [] then st
    else
      var s := steps[0];
      var next := match s
        case SendStep(m, p, a, c) => Send(st, m, p, a, c).0
        case MessageStep(d) => OnMessage(st, d).0;
      Run(next, steps[1..])
  }

  function Sends(steps: seq<Step>): nat {
    if steps == [] then 0 else (if steps[0].SendStep? then 1 else 0) + Sends(steps[1..])
  }

  /** Pending entries never outnumber the requests sent. */
  lemma {:induction false} PendingBoundedBySends(steps: seq<Step>)
    ensures |Run(Init(), steps).callbacks| <= Sends(steps)
  {
    PendingBounded(Init(), steps);
  }

  lemma {:induction false} PendingBounded(st: State, steps: seq<Step>)
    requires Valid(st)
    ensures |Run(st, steps).callbacks| <= |st.callbacks| + Sends(steps)
    decreases |steps|
  {
    if steps != [] {
      var next := match steps[0]
        case SendStep(m, p, a, c) => Send(st, m, p, a, c).0
        case MessageStep(d) => OnMessage(st, d).0;
      if steps[0].SendStep? {
        var s := steps[0];
        SendRegistersUnlessPostFails(st, s.methodName, s.params, s.acquired, s.post);
      } else {
        var r := OnMessage(st, steps[0].data);
        if r.1.Settled? {
          assert |st.callbacks - {r.1.id}| == |st.callbacks| - 1;
        }
      }
      PendingBounded(next, steps[1..]);
    }
  }
}

=== FILE: context_menu.dfy ===
/** The viewport context menu of the webview client: a fixed list of items,
    a reducer that decides which items are disabled from the menu's state,
    the prop-to-state wiring, and the click handlers, which are modelled by
    the list of `onActionInvoked` calls they make. */
module ContextMenu {
  import opened Wrappers
  import opened JsValues
  import Strs
  import Selection
  import BrowserPage

  // ---------------------------------------------------------------------
  // Items
  // ---------------------------------------------------------------------

  datatype ItemType = Cut | Copy | Paste | SelectAll | CopyLink | CopyLinkDomain | Separator

  /** The caption each item kind renders (the enum's string value). */
  function Caption(t: ItemType): string {
    match t
    case Cut => "Cut"
    case Copy => "Copy"
    case Paste => "Paste"
    case SelectAll => "Select All"
    case CopyLink => "Copy Link"
    case CopyLinkDomain => "Copy Domain URL"
    case Separator => "-"
  }

  /** Distinct kinds render distinct captions, so a caption names its item. */
  lemma CaptionInjective(a: ItemType, b: ItemType)
    ensures Caption(a) == Caption(b) ==> a == b
  {
  }

  /** `isDisabled` is optional; the item component treats a missing value as
      `false`. */
  datatype Item = Item(itemType: ItemType, isDisabled: Option<bool>)

  predicate Enabled(it: Item) {
    it.isDisabled != Some(true)
  }

  function Kinds(items: seq<Item>): (r: seq<ItemType>)
    ensures |r| == |items|
    ensures forall i :: 0 <= i < |items| ==> r[i] == items[i].itemType
  {
    if items == [] then [] else [items[0].itemType] + Kinds(items[1..])
  }

  /** The menu the constructor builds, in display order. */
  function Menu(): seq<Item> {
    [Item(Cut, None), Item(Copy, None), Item(Paste, None), Item(Separator, None),
     Item(SelectAll, None), Item(CopyLink, None), Item(CopyLinkDomain, None)]
  }

  /** The menu's order, and every item starts without a status. */
  lemma MenuOrder()
    ensures Kinds(Menu()) == [Cut, Copy, Paste, Separator, SelectAll, CopyLink, CopyLinkDomain]
    ensures forall i :: 0 <= i < |Menu()| ==> Menu()[i].isDisabled.None? && Enabled(Menu()[i])
  {
  }

  // ---------------------------------------------------------------------
  // Menu state
  // ---------------------------------------------------------------------

  datatype Position = Position(x: int, y: int)

  datatype MenuState = MenuState(
    items: seq<Item>,
    isVisible: bool,
    position: Position,
    selectedUid: string,
    selectedText: string,
    editable: bool,
    href: string)

  /** The props the parent passes; only the fields the component reads. */
  datatype Props = Props(position: Position, selectedText: string, href: string, isVisible: bool)

  /** The constructor: hidden, at the origin, no uid, not editable; the text
      and href are copied from the initial props. */
  function Construct(p: Props): (st: MenuState)
    ensures st.items == Menu() && !st.isVisible && !st.editable
    ensures st.selectedText == p.selectedText && st.href == p.href && st.selectedUid == ""
    ensures st.position == Position(0, 0)
  {
    MenuState(Menu(), false, Position(0, 0), "", p.selectedText, false, p.href)
  }

  // ---------------------------------------------------------------------
  // manageMenuItemsStatus
  // ---------------------------------------------------------------------

  /** `findIndex` on the item kind: the first index, or -1. */
  function FindIndex(items: seq<Item>, t: ItemType): (r: int)
    ensures -1 <= r < |items|
    ensures r >= 0 ==> items[r].itemType == t
  {
    if items == [] then -1
    else if items[0].itemType == t then 0
    else
      var k := FindIndex(items[1..], t);
      if k == -1 then -1 else k + 1
  }

  /** -1 means the kind is absent; otherwise no earlier item has it. */
  lemma {:induction false} FindIndexMeans(items: seq<Item>, t: ItemType)
    ensures var r := FindIndex(items, t);
      && (r == -1 <==> forall j :: 0 <= j < |items| ==> items[j].itemType != t)
      && (r >= 0 ==> forall j :: 0 <= j < r ==> items[j].itemType != t)
  {
    if items != [] && items[0].itemType != t {
      FindIndexMeans(items[1..], t);
      assert forall j :: 1 <= j < |items| ==> items[j] == items[1..][j - 1];
    }
  }

  /** Whether `i` is the first item of its kind. */
  predicate FirstOfKind(items: seq<Item>, i: int)
    requires 0 <= i < |items|
  {
    FindIndex(items, items[i].itemType) == i
  }

  /** No earlier item shares the kind of a first item. */
  lemma FirstOfKindMeans(items: seq<Item>, i: int)
    requires 0 <= i < |items|
    ensures FirstOfKind(items, i) <==> forall j :: 0 <= j < i ==> items[j].itemType != items[i].itemType
  {
    FindIndexMeans(items, items[i].itemType);
  }

  /** `_menuItems[i].isDisabled = b`, skipped when the item was not found. */
  function SetDisabled(items: seq<Item>, i: int, b: bool): (r: seq<Item>)
    requires -1 <= i < |items|
    ensures |r| == |items|
    ensures forall j :: 0 <= j < |r| && j != i ==> r[j] == items[j]
    ensures 0 <= i ==> r[i] == Item(items[i].itemType, Some(b))
  {
    if i < 0 then items else items[i := Item(items[i].itemType, Some(b))]
  }

  /** Both link items are in the list; the reducer leaves them alone
      otherwise. */
  predicate LinksPresent(items: seq<Item>) {
    Has(items, CopyLink) && Has(items, CopyLinkDomain)
  }

  predicate Has(items: seq<Item>, t: ItemType) {
    FindIndex(items, t) != -1
  }

  /** `onActionInvoked` exists and reading the clipboard resolved truthy. */
  predicate PasteAllowed(clipboard: Option<Value>) {
    clipboard.Some? && Truthy(clipboard.value)
  }

  /** What the reducer decides for the first item of kind `t`: the new
      `isDisabled`, or None when it leaves the item alone. */
  function Verdict(t: ItemType, st: MenuState, clipboard: Option<Value>): Option<bool> {
    var hasText := |st.selectedText| > 0;
    match t
    case Cut => Some(!(hasText && st.editable))
    case Copy => Some(!hasText)
    case Paste => Some(!(PasteAllowed(clipboard)))
    case CopyLink => if LinksPresent(st.items) then Some(|st.href| == 0) else None
    case CopyLinkDomain => if LinksPresent(st.items) then Some(|st.href| == 0) else None
    case SelectAll => None
    case Separator => None
  }

  /** The reducer's effect on item `i`, stated position by position. */
  function Reduced(st: MenuState, clipboard: Option<Value>, i: int): Item
    requires 0 <= i < |st.items|
  {
    var it := st.items[i];
    if FirstOfKind(st.items, i) && Verdict(it.itemType, st, clipboard).Some?
    then Item(it.itemType, Verdict(it.itemType, st, clipboard))
    else it
  }

  /** The reducer. `clipboard` is what `onActionInvoked('readClipboard')`
      resolved to, or None when the prop is absent. The link items are
      updated only when both are present. */
  function ManageMenuItemsStatus(st: MenuState, clipboard: Option<Value>): (r: seq<Item>)
    ensures |r| == |st.items|
    ensures forall i :: 0 <= i < |r| ==> r[i] == Reduced(st, clipboard, i)
  {
    var r := Chain(st, clipboard);
    forall i | 0 <= i < |r|
      ensures r[i] == Reduced(st, clipboard, i)
    {
      ChainAt(st, clipboard, i);
    }
    r
  }

  /** The statements of `manageMenuItemsStatus` in source order: the three
      clipboard items, then the two link items if both exist. */
  function Chain(st: MenuState, clipboard: Option<Value>): (r: seq<Item>)
    ensures |r| == |st.items|
  {
    var items := st.items;
    var s3 := ClipboardItems(st, clipboard);
    var link := FindIndex(items, CopyLink);
    var domain := FindIndex(items, CopyLinkDomain);
    if link == -1 || domain == -1 then s3
    else SetDisabled(SetDisabled(s3, link, |st.href| == 0), domain, |st.href| == 0)
  }

  function ClipboardItems(st: MenuState, clipboard: Option<Value>): (r: seq<Item>)
    ensures |r| == |st.items|
  {
    var items := st.items;
    var hasText := |st.selectedText| > 0;
    var s1 := SetDisabled(items, FindIndex(items, Cut), !(hasText && st.editable));
    var s2 := SetDisabled(s1, FindIndex(items, Copy), !hasText);
    SetDisabled(s2, FindIndex(items, Paste), !(PasteAllowed(clipboard)))
  }

  /** `findIndex(u)` lands on `i` exactly when `i` is the first item of
      kind `u`. */
  lemma HitIff(items: seq<Item>, u: ItemType, i: int)
    requires 0 <= i < |items|
    ensures FindIndex(items, u) == i <==> items[i].itemType == u && FirstOfKind(items, i)
  {
  }

  lemma ClipboardItemsAt(st: MenuState, clipboard: Option<Value>, i: int)
    requires 0 <= i < |st.items|
    ensures var t := st.items[i].itemType;
      ClipboardItems(st, clipboard)[i] ==
        if FirstOfKind(st.items, i) && (t == Cut || t == Copy || t == Paste)
        then Item(t, Verdict(t, st, clipboard)) else st.items[i]
  {
    HitIff(st.items, Cut, i);
    HitIff(st.items, Copy, i);
    HitIff(st.items, Paste, i);
  }

  /** Only the assignment aimed at index `i` decides item `i`. */
  lemma ChainAt(st: MenuState, clipboard: Option<Value>, i: int)
    requires 0 <= i < |st.items|
    ensures Chain(st, clipboard)[i] == Reduced(st, clipboard, i)
  {
    var items := st.items;
    var t := items[i].itemType;
    var first := FirstOfKind(items, i);
    HitIff(items, CopyLink, i);
    HitIff(items, CopyLinkDomain, i);
    ClipboardItemsAt(st, clipboard, i);
    var s3 := ClipboardItems(st, clipboard);
    var v := Verdict(t, st, clipboard);
    assert Reduced(st, clipboard, i) == if first && v.Some? then Item(t, v) else items[i];
    if LinksPresent(items) {
      if first && (t == CopyLink || t == CopyLinkDomain) {
        assert Chain(st, clipboard)[i] == Item(t, Some(|st.href| == 0));
      } else {
        assert Chain(st, clipboard)[i] == s3[i];
      }
    } else {
      assert Chain(st, clipboard) == s3;
    }
  }

  /** Cut is enabled iff some text is selected and the element is editable. */
  lemma CutEnabledIff(st: MenuState, clipboard: Option<Value>, i: int)
    requires 0 <= i < |st.items| && FirstOfKind(st.items, i) && st.items[i].itemType == Cut
    ensures var r := ManageMenuItemsStatus(st, clipboard);
      r[i].isDisabled.Some? && (Enabled(r[i]) <==> st.selectedText != "" && st.editable)
  {
  }

  /** Copy is enabled iff some text is selected. */
  lemma CopyEnabledIff(st: MenuState, clipboard: Option<Value>, i: int)
    requires 0 <= i < |st.items| && FirstOfKind(st.items, i) && st.items[i].itemType == Copy
    ensures var r := ManageMenuItemsStatus(st, clipboard);
      r[i].isDisabled.Some? && (Enabled(r[i]) <==> st.selectedText != "")
  {
  }

  /** Paste is enabled iff the handler exists and reading the clipboard
      resolved to a truthy value. */
  lemma PasteEnabledIff(st: MenuState, clipboard: Option<Value>, i: int)
    requires 0 <= i < |st.items| && FirstOfKind(st.items, i) && st.items[i].itemType == Paste
    ensures var r := ManageMenuItemsStatus(st, clipboard);
      r[i].isDisabled.Some? && (Enabled(r[i]) <==> PasteAllowed(clipboard))
  {
  }

  /** With both link items present, each is enabled iff href is non-empty;
      with either missing, neither is touched. */
  lemma LinksEnabledIff(st: MenuState, clipboard: Option<Value>, i: int)
    requires 0 <= i < |st.items| && FirstOfKind(st.items, i)
    requires st.items[i].itemType == CopyLink || st.items[i].itemType == CopyLinkDomain
    ensures var r := ManageMenuItemsStatus(st, clipboard);
      if LinksPresent(st.items)
      then r[i].isDisabled.Some? && (Enabled(r[i]) <==> st.href != "")
      else r[i] == st.items[i]
  {
  }

  /** The reducer only flips `isDisabled`: kinds and order are kept, and
      Select All, the separator and repeated kinds are never touched. */
  lemma ManageOnlyFlipsDisabled(st: MenuState, clipboard: Option<Value>)
    ensures var r := ManageMenuItemsStatus(st, clipboard);
      Kinds(r) == Kinds(st.items)
      && forall i :: 0 <= i < |r| && (!FirstOfKind(st.items, i) || st.items[i].itemType in {SelectAll, Separator}) ==>
        r[i] == st.items[i]
  {
    var r := ManageMenuItemsStatus(st, clipboard);
    forall i | 0 <= i < |r|
      ensures Kinds(r)[i] == Kinds(st.items)[i]
      ensures !FirstOfKind(st.items, i) || st.items[i].itemType in {SelectAll, Separator} ==> r[i] == st.items[i]
    {
      ReducedKeepsKind(st, clipboard, i);
    }
  }

  lemma ReducedKeepsKind(st: MenuState, clipboard: Option<Value>, i: int)
    requires 0 <= i < |st.items|
    ensures Reduced(st, clipboard, i).itemType == st.items[i].itemType
    ensures st.items[i].itemType == SelectAll || st.items[i].itemType == Separator ==> Reduced(st, clipboard, i) == st.items[i]
    ensures !FirstOfKind(st.items, i) ==> Reduced(st, clipboard, i) == st.items[i]
  {
  }

  /** On the constructor's list every item but Select All and the separator
      gets a definite status. */
  lemma MenuStatus(st: MenuState, clipboard: Option<Value>)
    requires st.items == Menu()
    ensures var hasText := |st.selectedText| > 0;
      var pasteOk := PasteAllowed(clipboard);
      ManageMenuItemsStatus(st, clipboard) ==
        [Item(Cut, Some(!(hasText && st.editable))), Item(Copy, Some(!hasText)),
         Item(Paste, Some(!pasteOk)), Item(Separator, None), Item(SelectAll, None),
         Item(CopyLink, Some(|st.href| == 0)), Item(CopyLinkDomain, Some(|st.href| == 0))]
  {
    var hasText := |st.selectedText| > 0;
    var r := ManageMenuItemsStatus(st, clipboard);
    var want := [Item(Cut, Some(!(hasText && st.editable))), Item(Copy, Some(!hasText)),
                 Item(Paste, Some(!PasteAllowed(clipboard))), Item(Separator, None), Item(SelectAll, None),
                 Item(CopyLink, Some(|st.href| == 0)), Item(CopyLinkDomain, Some(|st.href| == 0))];
    MenuClipboardItems(st, clipboard);
    MenuLinkItems(st, clipboard);
    MenuUntouched(st, clipboard);
    assert |r| == |want|;
    forall i | 0 <= i < |want|
      ensures r[i] == want[i]
    {
    }
  }

  lemma MenuUntouched(st: MenuState, clipboard: Option<Value>)
    requires st.items == Menu()
    ensures var r := ManageMenuItemsStatus(st, clipboard);
      r[3] == Item(Separator, None) && r[4] == Item(SelectAll, None)
  {
    assert Verdict(Separator, st, clipboard).None? && Verdict(SelectAll, st, clipboard).None?;
  }

  lemma MenuClipboardItems(st: MenuState, clipboard: Option<Value>)
    requires st.items == Menu()
    ensures var r := ManageMenuItemsStatus(st, clipboard);
      var hasText := |st.selectedText| > 0;
      && r[0] == Item(Cut, Some(!(hasText && st.editable)))
      && r[1] == Item(Copy, Some(!hasText))
      && r[2] == Item(Paste, Some(!(PasteAllowed(clipboard))))
  {
    FirstOfKindMeans(st.items, 0);
    FirstOfKindMeans(st.items, 1);
    FirstOfKindMeans(st.items, 2);
  }

  lemma MenuLinkItems(st: MenuState, clipboard: Option<Value>)
    requires st.items == Menu()
    ensures var r := ManageMenuItemsStatus(st, clipboard);
      && r[5] == Item(CopyLink, Some(|st.href| == 0))
      && r[6] == Item(CopyLinkDomain, Some(|st.href| == 0))
  {
    MenuLinksFirst();
  }

  lemma MenuLinksFirst()
    ensures LinksPresent(Menu()) && FirstOfKind(Menu(), 5) && FirstOfKind(Menu(), 6)
  {
    var items := Menu();
    assert items[5].itemType == CopyLink && items[6].itemType == CopyLinkDomain;
    FindIndexMeans(items, CopyLink);
    FindIndexMeans(items, CopyLinkDomain);
    FirstOfKindMeans(items, 5);
    FirstOfKindMeans(items, 6);
  }

  /** Lists with the same kinds in the same order agree on `findIndex`. */
  lemma FindIndexSameKinds(a: seq<Item>, b: seq<Item>, t: ItemType)
    requires |a| == |b| && forall j :: 0 <= j < |a| ==> a[j].itemType == b[j].itemType
    ensures FindIndex(a, t) == FindIndex(b, t)
  {
    var ra, rb := FindIndex(a, t), FindIndex(b, t);
    FindIndexMeans(a, t);
    FindIndexMeans(b, t);
    if ra != -1 && rb != -1 {
      assert !(ra < rb) && !(rb < ra);
    }
  }

  /** Running the reducer again with the same inputs changes nothing, so the
      repeated calls from one prop update agree with a single call. */
  lemma ManageIdempotent(st: MenuState, clipboard: Option<Value>)
    ensures var once := ManageMenuItemsStatus(st, clipboard);
      ManageMenuItemsStatus(st.(items := once), clipboard) == once
  {
    var once := ManageMenuItemsStatus(st, clipboard);
    var twice := ManageMenuItemsStatus(st.(items := once), clipboard);
    ManageKeepsFindIndex(st, clipboard);
    forall i | 0 <= i < |once|
      ensures twice[i] == once[i]
    {
      IdempotentAt(st, clipboard, i);
    }
  }

  /** The reducer keeps every kind in place, so `findIndex` answers alike
      before and after it. */
  lemma ManageKeepsFindIndex(st: MenuState, clipboard: Option<Value>)
    ensures var once := ManageMenuItemsStatus(st, clipboard);
      forall u: ItemType :: FindIndex(once, u) == FindIndex(st.items, u)
  {
    var once := ManageMenuItemsStatus(st, clipboard);
    forall j | 0 <= j < |once|
      ensures once[j].itemType == st.items[j].itemType
    {
      ReducedKeepsKind(st, clipboard, j);
    }
    forall u: ItemType
      ensures FindIndex(once, u) == FindIndex(st.items, u)
    {
      FindIndexSameKinds(once, st.items, u);
    }
  }

  lemma IdempotentAt(st: MenuState, clipboard: Option<Value>, i: int)
    requires 0 <= i < |st.items|
    requires var once := ManageMenuItemsStatus(st, clipboard);
      forall u: ItemType :: FindIndex(once, u) == FindIndex(st.items, u)
    ensures var once := ManageMenuItemsStatus(st, clipboard);
      ManageMenuItemsStatus(st.(items := once), clipboard)[i] == once[i]
  {
    var once := ManageMenuItemsStatus(st, clipboard);
    var st2 := st.(items := once);
    var t := st.items[i].itemType;
    assert once[i] == Reduced(st, clipboard, i);
    assert once[i].itemType == t;
    assert FindIndex(once, t) == FindIndex(st.items, t);
    assert LinksPresent(once) == LinksPresent(st.items) by {
      assert FindIndex(once, CopyLink) == FindIndex(st.items, CopyLink);
      assert FindIndex(once, CopyLinkDomain) == FindIndex(st.items, CopyLinkDomain);
    }
    assert Verdict(t, st2, clipboard) == Verdict(t, st, clipboard);
    assert ManageMenuItemsStatus(st2, clipboard)[i] == Reduced(st2, clipboard, i);
  }

  // ---------------------------------------------------------------------
  // Prop changes
  // ---------------------------------------------------------------------

  /** `UNSAFE_componentWillReceiveProps`: position and visibility follow the
      props, while the text and href are set back to the state's own values;
      any difference in text, href or visibility re-runs the reducer. The
      reducer does not read position or visibility, so React's deferred
      state update does not change its outcome. */
  function ReceiveProps(st: MenuState, p: Props, clipboard: Option<Value>): (r: MenuState)
    ensures r.position == p.position && r.isVisible == p.isVisible
    ensures r.selectedText == st.selectedText && r.href == st.href
    ensures r.editable == st.editable && r.selectedUid == st.selectedUid
    ensures p.selectedText == st.selectedText && p.href == st.href && p.isVisible == st.isVisible ==>
      r.items == st.items
    ensures r.items == st.items || r.items == ManageMenuItemsStatus(st, clipboard)
  {
    var rerun := p.selectedText != st.selectedText || p.href != st.href || p.isVisible != st.isVisible;
    var items := if rerun then ManageMenuItemsStatus(st, clipboard) else st.items;
    st.(position := p.position, isVisible := p.isVisible, items := items)
  }

  function ReceiveAll(st: MenuState, ps: seq<Props>, clipboard: Option<Value>): MenuState
    decreases |ps|
  {
    if ps == [] then st else ReceiveAll(ReceiveProps(st, ps[0], clipboard), ps[1..], clipboard)
  }

  /** Whatever props arrive later, the menu keeps the text and href it was
      constructed with. */
  lemma {:induction false} PropsNeverChangeText(st: MenuState, ps: seq<Props>, clipboard: Option<Value>)
    ensures ReceiveAll(st, ps, clipboard).selectedText == st.selectedText
    ensures ReceiveAll(st, ps, clipboard).href == st.href
    ensures ReceiveAll(st, ps, clipboard).editable == st.editable
    ensures ReceiveAll(st, ps, clipboard).selectedUid == st.selectedUid
    decreases |ps|
  {
    if ps != [] {
      PropsNeverChangeText(ReceiveProps(st, ps[0], clipboard), ps[1..], clipboard);
    }
  }

  /** A menu constructed with empty text never offers Cut or Copy once the
      reducer has run, whatever text later props carry. */
  lemma PropsCannotEnableCopy(p0: Props, ps: seq<Props>, clipboard: Option<Value>)
    requires p0.selectedText == ""
    ensures var st := ReceiveAll(Construct(p0), ps, clipboard);
      var r := ManageMenuItemsStatus(st, clipboard);
      |r| == 7 && r[0].itemType == Cut && r[1].itemType == Copy && !Enabled(r[0]) && !Enabled(r[1])
  {
    var st := ReceiveAll(Construct(p0), ps, clipboard);
    PropsNeverChangeText(Construct(p0), ps, clipboard);
    KindsStable(Construct(p0), ps, clipboard);
    EmptyTextDisablesCopy(st, clipboard);
  }

  lemma EmptyTextDisablesCopy(st: MenuState, clipboard: Option<Value>)
    requires st.selectedText == "" && Kinds(st.items) == Kinds(Menu())
    ensures var r := ManageMenuItemsStatus(st, clipboard);
      |r| == 7 && r[0].itemType == Cut && r[1].itemType == Copy && !Enabled(r[0]) && !Enabled(r[1])
  {
    MenuOrder();
    assert |st.items| == 7;
    assert st.items[0].itemType == Kinds(st.items)[0] == Cut;
    assert st.items[1].itemType == Kinds(st.items)[1] == Copy;
    FirstOfKindMeans(st.items, 0);
    FirstOfKindMeans(st.items, 1);
  }

  lemma {:induction false} KindsStable(st: MenuState, ps: seq<Props>, clipboard: Option<Value>)
    ensures Kinds(ReceiveAll(st, ps, clipboard).items) == Kinds(st.items)
    decreases |ps|
  {
    if ps != [] {
      ManageOnlyFlipsDisabled(st, clipboard);
      KindsStable(ReceiveProps(st, ps[0], clipboard), ps[1..], clipboard);
    }
  }

  // ---------------------------------------------------------------------
  // Click handlers
  // ---------------------------------------------------------------------

  /** The calls a handler makes through `onActionInvoked`, in order. */
  datatype Invocation =
    | WriteClipboard(value: string)
    | ReadClipboard
    | RemoveSelection(uid: string)
    | PasteSelection(uid: string, text: Value)
    | SelectAllIn(uid: string)

  /** The WHATWG URL fields the copy-domain handler reads: `protocol`
      includes its trailing ":", `port` is "" for a scheme's default port. */
  datatype Url = Url(protocol: string, hostname: string, port: string)

  /** `${protocol}//${hostname}` plus `:${port}` when the port is non-empty;
      "" when `new URL` threw. */
  function DomainLink(parsed: Option<Url>): (r: string)
    ensures parsed.None? ==> r == ""
    ensures parsed.Some? ==> Strs.StartsWith(r, parsed.value.protocol + "//" + parsed.value.hostname)
  {
    match parsed
    case None => ""
    case Some(u) =>
      var main := u.protocol + "//" + u.hostname;
      assert (if u.port != "" then main + ":" + u.port else main)[..|main|] == main;
      if u.port != "" then main + ":" + u.port else main
  }

  datatype Clicked = Clicked(calls: seq<Invocation>, st: MenuState)

  function Hide(st: MenuState): MenuState {
    st.(isVisible := false)
  }

  /** A click on an item. `hasHandler` is whether `onActionInvoked` is
      present, `clip` what reading the clipboard resolves to, and `parsed`
      the outcome of `new URL(href)`. */
  function Click(st: MenuState, t: ItemType, hasHandler: bool, clip: Value, parsed: Option<Url>): (r: Clicked)
    ensures r.calls == [] ==> r.st == st
    ensures r.calls != [] ==> r.st == Hide(st)
    ensures !hasHandler ==> r == Clicked([], st)
    ensures t in {Cut, Copy} && hasHandler && st.selectedText != "" ==>
      |r.calls| >= 1 && r.calls[0] == WriteClipboard(st.selectedText)
    ensures t in {Cut, Copy} && st.selectedText == "" ==> r == Clicked([], st)
    ensures t in {CopyLink, CopyLinkDomain} && st.href == "" ==> r == Clicked([], st)
    ensures t == Separator ==> r == Clicked([], st)
  {
    if !hasHandler then Clicked([], st)
    else match t
      case Cut =>
        if st.selectedText == "" then Clicked([], st)
        else Clicked([WriteClipboard(st.selectedText), RemoveSelection(st.selectedUid)], Hide(st))
      case Copy =>
        if st.selectedText == "" then Clicked([], st)
        else Clicked([WriteClipboard(st.selectedText)], Hide(st))
      case Paste =>
        Clicked([ReadClipboard, PasteSelection(st.selectedUid, clip)], Hide(st))
      case SelectAll =>
        Clicked([SelectAllIn(st.selectedUid)], Hide(st))
      case CopyLink =>
        if st.href == "" then Clicked([], st)
        else Clicked([WriteClipboard(st.href)], Hide(st))
      case CopyLinkDomain =>
        if st.href == "" then Clicked([], st)
        else Clicked([WriteClipboard(DomainLink(parsed))], Hide(st))
      case Separator => Clicked([], st)
  }

  /** Cut writes the clipboard and only then removes the selection, both
      against the uid the menu holds. */
  lemma CutWritesBeforeRemoving(st: MenuState, clip: Value, parsed: Option<Url>)
    requires st.selectedText != ""
    ensures Click(st, Cut, true, clip, parsed).calls ==
      [WriteClipboard(st.selectedText), RemoveSelection(st.selectedUid)]
    ensures !Click(st, Cut, true, clip, parsed).st.isVisible
  {
  }

  /** Copy Link writes the href exactly, as the component test expects for
      "https://example.com". */
  lemma CopyLinkExample(st: MenuState, clip: Value, parsed: Option<Url>)
    requires st.href == "https://example.com"
    ensures Click(st, CopyLink, true, clip, parsed).calls == [WriteClipboard("https://example.com")]
  {
  }

  /** Paste forwards whatever the clipboard read produced, even a falsy value. */
  lemma PasteForwardsClipboard(st: MenuState, clip: Value, parsed: Option<Url>)
    ensures Click(st, Paste, true, clip, parsed).calls ==
      [ReadClipboard, PasteSelection(st.selectedUid, clip)]
  {
  }

  /** A failed parse still writes the clipboard, with "". */
  lemma CopyDomainOnParseFailure(st: MenuState, clip: Value)
    requires st.href != ""
    ensures Click(st, CopyLinkDomain, true, clip, None).calls == [WriteClipboard("")]
  {
  }

  // ---------------------------------------------------------------------
  // The domain link determines the origin
  // ---------------------------------------------------------------------

  function FirstColon(s: string): (r: Option<nat>)
    ensures r.Some? ==> r.value < |s| && s[r.value] == ':' && ':' !in s[..r.value]
    ensures r.None? <==> ':' !in s
  {
    if s == [] then None
    else if s[0] == ':' then Some(0)
    else match FirstColon(s[1..])
      case None => None
      case Some(k) =>
        assert s[..k + 1] == [s[0]] + s[1..][..k];
        Some(k + 1)
  }

  function LastColon(s: string): (r: Option<nat>)
    ensures r.Some? ==> r.value < |s| && s[r.value] == ':' && ':' !in s[r.value + 1..]
    ensures r.None? <==> ':' !in s
  {
    if s == [] then None
    else if s[|s| - 1] == ':' then Some(|s| - 1)
    else
      var init := s[..|s| - 1];
      assert s == init + [s[|s| - 1]];
      match LastColon(init)
      case None => None
      case Some(k) =>
        assert s[k + 1..] == init[k + 1..] + [s[|s| - 1]];
        Some(k)
  }

  /** The fields of a URL as WHATWG serializes them: a scheme without ":"
      followed by ":", a host that is either free of ":" or a bracketed IPv6
      address, and a port of decimal digits. */
  predicate WellFormed(u: Url) {
    && |u.protocol| >= 1
    && u.protocol[|u.protocol| - 1] == ':'
    && ':' !in u.protocol[..|u.protocol| - 1]
    && (':' !in u.hostname || (|u.hostname| > 0 && u.hostname[|u.hostname| - 1] == ']'))
    && Strs.All(u.port, Strs.IsDigit)
  }

  /** Reads an origin back: the protocol runs to the first ":", "//"
      follows, and a trailing ":digits" is the port. */
  function ParseOrigin(s: string): Option<Url> {
    match FirstColon(s)
    case None => None
    case Some(i) =>
      var rest := s[i + 1..];
      if |rest| < 2 || rest[..2] != "//" then None
      else
        var (host, port) := SplitPort(rest[2..]);
        Some(Url(s[..i + 1], host, port))
  }

  /** Splits "host:digits" at its last ":"; anything else is all host. */
  function SplitPort(s: string): (string, string) {
    match LastColon(s)
    case None => (s, "")
    case Some(j) =>
      if j + 1 < |s| && Strs.All(s[j + 1..], Strs.IsDigit) then (s[..j], s[j + 1..]) else (s, "")
  }

  lemma FirstColonIs(s: string, i: nat)
    requires i < |s| && s[i] == ':' && ':' !in s[..i]
    ensures FirstColon(s) == Some(i)
  {
    var r := FirstColon(s);
    assert r.Some?;
  }

  lemma LastColonIs(s: string, j: nat)
    requires j < |s| && s[j] == ':' && ':' !in s[j + 1..]
    ensures LastColon(s) == Some(j)
  {
    var r := LastColon(s);
    assert r.Some?;
  }

  lemma SplitPortRoundTrip(u: Url)
    requires WellFormed(u)
    ensures SplitPort(if u.port != "" then u.hostname + ":" + u.port else u.hostname) == (u.hostname, u.port)
  {
    var h := u.hostname;
    if u.port != "" {
      var hp := h + ":" + u.port;
      assert hp[|h|] == ':';
      assert hp[|h| + 1..] == u.port;
      assert hp[..|h|] == h;
      LastColonIs(hp, |h|);
    } else {
      var lc := LastColon(h);
      if lc.Some? {
        var j := lc.value;
        assert h[j + 1..][|h| - j - 2] == ']';
      }
    }
  }

  /** The written domain link loses nothing of the parsed URL's origin. */
  lemma DomainLinkRoundTrip(u: Url)
    requires WellFormed(u)
    ensures ParseOrigin(DomainLink(Some(u))) == Some(u)
  {
    var p := u.protocol;
    var hostPort := if u.port != "" then u.hostname + ":" + u.port else u.hostname;
    var s := DomainLink(Some(u));
    var rest := "//" + hostPort;
    assert s == p + rest;
    var i := |p| - 1;
    assert s[..i] == p[..i];
    FirstColonIs(s, i);
    assert s[..i + 1] == p;
    assert s[i + 1..] == rest;
    assert rest[..2] == "//" && rest[2..] == hostPort;
    SplitPortRoundTrip(u);
    assert ParseOrigin(s) == Some(Url(p, u.hostname, u.port));
  }

  /** Nothing ever sets the menu's uid after the constructor's empty one, so
      Cut, Paste and Select All always name the empty uid. On the page the
      selector built from it throws a syntax error before anything changes,
      so cutting and pasting only log; Select All treats the empty uid as
      none and selects in the focused element instead, without an error. */
  lemma MenuEditsNameNoElement(p0: Props, ps: seq<Props>, clipboard: Option<Value>, clip: Value, parsed: Option<Url>,
                               page: Selection.Page, text: string, len: Selection.TextLength, ctx: BrowserPage.PageState)
    ensures var st := ReceiveAll(Construct(p0), ps, clipboard);
      && st.selectedUid == ""
      && Click(st, Paste, true, clip, parsed).calls == [ReadClipboard, PasteSelection("", clip)]
      && Click(st, SelectAll, true, clip, parsed).calls == [SelectAllIn("")]
      && (st.selectedText != "" ==>
            Click(st, Cut, true, clip, parsed).calls == [WriteClipboard(st.selectedText), RemoveSelection("")])
    ensures Selection.RemoveSelection(page, "") == Selection.Outcome(page, Some("SyntaxError"))
    ensures Selection.PasteFromClipboard(page, "", text, len) == Selection.Outcome(page, Some("SyntaxError"))
    ensures var data := Obj(map["value" := Obj(map["uid" := Str(""), "text" := clip])]);
      && BrowserPage.SendEdit(ctx, BrowserPage.RemoveSelection, data) == (ctx, [BrowserPage.LogError("Page.removeSelection")])
      && BrowserPage.SendEdit(ctx, BrowserPage.PasteFromClipboard, data) == (ctx, [BrowserPage.LogError("Page.pasteFromClipboard")])
    ensures var data := Obj(map["value" := Obj(map["uid" := Str(""), "text" := clip])]);
      var r := BrowserPage.SendEdit(ctx, BrowserPage.SelectAll, data);
      var a := ctx.active;
      && r.1 == []
      && r.0.fields == Selection.SelectAll(ctx.fields, None, a).page
      && (a.Some? && a.value < |ctx.fields| && Selection.IsTextField(ctx.fields[a.value]) && ctx.fields[a.value].selStart.Some? ==>
            r.0.fields[a.value].selStart == Some(0) && r.0.fields[a.value].selEnd == Some(|ctx.fields[a.value].value|))
  {
    PropsNeverChangeText(Construct(p0), ps, clipboard);
    BrowserPage.EmptyUidEditsLog(ctx, clip);
    BrowserPage.EmptyUidSelectAll(ctx, clip);
  }
}

=== FILE: debug_provider.dfy ===
/** The "dot-website" debug type: the configurations it offers, how it
    rewrites a chosen configuration into an "attach" configuration for the
    underlying JavaScript debugger, and what a debug session starting or
    ending asks of the panel manager. Configurations are plain JavaScript
    objects. */
module DebugProvider {
  import opened Wrappers
  import opened JsValues

  const DebugType := "dot-website"
  const AttachName := "Dot Website: Attach"
  const LaunchName := "Dot Website: Launch"
  const DefaultLaunchUrl := "http://localhost:3000"

  const LaunchError := "Could not launch Dot Website window"
  const AttachError := "No Dot Website window was found. Open a Dot Website window or use the \"launch\" request type."
  const UnsupportedError := "No supported launch config was found."

  /** Property assignment `v[key] = x` on an object. */
  function SetProp(v: Value, key: string, x: Value): (r: Value)
    requires v.Obj?
    ensures r.Obj? && Prop(r, key) == x
    ensures forall k :: k != key ==> Prop(r, k) == Prop(v, k)
  {
    Obj(v.fields[key := x])
  }

  // ---------------------------------------------------------------------
  // provideDebugConfigurations
  // ---------------------------------------------------------------------

  /** The two configurations offered for a new `launch.json`. */
  function Provide(): (r: seq<Value>)
    ensures |r| == 2
    ensures forall i :: 0 <= i < 2 ==> r[i].Obj? && Prop(r[i], "type") == Str(DebugType)
    ensures Prop(r[0], "request") == Str("attach") && Prop(r[0], "name") == Str(AttachName)
    ensures Prop(r[1], "request") == Str("launch") && Prop(r[1], "name") == Str(LaunchName)
    ensures Prop(r[1], "url") == Str(DefaultLaunchUrl)
  {
    [ Obj(map["type" := Str(DebugType), "name" := Str(AttachName), "request" := Str("attach")]),
      Obj(map["type" := Str(DebugType), "request" := Str("launch"), "name" := Str(LaunchName),
              "url" := Str(DefaultLaunchUrl)]) ]
  }

  // ---------------------------------------------------------------------
  // resolveDebugConfiguration
  // ---------------------------------------------------------------------

  /** The provider's answer: `null` for a configuration of another type,
      the rewritten configuration, or `undefined` after an error message.
      The configuration object is rewritten in place before the error is
      found, so `Failed` carries it too. */
  datatype Resolution =
    | NotOurs
    | Resolved(config: Value)
    | Failed(config: Value, message: string)

  /** The fields the rewrite may touch. */
  predicate Rewritten(k: string) {
    k in {"type", "_dotWebsite", "name", "port", "request", "urlFilter", "_dotWebsiteLaunch"}
  }

  /** The common part: the configuration is handed to the underlying
      debugger and marked as ours. */
  function MarkOurs(config: Value, underlyingType: string): (r: Value)
    requires config.Obj?
    ensures r.Obj? && Prop(r, "type") == Str(underlyingType) && Prop(r, "_dotWebsite") == Bool(true)
    ensures forall k :: k != "type" && k != "_dotWebsite" ==> Prop(r, k) == Prop(config, k)
  {
    SetProp(SetProp(config, "type", Str(underlyingType)), "_dotWebsite", Bool(true))
  }

  /** A launch becomes an attach to the browser that remembers its URL as
      the one to open and the one to close. */
  function AsLaunch(c: Value, debugPort: Value, url: Value): (r: Value)
    requires c.Obj?
    ensures r.Obj? && Prop(r, "name") == Str(LaunchName) && Prop(r, "port") == debugPort
    ensures Prop(r, "request") == Str("attach") && Prop(r, "urlFilter") == url && Prop(r, "_dotWebsiteLaunch") == url
    ensures forall k :: k !in {"name", "port", "request", "urlFilter", "_dotWebsiteLaunch"} ==> Prop(r, k) == Prop(c, k)
  {
    SetProp(SetProp(SetProp(SetProp(SetProp(c,
      "name", Str(LaunchName)), "port", debugPort), "request", Str("attach")),
      "urlFilter", url), "_dotWebsiteLaunch", url)
  }

  function AsAttach(c: Value, debugPort: Value): (r: Value)
    requires c.Obj?
    ensures r.Obj? && Prop(r, "name") == Str(AttachName) && Prop(r, "port") == debugPort
    ensures forall k :: k != "name" && k != "port" ==> Prop(r, k) == Prop(c, k)
  {
    SetProp(SetProp(c, "name", Str(AttachName)), "port", debugPort)
  }

  /** `resolveDebugConfiguration(folder, config)`, with the underlying
      debug type and the manager's `debugPort` as parameters. */
  function Resolve(config: Value, underlyingType: string, debugPort: Value): (r: Resolution)
    ensures r.NotOurs? <==> !Truthy(config) || Prop(config, "type") != Str(DebugType)
    ensures !r.NotOurs? ==>
      r.config.Obj? && Prop(r.config, "type") == Str(underlyingType) && Prop(r.config, "_dotWebsite") == Bool(true)
  {
    if !Truthy(config) || Prop(config, "type") != Str(DebugType) then NotOurs
    else
      var c1 := MarkOurs(config, underlyingType);
      var request := Prop(config, "request");
      if request == Str("launch") then
        var c2 := AsLaunch(c1, debugPort, Prop(config, "url"));
        if debugPort == Null then Failed(c2, LaunchError) else Resolved(c2)
      else if request == Str("attach") then
        var c2 := AsAttach(c1, debugPort);
        if debugPort == Null then Failed(c2, AttachError) else Resolved(c2)
      else Failed(c1, UnsupportedError)
  }

  /** Fields the rewrite does not name are left as they were. */
  lemma ResolveKeepsOtherFields(config: Value, underlyingType: string, debugPort: Value, k: string)
    requires !Resolve(config, underlyingType, debugPort).NotOurs? && !Rewritten(k)
    ensures Prop(Resolve(config, underlyingType, debugPort).config, k) == Prop(config, k)
  {
  }

  /** A "launch" configuration becomes an "attach" to the browser's
      debugging port that remembers the URL to open and to close. */
  lemma ResolveLaunch(config: Value, underlyingType: string, debugPort: Value)
    requires config.Obj? && Prop(config, "type") == Str(DebugType) && Prop(config, "request") == Str("launch")
    ensures var r := Resolve(config, underlyingType, debugPort);
      && (r.Resolved? <==> debugPort != Null)
      && (r.Failed? ==> r.message == LaunchError)
      && Prop(r.config, "request") == Str("attach") && Prop(r.config, "name") == Str(LaunchName)
      && Prop(r.config, "port") == debugPort
      && Prop(r.config, "urlFilter") == Prop(config, "url") && Prop(r.config, "_dotWebsiteLaunch") == Prop(config, "url")
  {
  }

  /** An "attach" configuration gets the browser's debugging port and
      nothing to open. */
  lemma ResolveAttach(config: Value, underlyingType: string, debugPort: Value)
    requires config.Obj? && Prop(config, "type") == Str(DebugType) && Prop(config, "request") == Str("attach")
    ensures var r := Resolve(config, underlyingType, debugPort);
      && (r.Resolved? <==> debugPort != Null)
      && (r.Failed? ==> r.message == AttachError)
      && Prop(r.config, "request") == Str("attach") && Prop(r.config, "name") == Str(AttachName)
      && Prop(r.config, "port") == debugPort
      && Prop(r.config, "_dotWebsiteLaunch") == Prop(config, "_dotWebsiteLaunch")
  {
  }

  /** Any other request is refused. */
  lemma ResolveOther(config: Value, underlyingType: string, debugPort: Value)
    requires config.Obj? && Prop(config, "type") == Str(DebugType)
    requires Prop(config, "request") != Str("launch") && Prop(config, "request") != Str("attach")
    ensures Resolve(config, underlyingType, debugPort).Failed?
    ensures Resolve(config, underlyingType, debugPort).message == UnsupportedError
  {
  }

  /** The manager always holds a numeric port, so both offered
      configurations resolve, and only the launch one names a URL. */
  lemma ProvidedAttachResolves(underlyingType: string, port: int)
    ensures var a := Resolve(Provide()[0], underlyingType, Num(port));
      a.Resolved? && TrackerUrl(a.config).None? && TerminationUrl(a.config).None?
  {
    var c := Provide()[0];
    ResolveAttach(c, underlyingType, Num(port));
    assert Prop(c, "_dotWebsiteLaunch") == Undefined;
  }

  lemma ProvidedLaunchResolves(underlyingType: string, port: int)
    ensures var l := Resolve(Provide()[1], underlyingType, Num(port));
      l.Resolved? && TrackerUrl(l.config) == Some(Str(DefaultLaunchUrl))
      && TerminationUrl(l.config) == Some(Str(DefaultLaunchUrl))
  {
    var c := Provide()[1];
    ResolveLaunch(c, underlyingType, Num(port));
    LaunchSessionClosesWhatItOpens(c, underlyingType, Num(port));
  }

  /** Resolving is idempotent in its verdict on foreign configurations: a
      resolved configuration has the underlying type, which is never ours
      unless the underlying type is called "dot-website" too. */
  lemma ResolvedIsNotOursAgain(config: Value, underlyingType: string, debugPort: Value)
    requires underlyingType != DebugType
    requires Resolve(config, underlyingType, debugPort).Resolved?
    ensures Resolve(Resolve(config, underlyingType, debugPort).config, underlyingType, debugPort).NotOurs?
  {
  }

  // ---------------------------------------------------------------------
  // The tracker and the end of a session
  // ---------------------------------------------------------------------

  /** `createDebugAdapterTracker(session)`: the URL the manager is asked
      to open for a session of the underlying type, if any. */
  function TrackerUrl(configuration: Value): (r: Option<Value>)
    ensures r.Some? <==> Truthy(Prop(configuration, "_dotWebsite")) && Truthy(Prop(configuration, "_dotWebsiteLaunch"))
    ensures r.Some? ==> r.value == Prop(configuration, "_dotWebsiteLaunch") && Truthy(r.value)
  {
    if !Truthy(Prop(configuration, "_dotWebsite")) || !Truthy(Prop(configuration, "_dotWebsiteLaunch")) then None
    else Some(Prop(configuration, "_dotWebsiteLaunch"))
  }

  /** The handler of `onDidTerminateDebugSession`: the URL whose panels are
      disposed when a launch session ends, if any. The session's name is
      that of its configuration. */
  function TerminationUrl(configuration: Value): (r: Option<Value>)
    ensures r.Some? <==> Prop(configuration, "name") == Str(LaunchName) && Truthy(Prop(configuration, "urlFilter"))
    ensures r.Some? ==> r.value == Prop(configuration, "urlFilter")
  {
    if Prop(configuration, "name") == Str(LaunchName) && Truthy(Prop(configuration, "urlFilter")) then
      Some(Prop(configuration, "urlFilter"))
    else None
  }

  /** A resolved launch session closes the URL it opened: both handlers
      read the configuration's `url`. */
  lemma LaunchSessionClosesWhatItOpens(config: Value, underlyingType: string, debugPort: Value)
    requires Resolve(config, underlyingType, debugPort).Resolved?
    requires Prop(config, "request") == Str("launch") && Truthy(Prop(config, "url"))
    ensures var c := Resolve(config, underlyingType, debugPort).config;
      TrackerUrl(c) == TerminationUrl(c) == Some(Prop(config, "url"))
  {
    ResolveLaunch(config, underlyingType, debugPort);
  }
}

=== FILE: dom.dfy ===
/** The page document as the in-page scripts see it: a tree of element and
    text nodes. Rendering is abstracted into one flag per element: `visible`
    stands for the outcome of the page's visibility test (non-empty bounding
    box, not `visibility: hidden`, not `display: none`, not a metadata tag).
    A text node is visible exactly when its parent element is. */
module Dom {
  import opened Wrappers

  datatype Node =
    | Text(text: string)
    | Element(tag: string, id: string, classes: set<string>, visible: bool, children: seq<Node>)

  /** `node.textContent`: the concatenated text of all descendant text nodes. */
  function TextContent(n: Node): string
    decreases n, 1
  {
    match n
    case Text(t) => t
    case Element(_, _, _, _, cs) => TextOf(cs)
  }

  /** The concatenated text content of a list of sibling nodes. */
  function TextOf(cs: seq<Node>): string
    decreases cs, 0
  {
    if cs == [] then "" else TextContent(cs[0]) + TextOf(cs[1..])
  }

  lemma {:induction false} TextOfAppend(a: seq<Node>, b: seq<Node>)
    ensures TextOf(a + b) == TextOf(a) + TextOf(b)
  {
    if a == [] {
      assert a + b == b;
    } else {
      assert (a + b)[0] == a[0];
      assert (a + b)[1..] == a[1..] + b;
      TextOfAppend(a[1..], b);
    }
  }

  /** `document.getElementById(id)`: the first element in tree order (pre-order)
      whose id is `id`. An element without an id has the empty id here, and
      the empty id finds nothing, as in the DOM. */
  function FindById(n: Node, id: string): (r: Option<Node>)
    ensures r.Some? ==> r.value.Element? && r.value.id == id && id != ""
    decreases n, 1
  {
    match n
    case Text(_) => None
    case Element(_, eid, _, _, cs) => if eid == id && id != "" then Some(n) else FindByIdIn(cs, id)
  }

  function FindByIdIn(cs: seq<Node>, id: string): (r: Option<Node>)
    ensures r.Some? ==> r.value.Element? && r.value.id == id && id != ""
    decreases cs, 0
  {
    if cs == [] then None
    else match FindById(cs[0], id)
      case Some(e) => Some(e)
      case None => FindByIdIn(cs[1..], id)
  }
}

=== FILE: extension.dfy ===
/** The `.website` document support of the extension host: the linter that
    checks a document holds exactly one well-formed URL, and the checks made
    before a document is opened or after it is saved. The URL regular
    expression of the linter is modelled by a hand-written parser that is
    proved to accept exactly the strings its grammar generates. */
module Extension {
  import opened Wrappers
  import opened Strs

  // ---------------------------------------------------------------------
  // The URL grammar
  // ---------------------------------------------------------------------

  predicate IsLabelChar(c: char) {
    IsAsciiLetter(c) || IsDigit(c) || c == '-'
  }

  /** `[^\s]`: any character but whitespace and line terminators. */
  predicate NotSpace(c: char) {
    !IsWhitespace(c)
  }

  /** The host and what follows it: `label.tld`, an optional `:port` and an
      optional `/path` (held without its leading slash). */
  datatype Host = Host(name: string, tld: string, port: Option<string>, path: Option<string>)

  /** A URL the pattern accepts: `http` or `https`, an optional `www.`, and
      the host. */
  datatype UrlParts = UrlParts(secure: bool, www: bool, host: Host)

  predicate ValidTail(port: Option<string>, path: Option<string>) {
    && (port.Some? ==> 1 <= |port.value| <= 5 && All(port.value, IsDigit))
    && (path.Some? ==> All(path.value, NotSpace))
  }

  /** `[a-zA-Z0-9-]+ \. [a-zA-Z]{2,} (:[0-9]{1,5})? (\/[^\s]*)?` */
  predicate ValidHost(h: Host) {
    && |h.name| >= 1 && All(h.name, IsLabelChar)
    && |h.tld| >= 2 && All(h.tld, IsAsciiLetter)
    && ValidTail(h.port, h.path)
  }

  function RenderPath(path: Option<string>): string {
    if path.Some? then "/" + path.value else ""
  }

  function RenderTail(port: Option<string>, path: Option<string>): string {
    (if port.Some? then ":" + port.value else "") + RenderPath(path)
  }

  function RenderHost(h: Host): string {
    h.name + "." + h.tld + RenderTail(h.port, h.path)
  }

  /** The string a set of parts spells. */
  function Render(u: UrlParts): string {
    (if u.secure then "https://" else "http://") + (if u.www then "www." else "") + RenderHost(u.host)
  }

  // ---------------------------------------------------------------------
  // The recogniser
  // ---------------------------------------------------------------------

  function ParsePath(t: string): Option<Option<string>> {
    if t == [] then Some(None)
    else if t[0] == '/' && All(t[1..], NotSpace) then Some(Some(t[1..]))
    else None
  }

  /** Port and path after the top-level domain. The digit run must end
      where the path or the input does, so a sixth digit fails. */
  function ParseTail(t: string): Option<(Option<string>, Option<string>)> {
    if t != [] && t[0] == ':' then
      var d := Span(t[1..], IsDigit);
      if d < 1 || d > 5 then None
      else match ParsePath(t[1 + d..])
        case None => None
        case Some(path) => Some((Some(t[1..1 + d]), path))
    else match ParsePath(t)
      case None => None
      case Some(path) => Some((None, path))
  }

  /** The label runs to the first character outside `[a-zA-Z0-9-]`, which
      must be "."; the top-level domain is the run of letters after it. */
  function ParseHost(h: string): Option<Host> {
    var n := Span(h, IsLabelChar);
    if n == 0 || n == |h| || h[n] != '.' then None
    else
      var rest := h[n + 1..];
      var m := Span(rest, IsAsciiLetter);
      if m < 2 then None
      else match ParseTail(rest[m..])
        case None => None
        case Some(tail) => Some(Host(h[..n], rest[..m], tail.0, tail.1))
  }

  /** The scheme, then `www.` if what follows it parses as a host, else the
      whole remainder as the host. */
  function Parse(s: string): Option<UrlParts> {
    if StartsWith(s, "https://") then ParseAfterScheme(true, s[8..])
    else if StartsWith(s, "http://") then ParseAfterScheme(false, s[7..])
    else None
  }

  function ParseAfterScheme(secure: bool, t: string): Option<UrlParts> {
    var withWww := if StartsWith(t, "www.") then ParseHost(t[4..]) else None;
    if withWww.Some? then Some(UrlParts(secure, true, withWww.value))
    else match ParseHost(t)
      case None => None
      case Some(h) => Some(UrlParts(secure, false, h))
  }

  /** `urlRegex.test(line)`. */
  predicate UrlPatternMatches(line: string) {
    Parse(line).Some?
  }

  // ---------------------------------------------------------------------
  // Soundness: whatever parses is spelled by valid parts
  // ---------------------------------------------------------------------

  lemma ParsePathSound(t: string)
    requires ParsePath(t).Some?
    ensures var p := ParsePath(t).value;
      RenderPath(p) == t && (p.Some? ==> All(p.value, NotSpace))
  {
    if t != [] {
      assert "/" + t[1..] == t;
    }
  }

  lemma ParseTailSound(t: string)
    requires ParseTail(t).Some?
    ensures var r := ParseTail(t).value;
      RenderTail(r.0, r.1) == t && ValidTail(r.0, r.1)
  {
    if t != [] && t[0] == ':' {
      var d := Span(t[1..], IsDigit);
      ParsePathSound(t[1 + d..]);
      assert t[1..][..d] == t[1..1 + d];
      assert t == ":" + t[1..1 + d] + t[1 + d..];
    } else {
      ParsePathSound(t);
    }
  }

  lemma Assoc(a: string, b: string, c: string)
    ensures a + b + c == a + (b + c)
  {
  }

  /** The pieces of a string with a dot in it. */
  lemma DotPieces(a: string, b: string)
    ensures var s := a + "." + b;
      s[..|a|] == a && s[|a|] == '.' && s[|a| + 1..] == b
  {
  }

  /** A string cut at a dot and again further on is the concatenation of
      its pieces. */
  lemma Reassemble(h: string, n: nat, m: nat)
    requires n < |h| && h[n] == '.' && m <= |h| - n - 1
    ensures h == h[..n] + "." + h[n + 1..][..m] + h[n + 1..][m..]
  {
    assert h == h[..n] + [h[n]] + h[n + 1..];
    assert h[n + 1..] == h[n + 1..][..m] + h[n + 1..][m..];
  }

  lemma PrefixThenRest(p: string, t: string)
    ensures StartsWith(p + t, p) && (p + t)[|p|..] == t
  {
    assert (p + t)[..|p|] == p;
  }

  lemma ParseHostSound(h: string)
    requires ParseHost(h).Some?
    ensures ValidHost(ParseHost(h).value) && RenderHost(ParseHost(h).value) == h
  {
    var n := Span(h, IsLabelChar);
    var rest := h[n + 1..];
    var m := Span(rest, IsAsciiLetter);
    var tail := ParseTail(rest[m..]).value;
    assert ParseHost(h).value == Host(h[..n], rest[..m], tail.0, tail.1);
    ParseTailSound(rest[m..]);
    Reassemble(h, n, m);
  }

  /** What follows the scheme, when accepted, is spelled by valid parts. */
  lemma ParseAfterSchemeSound(secure: bool, t: string)
    requires ParseAfterScheme(secure, t).Some?
    ensures var u := ParseAfterScheme(secure, t).value;
      u.secure == secure && ValidHost(u.host) && (if u.www then "www." else "") + RenderHost(u.host) == t
  {
    if StartsWith(t, "www.") && ParseHost(t[4..]).Some? {
      ParseHostSound(t[4..]);
      assert t == "www." + t[4..];
    } else {
      ParseHostSound(t);
    }
  }

  /** Every accepted line is a URL of the grammar, spelled exactly. */
  lemma ParseSound(s: string)
    requires Parse(s).Some?
    ensures ValidHost(Parse(s).value.host) && Render(Parse(s).value) == s
  {
    var secure := StartsWith(s, "https://");
    var scheme := if secure then "https://" else "http://";
    var t := s[|scheme|..];
    assert s == scheme + t by {
      assert s[..|scheme|] == scheme;
    }
    assert Parse(s) == ParseAfterScheme(secure, t);
    ParseAfterSchemeSound(secure, t);
    var u := Parse(s).value;
    Assoc(scheme, if u.www then "www." else "", RenderHost(u.host));
  }

  // ---------------------------------------------------------------------
  // Completeness: every valid URL parses back to its own parts
  // ---------------------------------------------------------------------

  lemma ParsePathComplete(path: Option<string>)
    requires path.Some? ==> All(path.value, NotSpace)
    ensures ParsePath(RenderPath(path)) == Some(path)
  {
    if path.Some? {
      assert RenderPath(path)[1..] == path.value;
    }
  }

  lemma ParseTailComplete(port: Option<string>, path: Option<string>)
    requires ValidTail(port, path)
    ensures ParseTail(RenderTail(port, path)) == Some((port, path))
  {
    var t := RenderTail(port, path);
    ParsePathComplete(path);
    if port.Some? {
      assert t == ":" + port.value + RenderPath(path);
      ParsePortComplete(port.value, path);
    } else {
      assert t == RenderPath(path);
      if path.Some? {
        assert t[0] == '/';
      }
    }
  }

  /** A port is read up to the path or the end and then the path. */
  lemma ParsePortComplete(d: string, path: Option<string>)
    requires 1 <= |d| <= 5 && All(d, IsDigit) && (path.Some? ==> All(path.value, NotSpace))
    ensures ParseTail(":" + d + RenderPath(path)) == Some((Some(d), path))
  {
    var rp := RenderPath(path);
    var t := ":" + d + rp;
    var u := t[1..];
    assert u == d + rp;
    assert u[..|d|] == d;
    if rp != [] {
      assert u[|d|] == rp[0] == '/';
    }
    SpanUnique(u, IsDigit, |d|);
    assert t[1 + |d|..] == rp;
    assert t[1..1 + |d|] == d;
    ParsePathComplete(path);
  }

  lemma ParseHostComplete(h: Host)
    requires ValidHost(h)
    ensures ParseHost(RenderHost(h)) == Some(h)
  {
    var tail := RenderTail(h.port, h.path);
    var rest := h.tld + tail;
    var s := h.name + "." + rest;
    Assoc(h.name + ".", h.tld, tail);
    DotPieces(h.name, rest);
    SpanUnique(s, IsLabelChar, |h.name|);
    TldSpan(h.tld, h.port, h.path);
    PrefixThenRest(h.tld, tail);
    ParseTailComplete(h.port, h.path);
  }

  /** The top-level domain is the whole run of letters in front of the
      tail, and of label characters too. */
  lemma TldSpan(tld: string, port: Option<string>, path: Option<string>)
    requires All(tld, IsAsciiLetter)
    ensures Span(tld + RenderTail(port, path), IsAsciiLetter) == |tld|
    ensures Span(tld + RenderTail(port, path), IsLabelChar) == |tld|
  {
    var tail := RenderTail(port, path);
    var t := tld + tail;
    assert t[..|tld|] == tld;
    TailStartsOutsideLetters(port, path);
    if |tld| < |t| {
      assert t[|tld|] == tail[0];
    }
    SpanUnique(t, IsAsciiLetter, |tld|);
    SpanUnique(t, IsLabelChar, |tld|);
  }

  /** A non-empty tail starts with ":" or "/", which neither a label nor a
      top-level domain can contain. */
  lemma TailStartsOutsideLetters(port: Option<string>, path: Option<string>)
    ensures var t := RenderTail(port, path);
      t == [] || (t[0] in {':', '/'} && !IsLabelChar(t[0]) && !IsAsciiLetter(t[0]))
  {
  }

  /** Behind a "www." that belongs to the label, the rest cannot parse as a
      host: its leading run of label characters ends at ":", "/" or the
      end rather than at ".". */
  lemma WwwLabelIsNotPrefix(h: Host)
    requires ValidHost(h) && h.name == "www"
    ensures ParseHost(RenderHost(h)[4..]).None?
  {
    var tail := RenderTail(h.port, h.path);
    var rest := h.tld + tail;
    Assoc(h.name + ".", h.tld, tail);
    DotPieces(h.name, rest);
    TldSpan(h.tld, h.port, h.path);
    TailStartsOutsideLetters(h.port, h.path);
  }

  /** A host written with a leading "www." has the label "www": a label
      has no dot. */
  lemma LabelIsWww(a: string, x: string)
    requires All(a, IsLabelChar) && StartsWith(a + "." + x, "www.")
    ensures a == "www"
  {
    var s := a + "." + x;
    DotPieces(a, x);
    assert s[..4] == "www.";
    assert s[0] == 'w' && s[1] == 'w' && s[2] == 'w' && s[3] == '.';
    assert a == s[..3];
  }

  lemma LabelBeforeDot(h: Host)
    requires ValidHost(h) && StartsWith(RenderHost(h), "www.")
    ensures h.name == "www"
  {
    Assoc(h.name + ".", h.tld, RenderTail(h.port, h.path));
    LabelIsWww(h.name, h.tld + RenderTail(h.port, h.path));
  }

  lemma ParseAfterSchemeComplete(secure: bool, www: bool, h: Host)
    requires ValidHost(h)
    ensures ParseAfterScheme(secure, (if www then "www." else "") + RenderHost(h)) == Some(UrlParts(secure, www, h))
  {
    var r := RenderHost(h);
    var t := (if www then "www." else "") + r;
    ParseHostComplete(h);
    if www {
      PrefixThenRest("www.", r);
    } else {
      assert t == r;
      if StartsWith(t, "www.") {
        LabelBeforeDot(h);
        WwwLabelIsNotPrefix(h);
      }
    }
  }

  /** The scheme is stripped before the rest is parsed. */
  lemma ParseScheme(secure: bool, t: string)
    ensures Parse((if secure then "https://" else "http://") + t) == ParseAfterScheme(secure, t)
  {
    if secure {
      PrefixThenRest("https://", t);
    } else {
      PrefixThenRest("http://", t);
      assert !StartsWith("http://" + t, "https://") by {
        assert ("http://" + t)[4] == ':';
      }
    }
  }

  /** Every URL of the grammar is accepted and parses back to the parts it
      was spelled from: the grammar is unambiguous. */
  lemma ParseComplete(u: UrlParts)
    requires ValidHost(u.host)
    ensures Parse(Render(u)) == Some(u)
  {
    var scheme := if u.secure then "https://" else "http://";
    var t := (if u.www then "www." else "") + RenderHost(u.host);
    Assoc(scheme, if u.www then "www." else "", RenderHost(u.host));
    ParseScheme(u.secure, t);
    ParseAfterSchemeComplete(u.secure, u.www, u.host);
  }

  /** A host with a second dot before any port or path is rejected. */
  lemma TwoDotsRejected(a: string, b: string, c: string)
    requires |a| >= 1 && All(a, IsLabelChar) && All(b, IsAsciiLetter)
    ensures ParseHost(a + "." + (b + "." + c)).None?
  {
    var r := b + "." + c;
    var s := a + "." + r;
    DotPieces(a, r);
    SpanUnique(s, IsLabelChar, |a|);
    DotPieces(b, c);
    SpanUnique(r, IsAsciiLetter, |b|);
    assert r[|b|..][0] == '.';
  }

  /** A subdomain other than "www" is rejected: after the first label the
      run of letters is followed by a dot rather than a port, a path or the
      end. */
  lemma SubdomainRejected(secure: bool, sub: string, name: string, rest: string)
    requires |sub| >= 1 && All(sub, IsLabelChar) && sub != "www" && All(name, IsAsciiLetter)
    ensures !UrlPatternMatches((if secure then "https://" else "http://") + (sub + "." + (name + "." + rest)))
  {
    var t := sub + "." + (name + "." + rest);
    ParseScheme(secure, t);
    if StartsWith(t, "www.") {
      LabelIsWww(sub, name + "." + rest);
    }
    TwoDotsRejected(sub, name, rest);
  }

  /** The pattern accepts a line iff the line is spelled by valid parts. */
  lemma PatternIsGrammar(s: string)
    ensures UrlPatternMatches(s) <==> exists u: UrlParts :: ValidHost(u.host) && Render(u) == s
  {
    if UrlPatternMatches(s) {
      ParseSound(s);
    }
    if exists u: UrlParts :: ValidHost(u.host) && Render(u) == s {
      var u: UrlParts :| ValidHost(u.host) && Render(u) == s;
      ParseComplete(u);
    }
  }

  // ---------------------------------------------------------------------
  // lint_document
  // ---------------------------------------------------------------------

  datatype Range = Range(startLine: nat, startCol: nat, endLine: nat, endCol: nat)

  datatype Diagnostic = Diagnostic(range: Range, message: string)

  /** What the linter does to the document's diagnostics; every diagnostic
      it reports has error severity. */
  datatype LintResult =
    | Unchanged
    | Report(diagnostics: seq<Diagnostic>)
    | ClearAll

  const OneLineMessage := "File should only contain one line."
  const InvalidUrlMessage := "Invalid URL: Must start with 'http://' or 'https://' and contain a valid address."

  function Lint(text: string): (r: LintResult)
    ensures r != Unchanged
  {
    var lines := Split(text, '\n');
    if |lines| == 0 then Unchanged
    else if |lines| != 1 then Report([Diagnostic(Range(1, 0, 1, 0), OneLineMessage)])
    else if !UrlPatternMatches(lines[0]) then Report([Diagnostic(Range(0, 0, 0, |lines[0]|), InvalidUrlMessage)])
    else ClearAll
  }

  lemma {:induction false} CountCharZero(s: string, c: char)
    ensures CountChar(s, c) == 0 <==> c !in s
  {
    if s != [] {
      CountCharZero(s[1..], c);
      assert s == [s[0]] + s[1..];
    }
  }

  /** A document with a newline, a trailing one included, gets exactly the
      one-line diagnostic at (1,0)-(1,0). */
  lemma LintMultiLine(text: string)
    ensures Lint(text) == Report([Diagnostic(Range(1, 0, 1, 0), OneLineMessage)]) <==> '\n' in text
  {
    SplitCount(text, '\n');
    CountCharZero(text, '\n');
  }

  /** A document without a newline is cleared iff it is a URL of the
      grammar, and otherwise gets the invalid-URL diagnostic across the
      whole line. */
  lemma LintSingleLine(text: string)
    requires '\n' !in text
    ensures UrlPatternMatches(text) ==> Lint(text) == ClearAll
    ensures !UrlPatternMatches(text) ==>
      Lint(text) == Report([Diagnostic(Range(0, 0, 0, |text|), InvalidUrlMessage)])
  {
    NoSepSplit(text, '\n');
  }

  /** The linting test suite: a second line is reported. */
  lemma LintTestTwoLines()
    ensures Lint("https://example.com\nExtra line") == Report([Diagnostic(Range(1, 0, 1, 0), OneLineMessage)])
  {
    LintMultiLine("https://example.com\nExtra line");
    assert "https://example.com\nExtra line"[19] == '\n';
  }

  /** The linting test suite: a line without a scheme is reported across
      its whole length. */
  lemma LintTestInvalid()
    ensures Lint("invalid-url") == Report([Diagnostic(Range(0, 0, 0, 11), InvalidUrlMessage)])
  {
    var s := "invalid-url";
    assert !StartsWith(s, "https://") && !StartsWith(s, "http://") by { assert s[0] == 'i'; }
    LintSingleLine(s);
  }

  lemma CharOutside(s: string, p: char -> bool, c: char)
    requires All(s, p) && !p(c)
    ensures c !in s
  {
  }

  /** A URL of the grammar has no line break in it. */
  lemma RenderHasNoNewline(u: UrlParts)
    requires ValidHost(u.host)
    ensures '\n' !in Render(u)
  {
    var h := u.host;
    CharOutside(h.name, IsLabelChar, '\n');
    CharOutside(h.tld, IsAsciiLetter, '\n');
    if h.port.Some? {
      CharOutside(h.port.value, IsDigit, '\n');
    }
    if h.path.Some? {
      CharOutside(h.path.value, NotSpace, '\n');
    }
  }

  /** Every URL of the grammar clears the diagnostics. */
  lemma LintValidUrl(u: UrlParts)
    requires ValidHost(u.host)
    ensures Lint(Render(u)) == ClearAll
  {
    RenderHasNoNewline(u);
    ParseComplete(u);
    LintSingleLine(Render(u));
  }

  /** The linting test suite: a valid URL clears the diagnostics. */
  lemma LintTestValid()
    ensures Lint("https://example.com") == ClearAll
  {
    ExampleUrl();
    LintValidUrl(UrlParts(true, false, Host("example", "com", None, None)));
  }

  /** "https://example.com" is a URL of the grammar. */
  lemma ExampleUrl()
    ensures var u := UrlParts(true, false, Host("example", "com", None, None));
      ValidHost(u.host) && Render(u) == "https://example.com"
  {
    var name := "example";
    assert All(name, IsLabelChar) by {
      forall i | 0 <= i < |name| ensures IsLabelChar(name[i]) {
        assert IsAsciiLetter(name[i]);
      }
    }
  }

  /** The linter runs only on documents of the `.website` language. */
  function OnDocumentEvent(languageId: string, text: string): (r: LintResult)
    ensures languageId != "dot-website" ==> r == Unchanged
    ensures languageId == "dot-website" ==> r == Lint(text)
  {
    if languageId != "dot-website" then Unchanged else Lint(text)
  }

  // ---------------------------------------------------------------------
  // Opening and saving documents
  // ---------------------------------------------------------------------

  /** `runDocument` and `resolveCustomTextEditor`: a document given as its
      editor lines opens a panel on its only line, and nothing happens when
      it has another number of lines. */
  function UrlToOpen(lines: seq<string>): (r: Option<string>)
    ensures r.Some? <==> |lines| == 1
    ensures r.Some? ==> r.value == lines[0]
  {
    if |lines| != 1 then None else Some(lines[0])
  }

  /** The URL taken from a saved `.website` file: the first line of the
      trimmed content; other files give nothing. */
  function SavedUrl(path: string, content: string): (r: Option<string>)
    ensures r.Some? <==> |path| >= 8 && path[|path| - 8..] == ".website"
  {
    if |path| >= 8 && path[|path| - 8..] == ".website" then Some(Split(Trim(content), '\n')[0]) else None
  }

  /** The saved URL is a newline-free prefix of the trimmed content, and all
      of it when the content has a single line. */
  lemma SavedUrlIsFirstLine(path: string, content: string)
    requires SavedUrl(path, content).Some?
    ensures var url := SavedUrl(path, content).value;
      var t := Trim(content);
      '\n' !in url && StartsWith(t, url) && (|url| < |t| ==> t[|url|] == '\n')
      && ('\n' !in t ==> url == t)
  {
    var t := Trim(content);
    SplitFirstIsPrefix(t, '\n');
    if '\n' !in t {
      NoSepSplit(t, '\n');
    }
  }
}

=== FILE: highlight.dfy ===
/** The in-page find engine of `BrowserPage`: the removal pass that turns
    highlight markers back into text nodes, and the highlighting pass that
    wraps the first case-insensitive occurrence of the keyword in each run of
    adjacent text nodes. Both passes are pure functions from the document
    tree to the rewritten tree. */
module Highlight {
  import opened Wrappers
  import opened Strs
  import opened Dom

  const HighlightClass := "highlight-find-search-bar-query"
  const SelectedClass := "selected-highlight-find-search-bar-query"
  const MatchIdPrefix := "highlight-find-search-bar-query-match-"

  /** Element id of the marker created with ordinal `k`. */
  function MatchId(k: int): string {
    MatchIdPrefix + IntToString(k)
  }

  /** An element carrying either highlight class. */
  predicate IsMarker(n: Node) {
    n.Element? && (HighlightClass in n.classes || SelectedClass in n.classes)
  }

  // =====================================================================
  // Removal pass
  // =====================================================================

  /** One step of `removeHighlights`: a node with empty text content, or an
      invisible element when visibility is checked, is left alone together
      with its whole subtree; a marker is replaced by a single text node with
      its text; any other element is descended into. Text nodes never change.
      `checkVisibility` is false for `removeAllHighlights`, whose visibility
      test always answers true. */
  function RemoveHighlights(n: Node, checkVisibility: bool): (r: Node)
    ensures TextContent(r) == TextContent(n)
    ensures n.Text? ==> r == n
    decreases n, 1
  {
    match n
    case Text(_) => n
    case Element(tag, id, classes, visible, cs) =>
      if TextContent(n) == "" || (checkVisibility && !visible) then n
      else if IsMarker(n) then Text(TextContent(n))
      else Element(tag, id, classes, visible, RemoveHighlightsIn(cs, checkVisibility))
  }

  /** The removal pass over a list of siblings; siblings are replaced one
      for one, so adjacent text nodes are not merged. */
  function RemoveHighlightsIn(cs: seq<Node>, checkVisibility: bool): (r: seq<Node>)
    ensures |r| == |cs|
    ensures TextOf(r) == TextOf(cs)
    decreases cs, 0
  {
    if cs == [] then []
    else [RemoveHighlights(cs[0], checkVisibility)] + RemoveHighlightsIn(cs[1..], checkVisibility)
  }

  /** No marker with visible text is left: every marker still in the tree
      has empty text content (the removal pass stops at such nodes). */
  predicate NoLiveMarker(n: Node)
    decreases n, 1
  {
    match n
    case Text(_) => true
    case Element(_, _, _, _, cs) => TextContent(n) == "" || (!IsMarker(n) && NoLiveMarkerIn(cs))
  }

  predicate NoLiveMarkerIn(cs: seq<Node>)
    decreases cs, 0
  {
    cs == [] || (NoLiveMarker(cs[0]) && NoLiveMarkerIn(cs[1..]))
  }

  /** After `removeAllHighlights` only markers with empty text remain. */
  lemma {:induction false} RemoveAllLeavesNoLiveMarker(n: Node)
    ensures NoLiveMarker(RemoveHighlights(n, false))
    decreases n, 1
  {
    match n
    case Text(_) =>
    case Element(_, _, _, _, cs) =>
      if TextContent(n) != "" && !IsMarker(n) {
        RemoveAllLeavesNoLiveMarkerIn(cs);
      }
  }

  lemma {:induction false} RemoveAllLeavesNoLiveMarkerIn(cs: seq<Node>)
    ensures NoLiveMarkerIn(RemoveHighlightsIn(cs, false))
    decreases cs, 0
  {
    if cs != [] {
      RemoveAllLeavesNoLiveMarker(cs[0]);
      RemoveAllLeavesNoLiveMarkerIn(cs[1..]);
      var r := RemoveHighlightsIn(cs, false);
      assert r[0] == RemoveHighlights(cs[0], false);
      assert r[1..] == RemoveHighlightsIn(cs[1..], false);
    }
  }

  /** A tree without live markers is a fixed point of either removal pass. */
  lemma {:induction false} RemoveFixesClean(n: Node, checkVisibility: bool)
    requires NoLiveMarker(n)
    ensures RemoveHighlights(n, checkVisibility) == n
    decreases n, 1
  {
    match n
    case Text(_) =>
    case Element(_, _, _, _, cs) =>
      if TextContent(n) != "" && !(checkVisibility && !n.visible) {
        RemoveFixesCleanIn(cs, checkVisibility);
      }
  }

  lemma {:induction false} RemoveFixesCleanIn(cs: seq<Node>, checkVisibility: bool)
    requires NoLiveMarkerIn(cs)
    ensures RemoveHighlightsIn(cs, checkVisibility) == cs
    decreases cs, 0
  {
    if cs != [] {
      RemoveFixesClean(cs[0], checkVisibility);
      RemoveFixesCleanIn(cs[1..], checkVisibility);
      assert [cs[0]] + cs[1..] == cs;
    }
  }

  /** `removeAllHighlights` is idempotent. */
  lemma RemoveAllIdempotent(n: Node)
    ensures RemoveHighlights(RemoveHighlights(n, false), false) == RemoveHighlights(n, false)
  {
    RemoveAllLeavesNoLiveMarker(n);
    RemoveFixesClean(RemoveHighlights(n, false), false);
  }

  // =====================================================================
  // Highlighting pass
  // =====================================================================

  /** A run of text split around one occurrence of the keyword. */
  datatype RunSplit = RunSplit(before: string, mark: string, after: string)

  lemma LowerSlice(s: string, a: nat, b: nat)
    requires a <= b <= |s|
    ensures Lower(s[a..b]) == Lower(s)[a..b]
  {
    var l, r := Lower(s[a..b]), Lower(s)[a..b];
    assert |l| == |r|;
    forall i | 0 <= i < |l| ensures l[i] == r[i] {
      assert s[a..b][i] == s[a + i];
    }
  }

  /** Where the case-insensitive search finds `keyword` in `run`, the three
      slices around that position spell out `run` again, and the middle one
      is the keyword up to case. */
  lemma SplitAt(run: string, keyword: string, at: nat)
    requires OccursAt(Lower(run), Lower(keyword), at)
    ensures at + |keyword| <= |run|
    ensures run[..at] + run[at..at + |keyword|] + run[at + |keyword|..] == run
    ensures Lower(run[at..at + |keyword|]) == Lower(keyword)
  {
    var m := at + |Lower(keyword)|;
    assert m <= |Lower(run)|;
    assert run[..at] + run[at..m] == run[..m];
    LowerSlice(run, at, m);
  }

  /** Case-insensitive search of `keyword` in the run's text: `None` when it
      does not occur, otherwise the split at its FIRST occurrence. */
  function SplitRun(run: string, keyword: string): (r: Option<RunSplit>)
    ensures r.None? <==> forall k :: 0 <= k <= |run| ==> !OccursAt(Lower(run), Lower(keyword), k)
    ensures r.Some? ==> r.value.before + r.value.mark + r.value.after == run
    ensures r.Some? ==> Lower(r.value.mark) == Lower(keyword)
    ensures r.Some? ==> forall k :: 0 <= k < |r.value.before| ==> !OccursAt(Lower(run), Lower(keyword), k)
  {
    var at := IndexOf(Lower(run), Lower(keyword));
    if at == -1 then None
    else
      SplitAt(run, keyword, at);
      assert at <= |run| && OccursAt(Lower(run), Lower(keyword), at);
      Some(RunSplit(run[..at], run[at..at + |keyword|], run[at + |keyword|..]))
  }

  /** The marker span created for ordinal `k`. Assigning an empty string to
      `textContent` leaves the span without children. The span is taken to be
      as visible as the element it is inserted into. */
  function Marker(k: nat, text: string, visible: bool): Node {
    Element("span", MatchId(k), {HighlightClass}, visible, if text == "" then [] else [Text(text)])
  }

  /** The fragment that replaces a matched run: the text before (if any), the
      marker, the text after (if any). */
  function Fragment(sp: RunSplit, k: nat, visible: bool): (r: seq<Node>)
    ensures TextOf(r) == sp.before + sp.mark + sp.after
  {
    var pre := if sp.before == "" then [] else [Text(sp.before)];
    var post := if sp.after == "" then [] else [Text(sp.after)];
    var m := Marker(k, sp.mark, visible);
    assert TextContent(m) == sp.mark by {
      if sp.mark != "" {
        assert TextOf([Text(sp.mark)]) == sp.mark + TextOf([]);
      }
    }
    TextOfAppend(pre, [m]);
    TextOfAppend(pre + [m], post);
    assert TextOf(pre) == sp.before by {
      if sp.before != "" { assert TextOf(pre) == sp.before + TextOf([]); }
    }
    assert TextOf(post) == sp.after by {
      if sp.after != "" { assert TextOf(post) == sp.after + TextOf([]); }
    }
    assert TextOf([m]) == sp.mark + TextOf([]);
    pre + [m] + post
  }

  /** Number of text nodes at the start of `cs`: the run that the source
      gathers through `nextSibling` starting at `cs[0]`. */
  function TextRunLength(cs: seq<Node>): (n: nat)
    ensures n <= |cs|
    ensures forall i :: 0 <= i < n ==> cs[i].Text?
    ensures n < |cs| ==> !cs[n].Text?
  {
    if cs == [] || !cs[0].Text? then 0 else 1 + TextRunLength(cs[1..])
  }

  /** `highlightTexts` over the children of one element, in order. A text
      node with empty text, or whose parent is invisible, is skipped. Otherwise
      the texts of it and all following adjacent text nodes are concatenated
      and searched; on a match the whole run is replaced by the fragment and
      its later text nodes (detached by then) are not visited again; with no
      match only the first node is passed over, and the search starts again
      from the next sibling. Elements are descended into. `k` is the next
      marker ordinal; the second component of the result is the ordinal after
      the pass. */
  function HighlightIn(cs: seq<Node>, parentVisible: bool, keyword: string, k: nat): (r: (seq<Node>, nat))
    ensures k <= r.1
    decreases cs, 0
  {
    if cs == [] then ([], k)
    else match cs[0]
      case Text(t) =>
        var run := TextRunLength(cs);
        var sp := SplitRun(TextOf(cs[..run]), keyword);
        if t == "" || !parentVisible || sp.None? then
          var rest := HighlightIn(cs[1..], parentVisible, keyword, k);
          ([cs[0]] + rest.0, rest.1)
        else
          var rest := HighlightIn(cs[run..], parentVisible, keyword, k + 1);
          (Fragment(sp.value, k, parentVisible) + rest.0, rest.1)
      case Element(_, _, _, _, _) =>
        var first := HighlightNode(cs[0], keyword, k);
        var rest := HighlightIn(cs[1..], parentVisible, keyword, first.1);
        ([first.0] + rest.0, rest.1)
  }

  /** `highlightTexts` applied to an element: its children are processed with
      the element's own visibility; the element itself keeps its tag, id,
      classes and visibility. A text node on its own is left unchanged (the
      pass always starts at `document.body`, an element). */
  function HighlightNode(n: Node, keyword: string, k: nat): (r: (Node, nat))
    ensures k <= r.1
    ensures n.Text? ==> r == (n, k)
    ensures n.Element? ==> r.0.Element? && r.0.tag == n.tag && r.0.id == n.id
                           && r.0.classes == n.classes && r.0.visible == n.visible
    decreases n, 1
  {
    match n
    case Text(_) => (n, k)
    case Element(tag, id, classes, visible, cs) =>
      var inner := HighlightIn(cs, visible, keyword, k);
      (Element(tag, id, classes, visible, inner.0), inner.1)
  }

  lemma TextOfCons(x: Node, rest: seq<Node>)
    ensures TextOf([x] + rest) == TextContent(x) + TextOf(rest)
  {
    assert ([x] + rest)[0] == x;
    assert ([x] + rest)[1..] == rest;
  }

  /** Highlighting never changes the text of the document: the fragment that
      replaces a run spells out exactly the run's text. */
  lemma {:induction false} HighlightInPreservesText(cs: seq<Node>, parentVisible: bool, keyword: string, k: nat)
    ensures TextOf(HighlightIn(cs, parentVisible, keyword, k).0) == TextOf(cs)
    decreases cs, 0
  {
    if cs != [] {
      var r := HighlightIn(cs, parentVisible, keyword, k);
      if cs[0].Text? {
        var run := TextRunLength(cs);
        var sp := SplitRun(TextOf(cs[..run]), keyword);
        if cs[0].text == "" || !parentVisible || sp.None? {
          var rest := HighlightIn(cs[1..], parentVisible, keyword, k);
          assert r.0 == [cs[0]] + rest.0;
          HighlightInPreservesText(cs[1..], parentVisible, keyword, k);
          TextOfCons(cs[0], rest.0);
        } else {
          var rest := HighlightIn(cs[run..], parentVisible, keyword, k + 1);
          var frag := Fragment(sp.value, k, parentVisible);
          assert r.0 == frag + rest.0;
          HighlightInPreservesText(cs[run..], parentVisible, keyword, k + 1);
          RunTextSplit(cs, run, frag, rest.0);
        }
      } else {
        var first := HighlightNode(cs[0], keyword, k);
        var rest := HighlightIn(cs[1..], parentVisible, keyword, first.1);
        assert r.0 == [first.0] + rest.0;
        HighlightNodePreservesText(cs[0], keyword, k);
        HighlightInPreservesText(cs[1..], parentVisible, keyword, first.1);
        TextOfCons(first.0, rest.0);
      }
    }
  }

  /** Bookkeeping for the matched-run case: replacing the first `run` nodes by
      nodes with the same text, and the rest by nodes with the same text,
      preserves the text of the whole list. */
  lemma RunTextSplit(cs: seq<Node>, run: nat, frag: seq<Node>, rest: seq<Node>)
    requires run <= |cs|
    requires TextOf(frag) == TextOf(cs[..run])
    requires TextOf(rest) == TextOf(cs[run..])
    ensures TextOf(frag + rest) == TextOf(cs)
  {
    assert cs == cs[..run] + cs[run..];
    TextOfAppend(cs[..run], cs[run..]);
    TextOfAppend(frag, rest);
  }

  lemma {:induction false} HighlightNodePreservesText(n: Node, keyword: string, k: nat)
    ensures TextContent(HighlightNode(n, keyword, k).0) == TextContent(n)
    decreases n, 1
  {
    if n.Element? {
      HighlightInPreservesText(n.children, n.visible, keyword, k);
    }
  }

  /** `updateHighlights(text)`: trims the query, runs the removal pass (with
      visibility) over the body, then the highlighting pass with ordinals from
      0; returns the rewritten body and the number of markers created. */
  function UpdateHighlights(body: Node, text: string): (r: (Node, nat))
    ensures TextContent(r.0) == TextContent(body)
  {
    var keyword := Trim(text);
    var cleared := RemoveHighlights(body, true);
    HighlightNodePreservesText(cleared, keyword, 0);
    HighlightNode(cleared, keyword, 0)
  }

  /** `removeAllHighlights()`: the removal pass with every node visible. */
  function RemoveAllHighlights(body: Node): (r: Node)
    ensures TextContent(r) == TextContent(body)
    ensures NoLiveMarker(r)
  {
    RemoveAllLeavesNoLiveMarker(body);
    RemoveHighlights(body, false)
  }

  // =====================================================================
  // Marker ordinals
  // =====================================================================

  /** Ids of the elements carrying the highlight class, in tree order. */
  function MarkerIds(n: Node): seq<string>
    decreases n, 1
  {
    match n
    case Text(_) => []
    case Element(_, id, classes, _, cs) =>
      (if HighlightClass in classes then [id] else []) + MarkerIdsIn(cs)
  }

  function MarkerIdsIn(cs: seq<Node>): seq<string>
    decreases cs, 0
  {
    if cs == [] then [] else MarkerIds(cs[0]) + MarkerIdsIn(cs[1..])
  }

  /** `f` applied to the ordinals from `a` up to, not including, `b`. */
  function Tabulate<T>(f: int -> T, a: nat, b: nat): (r: seq<T>)
    ensures |r| == if a <= b then b - a else 0
    decreases b - a
  {
    if a >= b then [] else [f(a)] + Tabulate(f, a + 1, b)
  }

  lemma {:induction false} TabulateSplit<T>(f: int -> T, a: nat, b: nat, c: nat)
    requires a <= b <= c
    ensures Tabulate(f, a, b) + Tabulate(f, b, c) == Tabulate(f, a, c)
    decreases b - a
  {
    if a < b {
      TabulateSplit(f, a + 1, b, c);
      assert ([f(a)] + Tabulate(f, a + 1, b)) + Tabulate(f, b, c) == [f(a)] + (Tabulate(f, a + 1, b) + Tabulate(f, b, c));
    }
  }

  /** The ids the pass hands out from ordinal `a` up to, not including, `b`. */
  function MatchIds(a: nat, b: nat): (r: seq<string>)
    ensures |r| == if a <= b then b - a else 0
  {
    Tabulate(MatchId, a, b)
  }

  lemma MatchIdsSplit(a: nat, b: nat, c: nat)
    requires a <= b <= c
    ensures MatchIds(a, b) + MatchIds(b, c) == MatchIds(a, c)
  {
    TabulateSplit(MatchId, a, b, c);
  }

  lemma MatchIdsOne(k: nat)
    ensures MatchIds(k, k + 1) == [MatchId(k)]
  {
    assert Tabulate(MatchId, k + 1, k + 1) == [];
  }

  lemma {:induction false} MarkerIdsInAppend(a: seq<Node>, b: seq<Node>)
    ensures MarkerIdsIn(a + b) == MarkerIdsIn(a) + MarkerIdsIn(b)
  {
    if a == [] {
      assert a + b == b;
    } else {
      assert (a + b)[0] == a[0];
      assert (a + b)[1..] == a[1..] + b;
      MarkerIdsInAppend(a[1..], b);
    }
  }

  lemma MarkerIdsCons(x: Node, rest: seq<Node>)
    ensures MarkerIdsIn([x] + rest) == MarkerIds(x) + MarkerIdsIn(rest)
  {
    assert ([x] + rest)[0] == x;
    assert ([x] + rest)[1..] == rest;
  }

  lemma FragmentMarkerIds(sp: RunSplit, k: nat, visible: bool)
    ensures MarkerIdsIn(Fragment(sp, k, visible)) == [MatchId(k)]
  {
    var pre := if sp.before == "" then [] else [Text(sp.before)];
    var post := if sp.after == "" then [] else [Text(sp.after)];
    var m := Marker(k, sp.mark, visible);
    assert MarkerIds(m) == [MatchId(k)] by {
      assert MarkerIdsIn(m.children) == [] by {
        if sp.mark != "" { MarkerIdsCons(Text(sp.mark), []); }
      }
      assert HighlightClass in m.classes;
      assert MarkerIds(m) == [m.id] + MarkerIdsIn(m.children);
    }
    MarkerIdsInAppend(pre, [m]);
    MarkerIdsInAppend(pre + [m], post);
    assert MarkerIdsIn(pre) == [] by {
      if sp.before != "" { MarkerIdsCons(Text(sp.before), []); }
    }
    assert MarkerIdsIn(post) == [] by {
      if sp.after != "" { MarkerIdsCons(Text(sp.after), []); }
    }
    MarkerIdsCons(m, []);
  }

  /** On a document without markers, the pass creates exactly the markers
      with ordinals `k` up to the returned ordinal, in tree order; so the
      count it reports is the number of markers, and the ids
      `...-match-0` to `...-match-(count - 1)` that the find bar steps through
      all exist. */
  lemma {:induction false} HighlightInMarkerIds(cs: seq<Node>, parentVisible: bool, keyword: string, k: nat)
    requires MarkerIdsIn(cs) == []
    ensures MarkerIdsIn(HighlightIn(cs, parentVisible, keyword, k).0) == MatchIds(k, HighlightIn(cs, parentVisible, keyword, k).1)
    decreases cs, 0
  {
    if cs != [] {
      MarkerIdsCons(cs[0], cs[1..]);
      assert [cs[0]] + cs[1..] == cs;
      if cs[0].Text? {
        var run := TextRunLength(cs);
        var sp := SplitRun(TextOf(cs[..run]), keyword);
        if cs[0].text == "" || !parentVisible || sp.None? {
          HighlightInMarkerIds(cs[1..], parentVisible, keyword, k);
          KeptTextMarkerIds(cs, parentVisible, keyword, k);
        } else {
          MarkerIdsSuffix(cs, run);
          HighlightInMarkerIds(cs[run..], parentVisible, keyword, k + 1);
          MarkedRunMarkerIds(cs, parentVisible, keyword, k);
        }
      } else {
        HighlightNodeMarkerIds(cs[0], keyword, k);
        HighlightInMarkerIds(cs[1..], parentVisible, keyword, HighlightNode(cs[0], keyword, k).1);
        ElementMarkerIds(cs, parentVisible, keyword, k);
      }
    }
  }

  lemma MarkerIdsSuffix(cs: seq<Node>, n: nat)
    requires MarkerIdsIn(cs) == [] && n <= |cs|
    ensures MarkerIdsIn(cs[n..]) == []
  {
    assert cs == cs[..n] + cs[n..];
    MarkerIdsInAppend(cs[..n], cs[n..]);
  }

  /** The steps of `HighlightInMarkerIds`, one per branch of the pass. */
  lemma KeptTextMarkerIds(cs: seq<Node>, parentVisible: bool, keyword: string, k: nat)
    requires cs != [] && cs[0].Text?
    requires cs[0].text == "" || !parentVisible || SplitRun(TextOf(cs[..TextRunLength(cs)]), keyword).None?
    requires var rest := HighlightIn(cs[1..], parentVisible, keyword, k); MarkerIdsIn(rest.0) == MatchIds(k, rest.1)
    ensures MarkerIdsIn(HighlightIn(cs, parentVisible, keyword, k).0) == MatchIds(k, HighlightIn(cs, parentVisible, keyword, k).1)
  {
    var rest := HighlightIn(cs[1..], parentVisible, keyword, k);
    assert HighlightIn(cs, parentVisible, keyword, k) == ([cs[0]] + rest.0, rest.1);
    MarkerIdsCons(cs[0], rest.0);
  }

  lemma MarkedRunMarkerIds(cs: seq<Node>, parentVisible: bool, keyword: string, k: nat)
    requires cs != [] && cs[0].Text? && cs[0].text != "" && parentVisible
    requires SplitRun(TextOf(cs[..TextRunLength(cs)]), keyword).Some?
    requires var rest := HighlightIn(cs[TextRunLength(cs)..], parentVisible, keyword, k + 1);
      MarkerIdsIn(rest.0) == MatchIds(k + 1, rest.1)
    ensures MarkerIdsIn(HighlightIn(cs, parentVisible, keyword, k).0) == MatchIds(k, HighlightIn(cs, parentVisible, keyword, k).1)
  {
    var sp := SplitRun(TextOf(cs[..TextRunLength(cs)]), keyword);
    var rest := HighlightIn(cs[TextRunLength(cs)..], parentVisible, keyword, k + 1);
    var frag := Fragment(sp.value, k, parentVisible);
    assert HighlightIn(cs, parentVisible, keyword, k) == (frag + rest.0, rest.1);
    MarkerIdsInAppend(frag, rest.0);
    FragmentMarkerIds(sp.value, k, parentVisible);
    MatchIdsOne(k);
    MatchIdsSplit(k, k + 1, rest.1);
  }

  lemma ElementMarkerIds(cs: seq<Node>, parentVisible: bool, keyword: string, k: nat)
    requires cs != [] && cs[0].Element?
    requires var first := HighlightNode(cs[0], keyword, k); MarkerIds(first.0) == MatchIds(k, first.1)
    requires var first := HighlightNode(cs[0], keyword, k);
      var rest := HighlightIn(cs[1..], parentVisible, keyword, first.1);
      MarkerIdsIn(rest.0) == MatchIds(first.1, rest.1)
    ensures MarkerIdsIn(HighlightIn(cs, parentVisible, keyword, k).0) == MatchIds(k, HighlightIn(cs, parentVisible, keyword, k).1)
  {
    var first := HighlightNode(cs[0], keyword, k);
    var rest := HighlightIn(cs[1..], parentVisible, keyword, first.1);
    assert HighlightIn(cs, parentVisible, keyword, k) == ([first.0] + rest.0, rest.1);
    MarkerIdsCons(first.0, rest.0);
    MatchIdsSplit(k, first.1, rest.1);
  }

  lemma {:induction false} HighlightNodeMarkerIds(n: Node, keyword: string, k: nat)
    requires MarkerIds(n) == []
    ensures MarkerIds(HighlightNode(n, keyword, k).0) == MatchIds(k, HighlightNode(n, keyword, k).1)
    decreases n, 1
  {
    if n.Element? {
      HighlightInMarkerIds(n.children, n.visible, keyword, k);
    }
  }

  /** The empty keyword occurs at the very start of every text. */
  lemma SplitRunEmpty(s: string)
    ensures SplitRun(s, "") == Some(RunSplit("", "", s))
  {
    assert OccursAt(Lower(s), Lower(""), 0);
    assert IndexOf(Lower(s), Lower("")) == 0;
    assert s[..0] == "" && s[0..0] == "" && s[0..] == s;
  }

  /** A single visible text node in which the keyword occurs becomes the
      fragment around its first occurrence, with one marker. */
  lemma OneRunMarked(s: string, keyword: string, k: nat)
    requires s != "" && SplitRun(s, keyword).Some?
    ensures HighlightIn([Text(s)], true, keyword, k) == (Fragment(SplitRun(s, keyword).value, k, true), k + 1)
  {
    var cs := [Text(s)];
    assert TextRunLength(cs) == 1 by {
      assert TextRunLength(cs[1..]) == 0;
    }
    assert cs[..1] == cs;
    assert TextOf(cs) == s by { TextOfCons(Text(s), []); }
    assert cs[1..] == [];
    var sp := SplitRun(s, keyword);
    var frag := Fragment(sp.value, k, true);
    assert HighlightIn(cs, true, keyword, k) == (frag + HighlightIn(cs[1..], true, keyword, k + 1).0, k + 1);
    assert frag + [] == frag;
  }

  /** With an empty keyword (a query of only blanks trims to it), a single
      non-empty text node gets an empty marker in front of it, and the
      removal pass never takes such a marker away again, since its text is
      empty. */
  lemma EmptyKeywordMarksEveryRun(s: string, k: nat)
    requires s != ""
    ensures HighlightIn([Text(s)], true, "", k) == ([Marker(k, "", true), Text(s)], k + 1)
    ensures RemoveHighlights(Marker(k, "", true), true) == Marker(k, "", true)
  {
    SplitRunEmpty(s);
    OneRunMarked(s, "", k);
    var sp := RunSplit("", "", s);
    assert SplitRun(s, "").value == sp;
    assert Fragment(sp, k, true) == [Marker(k, "", true), Text(s)] by {
      assert [] + [Marker(k, "", true)] + [Text(s)] == [Marker(k, "", true), Text(s)];
    }
    assert TextContent(Marker(k, "", true)) == "";
  }

  /** Some node of the list is a text node with non-empty text. */
  predicate HasText(ts: seq<Node>) {
    exists i :: 0 <= i < |ts| && ts[i].Text? && ts[i].text != ""
  }

  /** A reference count for the empty keyword: the maximal runs of adjacent
      text nodes that hold some text and whose parent is visible, over the
      whole tree. */
  function LiveRunsIn(cs: seq<Node>, parentVisible: bool): nat
    decreases cs, 0
  {
    if cs == [] then 0
    else if cs[0].Text? then
      var run := TextRunLength(cs);
      (if parentVisible && HasText(cs[..run]) then 1 else 0) + LiveRunsIn(cs[run..], parentVisible)
    else LiveRunsOf(cs[0]) + LiveRunsIn(cs[1..], parentVisible)
  }

  function LiveRunsOf(n: Node): nat
    decreases n, 1
  {
    match n
    case Text(_) => 0
    case Element(_, _, _, visible, cs) => LiveRunsIn(cs, visible)
  }

  /** Passing over a text node that starts no marker leaves the count of
      the rest unchanged. */
  lemma LiveRunsTail(cs: seq<Node>, parentVisible: bool)
    requires cs != [] && cs[0].Text? && (cs[0].text == "" || !parentVisible)
    ensures LiveRunsIn(cs[1..], parentVisible) == LiveRunsIn(cs, parentVisible)
  {
    var run := TextRunLength(cs);
    if run > 1 {
      TextRunLengthTail(cs);
      assert cs[1..][run - 1..] == cs[run..];
      assert cs[1..][..run - 1] == cs[1..run];
      if parentVisible {
        assert HasText(cs[..run]) ==> HasText(cs[1..run]) by {
          if HasText(cs[..run]) {
            var i :| 0 <= i < run && cs[..run][i].Text? && cs[..run][i].text != "";
            assert i != 0;
            assert cs[1..run][i - 1] == cs[..run][i];
          }
        }
        assert HasText(cs[1..run]) ==> HasText(cs[..run]) by {
          if HasText(cs[1..run]) {
            var i :| 0 <= i < run - 1 && cs[1..run][i].Text? && cs[1..run][i].text != "";
            assert cs[..run][i + 1] == cs[1..run][i];
          }
        }
      }
    } else {
      assert cs[1..] == cs[run..];
      if parentVisible {
        assert cs[..run] == [cs[0]];
      }
    }
  }

  /** A run that starts with a non-empty text under a visible parent counts. */
  lemma LiveRunsHead(cs: seq<Node>, parentVisible: bool)
    requires cs != [] && cs[0].Text? && cs[0].text != "" && parentVisible
    ensures LiveRunsIn(cs, parentVisible) == 1 + LiveRunsIn(cs[TextRunLength(cs)..], parentVisible)
  {
    var run := TextRunLength(cs);
    assert cs[..run][0] == cs[0];
    assert HasText(cs[..run]);
  }

  /** With an empty keyword, such a run is replaced by a fragment with one
      marker, and the pass carries on after the run. */
  lemma EmptyKeywordStartsRun(cs: seq<Node>, parentVisible: bool, k: nat)
    requires cs != [] && cs[0].Text? && cs[0].text != "" && parentVisible
    ensures HighlightIn(cs, parentVisible, "", k).1 == HighlightIn(cs[TextRunLength(cs)..], parentVisible, "", k + 1).1
  {
    SplitRunEmpty(TextOf(cs[..TextRunLength(cs)]));
  }

  /** With an empty keyword the pass creates exactly one marker per run that
      holds some text under a visible parent: the keyword is found at the
      start of every such run. */
  lemma {:induction false} EmptyKeywordCount(cs: seq<Node>, parentVisible: bool, k: nat)
    ensures HighlightIn(cs, parentVisible, "", k).1 == k + LiveRunsIn(cs, parentVisible)
    decreases cs, 0
  {
    if cs != [] {
      if cs[0].Text? {
        if cs[0].text == "" || !parentVisible {
          EmptyKeywordCount(cs[1..], parentVisible, k);
          LiveRunsTail(cs, parentVisible);
        } else {
          EmptyKeywordStartsRun(cs, parentVisible, k);
          EmptyKeywordCount(cs[TextRunLength(cs)..], parentVisible, k + 1);
          LiveRunsHead(cs, parentVisible);
        }
      } else {
        var first := HighlightNode(cs[0], "", k);
        EmptyKeywordCountNode(cs[0], k);
        EmptyKeywordCount(cs[1..], parentVisible, first.1);
      }
    }
  }

  lemma {:induction false} EmptyKeywordCountNode(n: Node, k: nat)
    ensures HighlightNode(n, "", k).1 == k + LiveRunsOf(n)
    decreases n, 1
  {
    if n.Element? {
      EmptyKeywordCount(n.children, n.visible, k);
    }
  }

  // =====================================================================
  // What the count of `updateHighlights` means
  // =====================================================================

  /** When the removal pass leaves no highlight marker behind, the count
      `updateHighlights` returns is the number of markers in the page, and
      their ids are `...-match-0` to `...-match-(count - 1)` in tree order:
      exactly the ids the find bar steps through. */
  lemma UpdateHighlightsMarkerIds(body: Node, text: string)
    requires MarkerIds(RemoveHighlights(body, true)) == []
    ensures var (doc, n) := UpdateHighlights(body, text);
            MarkerIds(doc) == MatchIds(0, n) && |MarkerIds(doc)| == n
  {
    HighlightNodeMarkerIds(RemoveHighlights(body, true), Trim(text), 0);
  }

  /** The removal pass never creates a highlight marker. */
  lemma {:induction false} RemoveKeepsMarkerFree(n: Node, checkVisibility: bool)
    requires MarkerIds(n) == []
    ensures MarkerIds(RemoveHighlights(n, checkVisibility)) == []
    decreases n, 1
  {
    if n.Element? && !(TextContent(n) == "" || (checkVisibility && !n.visible)) && !IsMarker(n) {
      RemoveKeepsMarkerFreeIn(n.children, checkVisibility);
    }
  }

  lemma {:induction false} RemoveKeepsMarkerFreeIn(cs: seq<Node>, checkVisibility: bool)
    requires MarkerIdsIn(cs) == []
    ensures MarkerIdsIn(RemoveHighlightsIn(cs, checkVisibility)) == []
    decreases cs, 0
  {
    if cs != [] {
      MarkerIdsCons(cs[0], cs[1..]);
      assert [cs[0]] + cs[1..] == cs;
      RemoveKeepsMarkerFree(cs[0], checkVisibility);
      RemoveKeepsMarkerFreeIn(cs[1..], checkVisibility);
      MarkerIdsCons(RemoveHighlights(cs[0], checkVisibility), RemoveHighlightsIn(cs[1..], checkVisibility));
    }
  }

  /** The first search on a page without highlight markers numbers its
      markers from 0 to the count it returns. */
  lemma FirstSearchMarkerIds(body: Node, text: string)
    requires MarkerIds(body) == []
    ensures var (doc, n) := UpdateHighlights(body, text);
            MarkerIds(doc) == MatchIds(0, n)
  {
    RemoveKeepsMarkerFree(body, true);
    UpdateHighlightsMarkerIds(body, text);
  }

  /** The precondition above is not met after a blank query: the empty
      marker it leaves survives the removal pass of the next search, which
      numbers its own markers from 0 again. On a body holding one text node,
      a blank query and then a query that occurs in the text leave two
      markers with the id `...-match-0`, while the count is 1. */
  lemma BlankQueryLeavesDuplicateId(s: string, w: string)
    requires s != "" && SplitRun(s, Trim(w)).Some?
    ensures var body := Element("body", "", {}, true, [Text(s)]);
            var first := UpdateHighlights(body, "");
            var second := UpdateHighlights(first.0, w);
            && first.1 == 1 && second.1 == 1
            && MarkerIds(second.0) == [MatchId(0), MatchId(0)]
  {
    var body := Element("body", "", {}, true, [Text(s)]);
    var m := Marker(0, "", true);
    assert Trim("") == "";
    BlankQueryFirst(s);
    var doc1 := Element("body", "", {}, true, [m, Text(s)]);
    assert UpdateHighlights(body, "") == (doc1, 1);
    BlankQuerySecond(s, Trim(w));
  }

  lemma BlankQueryFirst(s: string)
    requires s != ""
    ensures var body := Element("body", "", {}, true, [Text(s)]);
            RemoveHighlights(body, true) == body
            && HighlightNode(body, "", 0) == (Element("body", "", {}, true, [Marker(0, "", true), Text(s)]), 1)
  {
    var cs := [Text(s)];
    TextOfCons(Text(s), []);
    assert cs[1..] == [];
    assert RemoveHighlightsIn(cs, true) == cs;
    EmptyKeywordMarksEveryRun(s, 0);
  }

  lemma BlankQuerySecond(s: string, keyword: string)
    requires s != "" && SplitRun(s, keyword).Some?
    ensures var doc1 := Element("body", "", {}, true, [Marker(0, "", true), Text(s)]);
            var r := HighlightNode(RemoveHighlights(doc1, true), keyword, 0);
            r.1 == 1 && MarkerIds(r.0) == [MatchId(0), MatchId(0)]
  {
    var m := Marker(0, "", true);
    var frag := Fragment(SplitRun(s, keyword).value, 0, true);
    BlankMarkerSurvives(s);
    BlankMarkerThenRun(s, keyword);
    MarkerIdsCons(m, frag);
    FragmentMarkerIds(SplitRun(s, keyword).value, 0, true);
    assert MarkerIds(m) == [MatchId(0)] by {
      assert MarkerIdsIn(m.children) == [];
    }
  }

  /** The removal pass keeps a body holding an empty marker and a text. */
  lemma BlankMarkerSurvives(s: string)
    requires s != ""
    ensures var doc1 := Element("body", "", {}, true, [Marker(0, "", true), Text(s)]);
            RemoveHighlights(doc1, true) == doc1
  {
    var m := Marker(0, "", true);
    var cs := [m, Text(s)];
    assert TextContent(m) == "";
    assert TextOf(cs) == s by {
      TextOfCons(m, [Text(s)]);
      TextOfCons(Text(s), []);
      assert cs[1..] == [Text(s)];
    }
    assert cs[1..] == [Text(s)] && [Text(s)][1..] == [];
    assert RemoveHighlightsIn(cs, true) == cs;
  }

  /** The next pass leaves the empty marker as it is and marks the text. */
  lemma BlankMarkerThenRun(s: string, keyword: string)
    requires s != "" && SplitRun(s, keyword).Some?
    ensures HighlightIn([Marker(0, "", true), Text(s)], true, keyword, 0)
            == ([Marker(0, "", true)] + Fragment(SplitRun(s, keyword).value, 0, true), 1)
  {
    var m := Marker(0, "", true);
    var cs := [m, Text(s)];
    assert cs[1..] == [Text(s)];
    assert HighlightNode(m, keyword, 0) == (m, 0);
    OneRunMarked(s, keyword, 0);
  }


  // =====================================================================
  // One marker per run
  // =====================================================================

  /** Number of maximal runs of adjacent text nodes in the tree. */
  function RunsIn(cs: seq<Node>): nat
    decreases cs, 0
  {
    if cs == [] then 0
    else if cs[0].Text? then
      var run := TextRunLength(cs);
      1 + RunsIn(cs[run..])
    else RunsOf(cs[0]) + RunsIn(cs[1..])
  }

  function RunsOf(n: Node): nat
    decreases n, 1
  {
    match n
    case Text(_) => 1
    case Element(_, _, _, _, cs) => RunsIn(cs)
  }

  /** Dropping the first text node of a run leaves at most as many runs. */
  lemma RunsInTail(cs: seq<Node>)
    requires cs != [] && cs[0].Text?
    ensures RunsIn(cs[1..]) <= RunsIn(cs)
  {
    var run := TextRunLength(cs);
    if run > 1 {
      assert TextRunLength(cs[1..]) == run - 1 by { TextRunLengthTail(cs); }
      assert cs[1..][run - 1..] == cs[run..];
    } else {
      assert cs[1..] == cs[run..];
    }
  }

  lemma TextRunLengthTail(cs: seq<Node>)
    requires cs != [] && cs[0].Text?
    ensures TextRunLength(cs[1..]) == TextRunLength(cs) - 1
  {
  }

  /** The pass creates at most one marker per maximal text run: after a
      match the run's remaining nodes are gone, and after a failed search
      the next node of the same run starts a shorter search of the same run. */
  lemma {:induction false} AtMostOneMarkerPerRun(cs: seq<Node>, parentVisible: bool, keyword: string, k: nat)
    ensures HighlightIn(cs, parentVisible, keyword, k).1 - k <= RunsIn(cs)
    decreases cs, 0
  {
    if cs != [] {
      if cs[0].Text? {
        var run := TextRunLength(cs);
        var sp := SplitRun(TextOf(cs[..run]), keyword);
        if cs[0].text == "" || !parentVisible || sp.None? {
          AtMostOneMarkerPerRun(cs[1..], parentVisible, keyword, k);
          RunsInTail(cs);
        } else {
          AtMostOneMarkerPerRun(cs[run..], parentVisible, keyword, k + 1);
        }
      } else {
        var first := HighlightNode(cs[0], keyword, k);
        AtMostOneMarkerPerRunNode(cs[0], keyword, k);
        AtMostOneMarkerPerRun(cs[1..], parentVisible, keyword, first.1);
      }
    }
  }

  lemma {:induction false} AtMostOneMarkerPerRunNode(n: Node, keyword: string, k: nat)
    ensures HighlightNode(n, keyword, k).1 - k <= RunsOf(n)
    decreases n, 1
  {
    if n.Element? {
      AtMostOneMarkerPerRun(n.children, n.visible, keyword, k);
    }
  }

  /** A shorter search inside a run that did not match cannot match either:
      every occurrence in the tail of the text is one in the whole text. */
  lemma SuffixHasNoMatch(a: string, b: string, keyword: string)
    requires SplitRun(a + b, keyword).None?
    ensures SplitRun(b, keyword).None?
  {
    if SplitRun(b, keyword).Some? {
      var k :| 0 <= k <= |b| && OccursAt(Lower(b), Lower(keyword), k);
      LowerAppend(a, b);
      OccursInSuffix(Lower(a), Lower(b), Lower(keyword), k);
      assert false;
    }
  }

  lemma OccursInSuffix(a: string, b: string, w: string, k: nat)
    requires OccursAt(b, w, k)
    ensures OccursAt(a + b, w, |a| + k)
  {
    assert (a + b)[|a| + k..|a| + k + |w|] == b[k..k + |w|];
  }
}

=== FILE: install_chromium.dfy ===
/** The installer of a local headless Chromium: the platform name handed to
    `puppeteer browsers install`, the shaping of the command's outcome, and
    the reading of the installed executable's path from its output. The
    operating system, the architecture and the command's outcome are
    parameters. */
module InstallChromium {
  import opened Wrappers
  import opened Strs

  const Version := "127.0.6533.119"
  const NoOutput := "No output from puppeteer browsers install"
  const UnsupportedPrefix := "Unsupported platform "
  const NotFoundPrefix := "Could not find chromium path stdout: "

  // ---------------------------------------------------------------------
  // get_platform
  // ---------------------------------------------------------------------

  /** The puppeteer platform name for an operating system and processor
      architecture, or the error for an operating system it does not know. */
  function GetPlatform(os: string, arch: string): (r: Result<string, string>)
    ensures r.Err? <==> os != "linux" && os != "darwin" && os != "win32"
    ensures r.Err? ==> r.error == UnsupportedPrefix + os
  {
    if os == "linux" then Ok("linux")
    else if os == "darwin" then Ok(if arch == "arm64" then "mac_arm" else "mac")
    else if os == "win32" then Ok(if arch == "x64" then "win64" else "win32")
    else Err(UnsupportedPrefix + os)
  }

  /** The operating system a puppeteer platform name belongs to. */
  function OsOf(name: string): string {
    if name == "linux" then "linux"
    else if name == "mac" || name == "mac_arm" then "darwin"
    else if name == "win32" || name == "win64" then "win32"
    else ""
  }

  /** The platform name never names another operating system, and the
      architecture only chooses between the two builds of one system. */
  lemma PlatformBelongsToOs(os: string, arch: string)
    requires GetPlatform(os, arch).Ok?
    ensures OsOf(GetPlatform(os, arch).value) == os
    ensures GetPlatform(os, arch).value != os ==> os != "linux"
  {
  }

  /** The 64-bit ARM Mac and the 64-bit Windows builds are the only ones
      chosen by architecture. */
  lemma ArchitectureChoice(os: string, arch: string)
    requires GetPlatform(os, arch).Ok?
    ensures GetPlatform(os, arch).value == "mac_arm" <==> os == "darwin" && arch == "arm64"
    ensures GetPlatform(os, arch).value == "win64" <==> os == "win32" && arch == "x64"
    ensures os == "linux" ==> forall a :: GetPlatform(os, a) == Ok("linux")
  {
  }

  // ---------------------------------------------------------------------
  // Reading the installed path from the output
  // ---------------------------------------------------------------------

  /** The text of the pattern before its capture group; the dots of the
      version are regular-expression wildcards. */
  const Needle := "chrome-headless-shell@" + Version + " "

  /** One character of the pattern against one of the output: a `.` takes
      any character except a line terminator. */
  predicate CharMatches(p: char, c: char) {
    if p == '.' then !IsLineTerminator(c) else p == c
  }

  predicate NeedleAt(s: string, i: nat) {
    i + |Needle| <= |s| && forall j :: 0 <= j < |Needle| ==> CharMatches(Needle[j], s[i + j])
  }

  /** The first line terminator at or after `from`, or the end of `s`. */
  function LineEnd(s: string, from: nat): (k: nat)
    requires from <= |s|
    ensures from <= k <= |s|
    ensures k < |s| ==> IsLineTerminator(s[k])
    ensures forall j :: from <= j < k ==> !IsLineTerminator(s[j])
    decreases |s| - from
  {
    if from == |s| || IsLineTerminator(s[from]) then from else LineEnd(s, from + 1)
  }

  /** `chrome-headless-shell@<version> (.+?)\n` matches at position `i`:
      the lazy group runs to the first line terminator, which must be a
      line feed, and takes at least one character. */
  predicate MatchAt(s: string, i: nat) {
    && NeedleAt(s, i)
    && var k := LineEnd(s, i + |Needle|);
    && k > i + |Needle| && k < |s| && s[k] == '\n'
  }

  /** The captured group of the match at `i`. */
  function Captured(s: string, i: nat): string
    requires MatchAt(s, i)
  {
    s[i + |Needle|..LineEnd(s, i + |Needle|)]
  }

  /** The leftmost match at or after `from`. */
  function FirstMatch(s: string, from: nat): (r: Option<nat>)
    requires from <= |s|
    ensures r.Some? ==> from <= r.value <= |s| && MatchAt(s, r.value)
    ensures r.Some? ==> forall i :: from <= i < r.value ==> !MatchAt(s, i)
    ensures r.None? ==> forall i :: from <= i <= |s| ==> !MatchAt(s, i)
    decreases |s| - from
  {
    if MatchAt(s, from) then Some(from)
    else if from == |s| then None
    else FirstMatch(s, from + 1)
  }

  /** The loop over `regex.exec(stdout)`: it returns on its first
      iteration, so only the leftmost match counts; its group is trimmed. */
  function FindPath(stdout: string): (r: Option<string>)
    ensures r.None? <==> forall i :: 0 <= i <= |stdout| ==> !MatchAt(stdout, i)
    ensures r.Some? ==> exists i :: 0 <= i <= |stdout| && MatchAt(stdout, i) && r.value == Trim(Captured(stdout, i))
  {
    match FirstMatch(stdout, 0)
    case None => None
    case Some(i) => Some(Trim(Captured(stdout, i)))
  }

  /** A line naming the version and a path, on a line of its own at the
      head of the output, gives that path back. */
  lemma PrintedPathReadBack(path: string, rest: string)
    requires path != [] && !IsWhitespace(path[0]) && !IsWhitespace(path[|path| - 1])
    requires forall j :: 0 <= j < |path| ==> !IsLineTerminator(path[j])
    ensures FindPath(Needle + path + "\n" + rest) == Some(path)
  {
    var s := Needle + path + "\n" + rest;
    assert NeedleAt(s, 0) by {
      forall j | 0 <= j < |Needle| ensures CharMatches(Needle[j], s[j]) {
        assert s[j] == Needle[j];
      }
    }
    assert forall j :: |Needle| <= j < |Needle| + |path| ==> s[j] == path[j - |Needle|];
    LineEndAt(s, |Needle|, |Needle| + |path|);
    assert MatchAt(s, 0);
    assert s[|Needle|..|Needle| + |path|] == path;
    TrimClean(path);
  }

  lemma {:induction false} LineEndAt(s: string, from: nat, k: nat)
    requires from <= k < |s| && IsLineTerminator(s[k])
    requires forall j :: from <= j < k ==> !IsLineTerminator(s[j])
    ensures LineEnd(s, from) == k
    decreases k - from
  {
    if from < k {
      LineEndAt(s, from + 1, k);
    }
  }

  /** Trimming a string without surrounding whitespace changes nothing. */
  lemma TrimClean(s: string)
    requires s != [] && !IsWhitespace(s[0]) && !IsWhitespace(s[|s| - 1])
    ensures Trim(s) == s
  {
  }

  /** A path line ending in a carriage return and line feed is not matched:
      the lazy group stops at the carriage return, which is not the line
      feed the pattern asks for. */
  lemma CarriageReturnLineMissed(path: string)
    requires path != [] && forall j :: 0 <= j < |path| ==> !IsLineTerminator(path[j])
    ensures !MatchAt(Needle + path + "\r\n", 0)
  {
    var s := Needle + path + "\r\n";
    assert forall j :: |Needle| <= j < |Needle| + |path| ==> s[j] == path[j - |Needle|];
    LineEndAt(s, |Needle|, |Needle| + |path|);
  }

  /** The version's dots match any character, so a line naming another
      version of the same shape is taken as well. */
  lemma VersionDotsAreWildcards()
    ensures MatchAt("chrome-headless-shell@127x0x6533x119 /p\n", 0)
  {
    var s := "chrome-headless-shell@127x0x6533x119 /p\n";
    assert NeedleAt(s, 0) by {
      forall j | 0 <= j < |Needle| ensures CharMatches(Needle[j], s[j]) {
        assert Needle[j] == '.' || Needle[j] == s[j];
      }
    }
    LineEndAt(s, |Needle|, |Needle| + 2);
  }

  // ---------------------------------------------------------------------
  // exec_command, install_chromium
  // ---------------------------------------------------------------------

  /** What `child_process.exec` reports for a command. */
  datatype ExecReply = ExecReply(failed: bool, stdout: string, stderr: string)

  /** `exec_command`: a failure keeps only the error output, a success only
      the standard output. */
  function ExecCommand(reply: ExecReply): (Option<string>, Option<string>) {
    if reply.failed then (None, Some(reply.stderr)) else (Some(reply.stdout), None)
  }

  /** The install command for a platform, with `.local-chromium` next to
      the installer given as `localPath`. */
  function Command(localPath: string, platform: string): string {
    "npx puppeteer@23.4.0 browsers install chrome-headless-shell@" + Version
      + " --path " + localPath + " --platform " + platform
  }

  /** How the reply of the install command is read: its error output
      when it failed with some, otherwise the path found in its output. */
  function Interpret(reply: ExecReply): (r: Result<string, string>)
    ensures reply.failed && reply.stderr != "" ==> r == Err(reply.stderr)
    ensures reply.failed && reply.stderr == "" ==> r == Err(NoOutput)
    ensures !reply.failed && reply.stdout == "" ==> r == Err(NoOutput)
    ensures !reply.failed && reply.stdout != "" ==>
      (r.Ok? <==> FindPath(reply.stdout).Some?)
      && (r.Ok? ==> Some(r.value) == FindPath(reply.stdout))
      && (r.Err? ==> r.error == NotFoundPrefix + reply.stdout)
  {
    var (stdout, stderr) := ExecCommand(reply);
    if stderr.Some? && stderr.value != "" then Err(stderr.value)
    else if stdout.None? || stdout.value == "" then Err(NoOutput)
    else
      match FindPath(stdout.value)
      case Some(path) => Ok(path)
      case None => Err(NotFoundPrefix + stdout.value)
  }

  /** The installer's result: the commands it ran, and either the
      executable's path or an error. */
  datatype Outcome = Outcome(commands: seq<string>, result: Result<string, string>)

  /** `install_chromium()`, with the outcome of the command given by
      `exec`: an unsupported system is refused before any command runs,
      a supported one runs exactly the install command for its platform. */
  function Install(os: string, arch: string, localPath: string, exec: string -> ExecReply): (r: Outcome)
    ensures GetPlatform(os, arch).Err? ==> r == Outcome([], Err(UnsupportedPrefix + os))
    ensures GetPlatform(os, arch).Ok? ==>
      var cmd := Command(localPath, GetPlatform(os, arch).value);
      r.commands == [cmd] && r.result == Interpret(exec(cmd))
  {
    match GetPlatform(os, arch)
    case Err(e) => Outcome([], Err(e))
    case Ok(platform) =>
      var cmd := Command(localPath, platform);
      Outcome([cmd], Interpret(exec(cmd)))
  }

  /** A successful install whose output prints the path line first yields
      that path; the error output of a successful command is ignored. */
  lemma InstallReadsPrintedPath(os: string, arch: string, localPath: string, exec: string -> ExecReply,
                                path: string, rest: string)
    requires GetPlatform(os, arch).Ok?
    requires var reply := exec(Command(localPath, GetPlatform(os, arch).value));
      !reply.failed && reply.stdout == Needle + path + "\n" + rest
    requires path != [] && !IsWhitespace(path[0]) && !IsWhitespace(path[|path| - 1])
    requires forall j :: 0 <= j < |path| ==> !IsLineTerminator(path[j])
    ensures Install(os, arch, localPath, exec).result == Ok(path)
  {
    PrintedPathReadBack(path, rest);
  }
}

=== FILE: js_values.dfy ===
/** JavaScript values as the source manipulates them: messages, configuration
    entries and remote-object descriptions are all dynamically typed, and
    several branches of the source test them for truthiness. Numbers are
    modelled as integers only (no NaN, no fractions). */
module JsValues {
  import Strs
  import opened Wrappers

  datatype Value =
    | Undefined
    | Null
    | Bool(b: bool)
    | Num(n: int)
    | Str(s: string)
    | Arr(items: seq<Value>)
    | Obj(fields: map<string, Value>)

  /** JavaScript's ToBoolean: `undefined`, `null`, `false`, `0` and `""` are
      falsy; every object and array is truthy. */
  predicate Truthy(v: Value) {
    match v
    case Undefined => false
    case Null => false
    case Bool(b) => b
    case Num(n) => n != 0
    case Str(s) => s != ""
    case Arr(_) => true
    case Obj(_) => true
  }

  /** Property read `v[key]` on an object; reading a property that is not
      there yields `undefined`, as it does on every non-object value that is
      not `null`/`undefined` (those throw, see `GetProp`). */
  function Prop(v: Value, key: string): Value {
    if v.Obj? && key in v.fields then v.fields[key] else Undefined
  }

  /** Property read that models the TypeError thrown when reading a property
      of `undefined` or `null`. */
  function GetProp(v: Value, key: string): (r: Option<Value>)
    ensures r.None? <==> (v == Undefined || v == Null)
    ensures r.Some? ==> r.value == Prop(v, key)
  {
    if v == Undefined || v == Null then None else Some(Prop(v, key))
  }

  /** JavaScript's `String(v)` as used by template literals. Arrays render as
      their elements joined by ","; `null`/`undefined` elements render empty. */
  function ToStr(v: Value): string
    decreases v, 1
  {
    match v
    case Undefined => "undefined"
    case Null => "null"
    case Bool(b) => if b then "true" else "false"
    case Num(n) => Strs.IntToString(n)
    case Str(s) => s
    case Arr(items) => JoinItems(v, items)
    case Obj(_) => "[object Object]"
  }

  function JoinItems(ghost parent: Value, items: seq<Value>): string
    requires parent.Arr? && forall i :: 0 <= i < |items| ==> items[i] < parent
    decreases parent, 0, |items|
  {
    if items == [] then ""
    else
      var head := if items[0] == Undefined || items[0] == Null then "" else ToStr(items[0]);
      if |items| == 1 then head else head + "," + JoinItems(parent, items[1..])
  }
}

=== FILE: panel.dfy ===
/** One browser panel seen on its own: what it holds, how it routes the
    messages of its webview, how it navigates, and the order in which it
    tears itself down. Events it emits and calls it makes on the webview or
    the page are returned as effects; which listeners hear the emitted
    events is decided by the panel manager. */
module Panel {
  import opened Wrappers
  import opened JsValues
  import opened Strs

  type PanelId = nat

  /** The text document a panel was opened from, with its first line. */
  datatype Document = Document(id: nat, firstLine: string)

  /** `listening` says whether the handlers registered when the panel was
      created are still attached; `childListeners` are the handlers its
      DevTools panels attached to it, which `removeAllListeners` drops too. */
  datatype PanelState = PanelState(
    configRef: nat,                 // the configuration object the panel shares
    parent: Option<PanelId>,        // set for a DevTools panel
    debugPanel: Option<PanelId>,
    childListeners: seq<PanelId>,   // DevTools panels that dispose themselves with this one
    webview: bool,
    page: Option<string>,           // id of the browser page, when there is one
    disposables: seq<nat>,
    url: Value,
    title: Value,
    pinnedUrl: string,
    state: Value,
    document: Option<Document>,
    disposed: bool,
    listening: bool)                // false once its listeners are removed

  datatype Effect =
    | Emit(event: string, payload: Value)
    | PostMessage(methodName: string, result: Value)
    | SetPanelTitle(title: Value)
    | Forward(msgType: string, params: Value, callbackId: Value)   // browserPage.send
    | ShowInformation(message: Value)
    | AskPrompt(message: Value)
    | AskConfirm
    | OpenFile(params: Value)
    | DisposeWebview
    | DisposePage
    | DisposeDisposable(d: nat)
    | RemoveAllListeners

  /** A panel as the constructor leaves it: a DevTools panel when a parent
      is given, pinned to the first line of its document when it has one. */
  function NewPanel(configRef: nat, parent: Option<PanelId>, webview: bool, document: Option<Document>): (p: PanelState)
    ensures IsDebugPage(p) <==> parent.Some?
    ensures p.pinnedUrl == (if document.Some? then document.value.firstLine else "")
    ensures p.page.None? && p.disposables == [] && !p.disposed && p.listening
  {
    PanelState(configRef, parent, None, [], webview, None, [], Str(""), Str(""),
      if document.Some? then document.value.firstLine else "", Obj(map[]), document, false, true)
  }

  predicate IsDebugPage(p: PanelState) {
    p.parent.Some?
  }

  // ---------------------------------------------------------------------
  // Messages from the webview
  // ---------------------------------------------------------------------

  datatype Msg = Msg(msgType: string, params: Value, callbackId: Value)

  const UpdateTitle := "extension.updateTitle"
  const WindowOpenRequested := "extension.windowOpenRequested"
  const OpenFileRequest := "extension.openFile"
  const DialogRequested := "extension.windowDialogRequested"
  const AppStateChanged := "extension.appStateChanged"
  const HandleDialog := "Page.handleJavaScriptDialog"

  /** The outcome of a handler run: the panel, the effects in order, and
      whether a property read through `undefined` or `null` threw and cut
      the handler short. */
  datatype Outcome = Outcome(panel: PanelState, effects: seq<Effect>, threw: bool)

  function DebugTitle(parentTitle: Value): Value {
    Str("DevTools - " + ToStr(parentTitle))
  }

  /** The message handler of the webview. `parentTitle` is the title of the
      parent panel (`undefined` when there is none). */
  function ReceiveMessage(p: PanelState, msg: Msg, parentTitle: Value): (o: Outcome)
    ensures o.panel == p.(title := o.panel.title, url := o.panel.url, state := o.panel.state)
  {
    if msg.msgType == UpdateTitle then
      match GetProp(msg.params, "title")
      case None => Outcome(p, [], true)
      case Some(t) =>
        var p1 := p.(title := t);
        if p.webview then Outcome(p1, [SetPanelTitle(if IsDebugPage(p) then DebugTitle(parentTitle) else t)], false)
        else AfterTitle(p1, msg)
    else AfterTitle(p, msg)
  }

  /** The handler after the title case: window requests, files, dialogs,
      state changes, then forwarding to the page. */
  function AfterTitle(p: PanelState, msg: Msg): (o: Outcome)
    ensures o.panel == p.(url := o.panel.url, state := o.panel.state)
  {
    if msg.msgType == WindowOpenRequested then
      match GetProp(msg.params, "url")
      case None => Outcome(p, [], true)
      case Some(u) => AfterWindowOpen(p.(url := u), msg, [Emit("windowOpenRequested", Obj(map["url" := u]))])
    else AfterWindowOpen(p, msg, [])
  }

  /** `handleOpenFileRequest(params)` reads `params.lineNumber` and calls
      `params.fileName.replace(...)` before anything asynchronous happens:
      it throws unless `params` is an object whose `fileName` is a string. */
  predicate OpenFileThrows(params: Value) {
    match GetProp(params, "fileName")
    case None => true
    case Some(f) => !f.Str?
  }

  /** A file request that `handleOpenFileRequest` cannot read cuts the
      handler short: nothing after it runs. */
  function AfterWindowOpen(p: PanelState, msg: Msg, prior: seq<Effect>): (o: Outcome)
    ensures o.panel == p.(state := o.panel.state)
    ensures |o.effects| >= |prior| && o.effects[..|prior|] == prior
  {
    if msg.msgType == OpenFileRequest && OpenFileThrows(msg.params) then Outcome(p, prior, true)
    else
    var withFile := prior + (if msg.msgType == OpenFileRequest then [OpenFile(msg.params)] else []);
    if msg.msgType == DialogRequested then
      if msg.params == Undefined || msg.params == Null then Outcome(p, withFile, true)
      else AfterDialog(p, msg, withFile + DialogEffects(p, Prop(msg.params, "type"), Prop(msg.params, "message")))
    else AfterDialog(p, msg, withFile)
  }

  /** An alert is shown and accepted at once; a prompt or a confirmation
      waits for the user (see `AnswerDialog`). */
  function DialogEffects(p: PanelState, kind: Value, message: Value): seq<Effect> {
    if kind == Str("alert") then
      [ShowInformation(message)]
        + (if p.page.Some? then [Forward(HandleDialog, Obj(map["accept" := Bool(true)]), Undefined)] else [])
    else if kind == Str("prompt") then [AskPrompt(message)]
    else if kind == Str("confirm") then [AskConfirm]
    else []
  }

  function AfterDialog(p: PanelState, msg: Msg, prior: seq<Effect>): (o: Outcome)
    ensures o.panel == p.(state := o.panel.state)
    ensures |o.effects| >= |prior| && o.effects[..|prior|] == prior
  {
    if msg.msgType == AppStateChanged then
      match GetProp(msg.params, "state")
      case None => Outcome(p, prior, true)
      case Some(s) => Outcome(p.(state := s), prior + [Emit("stateChanged", Undefined)] + ForwardEffects(p, msg), false)
    else Outcome(p, prior + ForwardEffects(p, msg), false)
  }

  /** With a page, every message is sent on to it (except a state change)
      and re-emitted under its type; without one, nothing is. */
  function ForwardEffects(p: PanelState, msg: Msg): seq<Effect> {
    if p.page.None? then []
    else
      (if msg.msgType != AppStateChanged then [Forward(msg.msgType, msg.params, msg.callbackId)] else [])
      + [Emit(msg.msgType, msg.params)]
  }

  /** The answer to a prompt or a confirmation, sent to the page if there
      still is one. */
  function AnswerDialog(p: PanelState, prompt: bool, result: Value): (r: seq<Effect>)
    ensures p.page.None? ==> r == []
    ensures p.page.Some? ==> |r| == 1 && r[0].Forward? && r[0].msgType == HandleDialog
  {
    if p.page.None? then []
    else if prompt then [Forward(HandleDialog, Obj(map["accept" := Bool(true), "promptText" := result]), Undefined)]
    else [Forward(HandleDialog, Obj(map["accept" := Bool(result == Str("Ok"))]), Undefined)]
  }

  predicate IsForward(e: Effect) {
    e.Forward?
  }

  lemma ForwardEffectsShape(p: PanelState, msg: Msg)
    ensures p.page.None? ==> ForwardEffects(p, msg) == []
    ensures p.page.Some? && msg.msgType != AppStateChanged ==>
      ForwardEffects(p, msg) == [Forward(msg.msgType, msg.params, msg.callbackId), Emit(msg.msgType, msg.params)]
    ensures p.page.Some? && msg.msgType == AppStateChanged ==>
      ForwardEffects(p, msg) == [Emit(msg.msgType, msg.params)]
  {
  }

  /** A title update on a panel with a webview returns before the message
      can reach the page: the only effect is the new panel title, which is
      "DevTools - <parent title>" on a DevTools panel. */
  lemma TitleStopsRouting(p: PanelState, msg: Msg, parentTitle: Value)
    requires msg.msgType == UpdateTitle && p.webview && !(msg.params == Undefined || msg.params == Null)
    ensures var o := ReceiveMessage(p, msg, parentTitle);
      && o.effects == [SetPanelTitle(if IsDebugPage(p) then DebugTitle(parentTitle) else Prop(msg.params, "title"))]
      && o.panel == p.(title := Prop(msg.params, "title"))
  {
  }

  /** Any other message with well-formed parameters reaches the page when
      there is one: it ends with the forward (unless it is a state change)
      and the re-emission under its own type. */
  lemma MessagesReachThePage(p: PanelState, msg: Msg, parentTitle: Value)
    requires p.page.Some? && !(msg.msgType == UpdateTitle && p.webview)
    requires !(msg.params == Undefined || msg.params == Null)
    requires msg.msgType == OpenFileRequest ==> !OpenFileThrows(msg.params)
    ensures var o := ReceiveMessage(p, msg, parentTitle);
      && !o.threw
      && |o.effects| >= |ForwardEffects(p, msg)|
      && o.effects[|o.effects| - |ForwardEffects(p, msg)|..] == ForwardEffects(p, msg)
  {
  }

  /** A file request is recorded only when its file name is a string;
      otherwise the handler throws at once, and the request is neither
      sent to the page nor re-emitted. */
  lemma OpenFileRouting(p: PanelState, params: Value, callbackId: Value, parentTitle: Value)
    ensures var o := ReceiveMessage(p, Msg(OpenFileRequest, params, callbackId), parentTitle);
      && o.panel == p
      && (o.threw <==> OpenFileThrows(params))
      && (o.threw ==> o.effects == [])
      && (!o.threw ==> o.effects == [OpenFile(params)] + ForwardEffects(p, Msg(OpenFileRequest, params, callbackId)))
  {
  }

  /** Without a page no message is sent on, and nothing is re-emitted under
      its type; only the window-open request and the state change are
      emitted. */
  lemma NoPageNothingForwarded(p: PanelState, msg: Msg, parentTitle: Value)
    requires p.page.None?
    ensures var o := ReceiveMessage(p, msg, parentTitle);
      forall i :: 0 <= i < |o.effects| ==>
        !IsForward(o.effects[i]) && (o.effects[i].Emit? ==> o.effects[i].event in {"windowOpenRequested", "stateChanged"})
  {
  }

  /** A window request is announced first, with the requested url, and
      the url becomes the panel's own. */
  lemma WindowOpenAnnounced(p: PanelState, params: Value, callbackId: Value, parentTitle: Value)
    requires GetProp(params, "url").Some?
    ensures var o := ReceiveMessage(p, Msg(WindowOpenRequested, params, callbackId), parentTitle);
      && !o.threw && o.effects != []
      && o.effects[0] == Emit("windowOpenRequested", Obj(map["url" := Prop(params, "url")]))
      && o.panel == p.(url := Prop(params, "url"))
  {
  }

  /** A state change is stored and announced but never sent to the page. */
  lemma StateChangeStaysLocal(p: PanelState, state: Value, parentTitle: Value)
    ensures var msg := Msg(AppStateChanged, Obj(map["state" := state]), Undefined);
      var o := ReceiveMessage(p, msg, parentTitle);
      && o.panel.state == state
      && forall i :: 0 <= i < |o.effects| ==> !IsForward(o.effects[i])
  {
  }

  // ---------------------------------------------------------------------
  // launch (the panel's part), navigateTo
  // ---------------------------------------------------------------------

  /** The panel after `launch(startUrl)`: the page it obtained (if any), a
      webview, the two subscriptions it registered, and its url. A
      non-empty start URL is kept only when the panel has no truthy url
      yet. */
  function Launched(p: PanelState, page: Option<string>, startUrl: string, subscriptions: seq<nat>): (q: PanelState)
    ensures q.webview && q.page == page
    ensures q.disposables == p.disposables + subscriptions
    ensures startUrl == "" || Truthy(p.url) ==> q.url == p.url
    ensures startUrl != "" && !Truthy(p.url) ==> q.url == Str(startUrl)
  {
    p.(page := page, webview := true, disposables := p.disposables + subscriptions,
       url := if startUrl != "" && !Truthy(p.url) then Str(startUrl) else p.url)
  }

  /** What `launch` posts and emits at its end: the pinned URL when the
      panel has a document, the configuration it runs with, then "focus". */
  function LaunchEffects(p: PanelState, appConfiguration: Value): (r: seq<Effect>)
    ensures |r| >= 2 && r[|r| - 1] == Emit("focus", Undefined)
    ensures r[|r| - 2] == PostMessage("extension.appConfiguration", appConfiguration)
    ensures p.document.Some? <==> |r| == 3
    ensures p.document.Some? ==> r[0] == PostMessage("extension.pinnedUrl", Obj(map["pinnedUrl" := Str(p.pinnedUrl)]))
  {
    (if p.document.Some? then [PostMessage("extension.pinnedUrl", Obj(map["pinnedUrl" := Str(p.pinnedUrl)]))] else [])
      + [PostMessage("extension.appConfiguration", appConfiguration), Emit("focus", Undefined)]
  }

  /** `navigateTo(url)`: the url is recorded even when there is no webview
      to tell. */
  function NavigateTo(p: PanelState, url: string): (r: (PanelState, seq<Effect>))
    ensures r.0 == p.(url := Str(url))
    ensures r.1 != [] <==> p.webview
  {
    (p.(url := Str(url)),
     if p.webview then [PostMessage("extension.navigateTo", Obj(map["url" := Str(url)]))] else [])
  }

  // ---------------------------------------------------------------------
  // dispose
  // ---------------------------------------------------------------------

  function Reverse<T>(s: seq<T>): (r: seq<T>)
    ensures |r| == |s|
    ensures forall i :: 0 <= i < |s| ==> r[i] == s[|s| - 1 - i]
  {
    if s == [] then [] else Reverse(s[1..]) + [s[0]]
  }

  function DisposeEach(ds: seq<nat>): (r: seq<Effect>)
    ensures |r| == |ds| && forall i :: 0 <= i < |ds| ==> r[i] == DisposeDisposable(ds[i])
  {
    if ds == [] then [] else [DisposeDisposable(ds[0])] + DisposeEach(ds[1..])
  }

  /** Popping every subscription off the list and disposing it: the last
      registered is disposed first. */
  method DrainDisposables(ds: seq<nat>) returns (effects: seq<Effect>)
    ensures effects == DisposeEach(Reverse(ds))
  {
    var rest := ds;
    effects := [];
    while |rest| > 0
      invariant |rest| <= |ds| && rest == ds[..|rest|]
      invariant effects == DisposeEach(Reverse(ds[|rest|..]))
    {
      var x := rest[|rest| - 1];
      assert ds[|rest| - 1..] == [x] + ds[|rest|..];
      ReverseCons(x, ds[|rest|..]);
      DisposeEachAppend(DisposeEach(Reverse(ds[|rest|..])), ds[|rest|..], x);
      rest := rest[..|rest| - 1];
      effects := effects + [DisposeDisposable(x)];
    }
    assert ds[0..] == ds;
  }

  lemma ReverseCons<T>(x: T, s: seq<T>)
    ensures Reverse([x] + s) == Reverse(s) + [x]
  {
    assert ([x] + s)[1..] == s;
  }

  lemma DisposeEachAppend(prefix: seq<Effect>, s: seq<nat>, x: nat)
    requires prefix == DisposeEach(Reverse(s))
    ensures DisposeEach(Reverse(s) + [x]) == prefix + [DisposeDisposable(x)]
  {
  }

  /** `dispose()`: marks the panel disposed, disposes the webview, the
      page and then every subscription (last first), emits "disposed" and
      removes every listener, including those of its DevTools panels. The webview handle is kept, so a second call
      disposes it again. */
  function Dispose(p: PanelState): (r: (PanelState, seq<Effect>))
    ensures r.0.disposed && !r.0.listening && r.0.page.None? && r.0.disposables == [] && r.0.childListeners == []
    ensures r.0 == p.(disposed := true, listening := false, page := None, disposables := [], childListeners := [])
  {
    (p.(disposed := true, listening := false, page := None, disposables := [], childListeners := []),
     (if p.webview then [DisposeWebview] else [])
       + (if p.page.Some? then [DisposePage] else [])
       + DisposeEach(Reverse(p.disposables))
       + [Emit("disposed", Undefined), RemoveAllListeners])
  }

  /** The teardown order: webview, page, subscriptions in reverse order of
      registration, then "disposed", then the listeners go. */
  lemma DisposeOrder(p: PanelState)
    ensures var e := Dispose(p).1;
      var k := (if p.webview then 1 else 0) + (if p.page.Some? then 1 else 0);
      && |e| == k + |p.disposables| + 2
      && (p.webview ==> e[0] == DisposeWebview)
      && (p.page.Some? ==> e[k - 1] == DisposePage)
      && e[k..k + |p.disposables|] == DisposeEach(Reverse(p.disposables))
      && e[|e| - 2] == Emit("disposed", Undefined) && e[|e| - 1] == RemoveAllListeners
  {
    var e := Dispose(p).1;
    var head := (if p.webview then [DisposeWebview] else []) + (if p.page.Some? then [DisposePage] else []);
    var mid := DisposeEach(Reverse(p.disposables));
    assert e == head + mid + [Emit("disposed", Undefined), RemoveAllListeners];
    assert e[|head|..|head| + |mid|] == mid;
  }

  /** Disposing again repeats only the webview disposal and the "disposed"
      event: the page and the subscriptions are gone. */
  lemma DisposeAgain(p: PanelState)
    ensures var q := Dispose(p).0;
      Dispose(q) == (q, (if p.webview then [DisposeWebview] else []) + [Emit("disposed", Undefined), RemoveAllListeners])
  {
    var q := Dispose(p).0;
    assert Reverse(q.disposables) == [];
    assert DisposeEach(Reverse(q.disposables)) == [];
    assert Dispose(q).0 == q;
    var w: seq<Effect> := if p.webview then [DisposeWebview] else [];
    assert Dispose(q).1 == w + [] + [] + [Emit("disposed", Undefined), RemoveAllListeners];
    assert Dispose(q).1 == w + [Emit("disposed", Undefined), RemoveAllListeners];
    assert Dispose(q) == (q, w + [Emit("disposed", Undefined), RemoveAllListeners]);
  }
}

=== FILE: panel_manager.dfy ===
/** The panel manager: the panels it opened, the one that has focus, the
    one browser they all share, and the configuration objects that panels,
    the manager and the browser client hold by reference. Every handler
    that a panel's events reach is applied here, so a run of the extension
    is a sequence of transitions on one `World`. */
module PanelManager {
  import opened Wrappers
  import opened JsValues
  import opened Strs
  import opened Panel
  import Config
  import BrowserClient
  import Extension
  import DebugProvider

  /** The browser client the manager holds: the configuration object it
      was built with and the browser it launched, if any. */
  datatype BrowserRef = BrowserRef(configRef: nat, launched: Option<BrowserClient.LaunchOptions>)

  /** Configuration objects are shared and mutated in place (a launch
      writes the debugging port and the start URL into them), so they live
      in `configs` and everything else refers to them by index. */
  datatype World = World(
    extensionPath: string,
    configs: seq<Config.Configuration>,
    managerConfig: nat,                  // the object `manager.config` refers to
    panels: map<PanelId, PanelState>,    // every panel ever created
    managed: seq<PanelId>,               // the set `manager.panels`, in insertion order
    current: Option<PanelId>,
    browser: Option<BrowserRef>,
    browserActive: bool,                 // the context key `browser-active`
    debugActive: bool,                   // the context key `browser-debug-active`
    nextId: nat,
    nextSubscription: nat)

  /** The environment of one panel launch: what the browser launch finds,
      and the id of the page the browser opens. */
  datatype LaunchEnv = LaunchEnv(host: BrowserClient.Host, pageId: string)

  // ---------------------------------------------------------------------
  // The invariant
  // ---------------------------------------------------------------------

  predicate NoDuplicates(s: seq<PanelId>) {
    forall i, j :: 0 <= i < j < |s| ==> s[i] != s[j]
  }

  predicate RefsInRange(w: World) {
    && w.managerConfig < |w.configs|
    && (forall id :: id in w.panels ==> w.panels[id].configRef < |w.configs|)
    && (w.browser.Some? ==> w.browser.value.configRef < |w.configs|)
  }

  /** The set holds exactly the top-level panels whose handlers are still
      attached; the current panel is one of them; there is a browser
      exactly while the set is non-empty. */
  predicate SetWellFormed(w: World) {
    && NoDuplicates(w.managed)
    && (forall id :: id in w.managed ==> id in w.panels && w.panels[id].parent.None?)
    && (forall id :: id in w.panels && w.panels[id].parent.None? ==> (w.panels[id].listening <==> id in w.managed))
    && (w.current.Some? ==> w.current.value in w.managed)
    && (w.browserActive <==> w.current.Some?)
    && (w.browser.Some? <==> w.managed != [])
  }

  /** Ids are fresh; a page is held only by a live panel; a DevTools panel
      hangs off a top-level panel and never has DevTools of its own. */
  predicate PanelsWellFormed(w: World) {
    && (forall id :: id in w.panels ==> id < w.nextId)
    && (forall id :: id in w.panels && w.panels[id].page.Some? ==> w.panels[id].listening)
    && (forall id :: id in w.panels && w.panels[id].parent.Some? ==>
          w.panels[id].parent.value in w.panels && w.panels[w.panels[id].parent.value].parent.None?
          && w.panels[id].childListeners == [])
    && (forall id, c :: id in w.panels && c in w.panels[id].childListeners ==>
          c in w.panels && w.panels[c].parent == Some(id))
  }

  predicate Valid(w: World) {
    RefsInRange(w) && SetWellFormed(w) && PanelsWellFormed(w)
  }

  /** The manager as its constructor leaves it. */
  function Init(settings: Config.Settings, extensionPath: string): (w: World)
    ensures Valid(w) && w.managed == [] && w.current.None? && w.browser.None?
    ensures w.configs[w.managerConfig] == Config.GetConfigs(settings, extensionPath)
  {
    World(extensionPath, [Config.GetConfigs(settings, extensionPath)], 0, map[], [], None, None, false, false, 0, 0)
  }

  // ---------------------------------------------------------------------
  // The set
  // ---------------------------------------------------------------------

  /** `Set.delete`. */
  function Remove(s: seq<PanelId>, x: PanelId): (r: seq<PanelId>)
    ensures forall y :: y in r <==> y in s && y != x
  {
    if s == [] then []
    else (if s[0] == x then [] else [s[0]]) + Remove(s[1..], x)
  }

  lemma {:induction false} RemoveNoDuplicates(s: seq<PanelId>, x: PanelId)
    requires NoDuplicates(s)
    ensures NoDuplicates(Remove(s, x))
  {
    if s != [] {
      RemoveNoDuplicates(s[1..], x);
      var head: seq<PanelId> := if s[0] == x then [] else [s[0]];
      var r := Remove(s, x);
      assert r == head + Remove(s[1..], x);
      assert s[0] !in s[1..];
    }
  }

  lemma AppendNoDuplicates(s: seq<PanelId>, x: PanelId)
    requires NoDuplicates(s) && x !in s
    ensures NoDuplicates(s + [x])
  {
  }

  // ---------------------------------------------------------------------
  // refreshSettings
  // ---------------------------------------------------------------------

  /** `refreshSettings()`: the manager gets a new configuration object,
      `read` being what `getConfigs` returns for the current settings, with
      the debugging port of the previous object. The objects held by
      existing panels are not touched. */
  function RefreshSettings(w: World, read: Config.Configuration): (r: World)
    requires w.managerConfig < |w.configs|
    ensures r == w.(configs := r.configs, managerConfig := |w.configs|)
    ensures |r.configs| == |w.configs| + 1 && r.configs[..|w.configs|] == w.configs
    ensures r.configs[r.managerConfig].debugPort == w.configs[w.managerConfig].debugPort
    ensures r.configs[r.managerConfig].(debugPort := read.debugPort) == read
  {
    w.(configs := w.configs + [read.(debugPort := w.configs[w.managerConfig].debugPort)], managerConfig := |w.configs|)
  }

  /** A port found by an earlier launch survives a settings refresh, even
      when the settings name another port. */
  lemma RefreshKeepsFoundPort(w: World, settings: Config.Settings, port: int)
    requires w.managerConfig < |w.configs| && w.configs[w.managerConfig].debugPort == port
    ensures RefreshSettings(w, Config.GetConfigs(settings, w.extensionPath)).configs[|w.configs|].debugPort == port
    ensures RefreshSettings(w, Config.GetConfigs(settings, w.extensionPath)).configs[|w.configs|].startUrl
      == Config.GetConfigs(settings, w.extensionPath).startUrl
  {
  }

  lemma RefreshKeepsValid(w: World, read: Config.Configuration)
    requires Valid(w)
    ensures Valid(RefreshSettings(w, read))
  {
    var r := RefreshSettings(w, read);
    SetTransfer(w, r);
    PanelsTransfer(w, r);
  }

  // ---------------------------------------------------------------------
  // focus and blur
  // ---------------------------------------------------------------------

  /** The handlers of a panel's "focus" event: a top-level panel becomes
      current; a DevTools panel only sets its context key. A panel whose
      handlers were removed hears nothing. */
  function OnFocus(w: World, id: PanelId): (r: World)
    requires id in w.panels
    ensures !w.panels[id].listening ==> r == w
    ensures w.panels[id].listening && w.panels[id].parent.None? ==> r == w.(current := Some(id), browserActive := true)
    ensures w.panels[id].listening && w.panels[id].parent.Some? ==> r == w.(debugActive := true)
  {
    var p := w.panels[id];
    if !p.listening then w
    else if p.parent.None? then w.(current := Some(id), browserActive := true)
    else w.(debugActive := true)
  }

  /** The document a panel was opened from, as compared with the active
      editor's document. */
  function DocumentId(p: PanelState): Option<nat> {
    if p.document.Some? then Some(p.document.value.id) else None
  }

  /** The handlers of a panel's "blur" event, given the document of the
      active editor: the current panel stops being current unless that
      document is its own. */
  function OnBlur(w: World, id: PanelId, activeDocument: Option<nat>): (r: World)
    requires id in w.panels
    ensures r.current != w.current ==> w.current == Some(id) && r.current.None?
    ensures w.panels[id].listening && w.panels[id].parent.None? ==>
      (r.current.None? && w.current.Some? <==> w.current == Some(id) && activeDocument != DocumentId(w.panels[id]))
    ensures r.panels == w.panels && r.managed == w.managed && r.browser == w.browser
  {
    var p := w.panels[id];
    if !p.listening then w
    else if p.parent.None? then
      if w.current == Some(id) && activeDocument != DocumentId(p) then w.(current := None, browserActive := false)
      else w
    else w.(debugActive := false)
  }

  /** Without an active editor a panel with no document of its own stays
      current when it loses focus, because both sides are `undefined`. */
  lemma BlurWithoutEditorKeepsCurrent(w: World, id: PanelId)
    requires id in w.panels && w.current == Some(id) && w.panels[id].document.None?
    ensures OnBlur(w, id, None).current == Some(id)
  {
  }

  lemma FocusKeepsValid(w: World, id: PanelId)
    requires Valid(w) && id in w.panels
    ensures Valid(OnFocus(w, id))
  {
  }

  lemma BlurKeepsValid(w: World, id: PanelId, activeDocument: Option<nat>)
    requires Valid(w) && id in w.panels
    ensures Valid(OnBlur(w, id, activeDocument))
  {
  }

  // ---------------------------------------------------------------------
  // launch
  // ---------------------------------------------------------------------

  /** The configuration posted to the webview: every field of the panel's
      configuration object, with `isDebug` replaced by the panel's own. */
  function AppConfiguration(c: Config.Configuration, isDebug: bool): (v: Value)
    ensures v.Obj? && "isDebug" in v.fields && v.fields["isDebug"] == Bool(isDebug)
    ensures "startUrl" in v.fields && v.fields["startUrl"] == Str(c.startUrl)
    ensures "debugPort" in v.fields && v.fields["debugPort"] == Num(c.debugPort)
  {
    Obj(map[
      "extensionPath" := Str(c.extensionPath),
      "columnNumber" := Num(c.columnNumber),
      "quality" := Num(c.quality),
      "everyNthFrame" := Num(c.everyNthFrame),
      "format" := Str(c.format),
      "isVerboseMode" := Bool(c.isVerboseMode),
      "chromeExecutable" := (if c.chromeExecutable.Some? then Str(c.chromeExecutable.value) else Undefined),
      "startUrl" := Str(c.startUrl),
      "debugHost" := Str(c.debugHost),
      "debugPort" := Num(c.debugPort),
      "storeUserData" := Bool(c.storeUserData),
      "proxy" := Str(c.proxy),
      "otherArgs" := Str(c.otherArgs),
      "isDebug" := Bool(isDebug)])
  }

  /** `browser.newPage()` on the shared client: it launches the browser
      first when it has none, writing the port it found into its own
      configuration object. The page id is that of the page opened. */
  function AskPage(w: World, env: LaunchEnv): (r: (World, Option<string>))
    requires RefsInRange(w) && w.browser.Some?
    ensures r.0 == w.(configs := r.0.configs, browser := r.0.browser)
    ensures |r.0.configs| == |w.configs|
    ensures forall i :: 0 <= i < |w.configs| && i != w.browser.value.configRef ==> r.0.configs[i] == w.configs[i]
    ensures r.0.browser.Some? && r.0.browser.value.configRef == w.browser.value.configRef
    ensures w.browser.value.launched.Some? ==> r == (w, Some(env.pageId))
    ensures r.1.Some? <==> r.0.browser.value.launched.Some?
  {
    var b := w.browser.value;
    if b.launched.Some? then (w, Some(env.pageId))
    else
      var (client, outcome) := BrowserClient.NewPage(BrowserClient.Client(w.configs[b.configRef], b.launched), env.host);
      (w.(configs := w.configs[b.configRef := client.config], browser := Some(BrowserRef(b.configRef, client.browser))),
       if outcome.PageOpened? then Some(env.pageId) else None)
  }

  /** `this.config.startUrl = startUrl` when the start URL is non-empty. */
  function RecordStartUrl(configs: seq<Config.Configuration>, ref: nat, startUrl: string): (r: seq<Config.Configuration>)
    requires ref < |configs|
    ensures |r| == |configs|
    ensures forall i :: 0 <= i < |configs| && i != ref ==> r[i] == configs[i]
    ensures r[ref] == if startUrl != "" then configs[ref].(startUrl := startUrl) else configs[ref]
  {
    if startUrl != "" then configs[ref := configs[ref].(startUrl := startUrl)] else configs
  }

  /** `panel.launch(startUrl)` for a fresh panel: a page is asked of the
      shared browser client; the panel registers its two subscriptions; a
      non-empty start URL is written into the panel's configuration object;
      "focus" is emitted at the end (see `LaunchPosts` for what is posted). */
  function LaunchPanel(w: World, id: PanelId, startUrl: string, env: LaunchEnv): (r: World)
    requires RefsInRange(w) && id in w.panels && w.browser.Some?
    ensures id in r.panels && |r.configs| == |w.configs|
    ensures var p := w.panels[id]; var q := r.panels[id];
      && r.panels == w.panels[id := q]
      && q == p.(page := q.page, webview := true, disposables := q.disposables, url := q.url)
      && q.disposables == p.disposables + [w.nextSubscription, w.nextSubscription + 1]
      && (startUrl != "" ==> r.configs[p.configRef].startUrl == startUrl)
      && (w.browser.value.launched.Some? ==> q.page == Some(env.pageId))
    ensures r.browser.Some? && r.browser.value.configRef == w.browser.value.configRef
    ensures r.managed == w.managed && r.nextId == w.nextId && r.managerConfig == w.managerConfig
    ensures r.extensionPath == w.extensionPath
    ensures forall i :: 0 <= i < |w.configs| && i != w.panels[id].configRef && i != w.browser.value.configRef ==>
      r.configs[i] == w.configs[i]
    ensures w.panels[id].listening && w.panels[id].parent.None? ==> r.current == Some(id) && r.browserActive
    ensures w.panels[id].parent.Some? ==> r.current == w.current && r.browserActive == w.browserActive
  {
    var p := w.panels[id];
    var (w1, page) := AskPage(w, env);
    var q := Launched(p, page, startUrl, [w.nextSubscription, w.nextSubscription + 1]);
    var configs := RecordStartUrl(w1.configs, p.configRef, startUrl);
    OnFocus(w1.(configs := configs, panels := w.panels[id := q], nextSubscription := w.nextSubscription + 2), id)
  }

  /** What the launch of panel `id` posts to its webview and emits, read
      off the world it left: the pinned URL, the configuration of the
      panel's configuration object with its own `isDebug`, then "focus". */
  function LaunchPosts(r: World, id: PanelId): (e: seq<Effect>)
    requires id in r.panels && r.panels[id].configRef < |r.configs|
    ensures |e| >= 2 && e[|e| - 1] == Emit("focus", Undefined)
    ensures e[|e| - 2].PostMessage? && e[|e| - 2].result.Obj?
    ensures var c := e[|e| - 2].result.fields;
      && "startUrl" in c && c["startUrl"] == Str(r.configs[r.panels[id].configRef].startUrl)
      && "isDebug" in c && c["isDebug"] == Bool(IsDebugPage(r.panels[id]))
  {
    var p := r.panels[id];
    LaunchEffects(p, AppConfiguration(r.configs[p.configRef], IsDebugPage(p)))
  }

  // ---------------------------------------------------------------------
  // createClient
  // ---------------------------------------------------------------------

  /** How `createClient` proceeds with the URL it was given: `undefined`
      takes the default, `null` throws at `toString()` after the panel was
      added but before it is launched, anything else is converted. */
  datatype UrlChoice = Default | Throws | Given(url: string)

  function ChooseUrl(startUrl: Value): (c: UrlChoice)
    ensures startUrl.Str? ==> c == Given(startUrl.s)
    ensures c.Default? <==> startUrl == Undefined
    ensures c.Throws? <==> startUrl == Null
  {
    if startUrl == Undefined then Default
    else if startUrl == Null then Throws
    else Given(ToStr(startUrl))
  }

  /** The part of `createClient` before the launch: the settings are
      refreshed, a browser client is created when there is none, and a new
      top-level panel is built on the manager's new configuration object
      and added to the set. */
  function AddPanel(w: World, webview: bool, document: Option<Document>, read: Config.Configuration): (r: World)
    requires RefsInRange(w)
    ensures RefsInRange(r) && r.managerConfig == |w.configs| && r.configs[..|w.configs|] == w.configs
    ensures r.nextId == w.nextId + 1 && r.managed == w.managed + [w.nextId] && r.current == w.current
    ensures r.panels == w.panels[w.nextId := NewPanel(r.managerConfig, None, webview, document)]
    ensures w.browser.Some? ==> r.browser == w.browser
    ensures w.browser.None? ==> r.browser == Some(BrowserRef(r.managerConfig, None))
    ensures r.nextSubscription == w.nextSubscription
  {
    var w1 := RefreshSettings(w, read);
    var w2 := if w1.browser.None? then w1.(browser := Some(BrowserRef(w1.managerConfig, None))) else w1;
    var id := w2.nextId;
    w2.(panels := w2.panels[id := NewPanel(w2.managerConfig, None, webview, document)],
        managed := w2.managed + [id], nextId := id + 1)
  }

  /** The URL `createClient` launches with; `null` never reaches the
      launch. */
  function LaunchUrl(w: World, startUrl: Value): (url: string)
    requires w.managerConfig < |w.configs|
    ensures startUrl == Undefined ==> url == w.configs[w.managerConfig].startUrl
    ensures startUrl.Str? ==> url == startUrl.s
  {
    match ChooseUrl(startUrl)
    case Default => w.configs[w.managerConfig].startUrl
    case Given(u) => u
    case Throws => ""
  }

  /** `createClient(startUrl, webviewPanel, document)`. The default URL is
      the manager's `startUrl` read before the settings are refreshed. The
      panel is added to the set before it is launched; its launch emits
      "focus", which makes it current. */
  function CreateClient(w: World, startUrl: Value, webview: bool, document: Option<Document>,
                        settings: Config.Settings, env: LaunchEnv): (r: (World, PanelId))
    requires RefsInRange(w)
    ensures r.1 == w.nextId && r.1 in r.0.panels && r.0.managed == w.managed + [r.1]
    ensures startUrl != Null ==> r.0.current == Some(r.1) && r.0.panels[r.1].webview
    ensures startUrl == Null ==> r.0.current == w.current && r.0.panels[r.1].page.None?
  {
    var w1 := AddPanel(w, webview, document, Config.GetConfigs(settings, w.extensionPath));
    if startUrl == Null then (w1, w.nextId)
    else (LaunchPanel(w1, w.nextId, LaunchUrl(w, startUrl), env), w.nextId)
  }

  /** `createClient` keeps the manager's invariant. */
  lemma CreateClientKeepsValid(w: World, startUrl: Value, webview: bool, document: Option<Document>,
                               settings: Config.Settings, env: LaunchEnv)
    requires Valid(w)
    ensures Valid(CreateClient(w, startUrl, webview, document, settings, env).0)
  {
    var w1 := AddPanel(w, webview, document, Config.GetConfigs(settings, w.extensionPath));
    AddPanelKeepsValid(w, webview, document, Config.GetConfigs(settings, w.extensionPath));
    if startUrl != Null {
      LaunchKeepsValid(w1, w.nextId, LaunchUrl(w, startUrl), env);
    }
  }

  lemma AddPanelKeepsValid(w: World, webview: bool, document: Option<Document>, read: Config.Configuration)
    requires Valid(w)
    ensures Valid(AddPanel(w, webview, document, read))
  {
    AddPanelKeepsSet(w, webview, document, read);
    AddPanelKeepsPanels(w, webview, document, read);
  }

  lemma AddPanelKeepsSet(w: World, webview: bool, document: Option<Document>, read: Config.Configuration)
    requires Valid(w)
    ensures SetWellFormed(AddPanel(w, webview, document, read))
  {
    assert w.nextId !in w.managed;
    AppendNoDuplicates(w.managed, w.nextId);
  }

  lemma AddPanelKeepsPanels(w: World, webview: bool, document: Option<Document>, read: Config.Configuration)
    requires Valid(w)
    ensures PanelsWellFormed(AddPanel(w, webview, document, read))
  {
    var r := AddPanel(w, webview, document, read);
    var id := w.nextId;
    assert r.panels[id].childListeners == [] && r.panels[id].parent.None? && r.panels[id].page.None?;
    forall k | k in w.panels
      ensures r.panels[k] == w.panels[k] && k != id
    {
    }
  }

  lemma LaunchKeepsValid(w: World, id: PanelId, startUrl: string, env: LaunchEnv)
    requires Valid(w) && id in w.panels && w.panels[id].listening && w.browser.Some?
    ensures Valid(LaunchPanel(w, id, startUrl, env))
  {
    LaunchKeepsSet(w, id, startUrl, env);
    LaunchKeepsPanels(w, id, startUrl, env);
  }

  lemma LaunchKeepsSet(w: World, id: PanelId, startUrl: string, env: LaunchEnv)
    requires Valid(w) && id in w.panels && w.panels[id].listening && w.browser.Some?
    ensures SetWellFormed(LaunchPanel(w, id, startUrl, env))
  {
  }

  lemma LaunchKeepsPanels(w: World, id: PanelId, startUrl: string, env: LaunchEnv)
    requires Valid(w) && id in w.panels && w.panels[id].listening && w.browser.Some?
    ensures PanelsWellFormed(LaunchPanel(w, id, startUrl, env))
  {
    var r := LaunchPanel(w, id, startUrl, env);
    forall k | k in r.panels
      ensures Pruned(w.panels[k], r.panels[k]) && (r.panels[k].page.Some? ==> r.panels[k].listening)
    {
      if k == id {
        assert r.panels[k].listening;
      }
    }
    PanelsTransfer(w, r);
  }

  /** The set part of the invariant depends only on the set, the current
      panel, the context key, whether there is a browser, and which panels
      are top-level and still listening. */
  lemma SetTransfer(a: World, b: World)
    requires SetWellFormed(a)
    requires b.managed == a.managed && b.current == a.current && b.browserActive == a.browserActive
    requires b.browser.Some? == a.browser.Some? && a.panels.Keys == b.panels.Keys
    requires forall k :: k in a.panels ==>
      b.panels[k].parent == a.panels[k].parent && b.panels[k].listening == a.panels[k].listening
    ensures SetWellFormed(b)
  {
  }

  /** `after` is `before` with nothing added to its tree structure: the
      same parent, and the same DevTools listeners or none. */
  predicate Pruned(before: PanelState, after: PanelState) {
    && after.parent == before.parent
    && (after.childListeners == before.childListeners || after.childListeners == [])
  }

  /** The panel part of the invariant survives any change that keeps the
      panels and their parents, drops no page-holder's handlers, and adds
      no DevTools listener. */
  lemma PanelsTransfer(a: World, b: World)
    requires PanelsWellFormed(a)
    requires a.panels.Keys == b.panels.Keys && a.nextId <= b.nextId
    requires forall k :: k in b.panels ==> Pruned(a.panels[k], b.panels[k])
    requires forall k :: k in b.panels && b.panels[k].page.Some? ==> b.panels[k].listening
    ensures PanelsWellFormed(b)
  {
    forall k, c | k in b.panels && c in b.panels[k].childListeners
      ensures c in b.panels && b.panels[c].parent == Some(k)
    {
      assert Pruned(a.panels[k], b.panels[k]);
      assert Pruned(a.panels[c], b.panels[c]);
    }
  }

  // ---------------------------------------------------------------------
  // dispose
  // ---------------------------------------------------------------------

  /** The handler the manager attached to a panel's "disposed" event: the
      panel stops being current if it was, leaves the set, and the browser
      is closed and dropped once the set is empty. */
  function ManagerOnDisposed(w: World, id: PanelId): (r: World)
    ensures r.managed == Remove(w.managed, id)
    ensures r.current == (if w.current == Some(id) then None else w.current)
    ensures r.browserActive == (if w.current == Some(id) then false else w.browserActive)
    ensures r.browser == (if r.managed == [] then None else w.browser)
    ensures r == w.(managed := r.managed, current := r.current, browserActive := r.browserActive, browser := r.browser)
  {
    var w1 := if w.current == Some(id) then w.(current := None, browserActive := false) else w;
    var rest := Remove(w1.managed, id);
    if rest == [] then w1.(managed := rest, browser := None) else w1.(managed := rest)
  }

  /** The handler a parent attached to its DevTools panel's "disposed"
      event: the parent forgets its DevTools panel. */
  function ParentOnChildDisposed(w: World, parent: PanelId): (r: World)
    ensures !r.debugActive && r.panels.Keys == w.panels.Keys
    ensures forall k :: k in w.panels ==> r.panels[k] == w.panels[k].(debugPanel := r.panels[k].debugPanel)
    ensures parent in w.panels ==> r.panels[parent].debugPanel.None?
    ensures r == w.(panels := r.panels, debugActive := false)
  {
    if parent in w.panels then w.(panels := w.panels[parent := w.panels[parent].(debugPanel := None)], debugActive := false)
    else w.(debugActive := false)
  }

  /** `after` is what `dispose()` leaves of `before`, up to the DevTools
      link a later handler may have cleared. */
  predicate DisposedFrom(before: PanelState, after: PanelState) {
    after == Panel.Dispose(before).0.(debugPanel := after.debugPanel)
  }

  /** `after` is `before` up to the DevTools link. */
  predicate Relinked(before: PanelState, after: PanelState) {
    after == before.(debugPanel := after.debugPanel)
  }

  /** Disposing a panel that has no DevTools listeners of its own; the
      handler its parent attached runs if it is still listening. */
  function DisposeLeaf(w: World, c: PanelId): (r: (World, seq<Effect>))
    requires c in w.panels
    ensures r.0 == w.(panels := r.0.panels, debugActive := r.0.debugActive)
    ensures r.0.panels.Keys == w.panels.Keys && DisposedFrom(w.panels[c], r.0.panels[c])
    ensures forall k :: k in w.panels && k != c ==> Relinked(w.panels[k], r.0.panels[k])
    ensures r.1 == Panel.Dispose(w.panels[c]).1
  {
    var p := w.panels[c];
    var w1 := w.(panels := w.panels[c := Panel.Dispose(p).0]);
    (if p.listening && p.parent.Some? then ParentOnChildDisposed(w1, p.parent.value) else w1, Panel.Dispose(p).1)
  }

  /** The DevTools panels disposed in turn, in the order their handlers
      were attached. */
  function DisposeChildren(w: World, cs: seq<PanelId>): (r: (World, seq<Effect>))
    requires forall i :: 0 <= i < |cs| ==> cs[i] in w.panels
    ensures r.0 == w.(panels := r.0.panels, debugActive := r.0.debugActive)
    ensures r.0.panels.Keys == w.panels.Keys
    ensures forall k :: k in w.panels && k in cs ==> DisposedFrom(w.panels[k], r.0.panels[k])
    ensures forall k :: k in w.panels && k !in cs ==> Relinked(w.panels[k], r.0.panels[k])
    decreases |cs|
  {
    if cs == [] then (w, [])
    else
      var (w1, e1) := DisposeLeaf(w, cs[0]);
      var (w2, e2) := DisposeChildren(w1, cs[1..]);
      DisposeChain(w.panels, w1.panels, w2.panels, cs[0], cs[1..]);
      (w2, e1 + e2)
  }

  /** Disposing is idempotent on what `DisposedFrom` and `Relinked`
      describe, so the steps of a cascade compose. */
  lemma DisposeChain(m0: map<PanelId, PanelState>, m1: map<PanelId, PanelState>, m2: map<PanelId, PanelState>,
                     c: PanelId, rest: seq<PanelId>)
    requires c in m0 && m1.Keys == m0.Keys && m2.Keys == m1.Keys
    requires DisposedFrom(m0[c], m1[c]) && forall k :: k in m0 && k != c ==> Relinked(m0[k], m1[k])
    requires forall k :: k in m1 && k in rest ==> DisposedFrom(m1[k], m2[k])
    requires forall k :: k in m1 && k !in rest ==> Relinked(m1[k], m2[k])
    ensures forall k :: k in m0 && k in [c] + rest ==> DisposedFrom(m0[k], m2[k])
    ensures forall k :: k in m0 && k !in [c] + rest ==> Relinked(m0[k], m2[k])
  {
    forall k | k in m0
      ensures k in [c] + rest ==> DisposedFrom(m0[k], m2[k])
      ensures k !in [c] + rest ==> Relinked(m0[k], m2[k])
    {
      if k == c {
        assert DisposedFrom(m0[k], m1[k]);
        if k in rest {
          assert DisposedFrom(m1[k], m2[k]);
        } else {
          assert Relinked(m1[k], m2[k]);
        }
      } else {
        assert Relinked(m0[k], m1[k]);
        if k in rest {
          assert DisposedFrom(m1[k], m2[k]);
        } else {
          assert Relinked(m1[k], m2[k]);
        }
      }
    }
  }

  /** The panel's own teardown and the handler attached when it was
      created: the manager's for a top-level panel, the parent's for a
      DevTools panel. Nothing runs when its handlers are already gone. */
  function DisposeSelf(w: World, id: PanelId): (r: World)
    requires id in w.panels
    ensures r.panels.Keys == w.panels.Keys && DisposedFrom(w.panels[id], r.panels[id])
    ensures forall k :: k in w.panels && k != id ==> Relinked(w.panels[k], r.panels[k])
    ensures r.configs == w.configs && r.managerConfig == w.managerConfig && r.nextId == w.nextId
    ensures r.extensionPath == w.extensionPath && r.nextSubscription == w.nextSubscription
    ensures w.panels[id].listening && w.panels[id].parent.None? ==> r == ManagerOnDisposed(r.(managed := w.managed, current := w.current, browserActive := w.browserActive, browser := w.browser), id)
    ensures !(w.panels[id].listening && w.panels[id].parent.None?) ==>
      r.managed == w.managed && r.current == w.current && r.browserActive == w.browserActive && r.browser == w.browser
  {
    var p := w.panels[id];
    var w1 := w.(panels := w.panels[id := Panel.Dispose(p).0]);
    if !p.listening then w1
    else if p.parent.None? then ManagerOnDisposed(w1, id)
    else ParentOnChildDisposed(w1, p.parent.value)
  }

  /** `panel.dispose()` with every handler it sets off: its own teardown;
      then, while "disposed" is being emitted, the manager's handler (or
      the parent's, for a DevTools panel) and the disposal of every DevTools
      panel that attached itself to it; its listeners are removed last. */
  function DisposePanel(w: World, id: PanelId): (r: (World, seq<Effect>))
    requires id in w.panels && forall c :: c in w.panels[id].childListeners ==> c in w.panels
    ensures r.0.panels.Keys == w.panels.Keys
    ensures r.0.configs == w.configs && r.0.managerConfig == w.managerConfig && r.0.nextId == w.nextId
    ensures r.0.extensionPath == w.extensionPath && r.0.nextSubscription == w.nextSubscription
  {
    var e := Panel.Dispose(w.panels[id]).1;
    var (w3, ce) := DisposeChildren(DisposeSelf(w, id), w.panels[id].childListeners);
    (w3, e[..|e| - 1] + ce + [RemoveAllListeners])
  }

  lemma RemoveAbsent(s: seq<PanelId>, x: PanelId)
    requires x !in s
    ensures Remove(s, x) == s
  {
  }

  /** Disposing a panel takes it out of the set; the browser is closed
      exactly when the set becomes empty; the current panel is cleared only
      when it was the one disposed. */
  lemma DisposeRemovesFromSet(w: World, id: PanelId)
    requires Valid(w) && id in w.panels
    ensures var r := DisposePanel(w, id).0;
      && r.managed == Remove(w.managed, id) && id !in r.managed
      && r.current == (if w.current == Some(id) then None else w.current)
      && r.browser == (if r.managed == [] then None else w.browser)
  {
    var p := w.panels[id];
    if !(p.listening && p.parent.None?) {
      assert id !in w.managed;
      RemoveAbsent(w.managed, id);
    }
  }

  /** The DevTools panels are disposed with their parent, and no other
      panel changes beyond losing its DevTools link. */
  lemma DisposeCascades(w: World, id: PanelId)
    requires Valid(w) && id in w.panels
    ensures DisposedFrom(w.panels[id], DisposePanel(w, id).0.panels[id])
    ensures var r := DisposePanel(w, id).0;
      forall c :: c in w.panels[id].childListeners ==> c in r.panels && DisposedFrom(w.panels[c], r.panels[c])
    ensures var r := DisposePanel(w, id).0;
      forall k :: k in w.panels && k != id && k !in w.panels[id].childListeners ==> Relinked(w.panels[k], r.panels[k])
  {
    var p := w.panels[id];
    assert id !in p.childListeners;
    var w1 := DisposeSelf(w, id);
    var r := DisposeChildren(w1, p.childListeners).0;
    assert DisposePanel(w, id).0 == r;
    forall k | k in w.panels && k !in p.childListeners
      ensures (k == id ==> DisposedFrom(w.panels[k], r.panels[k])) && (k != id ==> Relinked(w.panels[k], r.panels[k]))
    {
      assert Relinked(w1.panels[k], r.panels[k]);
    }
    forall c | c in p.childListeners
      ensures DisposedFrom(w.panels[c], r.panels[c])
    {
      assert c != id;
      assert Relinked(w.panels[c], w1.panels[c]);
    }
  }

  /** Disposing keeps the manager's invariant. */
  lemma DisposeKeepsValid(w: World, id: PanelId)
    requires Valid(w) && id in w.panels
    ensures Valid(DisposePanel(w, id).0)
  {
    var r := DisposePanel(w, id).0;
    var p := w.panels[id];
    DisposeRemovesFromSet(w, id);
    DisposeCascades(w, id);
    forall k | k in w.panels
      ensures Pruned(w.panels[k], r.panels[k]) && r.panels[k].configRef == w.panels[k].configRef
      ensures r.panels[k].page.Some? ==> r.panels[k].listening
      ensures k == id || k in p.childListeners || r.panels[k].listening == w.panels[k].listening
      ensures k == id || k in p.childListeners ==> !r.panels[k].listening
    {
      if k == id || k in p.childListeners {
        assert DisposedFrom(w.panels[k], r.panels[k]);
      } else {
        assert Relinked(w.panels[k], r.panels[k]);
      }
    }
    PanelsTransfer(w, r);
    RemoveNoDuplicates(w.managed, id);
    assert SetWellFormed(r);
  }

  /** What disposing never changes: which configuration object a panel
      holds, its parent, and that it was disposed. */
  lemma DisposeKeepsRefs(w: World, id: PanelId)
    requires Valid(w) && id in w.panels
    ensures var r := DisposePanel(w, id).0;
      forall k :: k in w.panels ==>
        && r.panels[k].configRef == w.panels[k].configRef && r.panels[k].parent == w.panels[k].parent
        && (w.panels[k].disposed ==> r.panels[k].disposed)
  {
    var r := DisposePanel(w, id).0;
    DisposeCascades(w, id);
    forall k | k in w.panels
      ensures r.panels[k].configRef == w.panels[k].configRef && r.panels[k].parent == w.panels[k].parent
      ensures w.panels[k].disposed ==> r.panels[k].disposed
    {
      if k == id || k in w.panels[id].childListeners {
        assert DisposedFrom(w.panels[k], r.panels[k]);
      } else {
        assert Relinked(w.panels[k], r.panels[k]);
      }
    }
  }

  // ---------------------------------------------------------------------
  // disposeByUrl
  // ---------------------------------------------------------------------

  /** The panel's configuration object has `url` as its start URL. */
  predicate Matches(w: World, id: PanelId, url: string)
    requires RefsInRange(w)
  {
    id in w.panels && w.configs[w.panels[id].configRef].startUrl == url
  }

  /** `Set.forEach` over the panels in insertion order, skipping any that
      left the set before their turn, disposing those whose configuration
      object has the start URL `url`. */
  function DisposeMatching(w: World, ids: seq<PanelId>, url: string): (r: World)
    requires Valid(w)
    ensures Valid(r) && r.configs == w.configs && r.panels.Keys == w.panels.Keys
    ensures forall k :: k in w.panels ==> r.panels[k].configRef == w.panels[k].configRef
    decreases |ids|
  {
    if ids == [] then w
    else
      var id := ids[0];
      var w1 :=
        if id in w.managed && Matches(w, id, url) then DisposeKeepsValid(w, id); DisposeKeepsRefs(w, id); DisposePanel(w, id).0
        else w;
      DisposeMatching(w1, ids[1..], url)
  }

  /** `disposeByUrl(url)`. */
  function DisposeByUrl(w: World, url: string): (r: World)
    requires Valid(w)
    ensures Valid(r) && r.configs == w.configs && r.panels.Keys == w.panels.Keys
    ensures forall k :: k in w.panels ==> r.panels[k].configRef == w.panels[k].configRef
  {
    DisposeMatching(w, w.managed, url)
  }

  /** One step of `disposeByUrl`, as the induction below needs it. */
  lemma DisposeStep(w: World, id: PanelId, url: string, r: World)
    requires Valid(w) && id in w.panels && r == DisposePanel(w, id).0
    ensures Valid(r) && r.panels[id].disposed
    ensures forall k :: k in r.managed <==> k in w.managed && k != id
    ensures forall k :: k in w.panels ==> (Matches(r, k, url) <==> Matches(w, k, url))
    ensures forall k :: k in w.panels && w.panels[k].disposed ==> r.panels[k].disposed
  {
    DisposeKeepsValid(w, id);
    DisposeRemovesFromSet(w, id);
    DisposeKeepsRefs(w, id);
  }

  lemma {:induction false} DisposeMatchingLeaves(w: World, ids: seq<PanelId>, url: string)
    requires Valid(w)
    ensures var r := DisposeMatching(w, ids, url);
      forall k :: k in r.managed <==> k in w.managed && !(k in ids && Matches(w, k, url))
    decreases |ids|
  {
    if ids != [] {
      var id := ids[0];
      if id in w.managed && Matches(w, id, url) {
        var w1 := DisposePanel(w, id).0;
        DisposeStep(w, id, url, w1);
        DisposeMatchingLeaves(w1, ids[1..], url);
        var r := DisposeMatching(w1, ids[1..], url);
        assert DisposeMatching(w, ids, url) == r;
        forall k
          ensures k in r.managed <==> k in w.managed && !(k in ids && Matches(w, k, url))
        {
          if k in w.managed {
            assert Matches(w1, k, url) <==> Matches(w, k, url);
          }
        }
      } else {
        DisposeMatchingLeaves(w, ids[1..], url);
      }
    }
  }

  lemma {:induction false} DisposeMatchingDisposes(w: World, ids: seq<PanelId>, url: string)
    requires Valid(w)
    ensures var r := DisposeMatching(w, ids, url);
      && (forall k :: k in w.panels && w.panels[k].disposed ==> r.panels[k].disposed)
      && (forall k :: k in ids && k in w.managed && Matches(w, k, url) ==> r.panels[k].disposed)
    decreases |ids|
  {
    if ids != [] {
      var id := ids[0];
      if id in w.managed && Matches(w, id, url) {
        DisposeStep(w, id, url, DisposePanel(w, id).0);
        DisposeMatchingDisposes(DisposePanel(w, id).0, ids[1..], url);
      } else {
        DisposeMatchingDisposes(w, ids[1..], url);
      }
    }
  }

  /** `disposeByUrl` disposes exactly the panels of the set whose
      configuration object has that start URL; the others stay. */
  lemma DisposeByUrlExact(w: World, url: string)
    requires Valid(w)
    ensures var r := DisposeByUrl(w, url);
      && (forall k :: k in r.managed <==> k in w.managed && !Matches(w, k, url))
      && (forall k :: k in w.managed && Matches(w, k, url) ==> r.panels[k].disposed)
  {
    DisposeMatchingLeaves(w, w.managed, url);
    DisposeMatchingDisposes(w, w.managed, url);
  }

  // ---------------------------------------------------------------------
  // What createClient promises
  // ---------------------------------------------------------------------

  /** The browser client is created only when there is none: an existing
      one is reused, whatever the settings say; a new one shares the
      manager's fresh configuration object, as does the new panel. */
  lemma CreateClientSharesBrowser(w: World, startUrl: Value, webview: bool, document: Option<Document>,
                                  settings: Config.Settings, env: LaunchEnv)
    requires Valid(w)
    ensures var (r, id) := CreateClient(w, startUrl, webview, document, settings, env);
      && r.browser.Some?
      && (w.browser.Some? ==> r.browser.value.configRef == w.browser.value.configRef)
      && (w.browser.None? ==> r.browser.value.configRef == r.managerConfig)
      && r.panels[id].configRef == r.managerConfig && r.panels[id].parent.None?
      && (forall k :: k in w.panels ==> k in r.panels && r.panels[k] == w.panels[k])
  {
  }

  /** A non-empty URL given to `createClient` is written into the panel's
      configuration object, which is the manager's: the next window opened
      without a URL opens it. */
  lemma CreateClientRemembersUrl(w: World, url: string, webview: bool, document: Option<Document>,
                                 settings: Config.Settings, env: LaunchEnv)
    requires Valid(w) && url != ""
    ensures var (r, id) := CreateClient(w, Str(url), webview, document, settings, env);
      && r.panels[id].url == Str(url)
      && r.configs[r.managerConfig].startUrl == url
      && LaunchUrl(r, Undefined) == url
  {
  }

  /** Without a URL the panel opens the manager's start URL as it was
      before the settings were read again. */
  lemma CreateClientDefaultUrl(w: World, webview: bool, document: Option<Document>,
                               settings: Config.Settings, env: LaunchEnv)
    requires Valid(w) && w.configs[w.managerConfig].startUrl != ""
    ensures var (r, id) := CreateClient(w, Undefined, webview, document, settings, env);
      r.panels[id].url == Str(w.configs[w.managerConfig].startUrl)
  {
  }

  // ---------------------------------------------------------------------
  // createFile and windowOpenRequested
  // ---------------------------------------------------------------------

  const AutoReloadKey := "selfprogrammed.browser.localFileAutoReload"

  /** `createFile(filepath)`: nothing for an empty path; otherwise a client
      on the file's URL, and a file watcher registered with the panel when
      auto-reload is set. */
  function CreateFile(w: World, path: string, settings: Config.Settings, env: LaunchEnv): (r: World)
    requires Valid(w)
    ensures path == "" ==> r == w
    ensures path != "" ==> r.managed == w.managed + [w.nextId] && r.current == Some(w.nextId)
    ensures Valid(r)
  {
    if path == "" then w
    else
      var (w1, id) := CreateClient(w, Str("file://" + path), false, None, settings, env);
      CreateClientKeepsValid(w, Str("file://" + path), false, None, settings, env);
      if Truthy(Config.GetConfig(settings, AutoReloadKey, Undefined)) then
        AddWatcherKeepsValid(w1, id);
        AddWatcher(w1, id)
      else w1
  }

  /** The file watcher's subscription joins the panel's disposables. */
  function AddWatcher(w: World, id: PanelId): (r: World)
    requires id in w.panels
    ensures id in r.panels && r.panels[id] == w.panels[id].(disposables := w.panels[id].disposables + [w.nextSubscription])
    ensures r.nextSubscription == w.nextSubscription + 1
    ensures r == w.(panels := r.panels, nextSubscription := r.nextSubscription)
  {
    var p := w.panels[id];
    w.(panels := w.panels[id := p.(disposables := p.disposables + [w.nextSubscription])],
       nextSubscription := w.nextSubscription + 1)
  }

  lemma AddWatcherKeepsValid(w: World, id: PanelId)
    requires Valid(w) && id in w.panels
    ensures Valid(AddWatcher(w, id))
  {
    var r := AddWatcher(w, id);
    SetTransfer(w, r);
    forall k | k in r.panels
      ensures Pruned(w.panels[k], r.panels[k]) && (r.panels[k].page.Some? ==> r.panels[k].listening)
    {
    }
    PanelsTransfer(w, r);
  }

  /** The file panel opens the `file://` URL of the path, and it carries a
      watcher subscription exactly when auto-reload is set. */
  lemma CreateFileOpensFile(w: World, path: string, settings: Config.Settings, env: LaunchEnv)
    requires Valid(w) && path != ""
    ensures var r := CreateFile(w, path, settings, env);
      var (w1, id) := CreateClient(w, Str("file://" + path), false, None, settings, env);
      && id in r.panels && r.panels[id].url == Str("file://" + path)
      && (Truthy(Config.GetConfig(settings, AutoReloadKey, Undefined)) <==>
            r.panels[id].disposables == w1.panels[id].disposables + [w1.nextSubscription])
  {
    var (w1, id) := CreateClient(w, Str("file://" + path), false, None, settings, env);
    CreateClientRemembersUrl(w, "file://" + path, false, None, settings, env);
    if Truthy(Config.GetConfig(settings, AutoReloadKey, Undefined)) {
      assert CreateFile(w, path, settings, env) == AddWatcher(w1, id);
    } else {
      assert CreateFile(w, path, settings, env) == w1;
    }
  }

  /** The manager's handler for a panel's "windowOpenRequested": a client
      for `params.url`. */
  function OnWindowOpenRequested(w: World, params: Value, settings: Config.Settings, env: LaunchEnv): (r: World)
    requires Valid(w)
    ensures r.managed == w.managed + [w.nextId] && w.nextId in r.panels
    ensures forall k :: k in w.panels ==> k in r.panels && r.panels[k] == w.panels[k]
    ensures Prop(params, "url").Str? && Prop(params, "url").s != "" ==>
      r.current == Some(w.nextId) && r.panels[w.nextId].url == Prop(params, "url")
    ensures Valid(r)
  {
    CreateClientKeepsValid(w, Prop(params, "url"), false, None, settings, env);
    CreateClientSharesBrowser(w, Prop(params, "url"), false, None, settings, env);
    RequestedUrlOpened(w, Prop(params, "url"), settings, env);
    CreateClient(w, Prop(params, "url"), false, None, settings, env).0
  }

  lemma RequestedUrlOpened(w: World, url: Value, settings: Config.Settings, env: LaunchEnv)
    requires Valid(w)
    ensures url.Str? && url.s != "" ==>
      var (r, id) := CreateClient(w, url, false, None, settings, env);
      r.current == Some(id) && r.panels[id].url == url
  {
    if url.Str? && url.s != "" {
      CreateClientRemembersUrl(w, url.s, false, None, settings, env);
    }
  }

  // ---------------------------------------------------------------------
  // createDebugPanel
  // ---------------------------------------------------------------------

  const DevToolsSuffix := "&experiments=true"

  /** The address of the DevTools front end for page `pageId`, served by
      the browser at the configuration's debugging host and port. */
  function DevToolsUrl(c: Config.Configuration, pageId: string): (url: string)
    ensures StartsWith(url, "http://" + c.debugHost + ":" + IntToString(c.debugPort) + "/devtools/inspector.html?ws=")
    ensures |url| >= |pageId| + |DevToolsSuffix|
    ensures url[|url| - |DevToolsSuffix| - |pageId|..] == pageId + DevToolsSuffix
  {
    var domain := c.debugHost + ":" + IntToString(c.debugPort);
    var url := "http://" + domain + "/devtools/inspector.html?ws=" + domain + "/devtools/page/" + pageId + DevToolsSuffix;
    assert url == ("http://" + domain + "/devtools/inspector.html?ws=" + domain + "/devtools/page/") + (pageId + DevToolsSuffix);
    url
  }

  /** Different pages of the same browser get different DevTools URLs. */
  lemma DevToolsUrlNamesPage(c: Config.Configuration, a: string, b: string)
    requires |a| == |b| && DevToolsUrl(c, a) == DevToolsUrl(c, b)
    ensures a == b
  {
    var u := DevToolsUrl(c, a);
    assert a + DevToolsSuffix == b + DevToolsSuffix;
    assert a == (a + DevToolsSuffix)[..|a|];
  }

  /** The DevTools panel as its constructor leaves it, with the parent's
      handlers for it attached: it shares the parent's configuration
      object, and the parent records it and will dispose it. */
  function AddDebugPanel(w: World, id: PanelId): (r: World)
    requires id in w.panels && w.nextId !in w.panels
    ensures r.nextId == w.nextId + 1 && r.panels.Keys == w.panels.Keys + {w.nextId}
    ensures var p := w.panels[id];
      && r.panels[w.nextId] == NewPanel(p.configRef, Some(id), false, None)
      && r.panels[id] == p.(debugPanel := Some(w.nextId), childListeners := p.childListeners + [w.nextId])
    ensures forall k :: k in w.panels && k != id ==> r.panels[k] == w.panels[k]
    ensures r == w.(panels := r.panels, nextId := r.nextId)
  {
    var c := w.nextId;
    var p := w.panels[id];
    w.(panels := w.panels[id := p.(debugPanel := Some(c), childListeners := p.childListeners + [c])]
                         [c := NewPanel(p.configRef, Some(id), false, None)],
       nextId := c + 1)
  }

  /** `createDebugPanel()`: nothing for a DevTools panel; the existing
      DevTools panel when there is one; otherwise a new one, launched on the
      DevTools URL of the parent's page when the parent has a page. */
  function CreateDebugPanel(w: World, id: PanelId, env: LaunchEnv): (r: (World, Option<PanelId>))
    requires Valid(w) && id in w.panels
    ensures IsDebugPage(w.panels[id]) ==> r == (w, None)
    ensures !IsDebugPage(w.panels[id]) && w.panels[id].debugPanel.Some? ==> r == (w, w.panels[id].debugPanel)
    ensures !IsDebugPage(w.panels[id]) && w.panels[id].debugPanel.None? ==>
      && r.1 == Some(w.nextId) && r.0.nextId == w.nextId + 1 && w.nextId in r.0.panels
      && r.0.panels[w.nextId].parent == Some(id) && r.0.panels[w.nextId].configRef == w.panels[id].configRef
      && id in r.0.panels && r.0.panels[id].debugPanel == r.1 && r.0.managed == w.managed
      && (w.panels[id].page.None? ==> r.0 == AddDebugPanel(w, id))
  {
    var p := w.panels[id];
    if IsDebugPage(p) then (w, None)
    else if p.debugPanel.Some? then (w, p.debugPanel)
    else
      var w1 := AddDebugPanel(w, id);
      if p.page.None? then (w1, Some(w.nextId))
      else
        assert id in w.managed;
        (LaunchPanel(w1, w.nextId, DevToolsUrl(w.configs[p.configRef], p.page.value), env), Some(w.nextId))
  }

  lemma AddDebugPanelKeepsValid(w: World, id: PanelId)
    requires Valid(w) && id in w.panels && w.panels[id].parent.None?
    ensures Valid(AddDebugPanel(w, id))
  {
    AddDebugPanelKeepsSet(w, id);
    AddDebugPanelKeepsPanels(w, id);
  }

  lemma AddDebugPanelKeepsSet(w: World, id: PanelId)
    requires Valid(w) && id in w.panels && w.panels[id].parent.None?
    ensures SetWellFormed(AddDebugPanel(w, id))
  {
    var r := AddDebugPanel(w, id);
    forall k | k in r.panels && r.panels[k].parent.None?
      ensures k in w.panels && r.panels[k].listening == w.panels[k].listening
    {
    }
  }

  lemma AddDebugPanelKeepsPanels(w: World, id: PanelId)
    requires Valid(w) && id in w.panels && w.panels[id].parent.None?
    ensures PanelsWellFormed(AddDebugPanel(w, id))
  {
    AddDebugPanelKeepsIds(w, id);
    AddDebugPanelKeepsParents(w, id);
    AddDebugPanelKeepsLinks(w, id);
  }

  lemma AddDebugPanelKeepsIds(w: World, id: PanelId)
    requires Valid(w) && id in w.panels && w.panels[id].parent.None?
    ensures var r := AddDebugPanel(w, id);
      && (forall k :: k in r.panels ==> k < r.nextId)
      && (forall k :: k in r.panels && r.panels[k].page.Some? ==> r.panels[k].listening)
  {
  }

  lemma AddDebugPanelKeepsParents(w: World, id: PanelId)
    requires Valid(w) && id in w.panels && w.panels[id].parent.None?
    ensures var r := AddDebugPanel(w, id);
      forall k :: k in r.panels && r.panels[k].parent.Some? ==>
        r.panels[k].parent.value in r.panels && r.panels[r.panels[k].parent.value].parent.None?
        && r.panels[k].childListeners == []
  {
    var r := AddDebugPanel(w, id);
    forall k | k in r.panels && r.panels[k].parent.Some?
      ensures r.panels[k].parent.value in r.panels && r.panels[r.panels[k].parent.value].parent.None?
      ensures r.panels[k].childListeners == []
    {
      if k != w.nextId {
        var q := w.panels[k].parent.value;
        if q != id {
          assert r.panels[q] == w.panels[q];
        }
      }
    }
  }

  lemma AddDebugPanelKeepsLinks(w: World, id: PanelId)
    requires Valid(w) && id in w.panels && w.panels[id].parent.None?
    ensures var r := AddDebugPanel(w, id);
      forall k, d :: k in r.panels && d in r.panels[k].childListeners ==>
        d in r.panels && r.panels[d].parent == Some(k)
  {
    var r := AddDebugPanel(w, id);
    forall k, d | k in r.panels && d in r.panels[k].childListeners
      ensures d in r.panels && r.panels[d].parent == Some(k)
    {
      if k != id {
        assert d in w.panels[k].childListeners;
      }
    }
  }

  /** Opening DevTools keeps the manager's invariant. */
  lemma CreateDebugPanelKeepsValid(w: World, id: PanelId, env: LaunchEnv)
    requires Valid(w) && id in w.panels
    ensures Valid(CreateDebugPanel(w, id, env).0)
  {
    var p := w.panels[id];
    if !IsDebugPage(p) && p.debugPanel.None? {
      AddDebugPanelKeepsValid(w, id);
      if p.page.Some? {
        assert id in w.managed;
        LaunchKeepsValid(AddDebugPanel(w, id), w.nextId, DevToolsUrl(w.configs[p.configRef], p.page.value), env);
      }
    }
  }

  /** The DevTools panel launches on its own URL, which it writes into the
      configuration object it shares with its parent: afterwards the
      parent's start URL is the DevTools URL, so `disposeByUrl` with the
      parent's old start URL no longer finds the parent. */
  lemma DevToolsTakesParentUrl(w: World, id: PanelId, env: LaunchEnv)
    requires Valid(w) && id in w.panels
    requires !IsDebugPage(w.panels[id]) && w.panels[id].debugPanel.None? && w.panels[id].page.Some?
    ensures var r := CreateDebugPanel(w, id, env).0;
      var devtools := DevToolsUrl(w.configs[w.panels[id].configRef], w.panels[id].page.value);
      && RefsInRange(r) && id in r.panels
      && r.configs[r.panels[id].configRef].startUrl == devtools
      && r.panels[w.nextId].url == Str(devtools)
      && (forall url :: url != devtools ==> !Matches(r, id, url))
  {
    CreateDebugPanelKeepsValid(w, id, env);
  }

  // ---------------------------------------------------------------------
  // A run of the extension
  // ---------------------------------------------------------------------

  /** What can happen to the manager: the commands and editors of the
      extension, a webview gaining or losing focus, being closed, or
      sending a message, and the end of a "Dot Website: Launch" debug
      session. */
  datatype Event =
    | Open(url: Value)                                        // `dot-website.open`
    | OpenDocument(docId: nat, lines: seq<string>, webview: bool)  // runDocument, the custom editor
    | OpenActiveFile(path: string)
    | Saved(path: string, content: string)                    // a `.website` file saved
    | ViewState(id: PanelId, active: bool, activeDocument: Option<nat>)  // the webview gained or lost focus
    | Close(id: PanelId)                                      // the webview was closed
    | OpenExternal                                            // `controls.external` on the current panel
    | OpenDevTools                                            // `controls.debug` on the current panel
    | DebugStarted(configuration: Value)                      // a session of the underlying debugger
    | DebugTerminated(configuration: Value)
    | Message(id: PanelId, msg: Msg)

  /** The parent's title, which a DevTools panel shows in its own. */
  function ParentTitle(w: World, p: PanelState): Value {
    if p.parent.Some? && p.parent.value in w.panels then w.panels[p.parent.value].title else Undefined
  }

  /** A message from a panel's webview. The handler is registered by
      `launch` among the panel's subscriptions and is gone once they are
      disposed. A "windowOpenRequested" it emits reaches the manager only
      from a top-level panel whose handlers are still attached. Only the
      first effect is dispatched: the events the catch-all re-emits under
      the message's own type reach no handler here. */
  function OnMessage(w: World, id: PanelId, msg: Msg, settings: Config.Settings, env: LaunchEnv): (r: World)
    requires Valid(w) && id in w.panels
    ensures w.panels[id].disposed || w.panels[id].disposables == [] ==> r == w
    ensures r.managed == w.managed || r.managed == w.managed + [w.nextId]
    ensures Valid(r)
  {
    var p := w.panels[id];
    if p.disposed || p.disposables == [] then w
    else
      var o := ReceiveMessage(p, msg, ParentTitle(w, p));
      var w1 := w.(panels := w.panels[id := o.panel]);
      MessageKeepsValid(w, id, o.panel);
      if p.listening && p.parent.None? && o.effects != [] && o.effects[0].Emit? && o.effects[0].event == "windowOpenRequested" then
        OnWindowOpenRequested(w1, o.effects[0].payload, settings, env)
      else w1
  }

  /** A panel's own fields may change under the manager's invariant as
      long as its tree links, its handlers and its page stay. */
  lemma MessageKeepsValid(w: World, id: PanelId, q: PanelState)
    requires Valid(w) && id in w.panels
    requires q == w.panels[id].(title := q.title, url := q.url, state := q.state)
    ensures Valid(w.(panels := w.panels[id := q]))
  {
    var r := w.(panels := w.panels[id := q]);
    SetTransfer(w, r);
    PanelsTransfer(w, r);
  }

  /** A `url` in the message opens a new panel on it; the panel that asked
      records it as its own url. */
  lemma WindowOpenOpensUrl(w: World, id: PanelId, url: string, callbackId: Value,
                           settings: Config.Settings, env: LaunchEnv)
    requires Valid(w) && id in w.panels && url != ""
    requires !w.panels[id].disposed && w.panels[id].disposables != []
    requires w.panels[id].listening && w.panels[id].parent.None?
    ensures var r := OnMessage(w, id, Msg(WindowOpenRequested, Obj(map["url" := Str(url)]), callbackId), settings, env);
      && r.managed == w.managed + [w.nextId] && r.current == Some(w.nextId)
      && w.nextId in r.panels && r.panels[w.nextId].url == Str(url)
      && id in r.panels && r.panels[id].url == Str(url)
  {
    var p := w.panels[id];
    var params := Obj(map["url" := Str(url)]);
    WindowOpenAnnounced(p, params, callbackId, ParentTitle(w, p));
    var w1 := w.(panels := w.panels[id := p.(url := Str(url))]);
    MessageKeepsValid(w, id, p.(url := Str(url)));
    assert OnMessage(w, id, Msg(WindowOpenRequested, params, callbackId), settings, env)
      == OnWindowOpenRequested(w1, Obj(map["url" := Str(url)]), settings, env);
  }

  /** A DevTools panel's request for a new window is heard by no one. */
  lemma DevToolsWindowOpenIgnored(w: World, id: PanelId, msg: Msg, settings: Config.Settings, env: LaunchEnv)
    requires Valid(w) && id in w.panels && IsDebugPage(w.panels[id])
    ensures var r := OnMessage(w, id, msg, settings, env);
      r.managed == w.managed && r.nextId == w.nextId && r.configs == w.configs
  {
  }

  /** A `.website` file was saved: the current panel navigates to the URL
      read from it (`saved`, see `Extension.SavedUrl`). */
  function OnSaved(w: World, saved: Option<string>): (r: World)
    requires Valid(w)
    ensures saved.None? || w.current.None? ==> r == w
    ensures saved.Some? && w.current.Some? ==>
      r == w.(panels := w.panels[w.current.value := w.panels[w.current.value].(url := Str(saved.value))])
    ensures Valid(r)
  {
    match saved
    case None => w
    case Some(url) =>
      if w.current.None? then w
      else
        var id := w.current.value;
        MessageKeepsValid(w, id, w.panels[id].(url := Str(url)));
        w.(panels := w.panels[id := NavigateTo(w.panels[id], url).0])
  }

  /** A debug session of the underlying type starts: the tracker opens
      the URL the session was launched with, if any. */
  function OnDebugStarted(w: World, configuration: Value, settings: Config.Settings, env: LaunchEnv): (r: World)
    requires Valid(w)
    ensures Valid(r)
    ensures DebugProvider.TrackerUrl(configuration).None? ==> r == w
    ensures DebugProvider.TrackerUrl(configuration).Some? ==>
      r == CreateClient(w, DebugProvider.TrackerUrl(configuration).value, false, None, settings, env).0
  {
    match DebugProvider.TrackerUrl(configuration)
    case None => w
    case Some(url) =>
      CreateClientKeepsValid(w, url, false, None, settings, env);
      CreateClient(w, url, false, None, settings, env).0
  }

  /** A debug session ends: a launch session disposes the panels opened on
      its URL. A URL that is not a string equals no start URL. */
  function OnDebugTerminated(w: World, configuration: Value): (r: World)
    requires Valid(w)
    ensures Valid(r)
    ensures DebugProvider.TerminationUrl(configuration).None? ==> r == w
    ensures var u := DebugProvider.TerminationUrl(configuration);
      u.Some? && u.value.Str? ==> r == DisposeByUrl(w, u.value.s)
  {
    match DebugProvider.TerminationUrl(configuration)
    case Some(Str(url)) => DisposeByUrl(w, url)
    case _ => w
  }

  /** `dot-website.open`, runDocument and the custom editor: a client on
      the URL. */
  function Opened(w: World, url: Value, webview: bool, document: Option<Document>,
                  settings: Config.Settings, env: LaunchEnv): (r: World)
    requires Valid(w)
    ensures Valid(r) && r.managed == w.managed + [w.nextId]
  {
    CreateClientKeepsValid(w, url, webview, document, settings, env);
    CreateClient(w, url, webview, document, settings, env).0
  }

  /** runDocument and the custom editor open a document of one line on
      that line. */
  function OnOpenDocument(w: World, docId: nat, lines: seq<string>, webview: bool,
                          settings: Config.Settings, env: LaunchEnv): (r: World)
    requires Valid(w)
    ensures Valid(r)
    ensures |lines| != 1 ==> r == w
    ensures |lines| == 1 ==> r.managed == w.managed + [w.nextId]
  {
    match Extension.UrlToOpen(lines)
    case None => w
    case Some(url) => Opened(w, Str(url), webview, Some(Document(docId, url)), settings, env)
  }

  /** `onDidChangeViewState`: the panel emits "focus" when its webview
      becomes active and "blur" otherwise. */
  function ViewStateChanged(w: World, id: PanelId, active: bool, activeDocument: Option<nat>): (r: World)
    requires Valid(w)
    ensures Valid(r)
    ensures id in w.panels && active ==> r == OnFocus(w, id)
    ensures id in w.panels && !active ==> r == OnBlur(w, id, activeDocument)
  {
    if id !in w.panels then w
    else if active then FocusKeepsValid(w, id); OnFocus(w, id)
    else BlurKeepsValid(w, id, activeDocument); OnBlur(w, id, activeDocument)
  }

  /** The webview was closed: the panel disposes itself. The webview of a
      disposed panel can close no more. */
  function Closed(w: World, id: PanelId): (r: World)
    requires Valid(w)
    ensures Valid(r)
    ensures id in w.panels && !w.panels[id].disposed ==> r == DisposePanel(w, id).0 && id !in r.managed
    ensures id !in w.panels || w.panels[id].disposed ==> r == w
  {
    if id in w.panels && !w.panels[id].disposed then
      DisposeKeepsValid(w, id);
      DisposeRemovesFromSet(w, id);
      DisposePanel(w, id).0
    else w
  }

  /** `controls.external`: the current panel's url is opened outside and
      the panel disposes itself, when it has a url. */
  function OpenedExternally(w: World): (r: World)
    requires Valid(w)
    ensures Valid(r)
    ensures w.current.None? || !Truthy(w.panels[w.current.value].url) ==> r == w
    ensures w.current.Some? && Truthy(w.panels[w.current.value].url) ==> w.current.value !in r.managed
  {
    if w.current.Some? && Truthy(w.panels[w.current.value].url) then
      DisposeKeepsValid(w, w.current.value);
      DisposeRemovesFromSet(w, w.current.value);
      DisposePanel(w, w.current.value).0
    else w
  }

  /** `controls.debug`: DevTools for the current panel. */
  function DevToolsOpened(w: World, env: LaunchEnv): (r: World)
    requires Valid(w)
    ensures Valid(r)
    ensures w.current.None? ==> r == w
    ensures w.current.Some? ==> r == CreateDebugPanel(w, w.current.value, env).0
  {
    if w.current.Some? then
      CreateDebugPanelKeepsValid(w, w.current.value, env);
      CreateDebugPanel(w, w.current.value, env).0
    else w
  }

  /** A message from a webview, for a panel that exists. */
  function Received(w: World, id: PanelId, msg: Msg, settings: Config.Settings, env: LaunchEnv): (r: World)
    requires Valid(w)
    ensures Valid(r)
  {
    if id in w.panels then OnMessage(w, id, msg, settings, env) else w
  }

  /** One event applied to the manager; every event keeps the manager's
      invariant. */
  function Step(w: World, e: Event, settings: Config.Settings, env: LaunchEnv): (r: World)
    requires Valid(w)
    ensures Valid(r)
  {
    match e
    case Open(url) => Opened(w, url, false, None, settings, env)
    case OpenDocument(docId, lines, webview) => OnOpenDocument(w, docId, lines, webview, settings, env)
    case OpenActiveFile(path) => CreateFile(w, path, settings, env)
    case Saved(path, content) => OnSaved(w, Extension.SavedUrl(path, content))
    case ViewState(id, active, activeDocument) => ViewStateChanged(w, id, active, activeDocument)
    case Close(id) => Closed(w, id)
    case OpenExternal => OpenedExternally(w)
    case OpenDevTools => DevToolsOpened(w, env)
    case DebugStarted(configuration) => OnDebugStarted(w, configuration, settings, env)
    case DebugTerminated(configuration) => OnDebugTerminated(w, configuration)
    case Message(id, msg) => Received(w, id, msg, settings, env)
  }

  /** A "Dot Website: Launch" session opens a panel on its URL when it
      starts, and disposing by that URL when it ends closes that panel. */
  lemma DebugLaunchRoundTrip(w: World, config: Value, underlyingType: string, port: int, url: string,
                             settings: Config.Settings, env: LaunchEnv)
    requires Valid(w) && url != ""
    requires config.Obj? && Prop(config, "type") == Str(DebugProvider.DebugType)
    requires Prop(config, "request") == Str("launch") && Prop(config, "url") == Str(url)
    ensures var c := DebugProvider.Resolve(config, underlyingType, Num(port)).config;
      var w1 := OnDebugStarted(w, c, settings, env);
      var w2 := OnDebugTerminated(w1, c);
      && w1.managed == w.managed + [w.nextId] && w.nextId in w1.panels && w1.panels[w.nextId].url == Str(url)
      && w.nextId !in w2.managed && w.nextId in w2.panels && w2.panels[w.nextId].disposed
  {
    DebugProvider.ResolveLaunch(config, underlyingType, Num(port));
    DebugProvider.LaunchSessionClosesWhatItOpens(config, underlyingType, Num(port));
    var w1 := CreateClient(w, Str(url), false, None, settings, env).0;
    CreateClientRemembersUrl(w, url, false, None, settings, env);
    CreateClientSharesBrowser(w, Str(url), false, None, settings, env);
    CreateClientKeepsValid(w, Str(url), false, None, settings, env);
    assert Matches(w1, w.nextId, url);
    DisposeByUrlExact(w1, url);
  }

  /** The manager after a run of events, each with the settings and
      launch environment it met. */
  function Run(w: World, events: seq<(Event, Config.Settings, LaunchEnv)>): (r: World)
    requires Valid(w)
    ensures Valid(r)
    decreases |events|
  {
    if events == [] then w
    else
      var (e, settings, env) := events[0];
      Run(Step(w, e, settings, env), events[1..])
  }

  /** Every world the extension can reach from its start satisfies the
      manager's invariant. */
  lemma ReachableIsValid(settings: Config.Settings, extensionPath: string,
                         events: seq<(Event, Config.Settings, LaunchEnv)>)
    ensures Valid(Run(Init(settings, extensionPath), events))
  {
  }
}

=== FILE: res.dfy ===
/** `res` and `res_async`: run a computation and return `[value, undefined]`
    on a normal return, `[undefined, error]` when it throws (or, for
    `res_async`, when the awaited promise rejects). The computation is given
    by its outcome. */
module Res {
  import opened JsValues

  /** How a call ends: it returns a value or throws one. For an asynchronous
      call, a rejected promise and a synchronous throw both end as `Threw`. */
  datatype Completion = Returned(value: Value) | Threw(error: Value)

  /** The `[ok, err]` pair. */
  datatype Captured = Captured(ok: Value, err: Value)

  function Res(c: Completion): (r: Captured)
    ensures c.Returned? ==> r.err == Undefined
    ensures c.Threw? ==> r.ok == Undefined && r.err == c.error
  {
    match c
    case Returned(v) => Captured(v, Undefined)
    case Threw(e) => Captured(Undefined, e)
  }

  /** `res_async`: awaiting only changes when the outcome is known, not what
      it is. */
  function ResAsync(c: Completion): (r: Captured)
    ensures r == Res(c)
  {
    match c
    case Returned(v) => Captured(v, Undefined)
    case Threw(e) => Captured(Undefined, e)
  }

  /** Reading the pair back: an error slot other than `undefined` means the
      call threw. */
  function Uncapture(p: Captured): Completion {
    if p.err != Undefined then Threw(p.err) else Returned(p.ok)
  }

  /** The pair identifies the outcome, except for a thrown `undefined`. */
  lemma ResRoundTrip(c: Completion)
    ensures Uncapture(Res(c)) == c <==> !(c.Threw? && c.error == Undefined)
  {
  }

  /** A thrown `undefined` and a returned `undefined` give the same pair. */
  lemma ThrownUndefinedLooksReturned()
    ensures Res(Threw(Undefined)) == Res(Returned(Undefined))
  {
  }

  /** The callers' test `if (err)`: it sees a failure exactly when the call
      threw a truthy value, so a thrown `0`, `""`, `false`, `null` or
      `undefined` passes as success. */
  lemma CallersSeeOnlyTruthyErrors(c: Completion)
    ensures Truthy(Res(c).err) <==> c.Threw? && Truthy(c.error)
  {
  }
}

=== FILE: scroll.dfy ===
/** `scrollToHighlightedMatch`: the find bar's stepping through the markers
    that the highlighting pass created. The element with the current match id
    gains the "selected" class and the element with the previous match id
    loses it. Scrolling the element into view is a rendering effect and is
    not modelled. */
module Scroll {
  import opened Wrappers
  import opened Strs
  import opened Dom
  import opened Highlight

  /** `classList.add(c)` or `classList.remove(c)`. */
  function Toggle(classes: set<string>, c: string, add: bool): set<string> {
    if add then classes + {c} else classes - {c}
  }

  /** Apply `Toggle` to the element that `getElementById(id)` returns, if
      there is one; every other node is left as it is. */
  function SetClass(n: Node, id: string, c: string, add: bool): (r: Node)
    ensures TextContent(r) == TextContent(n)
    decreases n, 1
  {
    match n
    case Text(_) => n
    case Element(tag, eid, classes, visible, cs) =>
      if eid == id && id != "" then Element(tag, eid, Toggle(classes, c, add), visible, cs)
      else Element(tag, eid, classes, visible, SetClassIn(cs, id, c, add))
  }

  function SetClassIn(cs: seq<Node>, id: string, c: string, add: bool): (r: seq<Node>)
    ensures |r| == |cs|
    ensures TextOf(r) == TextOf(cs)
    decreases cs, 0
  {
    if cs == [] then []
    else if FindById(cs[0], id).Some? then [SetClass(cs[0], id, c, add)] + cs[1..]
    else [cs[0]] + SetClassIn(cs[1..], id, c, add)
  }

  /** The classes of the element `getElementById(id)` finds. */
  function ClassesOf(n: Node, id: string): Option<set<string>> {
    match FindById(n, id)
    case Some(e) => Some(e.classes)
    case None => None
  }

  lemma TextOfCons(x: Node, rest: seq<Node>)
    ensures TextOf([x] + rest) == TextContent(x) + TextOf(rest)
  {
    assert ([x] + rest)[0] == x;
    assert ([x] + rest)[1..] == rest;
  }

  /** When no element has the id, nothing changes. */
  lemma {:induction false} SetClassMissing(n: Node, id: string, c: string, add: bool)
    requires FindById(n, id).None?
    ensures SetClass(n, id, c, add) == n
    decreases n, 1
  {
    if n.Element? && (n.id != id || id == "") {
      SetClassInMissing(n.children, id, c, add);
    }
  }

  lemma {:induction false} SetClassInMissing(cs: seq<Node>, id: string, c: string, add: bool)
    requires FindByIdIn(cs, id).None?
    ensures SetClassIn(cs, id, c, add) == cs
    decreases cs, 0
  {
    if cs != [] {
      SetClassInMissing(cs[1..], id, c, add);
      assert [cs[0]] + cs[1..] == cs;
    }
  }

  /** The lookup by the modified id still finds the same element, now with
      its classes toggled. */
  lemma {:induction false} SetClassFound(n: Node, id: string, c: string, add: bool)
    requires FindById(n, id).Some?
    ensures ClassesOf(SetClass(n, id, c, add), id) == Some(Toggle(FindById(n, id).value.classes, c, add))
    decreases n, 1
  {
    if n.id != id {
      SetClassInFound(n.children, id, c, add);
    }
  }

  lemma {:induction false} SetClassInFound(cs: seq<Node>, id: string, c: string, add: bool)
    requires FindByIdIn(cs, id).Some?
    ensures FindByIdIn(SetClassIn(cs, id, c, add), id).Some?
    ensures FindByIdIn(SetClassIn(cs, id, c, add), id).value.classes == Toggle(FindByIdIn(cs, id).value.classes, c, add)
    decreases cs, 0
  {
    var r := SetClassIn(cs, id, c, add);
    if FindById(cs[0], id).Some? {
      SetClassFound(cs[0], id, c, add);
      assert r[0] == SetClass(cs[0], id, c, add);
    } else {
      SetClassInFound(cs[1..], id, c, add);
      assert r[0] == cs[0] && r[1..] == SetClassIn(cs[1..], id, c, add);
    }
  }

  /** Toggling a class on the element with one id leaves the classes that
      the lookup of any other id reports as they were. Nested elements
      included: ids are never changed, so every lookup still lands on the
      same element. */
  lemma {:induction false} SetClassOther(n: Node, id: string, other: string, c: string, add: bool)
    requires other != id
    ensures ClassesOf(SetClass(n, id, c, add), other) == ClassesOf(n, other)
    decreases n, 1
  {
    if n.Element? && (n.id != other || other == "") && (n.id != id || id == "") {
      SetClassInOther(n.children, id, other, c, add);
    }
  }

  lemma {:induction false} SetClassInOther(cs: seq<Node>, id: string, other: string, c: string, add: bool)
    requires other != id
    ensures FindByIdIn(SetClassIn(cs, id, c, add), other).Some? == FindByIdIn(cs, other).Some?
    ensures FindByIdIn(cs, other).Some? ==>
              FindByIdIn(SetClassIn(cs, id, c, add), other).value.classes == FindByIdIn(cs, other).value.classes
    decreases cs, 0
  {
    if cs != [] {
      var r := SetClassIn(cs, id, c, add);
      if FindById(cs[0], id).Some? {
        SetClassOther(cs[0], id, other, c, add);
        assert r[0] == SetClass(cs[0], id, c, add) && r[1..] == cs[1..];
      } else {
        SetClassInOther(cs[1..], id, other, c, add);
        assert r[0] == cs[0] && r[1..] == SetClassIn(cs[1..], id, c, add);
      }
    }
  }

  /** Toggling a class by one id leaves whether any other id is found as
      it was. */
  lemma SetClassKeepsFound(n: Node, id: string, other: string, c: string, add: bool)
    requires other != id
    ensures FindById(SetClass(n, id, c, add), other).Some? == FindById(n, other).Some?
  {
    SetClassOther(n, id, other, c, add);
  }

  /** Class changes aimed at two different ids commute: each lands on the
      element its own lookup finds, whichever runs first. */
  lemma {:induction false} SetClassCommute(n: Node, a: string, b: string, c: string, x: bool, y: bool)
    requires a != b
    ensures SetClass(SetClass(n, a, c, x), b, c, y) == SetClass(SetClass(n, b, c, y), a, c, x)
    decreases n, 1
  {
    if n.Element? && (n.id != a || a == "") && (n.id != b || b == "") {
      SetClassInCommute(n.children, a, b, c, x, y);
    }
  }

  lemma {:induction false} SetClassInCommute(cs: seq<Node>, a: string, b: string, c: string, x: bool, y: bool)
    requires a != b
    ensures SetClassIn(SetClassIn(cs, a, c, x), b, c, y) == SetClassIn(SetClassIn(cs, b, c, y), a, c, x)
    decreases cs, 0
  {
    if cs != [] {
      var fa, fb := FindById(cs[0], a).Some?, FindById(cs[0], b).Some?;
      var t, u := SetClassIn(cs, a, c, x), SetClassIn(cs, b, c, y);
      if fa {
        assert t == [SetClass(cs[0], a, c, x)] + cs[1..];
        SetClassKeepsFound(cs[0], a, b, c, x);
      } else {
        assert t == [cs[0]] + SetClassIn(cs[1..], a, c, x);
      }
      if fb {
        assert u == [SetClass(cs[0], b, c, y)] + cs[1..];
        SetClassKeepsFound(cs[0], b, a, c, y);
      } else {
        assert u == [cs[0]] + SetClassIn(cs[1..], b, c, y);
      }
      assert t[0] == (if fa then SetClass(cs[0], a, c, x) else cs[0]);
      assert u[0] == (if fb then SetClass(cs[0], b, c, y) else cs[0]);
      if fa && fb {
        SetClassCommute(cs[0], a, b, c, x, y);
        assert t[1..] == cs[1..] && u[1..] == cs[1..];
      } else if !fa && !fb {
        SetClassInCommute(cs[1..], a, b, c, x, y);
        assert t[1..] == SetClassIn(cs[1..], a, c, x) && u[1..] == SetClassIn(cs[1..], b, c, y);
      } else if fa {
        assert t[1..] == cs[1..] && u[1..] == SetClassIn(cs[1..], b, c, y);
      } else {
        assert t[1..] == SetClassIn(cs[1..], a, c, x) && u[1..] == cs[1..];
      }
    }
  }

  /** The page function as written, on the two ids it builds from the
      indexes: select the element with the current id, then deselect the
      one with the previous id. */
  function SelectAsWritten(doc: Node, prevId: string, curId: string): (r: Node)
    ensures TextContent(r) == TextContent(doc)
  {
    SetClass(SetClass(doc, curId, SelectedClass, true), prevId, SelectedClass, false)
  }

  /** The handler as written, on match indexes. */
  function ScrollAsWritten(doc: Node, prev: int, cur: int): (r: Node)
    ensures TextContent(r) == TextContent(doc)
  {
    SelectAsWritten(doc, MatchId(prev), MatchId(cur))
  }

  /** The order of the two steps matters only when both indexes name the
      same match: for distinct indexes the handler as written and the
      corrected step give the same page. */
  lemma AsWrittenAgreesWhenDistinct(doc: Node, prev: int, cur: int)
    requires prev != cur
    ensures ScrollAsWritten(doc, prev, cur) == ScrollToMatch(doc, prev, cur)
  {
    MatchIdInjective(prev, cur);
    SetClassCommute(doc, MatchId(cur), MatchId(prev), SelectedClass, true, false);
  }

  /** When the previous and the current index are the same (the find bar
      sends that when it steps through a single match), the handler as
      written adds the selected class and takes it away again: the current
      match ends up not selected. */
  lemma ScrollAsWrittenSameIndexDeselects(doc: Node, i: int)
    requires FindById(doc, MatchId(i)).Some?
    ensures ClassesOf(ScrollAsWritten(doc, i, i), MatchId(i)).Some?
    ensures SelectedClass !in ClassesOf(ScrollAsWritten(doc, i, i), MatchId(i)).value
  {
    var id := MatchId(i);
    var mid := SetClass(doc, id, SelectedClass, true);
    SetClassFound(doc, id, SelectedClass, true);
    SetClassFound(mid, id, SelectedClass, false);
  }

  /** A concrete page: one marker inside the body. */
  lemma ScrollAsWrittenExample()
    ensures var doc := Element("body", "", {}, true, [Marker(0, "a", true)]);
            ClassesOf(ScrollAsWritten(doc, 0, 0), MatchId(0)) == Some({HighlightClass})
  {
    var doc := Element("body", "", {}, true, [Marker(0, "a", true)]);
    assert MatchId(0) != "";
    assert FindById(doc, MatchId(0)) == Some(Marker(0, "a", true)) by {
      assert FindByIdIn(doc.children, MatchId(0)) == Some(Marker(0, "a", true));
    }
    ScrollAsWrittenSameIndexDeselects(doc, 0);
    SetClassFound(doc, MatchId(0), SelectedClass, true);
    SetClassFound(SetClass(doc, MatchId(0), SelectedClass, true), MatchId(0), SelectedClass, false);
    assert {HighlightClass} + {SelectedClass} - {SelectedClass} == {HighlightClass};
  }

  /** The evident intent: deselect the element with the previous id first,
      then select the one with the current id. */
  function SelectById(doc: Node, prevId: string, curId: string): (r: Node)
    ensures TextContent(r) == TextContent(doc)
  {
    SetClass(SetClass(doc, prevId, SelectedClass, false), curId, SelectedClass, true)
  }

  function ScrollToMatch(doc: Node, prev: int, cur: int): (r: Node)
    ensures TextContent(r) == TextContent(doc)
  {
    SelectById(doc, MatchId(prev), MatchId(cur))
  }

  /** After the corrected step the current match is selected, whatever the
      previous index was. */
  lemma ScrollSelectsCurrent(doc: Node, prev: int, cur: int)
    requires FindById(doc, MatchId(cur)).Some?
    ensures ClassesOf(ScrollToMatch(doc, prev, cur), MatchId(cur))
            == Some(FindById(doc, MatchId(cur)).value.classes + {SelectedClass})
  {
    var p := MatchId(prev);
    var c := MatchId(cur);
    var mid := SetClass(doc, p, SelectedClass, false);
    MatchIdInjective(prev, cur);
    if prev == cur {
      SetClassFound(doc, p, SelectedClass, false);
    } else {
      SetClassOther(doc, p, c, SelectedClass, false);
    }
    assert FindById(mid, c).Some?;
    SetClassFound(mid, c, SelectedClass, true);
    assert FindById(mid, c).value.classes + {SelectedClass} == FindById(doc, c).value.classes + {SelectedClass};
  }

  /** The previous match loses the selection when it differs from the
      current one, and every other element keeps its classes. */
  lemma ScrollDeselectsPrevious(doc: Node, prev: int, cur: int)
    requires prev != cur
    requires FindById(doc, MatchId(prev)).Some?
    ensures ClassesOf(ScrollToMatch(doc, prev, cur), MatchId(prev))
            == Some(FindById(doc, MatchId(prev)).value.classes - {SelectedClass})
  {
    var p := MatchId(prev);
    var c := MatchId(cur);
    MatchIdInjective(prev, cur);
    SetClassFound(doc, p, SelectedClass, false);
    SetClassOther(SetClass(doc, p, SelectedClass, false), c, p, SelectedClass, true);
  }

  lemma ScrollKeepsOthers(doc: Node, prev: int, cur: int, id: string)
    requires id != MatchId(prev) && id != MatchId(cur)
    ensures ClassesOf(ScrollToMatch(doc, prev, cur), id) == ClassesOf(doc, id)
  {
    SetClassOther(doc, MatchId(prev), id, SelectedClass, false);
    SetClassOther(SetClass(doc, MatchId(prev), SelectedClass, false), MatchId(cur), id, SelectedClass, true);
  }

  /** An index that no marker carries changes nothing. */
  lemma ScrollWithoutMarkers(doc: Node, prev: int, cur: int)
    requires FindById(doc, MatchId(prev)).None? && FindById(doc, MatchId(cur)).None?
    ensures ScrollToMatch(doc, prev, cur) == doc
  {
    SetClassMissing(doc, MatchId(prev), SelectedClass, false);
    SetClassMissing(doc, MatchId(cur), SelectedClass, true);
  }

  /** Distinct ordinals give distinct ids. */
  lemma MatchIdInjective(a: int, b: int)
    ensures MatchId(a) == MatchId(b) <==> a == b
  {
    if MatchId(a) == MatchId(b) {
      var n := |MatchIdPrefix|;
      assert MatchId(a)[n..] == IntToString(a);
      assert MatchId(b)[n..] == IntToString(b);
      IntToStringInjective(a, b);
    }
  }
}

=== FILE: search_bar.dfy ===
/** The find bar of the webview client: the query text, the number of
    matches the page reported, and the previous/current match indices that
    the arrow buttons and the Enter key step through. */
module SearchBar {
  import opened Wrappers
  import Strs

  /** `matchesLength` is `undefined` (None) until the page reports a truthy
      count. */
  datatype BarState = BarState(
    text: string,
    matchesLength: Option<nat>,
    isFocused: bool,
    previousMatchIndex: int,
    currentMatchIndex: int)

  /** What the bar asks the page to do through `onActionInvoked`. */
  datatype Request =
    | FindQuery(text: string, currentMatchIndex: int)
    | CloseBar

  function Init(): (st: BarState)
    ensures st.matchesLength.None? && st.currentMatchIndex == 0 && st.previousMatchIndex == 0
    ensures st.text == "" && !st.isFocused
  {
    BarState("", None, false, 0, 0)
  }

  /** JavaScript's `%`: the remainder takes the sign of the dividend. */
  function JsRem(a: int, b: int): (r: int)
    requires b != 0
    ensures a >= 0 ==> 0 <= r < (if b > 0 then b else -b)
    ensures a >= 0 && b > 0 ==> r == a % b
  {
    var m := if b > 0 then b else -b;
    if a >= 0 then a % m else -((-a) % m)
  }

  /** No step is taken while there is no positive count. */
  predicate HasMatches(st: BarState) {
    st.matchesLength.Some? && st.matchesLength.value != 0
  }

  /** `handleNext`: previous := current, current := (current + 1) % n. */
  function Next(st: BarState): (r: BarState)
    ensures !HasMatches(st) ==> r == st
    ensures HasMatches(st) ==> r.previousMatchIndex == st.currentMatchIndex
    ensures HasMatches(st) && st.currentMatchIndex >= 0 ==>
      0 <= r.currentMatchIndex < st.matchesLength.value
    ensures r.text == st.text && r.matchesLength == st.matchesLength && r.isFocused == st.isFocused
  {
    if !HasMatches(st) then st
    else
      var n := st.matchesLength.value;
      st.(previousMatchIndex := st.currentMatchIndex,
          currentMatchIndex := JsRem(st.currentMatchIndex + 1, n))
  }

  /** `handlePrevious`: previous := current, current := (current - 1 + n) % n. */
  function Previous(st: BarState): (r: BarState)
    ensures !HasMatches(st) ==> r == st
    ensures HasMatches(st) ==> r.previousMatchIndex == st.currentMatchIndex
    ensures HasMatches(st) && st.currentMatchIndex >= 0 ==>
      0 <= r.currentMatchIndex < st.matchesLength.value
    ensures r.text == st.text && r.matchesLength == st.matchesLength && r.isFocused == st.isFocused
  {
    if !HasMatches(st) then st
    else
      var n := st.matchesLength.value;
      st.(previousMatchIndex := st.currentMatchIndex,
          currentMatchIndex := JsRem(st.currentMatchIndex - 1 + n, n))
  }

  /** Going forward then back returns to an in-range match. */
  lemma PreviousUndoesNext(st: BarState)
    requires HasMatches(st) && 0 <= st.currentMatchIndex < st.matchesLength.value
    ensures Previous(Next(st)).currentMatchIndex == st.currentMatchIndex
  {
    var n := st.matchesLength.value;
    var c := st.currentMatchIndex;
    if c + 1 < n {
      ModUnique(c + 1, 0, c + 1, n);
      ModUnique(c + n, 1, c, n);
    } else {
      ModUnique(c + 1, 1, 0, n);
      ModUnique(n - 1, 0, n - 1, n);
    }
  }

  /** Going back then forward returns to an in-range match. */
  lemma NextUndoesPrevious(st: BarState)
    requires HasMatches(st) && 0 <= st.currentMatchIndex < st.matchesLength.value
    ensures Next(Previous(st)).currentMatchIndex == st.currentMatchIndex
  {
    var n := st.matchesLength.value;
    var c := st.currentMatchIndex;
    if c > 0 {
      ModUnique(c - 1 + n, 1, c - 1, n);
      ModUnique(c, 0, c, n);
    } else {
      ModUnique(n - 1, 0, n - 1, n);
      ModUnique(n, 1, 0, n);
    }
  }

  function NextTimes(st: BarState, k: nat): BarState {
    if k == 0 then st else Next(NextTimes(st, k - 1))
  }

  /** `k` presses of Next advance the current index by `k` modulo the count,
      whatever index a previous query left behind. */
  lemma {:induction false} NextTimesAdvances(st: BarState, k: nat)
    requires HasMatches(st) && st.currentMatchIndex >= 0
    ensures k > 0 ==> NextTimes(st, k).currentMatchIndex == (st.currentMatchIndex + k) % st.matchesLength.value
    ensures NextTimes(st, k).matchesLength == st.matchesLength
  {
    if k > 0 {
      NextTimesAdvances(st, k - 1);
      var n := st.matchesLength.value;
      var c := st.currentMatchIndex;
      if k > 1 {
        var p := NextTimes(st, k - 1).currentMatchIndex;
        assert p == (c + k - 1) % n;
        ModSucc(c + k - 1, n);
      }
    }
  }

  lemma ModSucc(a: nat, n: nat)
    requires n > 0
    ensures (a % n + 1) % n == (a + 1) % n
  {
    var q, m := a / n, a % n;
    if m + 1 < n {
      ModUnique(a + 1, q, m + 1, n);
      ModUnique(m + 1, 0, m + 1, n);
    } else {
      ModUnique(a + 1, q + 1, 0, n);
      ModUnique(m + 1, 1, 0, n);
    }
  }

  /** The remainder is the unique `s` in [0, n) with `a == q * n + s`. */
  lemma ModUnique(a: int, q: int, s: int, n: int)
    requires n > 0 && 0 <= s < n && a == q * n + s
    ensures a % n == s
  {
    var q', s' := a / n, a % n;
    var d := q - q';
    assert d * n == q * n - q' * n;
    assert d * n == s' - s;
    if d >= 1 {
      MulAtLeast(d, n);
    } else if d <= -1 {
      MulAtLeast(-d, n);
    }
  }

  lemma {:induction false} MulAtLeast(d: int, n: int)
    requires d >= 1 && n > 0
    ensures d * n >= n
    decreases d
  {
    if d > 1 {
      MulAtLeast(d - 1, n);
      assert d * n == (d - 1) * n + n;
    }
  }

  /** Pressing Next as many times as there are matches comes back to the
      same match. */
  lemma NextCycles(st: BarState)
    requires HasMatches(st) && 0 <= st.currentMatchIndex < st.matchesLength.value
    ensures NextTimes(st, st.matchesLength.value).currentMatchIndex == st.currentMatchIndex
  {
    var n := st.matchesLength.value;
    NextTimesAdvances(st, n);
    ModUnique(st.currentMatchIndex + n, 1, st.currentMatchIndex, n);
  }

  /** `handleChange`: store the text, clear the count, ask the page to
      search, and keep the page's reply only if it is truthy. The indices are
      not reset. */
  function Change(st: BarState, text: string, reply: Option<nat>): (r: (BarState, Request))
    ensures r.1 == FindQuery(text, st.currentMatchIndex)
    ensures r.0.text == text
    ensures r.0.matchesLength.Some? <==> reply.Some? && reply.value > 0
    ensures r.0.matchesLength.Some? ==> r.0.matchesLength == reply
    ensures r.0.currentMatchIndex == st.currentMatchIndex && r.0.previousMatchIndex == st.previousMatchIndex
  {
    var cleared := st.(text := text, matchesLength := None);
    var stored := if reply.Some? && reply.value != 0 then cleared.(matchesLength := reply) else cleared;
    (stored, FindQuery(text, st.currentMatchIndex))
  }

  /** `handleClose`: clears text, count and focus; the indices stay. */
  function Close(st: BarState): (r: (BarState, Request))
    ensures r.1 == CloseBar
    ensures r.0.text == "" && r.0.matchesLength.None? && !r.0.isFocused
    ensures r.0.currentMatchIndex == st.currentMatchIndex && r.0.previousMatchIndex == st.previousMatchIndex
  {
    (st.(text := "", matchesLength := None, isFocused := false), CloseBar)
  }

  /** `handleKeyDown`: Enter behaves as Next, other keys do nothing. */
  function KeyDown(st: BarState, key: string): (r: BarState)
    ensures key == "Enter" ==> r == Next(st)
    ensures key != "Enter" ==> r == st
  {
    if key == "Enter" then Next(st) else st
  }

  function Focus(st: BarState): BarState {
    st.(isFocused := true)
  }

  function Blur(st: BarState): BarState {
    st.(isFocused := false)
  }

  // ---------------------------------------------------------------------
  // Invariant over every event
  // ---------------------------------------------------------------------

  datatype Event =
    | Typed(text: string, reply: Option<nat>)
    | Pressed(key: string)
    | ClickedNext
    | ClickedPrevious
    | ClickedClose
    | Focused
    | Blurred

  function Step(st: BarState, e: Event): BarState {
    match e
    case Typed(text, reply) => Change(st, text, reply).0
    case Pressed(key) => KeyDown(st, key)
    case ClickedNext => Next(st)
    case ClickedPrevious => Previous(st)
    case ClickedClose => Close(st).0
    case Focused => Focus(st)
    case Blurred => Blur(st)
  }

  function Run(st: BarState, es: seq<Event>): BarState
    decreases |es|
  {
    if es == [] then st else Run(Step(st, es[0]), es[1..])
  }

  /** A stored count is positive and both indices are non-negative. */
  predicate Valid(st: BarState) {
    && (st.matchesLength.Some? ==> st.matchesLength.value > 0)
    && st.currentMatchIndex >= 0
    && st.previousMatchIndex >= 0
  }

  lemma StepValid(st: BarState, e: Event)
    requires Valid(st)
    ensures Valid(Step(st, e))
  {
  }

  /** From the initial state every sequence of events keeps the indices
      non-negative, so every step lands inside the current count. */
  lemma {:induction false} RunValid(st: BarState, es: seq<Event>)
    requires Valid(st)
    ensures Valid(Run(st, es))
    decreases |es|
  {
    if es != [] {
      StepValid(st, es[0]);
      RunValid(Step(st, es[0]), es[1..]);
    }
  }

  /** The current index is not reset by a new query, so after the count
      shrinks it can lie beyond it until the next step. */
  lemma IndexSurvivesNewQuery()
    ensures var st := BarState("a", Some(10), true, 4, 5);
      var r := Change(st, "ab", Some(3)).0;
      r.currentMatchIndex == 5 && r.matchesLength == Some(3)
      && Next(r).currentMatchIndex == 0
  {
  }

  // ---------------------------------------------------------------------
  // The match label
  // ---------------------------------------------------------------------

  /** "No matches" unless the count is positive, else "<current+1> / <n>". */
  function Label(st: BarState): (r: string)
    requires st.currentMatchIndex >= 0
    ensures !HasMatches(st) ==> r == "No matches"
    ensures HasMatches(st) ==> Strs.StartsWith(r, Strs.NatToString(st.currentMatchIndex + 1) + " / ")
  {
    if HasMatches(st) then
      var head := Strs.NatToString(st.currentMatchIndex + 1) + " / ";
      var r := head + Strs.NatToString(st.matchesLength.value);
      assert r[..|head|] == head;
      r
    else "No matches"
  }

  /** The label reads back as the 1-based position and the count. */
  lemma LabelReadsBack(st: BarState)
    requires HasMatches(st) && st.currentMatchIndex >= 0
    ensures var r := Label(st);
      var k := |Strs.NatToString(st.currentMatchIndex + 1)|;
      Strs.ParseInt(r) == Some(st.currentMatchIndex + 1)
      && |r| > k + 3 && Strs.ParseInt(r[k + 3..]) == Some(st.matchesLength.value)
  {
    var a := Strs.NatToString(st.currentMatchIndex + 1);
    var b := Strs.NatToString(st.matchesLength.value);
    var r := Label(st);
    assert r == a + (" / " + b);
    assert r[|a| + 3..] == b;
    Strs.ParseIntOfNatToString(st.matchesLength.value);
    Strs.ParseIntOfNatToStringThen(st.currentMatchIndex + 1, " / " + b);
  }
}

=== FILE: selection.dfy ===
/** Editing the selection of a text field from the context menu: the page's
    `contextmenu` listener tags the clicked element with a `data-unique-id`
    attribute and, for INPUT and TEXTAREA, records the selection bounds in
    two more attributes; `removeSelection` and `pasteFromClipboard` later find
    the element by that attribute, drop the tag and splice the field's value.

    The page is the list of its elements in tree order, each reduced to what
    these handlers read and write. */
module Selection {
  import opened Wrappers
  import opened Strs

  const UidAttr := "data-unique-id"
  const StartAttr := "data-selection-start"
  const EndAttr := "data-selection-end"
  /** The one tag value the `contextmenu` listener uses. */
  const ContextMenuUid := "dot-website-oncontextmenu"

  /** `selStart`/`selEnd` are `None` for an element without a text selection
      (`selectionStart` is null there, and assigning it throws). */
  datatype Field = Field(tag: string, contentEditable: bool, value: string,
                         attrs: map<string, string>, selStart: Option<nat>, selEnd: Option<nat>)

  type Page = seq<Field>

  /** The page after a handler, and the exception it threw part way, if any;
      whatever it changed before throwing stays changed. */
  datatype Outcome = Outcome(page: Page, thrown: Option<string>)

  predicate IsTextField(f: Field) {
    f.tag == "INPUT" || f.tag == "TEXTAREA"
  }

  // ---------------------------------------------------------------------
  // querySelector(`[data-unique-id=${uid}]`)
  // ---------------------------------------------------------------------

  predicate IsNameStart(c: char) {
    IsAsciiLetter(c) || c == '_' || c > '\U{007F}'
  }

  predicate IsNameChar(c: char) {
    IsNameStart(c) || IsDigit(c) || c == '-'
  }

  /** An unquoted attribute value in a selector must be a CSS identifier
      (escapes are not modelled): name characters only, not starting with a
      digit, nor with a hyphen followed by a digit, and not a lone hyphen. */
  predicate IsCssIdent(s: string) {
    && |s| >= 1
    && All(s, IsNameChar)
    && !IsDigit(s[0])
    && (s[0] == '-' ==> |s| >= 2 && !IsDigit(s[1]))
  }

  predicate HasAttr(f: Field, key: string, val: string) {
    key in f.attrs && f.attrs[key] == val
  }

  function FirstWith(page: Page, key: string, val: string, from: nat): (r: Option<nat>)
    requires from <= |page|
    ensures r.Some? ==> from <= r.value < |page| && HasAttr(page[r.value], key, val)
                        && forall j :: from <= j < r.value ==> !HasAttr(page[j], key, val)
    ensures r.None? ==> forall j :: from <= j < |page| ==> !HasAttr(page[j], key, val)
    decreases |page| - from
  {
    if from == |page| then None
    else if HasAttr(page[from], key, val) then Some(from)
    else FirstWith(page, key, val, from + 1)
  }

  /** The element the selector finds, or the syntax error it throws. */
  function Query(page: Page, uid: string): (r: Result<Option<nat>, string>)
    ensures r.Err? <==> !IsCssIdent(uid)
    ensures r.Ok? && r.value.Some? ==> r.value.value < |page| && HasAttr(page[r.value.value], UidAttr, uid)
    ensures r.Ok? ==> (r.value.None? <==> forall j :: 0 <= j < |page| ==> !HasAttr(page[j], UidAttr, uid))
  {
    if !IsCssIdent(uid) then Err("SyntaxError") else Ok(FirstWith(page, UidAttr, uid, 0))
  }

  // ---------------------------------------------------------------------
  // JavaScript numbers as these handlers use them
  // ---------------------------------------------------------------------

  /** `parseInt` of an attribute, or `None` when the attribute is missing or
      empty (the handlers log and stop then). The inner `None` is NaN. */
  function AttrNumber(f: Field, key: string): Option<Option<int>> {
    if key !in f.attrs || f.attrs[key] == "" then None else Some(ParseInt(f.attrs[key]))
  }

  /** The start or end argument of `String.prototype.slice`: NaN counts as 0,
      a negative value counts from the end, and the result is clamped to the
      string. */
  function SliceIndex(x: Option<int>, len: nat): (r: nat)
    ensures r <= len
    ensures x.Some? && 0 <= x.value <= len ==> r == x.value
  {
    match x
    case None => 0
    case Some(v) => if v < 0 then (if len + v < 0 then 0 else len + v) else if v > len then len else v
  }

  function Slice(s: string, start: Option<int>, end: Option<int>): (r: string)
    ensures |r| <= |s|
  {
    var a := SliceIndex(start, |s|);
    var b := SliceIndex(end, |s|);
    if a >= b then "" else s[a..b]
  }

  function SliceFrom(s: string, start: Option<int>): (r: string)
    ensures r == s[SliceIndex(start, |s|)..]
  {
    s[SliceIndex(start, |s|)..]
  }

  /** Assigning a number to `selectionStart`/`selectionEnd`: converted to an
      unsigned 32-bit integer (NaN gives 0), then clamped to the value. */
  function Caret(x: Option<int>, len: nat): (r: nat)
    ensures r <= len
    ensures x.Some? && 0 <= x.value <= len && x.value < 0x1_0000_0000 ==> r == x.value
  {
    var u := match x case None => 0 case Some(v) => v % 0x1_0000_0000;
    if u > len then len else u
  }

  /** What `text.length` reads on the pasted value: a number, `undefined`
      (a number or a boolean has no `length`), or a TypeError when the value
      itself is `undefined` or `null`. */
  datatype TextLength = Length(n: int) | NoLength | LengthThrows

  /** `selectionStart + text.length`: NaN when either side is not a number. */
  function AddLength(x: Option<int>, len: TextLength): (r: Option<int>)
    requires !len.LengthThrows?
    ensures r.Some? <==> x.Some? && len.Length?
    ensures r.Some? ==> r.value == x.value + len.n
  {
    match x
    case None => None
    case Some(v) => if len.Length? then Some(v + len.n) else None
  }

  // ---------------------------------------------------------------------
  // the handlers
  // ---------------------------------------------------------------------

  /** The `contextmenu` listener on the element at `i`: tag it, and for a
      text field record `selectionStart || 0` and `selectionEnd || 0`. The
      second result is the `isSelectedElementEditable` flag it reports. The
      saved selection of a content-editable element is not modelled. */
  function OnContextMenu(page: Page, i: nat): (r: (Page, bool))
    requires i < |page|
    ensures |r.0| == |page|
    ensures forall j :: 0 <= j < |page| && j != i ==> r.0[j] == page[j]
    ensures HasAttr(r.0[i], UidAttr, ContextMenuUid)
    ensures r.1 <==> IsTextField(page[i]) || page[i].contentEditable
  {
    var f := page[i];
    var attrs := f.attrs[UidAttr := ContextMenuUid];
    if IsTextField(f) then
      var attrs' := attrs[StartAttr := NatToString(f.selStart.GetOr(0))][EndAttr := NatToString(f.selEnd.GetOr(0))];
      (page[i := f.(attrs := attrs')], true)
    else (page[i := f.(attrs := attrs)], f.contentEditable)
  }

  /** Replace the recorded selection of a text field by `text` (empty for
      `removeSelection`) and put the caret `len` past the start. `None` when
      either bound attribute is missing or empty. Reading `len` throws for an
      `undefined` or `null` text, and setting the caret throws for an element
      without a text selection, both after the value was already written. */
  function Splice(f: Field, text: string, len: TextLength): (r: Option<(Field, Option<string>)>)
    ensures r.None? <==> AttrNumber(f, StartAttr).None? || AttrNumber(f, EndAttr).None?
    ensures r.Some? && r.value.1.Some? ==> r.value.0 == f.(value := r.value.0.value)
    ensures r.Some? ==> (r.value.1 == Some("TypeError") <==> len.LengthThrows?)
  {
    match AttrNumber(f, StartAttr)
    case None => None
    case Some(s) =>
      match AttrNumber(f, EndAttr)
      case None => None
      case Some(e) =>
        var v := Slice(f.value, Some(0), s) + text + SliceFrom(f.value, e);
        if len.LengthThrows? then Some((f.(value := v), Some("TypeError")))
        else if f.selStart.None? then Some((f.(value := v), Some("InvalidStateError")))
        else
          var caret := Caret(AddLength(s, len), |v|);
          Some((f.(value := v, selStart := Some(caret), selEnd := Some(caret),
                   attrs := f.attrs - {StartAttr, EndAttr}), None))
  }

  /** `removeSelection(uid)`. A content-editable element only loses its tag
      (deleting the live selection range is not modelled); any other element
      has its recorded selection cut out of its value. */
  function RemoveSelection(page: Page, uid: string): (r: Outcome)
    ensures |r.page| == |page|
    ensures !IsCssIdent(uid) ==> r == Outcome(page, Some("SyntaxError"))
  {
    match Query(page, uid)
    case Err(e) => Outcome(page, Some(e))
    case Ok(None) => Outcome(page, None)
    case Ok(Some(i)) =>
      var f := page[i].(attrs := page[i].attrs - {UidAttr});
      if f.contentEditable then Outcome(page[i := f], None)
      else match Splice(f, "", Length(0))
        case None => Outcome(page[i := f], None)
        case Some((f', thrown)) => Outcome(page[i := f'], thrown)
  }

  /** `pasteFromClipboard(uid, text)`, with `text` as the string the value
      concatenation makes of it and `len` what `text.length` reads. A text
      field has its recorded selection replaced by `text`; a content-editable
      element only loses its tag (inserting into the saved range is not
      modelled). */
  function PasteFromClipboard(page: Page, uid: string, text: string, len: TextLength): (r: Outcome)
    ensures |r.page| == |page|
    ensures !IsCssIdent(uid) ==> r == Outcome(page, Some("SyntaxError"))
  {
    match Query(page, uid)
    case Err(e) => Outcome(page, Some(e))
    case Ok(None) => Outcome(page, None)
    case Ok(Some(i)) =>
      var f := page[i].(attrs := page[i].attrs - {UidAttr});
      if IsTextField(f) then
        match Splice(f, text, len)
        case None => Outcome(page[i := f], None)
        case Some((f', thrown)) => Outcome(page[i := f'], thrown)
      else Outcome(page[i := f], None)
  }

  /** `selectAll(uid)`: the tagged element when `uid` is given (`None`
      stands for a falsy uid), else the focused element. A text field gets
      its whole value selected (`select()` does nothing on a field without a
      text selection); for anything else the page selection is widened to
      the editable ancestor or the body, which is not modelled. */
  function SelectAll(page: Page, uid: Option<string>, active: Option<nat>): (r: Outcome)
    ensures |r.page| == |page|
    ensures r.thrown.Some? <==> uid.Some? && !IsCssIdent(uid.value)
  {
    var found: Result<(Page, Option<nat>), string> :=
      match uid
      case None => Ok((page, active))
      case Some(u) =>
        match Query(page, u)
        case Err(e) => Err(e)
        case Ok(None) => Ok((page, None))
        case Ok(Some(i)) => Ok((page[i := page[i].(attrs := page[i].attrs - {UidAttr})], Some(i)));
    match found
    case Err(e) => Outcome(page, Some(e))
    case Ok((p, target)) =>
      if target.Some? && target.value < |p| && IsTextField(p[target.value]) && p[target.value].selStart.Some? then
        var f := p[target.value];
        Outcome(p[target.value := f.(selStart := Some(0), selEnd := Some(|f.value|))], None)
      else Outcome(p, None)
  }

  lemma SelectAllSelectsWholeValue(page: Page, i: nat)
    requires FirstTagged(page, i, ContextMenuUid) && HasAttr(page[i], UidAttr, ContextMenuUid)
    requires IsTextField(page[i]) && page[i].selStart.Some?
    ensures var r := SelectAll(page, Some(ContextMenuUid), None);
            && r.page[i].selStart == Some(0) && r.page[i].selEnd == Some(|page[i].value|)
            && r.page[i].value == page[i].value && UidAttr !in r.page[i].attrs
  {
    assert IsCssIdent(ContextMenuUid) by {
      assert ContextMenuUid == "dot-website-oncontextmenu";
    }
    assert Query(page, ContextMenuUid) == Ok(Some(i));
  }

  // ---------------------------------------------------------------------
  // properties
  // ---------------------------------------------------------------------

  /** Only the element at `i` carries the tag `uid`. */
  predicate OnlyTagged(page: Page, i: nat, uid: string) {
    i < |page| && forall j :: 0 <= j < |page| && j != i ==> !HasAttr(page[j], UidAttr, uid)
  }

  /** No element before the one at `i` carries the tag `uid`, so the
      selector, which takes the first match in tree order, reaches `i`
      whenever it carries the tag itself. */
  predicate FirstTagged(page: Page, i: nat, uid: string) {
    i < |page| && forall j :: 0 <= j < i ==> !HasAttr(page[j], UidAttr, uid)
  }

  lemma SliceIsPrefix(v: string, s: nat)
    requires s <= |v|
    ensures Slice(v, Some(0), Some(s)) == v[..s]
  {
  }

  /** Reading back the recorded bounds gives the numbers written. */
  lemma RecordedBounds(f: Field, s: nat, e: nat)
    requires StartAttr in f.attrs && f.attrs[StartAttr] == NatToString(s)
    requires EndAttr in f.attrs && f.attrs[EndAttr] == NatToString(e)
    ensures AttrNumber(f, StartAttr) == Some(Some(s))
    ensures AttrNumber(f, EndAttr) == Some(Some(e))
  {
    ParseIntOfNatToString(s);
    ParseIntOfNatToString(e);
  }

  /** `parseInt` is called without a radix, so a bound that some other
      script wrote as "0x..." is read in base 16, and a bare "0x" is NaN. */
  lemma HexBoundRead(f: Field, key: string, h: string)
    requires key in f.attrs && All(h, IsHexDigit)
    requires f.attrs[key] == "0x" + h
    ensures h != [] ==> AttrNumber(f, key) == Some(Some(HexValue(h)))
    ensures h == [] ==> AttrNumber(f, key) == Some(None)
  {
    assert "0x" + h == ['0', 'x'] + h;
    if h != [] {
      ParseIntHex('x', h);
    } else {
      ParseIntBareHexPrefix('x', h);
    }
  }

  /** After the `contextmenu` listener ran on an element with no tagged
      element before it, the selector finds that element. */
  lemma TaggedIsFound(page: Page, i: nat)
    requires FirstTagged(page, i, ContextMenuUid)
    ensures Query(OnContextMenu(page, i).0, ContextMenuUid) == Ok(Some(i))
  {
    var tagged := OnContextMenu(page, i).0;
    TagIsIdent();
    assert forall j :: 0 <= j < i ==> tagged[j] == page[j];
    FirstTagFound(tagged, ContextMenuUid, i);
  }

  lemma TagIsIdent()
    ensures IsCssIdent(ContextMenuUid)
  {
    assert ContextMenuUid == "dot-website-oncontextmenu";
  }

  /** The selector finds the first element carrying the tag. */
  lemma FirstTagFound(page: Page, uid: string, i: nat)
    requires IsCssIdent(uid) && FirstTagged(page, i, uid) && HasAttr(page[i], UidAttr, uid)
    ensures Query(page, uid) == Ok(Some(i))
  {
  }

  /** Splicing with the bounds the listener recorded. */
  lemma SpliceRecorded(f: Field, s: nat, e: nat, text: string)
    requires StartAttr in f.attrs && f.attrs[StartAttr] == NatToString(s)
    requires EndAttr in f.attrs && f.attrs[EndAttr] == NatToString(e)
    requires f.selStart.Some? && s <= e <= |f.value| && |f.value| + |text| < 0x1_0000_0000
    ensures Splice(f, text, Length(|text|)) == Some((f.(value := f.value[..s] + text + f.value[e..],
                                        selStart := Some(s + |text|), selEnd := Some(s + |text|),
                                        attrs := f.attrs - {StartAttr, EndAttr}), None))
  {
    RecordedBounds(f, s, e);
    var v := f.value[..s] + text + f.value[e..];
    assert Slice(f.value, Some(0), Some(s)) == f.value[..s];
    assert Caret(AddLength(Some(s), Length(|text|)), |v|) == s + |text|;
  }

  /** Right-click on a text field with selection `[s, e)`, then paste: the
      selection is replaced by the text, the caret lands right after it, and
      the three helper attributes are gone. (The caret is an unsigned 32-bit
      number, hence the bound on the length.) */
  lemma ContextMenuThenPaste(page: Page, i: nat, text: string)
    requires i < |page| && IsTextField(page[i])
    requires page[i].selStart.Some? && page[i].selEnd.Some?
    requires page[i].selStart.value <= page[i].selEnd.value <= |page[i].value|
    requires |page[i].value| + |text| < 0x1_0000_0000
    requires FirstTagged(page, i, ContextMenuUid)
    ensures PasteFromClipboard(OnContextMenu(page, i).0, ContextMenuUid, text, Length(|text|)).thrown.None?
    ensures var s := page[i].selStart.value;
            var e := page[i].selEnd.value;
            var r := PasteFromClipboard(OnContextMenu(page, i).0, ContextMenuUid, text, Length(|text|));
            && r.page[i].value == page[i].value[..s] + text + page[i].value[e..]
            && r.page[i].selStart == Some(s + |text|) && r.page[i].selEnd == Some(s + |text|)
    ensures PasteFromClipboard(OnContextMenu(page, i).0, ContextMenuUid, text, Length(|text|)).page[i].attrs
            == page[i].attrs - {UidAttr, StartAttr, EndAttr}
    ensures var r := PasteFromClipboard(OnContextMenu(page, i).0, ContextMenuUid, text, Length(|text|));
            forall j :: 0 <= j < |page| && j != i ==> r.page[j] == page[j]
  {
    var tagged := OnContextMenu(page, i).0;
    PasteAfterContextMenu(page, i, text);
    PastedOutcome(page, tagged, PasteFromClipboard(tagged, ContextMenuUid, text, Length(|text|)), i, text);
  }

  /** Reading the fields of an outcome that wrote `Pasted` at `i` and
      left the rest of the page as it was. */
  lemma PastedOutcome(page: Page, tagged: Page, r: Outcome, i: nat, text: string)
    requires i < |page| == |tagged|
    requires page[i].selStart.Some? && page[i].selEnd.Some?
    requires page[i].selStart.value <= page[i].selEnd.value <= |page[i].value|
    requires forall j :: 0 <= j < |page| && j != i ==> tagged[j] == page[j]
    requires r == Outcome(tagged[i := Pasted(page[i], text)], None)
    ensures r.thrown.None?
    ensures var s := page[i].selStart.value;
            var e := page[i].selEnd.value;
            && r.page[i].value == page[i].value[..s] + text + page[i].value[e..]
            && r.page[i].selStart == Some(s + |text|) && r.page[i].selEnd == Some(s + |text|)
    ensures r.page[i].attrs == page[i].attrs - {UidAttr, StartAttr, EndAttr}
    ensures forall j :: 0 <= j < |page| && j != i ==> r.page[j] == page[j]
  {
  }

  /** The field the paste leaves: the selection replaced by `text`, the
      caret after it, and the three helper attributes gone. */
  function Pasted(f: Field, text: string): Field
    requires f.selStart.Some? && f.selEnd.Some? && f.selStart.value <= f.selEnd.value <= |f.value|
  {
    var s, e := f.selStart.value, f.selEnd.value;
    f.(value := f.value[..s] + text + f.value[e..], selStart := Some(s + |text|), selEnd := Some(s + |text|),
       attrs := f.attrs - {UidAttr, StartAttr, EndAttr})
  }

  lemma PasteAfterContextMenu(page: Page, i: nat, text: string)
    requires i < |page| && IsTextField(page[i])
    requires page[i].selStart.Some? && page[i].selEnd.Some?
    requires page[i].selStart.value <= page[i].selEnd.value <= |page[i].value|
    requires |page[i].value| + |text| < 0x1_0000_0000
    requires FirstTagged(page, i, ContextMenuUid)
    ensures PasteFromClipboard(OnContextMenu(page, i).0, ContextMenuUid, text, Length(|text|))
            == Outcome(OnContextMenu(page, i).0[i := Pasted(page[i], text)], None)
  {
    var tagged := OnContextMenu(page, i).0;
    TaggedIsFound(page, i);
    SpliceAfterContextMenu(page, i, text);
    PasteFound(tagged, ContextMenuUid, text, Length(|text|), i, Pasted(page[i], text), None);
  }

  /** The splice on the tagged field, once its tag is off, gives `Pasted`. */
  lemma SpliceAfterContextMenu(page: Page, i: nat, text: string)
    requires i < |page| && IsTextField(page[i])
    requires page[i].selStart.Some? && page[i].selEnd.Some?
    requires page[i].selStart.value <= page[i].selEnd.value <= |page[i].value|
    requires |page[i].value| + |text| < 0x1_0000_0000
    ensures var t := OnContextMenu(page, i).0[i];
            IsTextField(t) && Splice(t.(attrs := t.attrs - {UidAttr}), text, Length(|text|)) == Some((Pasted(page[i], text), None))
  {
    TaggedTextField(page, i);
    SplicePasted(page[i], text);
  }

  /** A text field as the listener leaves it, once the tag is taken off
      again: its two bounds recorded. */
  function Recorded(g: Field): Field
    requires g.selStart.Some? && g.selEnd.Some?
  {
    g.(attrs := (g.attrs - {UidAttr})[StartAttr := NatToString(g.selStart.value)][EndAttr := NatToString(g.selEnd.value)])
  }

  lemma SplicePasted(g: Field, text: string)
    requires g.selStart.Some? && g.selEnd.Some?
    requires g.selStart.value <= g.selEnd.value <= |g.value|
    requires |g.value| + |text| < 0x1_0000_0000
    ensures Splice(Recorded(g), text, Length(|text|)) == Some((Pasted(g, text), None))
  {
    var f := Recorded(g);
    var s, e := g.selStart.value, g.selEnd.value;
    RecordedBounds(f, s, e);
    SpliceBounds(f, s, e, text);
    assert f.attrs - {StartAttr, EndAttr} == g.attrs - {UidAttr, StartAttr, EndAttr};
  }

  /** Splicing a string between bounds that read as numbers inside the value. */
  lemma SpliceBounds(f: Field, s: nat, e: nat, text: string)
    requires AttrNumber(f, StartAttr) == Some(Some(s)) && AttrNumber(f, EndAttr) == Some(Some(e))
    requires f.selStart.Some? && s <= e <= |f.value| && |f.value| + |text| < 0x1_0000_0000
    ensures Splice(f, text, Length(|text|)) == Some((f.(value := f.value[..s] + text + f.value[e..],
                                        selStart := Some(s + |text|), selEnd := Some(s + |text|),
                                        attrs := f.attrs - {StartAttr, EndAttr}), None))
  {
    var v := f.value[..s] + text + f.value[e..];
    assert Slice(f.value, Some(0), Some(s)) == f.value[..s];
    assert Caret(AddLength(Some(s), Length(|text|)), |v|) == s + |text|;
  }

  /** The text field the listener tagged, once the tag is taken off again. */
  lemma TaggedTextField(page: Page, i: nat)
    requires i < |page| && IsTextField(page[i]) && page[i].selStart.Some? && page[i].selEnd.Some?
    ensures var t := OnContextMenu(page, i).0[i];
            IsTextField(t) && t.(attrs := t.attrs - {UidAttr}) == Recorded(page[i])
  {
    var t := OnContextMenu(page, i).0[i];
    assert t.attrs - {UidAttr} == Recorded(page[i]).attrs;
  }

  /** Splicing a text whose `length` cannot be read: the value is written,
      then the read throws, so the selection and both bounds stay. */
  lemma SpliceRecordedThrows(f: Field, s: nat, e: nat, text: string)
    requires StartAttr in f.attrs && f.attrs[StartAttr] == NatToString(s)
    requires EndAttr in f.attrs && f.attrs[EndAttr] == NatToString(e)
    requires s <= e <= |f.value|
    ensures Splice(f, text, LengthThrows)
            == Some((f.(value := f.value[..s] + text + f.value[e..]), Some("TypeError")))
  {
    RecordedBounds(f, s, e);
    assert Slice(f.value, Some(0), Some(s)) == f.value[..s];
  }

  /** Splicing a text whose `length` is `undefined`: the caret is NaN, which
      the field takes as 0. */
  lemma SpliceRecordedNoLength(f: Field, s: nat, e: nat, text: string)
    requires StartAttr in f.attrs && f.attrs[StartAttr] == NatToString(s)
    requires EndAttr in f.attrs && f.attrs[EndAttr] == NatToString(e)
    requires f.selStart.Some? && s <= e <= |f.value|
    ensures Splice(f, text, NoLength)
            == Some((f.(value := f.value[..s] + text + f.value[e..], selStart := Some(0), selEnd := Some(0),
                        attrs := f.attrs - {StartAttr, EndAttr}), None))
  {
    RecordedBounds(f, s, e);
    assert Slice(f.value, Some(0), Some(s)) == f.value[..s];
  }

  /** Right-click on a text field, then paste a value that is `undefined`
      or `null`: the value is spliced with the text it converts to, then
      reading its `length` throws a TypeError, so the selection is left as
      it was and the two recorded bounds stay on the element. */
  lemma ContextMenuThenPasteThrows(page: Page, i: nat, text: string)
    requires i < |page| && IsTextField(page[i])
    requires page[i].selStart.Some? && page[i].selEnd.Some?
    requires page[i].selStart.value <= page[i].selEnd.value <= |page[i].value|
    requires FirstTagged(page, i, ContextMenuUid)
    ensures PasteFromClipboard(OnContextMenu(page, i).0, ContextMenuUid, text, LengthThrows).thrown == Some("TypeError")
    ensures var s := page[i].selStart.value;
            var e := page[i].selEnd.value;
            var r := PasteFromClipboard(OnContextMenu(page, i).0, ContextMenuUid, text, LengthThrows);
            && r.page[i].value == page[i].value[..s] + text + page[i].value[e..]
            && r.page[i].selStart == page[i].selStart && r.page[i].selEnd == page[i].selEnd
    ensures var s := page[i].selStart.value;
            var e := page[i].selEnd.value;
            PasteFromClipboard(OnContextMenu(page, i).0, ContextMenuUid, text, LengthThrows).page[i].attrs
            == (page[i].attrs - {UidAttr})[StartAttr := NatToString(s)][EndAttr := NatToString(e)]
    ensures var r := PasteFromClipboard(OnContextMenu(page, i).0, ContextMenuUid, text, LengthThrows);
            forall j :: 0 <= j < |page| && j != i ==> r.page[j] == page[j]
  {
    var tagged := OnContextMenu(page, i).0;
    var s, e := page[i].selStart.value, page[i].selEnd.value;
    var f := tagged[i].(attrs := tagged[i].attrs - {UidAttr});
    var f' := f.(value := page[i].value[..s] + text + page[i].value[e..]);
    TaggedIsFound(page, i);
    TaggedTextField(page, i);
    SpliceRecordedThrows(f, s, e, text);
    PasteFound(tagged, ContextMenuUid, text, LengthThrows, i, f', Some("TypeError"));
    assert f.attrs == (page[i].attrs - {UidAttr})[StartAttr := NatToString(s)][EndAttr := NatToString(e)];
    OutcomeAt(page, tagged, PasteFromClipboard(tagged, ContextMenuUid, text, LengthThrows), i, f', Some("TypeError"));
  }

  /** Right-click on a text field, then paste a value without a `length`
      (a number or a boolean): the value is spliced, and the caret, NaN,
      lands at 0. */
  lemma ContextMenuThenPasteNoLength(page: Page, i: nat, text: string)
    requires i < |page| && IsTextField(page[i])
    requires page[i].selStart.Some? && page[i].selEnd.Some?
    requires page[i].selStart.value <= page[i].selEnd.value <= |page[i].value|
    requires FirstTagged(page, i, ContextMenuUid)
    ensures PasteFromClipboard(OnContextMenu(page, i).0, ContextMenuUid, text, NoLength).thrown.None?
    ensures var s := page[i].selStart.value;
            var e := page[i].selEnd.value;
            var r := PasteFromClipboard(OnContextMenu(page, i).0, ContextMenuUid, text, NoLength);
            && r.page[i].value == page[i].value[..s] + text + page[i].value[e..]
            && r.page[i].selStart == Some(0) && r.page[i].selEnd == Some(0)
    ensures PasteFromClipboard(OnContextMenu(page, i).0, ContextMenuUid, text, NoLength).page[i].attrs
            == page[i].attrs - {UidAttr, StartAttr, EndAttr}
    ensures var r := PasteFromClipboard(OnContextMenu(page, i).0, ContextMenuUid, text, NoLength);
            forall j :: 0 <= j < |page| && j != i ==> r.page[j] == page[j]
  {
    var tagged := OnContextMenu(page, i).0;
    var s, e := page[i].selStart.value, page[i].selEnd.value;
    var f := tagged[i].(attrs := tagged[i].attrs - {UidAttr});
    var f' := f.(value := page[i].value[..s] + text + page[i].value[e..], selStart := Some(0), selEnd := Some(0),
                 attrs := f.attrs - {StartAttr, EndAttr});
    TaggedIsFound(page, i);
    TaggedTextField(page, i);
    SpliceRecordedNoLength(f, s, e, text);
    PasteFound(tagged, ContextMenuUid, text, NoLength, i, f', None);
    OutcomeAt(page, tagged, PasteFromClipboard(tagged, ContextMenuUid, text, NoLength), i, f', None);
  }

  /** Reading an outcome that wrote `f'` at `i` and left the rest of the
      page as it was. */
  lemma OutcomeAt(page: Page, tagged: Page, r: Outcome, i: nat, f': Field, thrown: Option<string>)
    requires i < |page| == |tagged|
    requires forall j :: 0 <= j < |page| && j != i ==> tagged[j] == page[j]
    requires r == Outcome(tagged[i := f'], thrown)
    ensures r.thrown == thrown && r.page[i] == f'
    ensures forall j :: 0 <= j < |page| && j != i ==> r.page[j] == page[j]
  {
  }

  /** Pasting into the element the selector finds writes the spliced field
      back at its place. */
  lemma PasteFound(page: Page, uid: string, text: string, len: TextLength, i: nat, f': Field, thrown: Option<string>)
    requires Query(page, uid) == Ok(Some(i)) && IsTextField(page[i])
    requires Splice(page[i].(attrs := page[i].attrs - {UidAttr}), text, len) == Some((f', thrown))
    ensures PasteFromClipboard(page, uid, text, len) == Outcome(page[i := f'], thrown)
  {
  }

  /** The same for cutting the selection out. */
  lemma ContextMenuThenRemove(page: Page, i: nat)
    requires i < |page| && IsTextField(page[i]) && !page[i].contentEditable
    requires page[i].selStart.Some? && page[i].selEnd.Some?
    requires page[i].selStart.value <= page[i].selEnd.value <= |page[i].value| < 0x1_0000_0000
    requires FirstTagged(page, i, ContextMenuUid)
    ensures RemoveSelection(OnContextMenu(page, i).0, ContextMenuUid).thrown.None?
    ensures var s := page[i].selStart.value;
            var e := page[i].selEnd.value;
            var r := RemoveSelection(OnContextMenu(page, i).0, ContextMenuUid);
            && r.page[i].value == page[i].value[..s] + page[i].value[e..]
            && r.page[i].selStart == Some(s) && r.page[i].selEnd == Some(s)
    ensures RemoveSelection(OnContextMenu(page, i).0, ContextMenuUid).page[i].attrs
            == page[i].attrs - {UidAttr, StartAttr, EndAttr}
    ensures var r := RemoveSelection(OnContextMenu(page, i).0, ContextMenuUid);
            forall j :: 0 <= j < |page| && j != i ==> r.page[j] == page[j]
  {
    var tagged := OnContextMenu(page, i).0;
    var s, e := page[i].selStart.value, page[i].selEnd.value;
    var f := tagged[i].(attrs := tagged[i].attrs - {UidAttr});
    var f' := f.(value := page[i].value[..s] + page[i].value[e..], selStart := Some(s), selEnd := Some(s),
                 attrs := f.attrs - {StartAttr, EndAttr});
    TaggedIsFound(page, i);
    TaggedTextField(page, i);
    SpliceRecorded(f, s, e, "");
    assert page[i].value[..s] + "" == page[i].value[..s];
    RemoveFound(tagged, ContextMenuUid, i, f', None);
    assert f.attrs - {StartAttr, EndAttr} == page[i].attrs - {UidAttr, StartAttr, EndAttr};
    OutcomeAt(page, tagged, RemoveSelection(tagged, ContextMenuUid), i, f', None);
  }

  /** Cutting from the element the selector finds writes the spliced field
      back at its place. */
  lemma RemoveFound(page: Page, uid: string, i: nat, f': Field, thrown: Option<string>)
    requires Query(page, uid) == Ok(Some(i)) && !page[i].contentEditable
    requires Splice(page[i].(attrs := page[i].attrs - {UidAttr}), "", Length(0)) == Some((f', thrown))
    ensures RemoveSelection(page, uid) == Outcome(page[i := f'], thrown)
  {
  }

  /** Copying, copying a link or dismissing the menu never takes the tag
      off, and every right-click uses the same tag. After a right-click on
      the element at `j` and a later one on the element at `i` further down
      the page, the selector finds the stale tag at `j`: the paste goes into
      that element, and the field just right-clicked keeps its tag and
      recorded bounds untouched. */
  lemma StaleTagCaptured(page: Page, j: nat, i: nat, text: string, len: TextLength)
    requires j < i < |page| && FirstTagged(page, j, ContextMenuUid)
    ensures var twice := OnContextMenu(OnContextMenu(page, j).0, i).0;
            && Query(twice, ContextMenuUid) == Ok(Some(j))
            && PasteFromClipboard(twice, ContextMenuUid, text, len).page[i] == twice[i]
            && HasAttr(PasteFromClipboard(twice, ContextMenuUid, text, len).page[i], UidAttr, ContextMenuUid)
  {
    var twice := OnContextMenu(OnContextMenu(page, j).0, i).0;
    StaleTagFound(page, j, i);
    PasteElsewhere(twice, ContextMenuUid, text, len, j, i);
  }

  lemma StaleTagFound(page: Page, j: nat, i: nat)
    requires j < i < |page| && FirstTagged(page, j, ContextMenuUid)
    ensures Query(OnContextMenu(OnContextMenu(page, j).0, i).0, ContextMenuUid) == Ok(Some(j))
  {
    var once := OnContextMenu(page, j).0;
    var twice := OnContextMenu(once, i).0;
    TagIsIdent();
    assert twice[j] == once[j];
    assert forall k :: 0 <= k < j ==> twice[k] == page[k];
    FirstTagFound(twice, ContextMenuUid, j);
  }

  /** A paste into the element the selector finds leaves every other
      element as it was. */
  lemma PasteElsewhere(page: Page, uid: string, text: string, len: TextLength, j: nat, i: nat)
    requires i < |page| && i != j && Query(page, uid) == Ok(Some(j))
    ensures PasteFromClipboard(page, uid, text, len).page[i] == page[i]
  {
  }

  /** The tag is taken off before anything else, so once the one tagged
      element has been handled, a second paste finds nothing and changes
      nothing. */
  lemma PasteIsOneShot(page: Page, i: nat, uid: string, text: string, len: TextLength,
                       text2: string, len2: TextLength)
    requires OnlyTagged(page, i, uid) && HasAttr(page[i], UidAttr, uid)
    ensures var once := PasteFromClipboard(page, uid, text, len).page;
            PasteFromClipboard(once, uid, text2, len2) == Outcome(once, if IsCssIdent(uid) then None else Some("SyntaxError"))
  {
    var once := PasteFromClipboard(page, uid, text, len).page;
    if IsCssIdent(uid) {
      assert Query(page, uid) == Ok(Some(i));
      assert forall j :: 0 <= j < |once| ==> !HasAttr(once[j], UidAttr, uid) by {
        forall j | 0 <= j < |once| ensures !HasAttr(once[j], UidAttr, uid) {
          if j != i { assert once[j] == page[j]; }
        }
      }
    }
  }

  lemma RemoveIsOneShot(page: Page, i: nat, uid: string)
    requires OnlyTagged(page, i, uid) && HasAttr(page[i], UidAttr, uid)
    ensures var once := RemoveSelection(page, uid).page;
            RemoveSelection(once, uid) == Outcome(once, if IsCssIdent(uid) then None else Some("SyntaxError"))
  {
    var once := RemoveSelection(page, uid).page;
    if IsCssIdent(uid) {
      assert Query(page, uid) == Ok(Some(i));
      assert forall j :: 0 <= j < |once| ==> !HasAttr(once[j], UidAttr, uid) by {
        forall j | 0 <= j < |once| ensures !HasAttr(once[j], UidAttr, uid) {
          if j != i { assert once[j] == page[j]; }
        }
      }
    }
  }

  /** A field whose bound attributes are missing only loses its tag. */
  lemma PasteWithoutBounds(page: Page, i: nat, text: string, len: TextLength)
    requires FirstTagged(page, i, ContextMenuUid) && HasAttr(page[i], UidAttr, ContextMenuUid)
    requires IsTextField(page[i]) && StartAttr !in page[i].attrs
    ensures PasteFromClipboard(page, ContextMenuUid, text, len)
            == Outcome(page[i := page[i].(attrs := page[i].attrs - {UidAttr})], None)
  {
    assert IsCssIdent(ContextMenuUid) by {
      assert ContextMenuUid == "dot-website-oncontextmenu";
    }
    assert Query(page, ContextMenuUid) == Ok(Some(i));
  }
}

=== FILE: strs.dfy ===
/** String helpers with the semantics of the JavaScript built-ins the source
    calls: `String(n)`, `parseInt`, `trim`, `toLowerCase`, `indexOf`,
    `startsWith`, `split`. Strings are sequences of characters; UTF-16 code
    unit counting is not modelled. */
module Strs {
  import opened Wrappers

  // ---------------------------------------------------------------------
  // Character classes
  // ---------------------------------------------------------------------

  predicate IsDigit(c: char) {
    '0' <= c <= '9'
  }

  predicate IsAsciiLetter(c: char) {
    ('a' <= c <= 'z') || ('A' <= c <= 'Z')
  }

  /** ECMAScript WhiteSpace and LineTerminator code points: what `trim`
      strips and what the regular-expression class `\s` matches. */
  predicate IsWhitespace(c: char) {
    || c == ' ' || c == '\t' || c == '\n' || c == '\r'
    || c == '\U{000B}' || c == '\U{000C}' || c == '\U{00A0}' || c == '\U{FEFF}'
    || c == '\U{1680}' || ('\U{2000}' <= c <= '\U{200A}')
    || c == '\U{2028}' || c == '\U{2029}' || c == '\U{202F}' || c == '\U{205F}'
    || c == '\U{3000}'
  }

  /** The characters a regular-expression `.` refuses to match. */
  predicate IsLineTerminator(c: char) {
    c == '\n' || c == '\r' || c == '\U{2028}' || c == '\U{2029}'
  }

  predicate All(s: string, p: char -> bool) {
    forall i :: 0 <= i < |s| ==> p(s[i])
  }

  // ---------------------------------------------------------------------
  // Decimal rendering and parsing
  // ---------------------------------------------------------------------

  function DigitChar(d: nat): (c: char)
    requires d < 10
    ensures IsDigit(c) && DigitValue(c) == d
  {
    ['0', '1', '2', '3', '4', '5', '6', '7', '8', '9'][d]
  }

  function DigitValue(c: char): nat
    requires IsDigit(c)
  {
    (c as int - '0' as int) as nat
  }

  /** `String(n)` for a non-negative integer: shortest decimal digits. */
  function NatToString(n: nat): (r: string)
    ensures |r| >= 1 && All(r, IsDigit)
    ensures r[0] != '0' || n == 0
  {
    if n < 10 then [DigitChar(n)] else NatToString(n / 10) + [DigitChar(n % 10)]
  }

  /** `String(i)` for any integer. */
  function IntToString(i: int): (r: string)
    ensures |r| >= 1
  {
    if i < 0 then "-" + NatToString(-i) else NatToString(i)
  }

  /** Value of a string of decimal digits, most significant first. */
  function DigitsValue(s: string): nat
    requires All(s, IsDigit)
  {
    if s == [] then 0 else DigitsValue(s[..|s| - 1]) * 10 + DigitValue(s[|s| - 1])
  }

  lemma {:induction false} DigitsValueOfNatToString(n: nat)
    ensures DigitsValue(NatToString(n)) == n
  {
    if n >= 10 {
      var r := NatToString(n);
      assert r[..|r| - 1] == NatToString(n / 10);
      DigitsValueOfNatToString(n / 10);
    }
  }

  /** Decimal rendering is one-to-one: a number can be read back from it. */
  lemma NatToStringInjective(a: nat, b: nat)
    requires NatToString(a) == NatToString(b)
    ensures a == b
  {
    DigitsValueOfNatToString(a);
    DigitsValueOfNatToString(b);
  }

  lemma IntToStringInjective(a: int, b: int)
    requires IntToString(a) == IntToString(b)
    ensures a == b
  {
    var s := IntToString(a);
    if a < 0 && b < 0 {
      assert NatToString(-a) == s[1..];
      assert NatToString(-b) == s[1..];
      NatToStringInjective(-a, -b);
    } else if a >= 0 && b >= 0 {
      NatToStringInjective(a, b);
    } else {
      assert false;
    }
  }

  /** Length of the longest prefix of `s` whose characters all satisfy `p`. */
  function Span(s: string, p: char -> bool): (n: nat)
    ensures n <= |s|
    ensures All(s[..n], p)
    ensures n < |s| ==> !p(s[n])
  {
    if s == [] || !p(s[0]) then 0 else 1 + Span(s[1..], p)
  }

  /** A prefix of `p`-characters that is followed by a non-`p` character (or
      by the end) is exactly the span. */
  lemma {:induction false} SpanUnique(s: string, p: char -> bool, n: nat)
    requires n <= |s| && All(s[..n], p) && (n < |s| ==> !p(s[n]))
    ensures Span(s, p) == n
  {
    if n > 0 {
      assert p(s[0]) by { assert s[..n][0] == s[0]; }
      assert s[1..][..n - 1] == s[..n][1..];
      SpanUnique(s[1..], p, n - 1);
    }
  }

  predicate IsHexDigit(c: char) {
    IsDigit(c) || ('a' <= c <= 'f') || ('A' <= c <= 'F')
  }

  function HexDigitValue(c: char): (d: nat)
    requires IsHexDigit(c)
    ensures d < 16
  {
    if IsDigit(c) then DigitValue(c)
    else if 'a' <= c <= 'f' then (c as int - 'a' as int + 10) as nat
    else (c as int - 'A' as int + 10) as nat
  }

  /** Value of a string of hexadecimal digits, most significant first. */
  function HexValue(s: string): nat
    requires All(s, IsHexDigit)
  {
    if s == [] then 0 else HexValue(s[..|s| - 1]) * 16 + HexDigitValue(s[|s| - 1])
  }

  /** Without a radix, `parseInt` reads "0x" or "0X" after the sign as the
      prefix of a hexadecimal number. */
  predicate HasHexPrefix(u: string) {
    |u| >= 2 && u[0] == '0' && (u[1] == 'x' || u[1] == 'X')
  }

  /** The magnitude `parseInt` reads after the sign: the longest run of
      digits of the radix, `None` (NaN) when that run is empty. */
  function Magnitude(u: string): (r: Option<nat>)
    ensures !HasHexPrefix(u) ==> (r.None? <==> u == [] || !IsDigit(u[0]))
    ensures HasHexPrefix(u) ==> (r.None? <==> |u| == 2 || !IsHexDigit(u[2]))
  {
    if HasHexPrefix(u) then
      var n := Span(u[2..], IsHexDigit);
      if n == 0 then None else Some(HexValue(u[2..][..n]))
    else
      var n := Span(u, IsDigit);
      if n == 0 then None else Some(DigitsValue(u[..n]))
  }

  /** `parseInt(s)` without a radix: skips leading whitespace, accepts one
      sign, then reads a hexadecimal number after a "0x" or "0X" prefix and
      a decimal one otherwise, stopping at the first character that is not a
      digit; `None` stands for `NaN`. */
  function ParseInt(s: string): (r: Option<int>)
  {
    var t := s[Span(s, IsWhitespace)..];
    var neg := |t| > 0 && t[0] == '-';
    var u := if |t| > 0 && (t[0] == '-' || t[0] == '+') then t[1..] else t;
    match Magnitude(u)
    case None => None
    case Some(m) => if neg then Some(-(m as int)) else Some(m as int)
  }

  /** Digits after "0x" or "0X" are read in base 16. */
  lemma ParseIntHex(x: char, h: string)
    requires (x == 'x' || x == 'X') && h != [] && All(h, IsHexDigit)
    ensures ParseInt(['0', x] + h) == Some(HexValue(h))
  {
    var r := ['0', x] + h;
    SpanUnique(r, IsWhitespace, 0);
    assert r[0..] == r;
    assert r[2..] == h;
    SpanUnique(h, IsHexDigit, |h|);
    assert h[..|h|] == h;
  }

  /** A hexadecimal prefix with no hexadecimal digit after it is NaN, not 0. */
  lemma ParseIntBareHexPrefix(x: char, rest: string)
    requires (x == 'x' || x == 'X') && (rest == [] || !IsHexDigit(rest[0]))
    ensures ParseInt(['0', x] + rest) == None
  {
    var r := ['0', x] + rest;
    SpanUnique(r, IsWhitespace, 0);
    assert r[0..] == r;
    assert r[2..] == rest;
  }

  /** `String(n)` never starts with a hexadecimal prefix. */
  lemma NatToStringNotHex(n: nat, rest: string)
    requires rest == [] || (n == 0 ==> rest[0] != 'x' && rest[0] != 'X')
    ensures !HasHexPrefix(NatToString(n) + rest)
  {
    var a := NatToString(n);
    if n < 10 {
      assert |a| == 1;
    }
    assert (a + rest)[0] == a[0];
    if |a| == 1 && rest != [] {
      assert (a + rest)[1] == rest[0];
    }
  }

  /** Reading back what `String(n)` wrote gives `n`. */
  lemma ParseIntOfNatToString(n: nat)
    ensures ParseInt(NatToString(n)) == Some(n)
  {
    var r := NatToString(n);
    NatToStringNotHex(n, []);
    assert r + [] == r;
    SpanUnique(r, IsWhitespace, 0);
    SpanUnique(r, IsDigit, |r|);
    assert r[..|r|] == r;
    DigitsValueOfNatToString(n);
  }

  /** `parseInt` stops at the first character that is not a digit, so
      what follows the digits `String(n)` wrote is ignored, unless an "x"
      after a lone "0" makes it a hexadecimal prefix. */
  lemma ParseIntOfNatToStringThen(n: nat, rest: string)
    requires rest == [] || (!IsDigit(rest[0]) && (n == 0 ==> rest[0] != 'x' && rest[0] != 'X'))
    ensures ParseInt(NatToString(n) + rest) == Some(n)
  {
    var a := NatToString(n);
    var r := a + rest;
    NatToStringNotHex(n, rest);
    assert r[..|a|] == a;
    assert r[0] == a[0] && IsDigit(a[0]);
    SpanUnique(r, IsWhitespace, 0);
    assert r[0..] == r;
    SpanUnique(r, IsDigit, |a|);
    DigitsValueOfNatToString(n);
  }

  // ---------------------------------------------------------------------
  // trim, toLowerCase
  // ---------------------------------------------------------------------

  function TrimStart(s: string): (r: string)
    ensures |r| <= |s| && r == s[|s| - |r|..]
    ensures r == [] || !IsWhitespace(r[0])
    ensures All(s[..|s| - |r|], IsWhitespace)
  {
    if s != [] && IsWhitespace(s[0]) then TrimStart(s[1..]) else s
  }

  function TrimEnd(s: string): (r: string)
    ensures |r| <= |s| && r == s[..|r|]
    ensures r == [] || !IsWhitespace(r[|r| - 1])
    ensures All(s[|r|..], IsWhitespace)
  {
    if s != [] && IsWhitespace(s[|s| - 1]) then TrimEnd(s[..|s| - 1]) else s
  }

  /** `String.prototype.trim`. */
  function Trim(s: string): (r: string)
    ensures r == [] || (!IsWhitespace(r[0]) && !IsWhitespace(r[|r| - 1]))
    ensures r == [] <==> All(s, IsWhitespace)
  {
    var t := TrimStart(s);
    var r := TrimEnd(t);
    assert All(s, IsWhitespace) ==> r == [];
    assert r == [] ==> All(s, IsWhitespace) by {
      if r == [] {
        assert s == s[..|s| - |t|] + t;
        assert t[0..] == t;
      }
    }
    r
  }

  /** `toLowerCase` restricted to ASCII letters; every other character maps
      to itself, so the result has the input's length. */
  function LowerChar(c: char): char {
    if 'A' <= c <= 'Z' then (c as int + 32) as char else c
  }

  function Lower(s: string): (r: string)
    ensures |r| == |s|
    ensures forall i :: 0 <= i < |s| ==> r[i] == LowerChar(s[i])
  {
    if s == [] then [] else [LowerChar(s[0])] + Lower(s[1..])
  }

  lemma LowerAppend(a: string, b: string)
    ensures Lower(a + b) == Lower(a) + Lower(b)
  {
    assert Lower(a + b) == Lower(a) + Lower(b) by {
      var l := Lower(a + b);
      assert |l| == |Lower(a) + Lower(b)|;
      forall i | 0 <= i < |l| ensures l[i] == (Lower(a) + Lower(b))[i] {
        if i < |a| {
          assert (a + b)[i] == a[i];
        } else {
          assert (a + b)[i] == b[i - |a|];
        }
      }
    }
  }

  // ---------------------------------------------------------------------
  // startsWith, indexOf
  // ---------------------------------------------------------------------

  predicate StartsWith(s: string, prefix: string) {
    |prefix| <= |s| && s[..|prefix|] == prefix
  }

  /** `pat` occurs in `s` at position `k`. */
  predicate OccursAt(s: string, pat: string, k: int) {
    0 <= k && k + |pat| <= |s| && s[k..k + |pat|] == pat
  }

  /** `s.indexOf(pat, from)`: the first occurrence at or after `from`, or -1. */
  function IndexOfFrom(s: string, pat: string, from: nat): (r: int)
    requires from <= |s|
    ensures r == -1 || (from <= r && OccursAt(s, pat, r))
    ensures r == -1 ==> forall k :: from <= k <= |s| ==> !OccursAt(s, pat, k)
    ensures r != -1 ==> forall k :: from <= k < r ==> !OccursAt(s, pat, k)
    decreases |s| - from
  {
    if from + |pat| > |s| then -1
    else if s[from..from + |pat|] == pat then from
    else if from == |s| then -1
    else IndexOfFrom(s, pat, from + 1)
  }

  /** `s.indexOf(pat)`; the empty pattern is found at 0. */
  function IndexOf(s: string, pat: string): (r: int)
    ensures r == -1 <==> forall k :: 0 <= k <= |s| ==> !OccursAt(s, pat, k)
    ensures r != -1 ==> OccursAt(s, pat, r) && forall k :: 0 <= k < r ==> !OccursAt(s, pat, k)
  {
    IndexOfFrom(s, pat, 0)
  }

  predicate Contains(s: string, pat: string) {
    IndexOf(s, pat) != -1
  }

  // ---------------------------------------------------------------------
  // split / join on a single separator character
  // ---------------------------------------------------------------------

  /** `s.split(sep)` for a one-character separator. */
  function Split(s: string, sep: char): (r: seq<string>)
    ensures |r| >= 1
    ensures forall i :: 0 <= i < |r| ==> sep !in r[i]
  {
    if s == [] then [""]
    else if s[0] == sep then [""] + Split(s[1..], sep)
    else
      var rest := Split(s[1..], sep);
      [[s[0]] + rest[0]] + rest[1..]
  }

  /** `parts.join(sep)`. */
  function Join(parts: seq<string>, sep: char): string {
    if parts == [] then ""
    else if |parts| == 1 then parts[0]
    else parts[0] + [sep] + Join(parts[1..], sep)
  }

  function CountChar(s: string, c: char): nat {
    if s == [] then 0 else (if s[0] == c then 1 else 0) + CountChar(s[1..], c)
  }

  /** Joining the pieces back with the separator restores the input. */
  lemma {:induction false} JoinSplit(s: string, sep: char)
    ensures Join(Split(s, sep), sep) == s
  {
    if s != [] {
      JoinSplit(s[1..], sep);
      if s[0] != sep {
        var rest := Split(s[1..], sep);
        if |rest| > 1 {
          assert Join(rest, sep) == rest[0] + [sep] + Join(rest[1..], sep);
          assert Split(s, sep)[1..] == rest[1..];
        }
      }
    }
  }

  /** Splitting yields one more piece than there are separators. */
  lemma {:induction false} SplitCount(s: string, sep: char)
    ensures |Split(s, sep)| == CountChar(s, sep) + 1
  {
    if s != [] {
      SplitCount(s[1..], sep);
    }
  }

  lemma {:induction false} NoSepSplit(s: string, sep: char)
    requires sep !in s
    ensures Split(s, sep) == [s]
  {
    if s != [] {
      NoSepSplit(s[1..], sep);
      assert [s[0]] + s[1..] == s;
    }
  }

  /** The first piece is the part of `s` before the first separator. */
  lemma {:induction false} SplitFirstIsPrefix(s: string, sep: char)
    ensures StartsWith(s, Split(s, sep)[0])
    ensures |Split(s, sep)[0]| < |s| ==> s[|Split(s, sep)[0]|] == sep
  {
    if s != [] && s[0] != sep {
      SplitFirstIsPrefix(s[1..], sep);
    }
  }
}

=== FILE: wrappers.dfy ===
/** Failure-compatible carriers shared by every module of the model. */
module Wrappers {

  /** A value that may be absent: JavaScript's `undefined` where the source
      treats a missing value as an ordinary outcome. */
  datatype Option<+T> = None | Some(value: T) {
    function GetOr(default: T): T {
      match this
      case Some(v) => v
      case None => default
    }
  }

  /** The outcome of an operation that can fail with an error message. */
  datatype Result<+T, +E> = Ok(value: T) | Err(error: E) {
    predicate IsFailure() {
      Err?
    }
  }
}

=== FILE: xpath.dfy ===
/** `getXPathForElement`, which the context-menu handler uses to record where
    a selection inside an editable element starts and ends, together with an
    evaluator for the location paths it writes, after section 2 of XPath 1.0:
    an absolute path `/a[i]/b[j]`, or `id("x")/a[i]` starting at the element
    with id `x`, each step selecting the i-th element child (counting from 1)
    whose name is `a`.

    The document is the list of the document node's children and a node is
    addressed by its child-index path from there. */
module XPath {
  import opened Wrappers
  import opened Strs
  import opened Dom

  type Path = seq<nat>

  datatype Step = Step(name: string, position: nat)

  datatype Location =
    | NoPath                                  // the empty expression
    | Absolute(steps: seq<Step>)              // `/s1/s2/...`
    | FromId(id: string, steps: seq<Step>)    // `id("x")/s1/...`

  // ---------------------------------------------------------------------
  // addressing
  // ---------------------------------------------------------------------

  function Parent(p: Path): Path
    requires p != []
  {
    p[..|p| - 1]
  }

  function Last(p: Path): nat
    requires p != []
  {
    p[|p| - 1]
  }

  /** The children of the node at `q` (the document's children for `[]`);
      a text node or a path leading nowhere has none. */
  function ChildrenAt(doc: seq<Node>, q: Path): seq<Node>
    decreases |q|
  {
    if q == [] then doc
    else
      var cs := ChildrenAt(doc, Parent(q));
      if Last(q) < |cs| && cs[Last(q)].Element? then cs[Last(q)].children else []
  }

  /** The node at a non-empty path, if the path leads to one. */
  function NodeAt(doc: seq<Node>, p: Path): (r: Option<Node>)
    requires p != []
    ensures r.Some? <==> Last(p) < |ChildrenAt(doc, Parent(p))|
  {
    var cs := ChildrenAt(doc, Parent(p));
    if Last(p) < |cs| then Some(cs[Last(p)]) else None
  }

  /** Path of the first element in tree order whose id is `id`: what
      `document.getElementById(id)` returns. */
  function PathOfId(doc: seq<Node>, id: string): Option<Path> {
    PathOfIdIn(doc, id, 0)
  }

  function PathOfIdIn(cs: seq<Node>, id: string, from: nat): (r: Option<Path>)
    ensures r.Some? ==> r.value != [] && from <= r.value[0] < |cs|
    decreases cs, |cs| - from
  {
    if from >= |cs| then None
    else match PathOfIdNode(cs[from], id)
      case Some(q) => Some([from] + q)
      case None => PathOfIdIn(cs, id, from + 1)
  }

  function PathOfIdNode(n: Node, id: string): Option<Path>
    decreases n
  {
    match n
    case Text(_) => None
    case Element(_, eid, _, _, cs) => if eid == id then Some([]) else PathOfIdIn(cs, id, 0)
  }

  // ---------------------------------------------------------------------
  // positional index of a step
  // ---------------------------------------------------------------------

  /** Number of element siblings before position `i` named `name`. */
  function SameNameBefore(cs: seq<Node>, i: nat, name: string): (r: nat)
    requires i <= |cs|
    ensures r <= i
  {
    if i == 0 then 0
    else SameNameBefore(cs, i - 1, name) + (if cs[i - 1].Element? && cs[i - 1].tag == name then 1 else 0)
  }

  /** The source's `idx(sib, name)`: walking back over the element siblings
      from `sib` (at position `j`, or no sibling when `j` is negative),
      adding one for each whose local name is `name`, starting from 1 when
      the walk runs out. An empty `name` is replaced by the first sibling's
      name. */
  function SourceIdx(cs: seq<Node>, j: int, name: string): nat
    requires j < |cs|
    decreases j + 1
  {
    if j < 0 then 1
    else if !cs[j].Element? then SourceIdx(cs, j - 1, name)
    else
      var name' := if name == "" then cs[j].tag else name;
      SourceIdx(cs, j - 1, name') + (if cs[j].tag == name' then 1 else 0)
  }

  /** Started at the element itself, the walk counts that element too, on
      top of the base of 1: the index comes out as `k + 2` for an element
      with `k` earlier siblings of the same name. */
  lemma {:induction false} SourceIdxCounts(cs: seq<Node>, j: int, name: string)
    requires -1 <= j < |cs| && name != ""
    ensures SourceIdx(cs, j, name) == 1 + SameNameBefore(cs, j + 1, name)
    decreases j + 1
  {
    if j >= 0 {
      SourceIdxCounts(cs, j - 1, name);
    }
  }

  /** The index the code as written puts in the step for the element at
      position `i`. */
  function AsWrittenIndex(cs: seq<Node>, i: nat): nat
    requires i < |cs|
  {
    SourceIdx(cs, i, if cs[i].Element? then cs[i].tag else "")
  }

  /** The position XPath 1.0 gives the element at `i` among the element
      children of the same name: one more than the earlier ones. */
  function PositionIndex(cs: seq<Node>, i: nat): nat
    requires i < |cs|
  {
    1 + SameNameBefore(cs, i, if cs[i].Element? then cs[i].tag else "")
  }

  lemma AsWrittenIsOneTooMany(cs: seq<Node>, i: nat)
    requires i < |cs| && cs[i].Element? && cs[i].tag != ""
    ensures AsWrittenIndex(cs, i) == PositionIndex(cs, i) + 1
  {
    SourceIdxCounts(cs, i, cs[i].tag);
  }

  // ---------------------------------------------------------------------
  // building the location path
  // ---------------------------------------------------------------------

  function AddStep(x: Location, s: Step): Location {
    match x
    case NoPath => NoPath
    case Absolute(steps) => Absolute(steps + [s])
    case FromId(id, steps) => FromId(id, steps + [s])
  }

  /** The source's `segs`, with the index rule passed in: the document node
      and a text node end the ascent with an empty segment; an element that
      `getElementById` finds by its own id ends it with `id("...")`; any
      other element adds a step with its lower-cased name. */
  function Segs(doc: seq<Node>, p: Path, index: (seq<Node>, nat) -> nat): Location
    decreases |p|
  {
    if p == [] then Absolute([])
    else match NodeAt(doc, p)
      case None => NoPath
      case Some(n) =>
        if n.Text? then NoPath
        else if n.id != "" && PathOfId(doc, n.id) == Some(p) then FromId(n.id, [])
        else
          var cs := ChildrenAt(doc, Parent(p));
          AddStep(Segs(doc, Parent(p), index), Step(Lower(n.tag), index(cs, Last(p))))
  }

  /** `getXPathForElement` as written. The document node itself gives the
      empty expression too. */
  function XPathAsWritten(doc: seq<Node>, p: Path): Location {
    if p == [] then NoPath
    else Segs(doc, p, (cs: seq<Node>, i: nat) => if i < |cs| then AsWrittenIndex(cs, i) else 0)
  }

  /** `getXPathForElement` with 1-based positions. */
  function XPathFor(doc: seq<Node>, p: Path): Location {
    if p == [] then NoPath
    else Segs(doc, p, (cs: seq<Node>, i: nat) => if i < |cs| then PositionIndex(cs, i) else 0)
  }

  // ---------------------------------------------------------------------
  // rendering and evaluation
  // ---------------------------------------------------------------------

  function StepsString(steps: seq<Step>): string {
    if steps == [] then ""
    else StepsString(steps[..|steps| - 1]) + "/" + steps[|steps| - 1].name
         + "[" + NatToString(steps[|steps| - 1].position) + "]"
  }

  /** `segs(element).join('/')`. */
  function Render(x: Location): string {
    match x
    case NoPath => ""
    case Absolute(steps) => StepsString(steps)
    case FromId(id, steps) => "id(\"" + id + "\")" + StepsString(steps)
  }

  /** Index of the `position`-th element child named `name`, counting from 1. */
  function SelectChild(cs: seq<Node>, name: string, position: nat, from: nat): (r: Option<nat>)
    requires from <= |cs|
    ensures r.Some? ==> from <= r.value < |cs| && cs[r.value].Element? && cs[r.value].tag == name
                        && SameNameBefore(cs, r.value, name) + 1 == position
    decreases |cs| - from
  {
    if from == |cs| then None
    else if cs[from].Element? && cs[from].tag == name && SameNameBefore(cs, from, name) + 1 == position then Some(from)
    else SelectChild(cs, name, position, from + 1)
  }

  function Walk(doc: seq<Node>, base: Path, steps: seq<Step>): Option<Path> {
    if steps == [] then Some(base)
    else match Walk(doc, base, steps[..|steps| - 1])
      case None => None
      case Some(q) =>
        var s := steps[|steps| - 1];
        match SelectChild(ChildrenAt(doc, q), s.name, s.position, 0)
        case None => None
        case Some(j) => Some(q + [j])
  }

  /** The node a location path selects, if any. */
  function Eval(doc: seq<Node>, x: Location): Option<Path> {
    match x
    case NoPath => None
    case Absolute(steps) => Walk(doc, [], steps)
    case FromId(id, steps) =>
      match PathOfId(doc, id)
      case None => None
      case Some(q) => Walk(doc, q, steps)
  }

  lemma EvalAddStep(doc: seq<Node>, x: Location, s: Step)
    requires x != NoPath
    ensures Eval(doc, AddStep(x, s)) ==
            match Eval(doc, x)
            case None => None
            case Some(q) =>
              match SelectChild(ChildrenAt(doc, q), s.name, s.position, 0)
              case None => None
              case Some(j) => Some(q + [j])
  {
    match x
    case Absolute(steps) =>
      assert (steps + [s])[..|steps|] == steps;
    case FromId(_, steps) =>
      assert (steps + [s])[..|steps|] == steps;
  }

  /** Counting from the first sibling finds the element at `i` by its
      position among the same-named ones. */
  lemma {:induction false} SelectChildFinds(cs: seq<Node>, i: nat, from: nat)
    requires from <= i < |cs| && cs[i].Element?
    ensures SelectChild(cs, cs[i].tag, SameNameBefore(cs, i, cs[i].tag) + 1, from) == Some(i)
    decreases i - from
  {
    if from < i {
      if cs[from].Element? && cs[from].tag == cs[i].tag {
        SameNameBeforeGrows(cs, from, i, cs[i].tag);
      }
      SelectChildFinds(cs, i, from + 1);
    }
  }

  lemma {:induction false} SameNameBeforeGrows(cs: seq<Node>, j: nat, i: nat, name: string)
    requires j < i <= |cs| && cs[j].Element? && cs[j].tag == name
    ensures SameNameBefore(cs, j, name) < SameNameBefore(cs, i, name)
    decreases i - j
  {
    if j + 1 < i {
      SameNameBeforeGrows(cs, j, i - 1, name);
    }
  }

  /** Every element on the path (and so every step name) is lower case, as
      local names of HTML elements are. */
  predicate LowerCaseTags(doc: seq<Node>, p: Path) {
    forall k :: 1 <= k <= |p| ==>
      match NodeAt(doc, p[..k])
      case Some(n) => n.Text? || Lower(n.tag) == n.tag
      case None => true
  }

  /** The corrected location path of an element selects that element again. */
  lemma {:induction false} XPathRoundTrip(doc: seq<Node>, p: Path)
    requires p != [] && NodeAt(doc, p).Some? && NodeAt(doc, p).value.Element?
    requires LowerCaseTags(doc, p)
    ensures Eval(doc, XPathFor(doc, p)) == Some(p)
  {
    SegsRoundTrip(doc, p);
  }

  lemma {:induction false} SegsRoundTrip(doc: seq<Node>, p: Path)
    requires p == [] || (NodeAt(doc, p).Some? && NodeAt(doc, p).value.Element?)
    requires LowerCaseTags(doc, p)
    ensures Eval(doc, Segs(doc, p, (cs: seq<Node>, i: nat) => if i < |cs| then PositionIndex(cs, i) else 0)) == Some(p)
    decreases |p|
  {
    var index := (cs: seq<Node>, i: nat) => if i < |cs| then PositionIndex(cs, i) else 0;
    if p != [] {
      var n := NodeAt(doc, p).value;
      if !(n.id != "" && PathOfId(doc, n.id) == Some(p)) {
        var q := Parent(p);
        LowerCaseTagsParent(doc, p);
        if q != [] {
          ParentIsElement(doc, p);
        }
        SegsRoundTrip(doc, q);
        var x := Segs(doc, q, index);
        assert Segs(doc, p, index) == AddStep(x, Step(n.tag, PositionIndex(ChildrenAt(doc, q), Last(p))));
        StepFinds(doc, p, x);
      }
    }
  }

  /** The path to the parent of a node keeps the lower-case names. */
  lemma LowerCaseTagsParent(doc: seq<Node>, p: Path)
    requires p != [] && LowerCaseTags(doc, p)
    ensures LowerCaseTags(doc, Parent(p))
    ensures NodeAt(doc, p).Some? && NodeAt(doc, p).value.Element? ==> Lower(NodeAt(doc, p).value.tag) == NodeAt(doc, p).value.tag
  {
    var q := Parent(p);
    forall k | 1 <= k <= |q|
      ensures match NodeAt(doc, q[..k])
              case Some(m) => m.Text? || Lower(m.tag) == m.tag
              case None => true
    {
      assert q[..k] == p[..k];
    }
    assert p[..|p|] == p;
  }

  /** A step naming an element by its position among its same-named
      siblings, added to a path that selects the parent, selects the
      element. */
  lemma StepFinds(doc: seq<Node>, p: Path, x: Location)
    requires p != [] && NodeAt(doc, p).Some? && NodeAt(doc, p).value.Element?
    requires Eval(doc, x) == Some(Parent(p))
    ensures var cs := ChildrenAt(doc, Parent(p));
      Eval(doc, AddStep(x, Step(cs[Last(p)].tag, PositionIndex(cs, Last(p))))) == Some(p)
  {
    var cs := ChildrenAt(doc, Parent(p));
    EvalAddStep(doc, x, Step(cs[Last(p)].tag, PositionIndex(cs, Last(p))));
    SelectChildFinds(cs, Last(p), 0);
    assert Parent(p) + [Last(p)] == p;
  }

  /** A node below the top level hangs under an element. */
  lemma ParentIsElement(doc: seq<Node>, p: Path)
    requires |p| >= 2 && NodeAt(doc, p).Some?
    ensures NodeAt(doc, Parent(p)).Some? && NodeAt(doc, Parent(p)).value.Element?
  {
  }

  // ---------------------------------------------------------------------
  // the discrepancy on the smallest page
  // ---------------------------------------------------------------------

  function OnlyHtml(): seq<Node> {
    [Element("html", "", {}, true, [])]
  }

  /** On a page whose only element is `<html>`, the code as written writes
      `/html[2]`, which selects nothing; the corrected path `/html[1]`
      selects the element. */
  lemma AsWrittenMissesOnlyElement()
    ensures XPathAsWritten(OnlyHtml(), [0]) == Absolute([Step("html", 2)])
    ensures Render(XPathAsWritten(OnlyHtml(), [0])) == "/html[2]"
    ensures Eval(OnlyHtml(), XPathAsWritten(OnlyHtml(), [0])) == None
    ensures Eval(OnlyHtml(), XPathFor(OnlyHtml(), [0])) == Some([0])
  {
    OnlyHtmlAsWritten();
    OnlyHtmlRender();
    OnlyHtmlSelectsNothing();
    OnlyHtmlCorrected();
  }

  lemma OnlyHtmlAsWritten()
    ensures XPathAsWritten(OnlyHtml(), [0]) == Absolute([Step("html", 2)])
  {
    var doc := OnlyHtml();
    assert Parent([0]) == [];
    assert NodeAt(doc, [0]) == Some(doc[0]);
    assert Lower("html") == "html";
    AsWrittenIsOneTooMany(doc, 0);
    assert AsWrittenIndex(doc, 0) == 2;
  }

  lemma OnlyHtmlRender()
    ensures Render(Absolute([Step("html", 2)])) == "/html[2]"
  {
    assert NatToString(2) == "2";
    assert [Step("html", 2)][..0] == [];
  }

  lemma OnlyHtmlSelectsNothing()
    ensures Eval(OnlyHtml(), Absolute([Step("html", 2)])) == None
  {
    var doc := OnlyHtml();
    assert SelectChild(doc, "html", 2, 1) == None;
    assert SelectChild(doc, "html", 2, 0) == None;
    assert [Step("html", 2)][..0] == [];
  }

  lemma OnlyHtmlCorrected()
    ensures Eval(OnlyHtml(), XPathFor(OnlyHtml(), [0])) == Some([0])
  {
    var doc := OnlyHtml();
    assert Parent([0]) == [];
    assert NodeAt(doc, [0]) == Some(doc[0]);
    assert [0][..1] == [0];
    assert Lower("html") == "html";
    XPathRoundTrip(doc, [0]);
  }

  /** A text node gives the empty expression, which selects nothing. */
  lemma TextNodeHasNoPath(doc: seq<Node>, p: Path)
    requires p != [] && NodeAt(doc, p).Some? && NodeAt(doc, p).value.Text?
    ensures XPathFor(doc, p) == NoPath && XPathAsWritten(doc, p) == NoPath
    ensures Render(XPathFor(doc, p)) == ""
  {
  }
}
